=== FILE: README.md ===
# Voice relay of ai_character_play, modelled in Dafny

The model covers the speech path of the character-chat application, end to end:

- The browser captures microphone audio. It cuts the audio into 16-bit PCM frames and sends them over a socket.
- The server's voice socket handler forwards the frames to a recognition service. That service paces them to a pooled vendor connection, signed with HMAC-SHA1.
- Vendor results come back as `PARTIAL:` / `FINAL:` text. A final result starts a chat reply, streamed back as `REPLY:` text.
- The completed reply is synthesized in one synchronous call (`syncTextToSpeech`) and returned as one `AUDIO:` message. In the recognition service that call is the `synthesize` parameter.
- The browser plays what arrives, wrapping bare PCM in a WAV header.

Around that path sit the browser's error manager, retry composables, synthesis-timeout watcher and the two Pinia stores (chat and connection).

One module per component, one file each:

| file | component |
|---|---|
| `audio_frames.dfy` | the 1280-byte / 40 ms pacing loop both recognition services share |
| `asr_pool.dfy`, `signing.dfy` | recognition connections, their pool, and the signed connection URL |
| `transcripts.dfy` | reading a vendor result into transcript text |
| `asr_sessions.dfy`, `asr_service.dfy`, `realtime_asr.dfy` | per-session bookkeeping, the tagging service, the untagged service |
| `socket_handler.dfy`, `session_registry.dfy` | the client-facing voice socket and the registry of open sockets |
| `tts_protocol.dfy`, `tts_pool.dfy`, `tts_text.dfy`, `tts_service.dfy` | synthesis requests, pooled synthesis connections, text preparation, the streaming synthesis service |
| `tts_client.dfy`, `sync_tts.dfy` | the one-shot streaming client and the synchronous generator |
| `audio_chunks.dfy`, `audio_storage.dfy` | the audio chunk value classes and the per-session audio store |
| `voice_capture.dfy`, `voice_link.dfy`, `voice_messages.dfy`, `voice_playback.dfy` | the browser's capture, what the server makes of the client's messages, the client's message handling, and playback |
| `chunk_processor.dfy` | the browser-side audio chunker |
| `app_errors.dfy`, `error_manager.dfy`, `error_handling.dfy`, `retry_mechanism.dfy` | the error vocabulary, error manager, error-handler composable and retry composable |
| `tts_timeout.dfy` | the synthesis-timeout watcher |
| `connection_store.dfy`, `chat_store.dfy` | the browser's connection and chat stores |
| `wrappers.dfy`, `strings.dfy`, `seqs.dfy`, `ints.dfy`, `json.dfy`, `streams.dfy`, `primitives.dfy` | shared vocabulary |

How the model abstracts the runtime:

- **Shared vocabulary.**
  - Strings are sequences of characters. Java's and JavaScript's trimming rules are written out (`Strings`).
  - Parsed JSON is an abstract tree, read with the accessors of org.json (`Json`).
  - 32-bit arithmetic is written out where it matters (`JavaInts`).
- **Codecs.** Base64, UTF-8, URL encoding and HMAC-SHA1 are fields of a record of functions (`Primitives.Codecs`). Every property holds whatever they compute. Where a round trip is needed, it is a stated premise.
- **Streams.** Reactive sinks are sequences of items plus a terminal status (`Streams`).
- **Sockets.** Socket writes are recorded as sequences of frames. A synthesis connection records each request as a `TtsProtocol.Frame`: its status, its seq and its text. The JSON that frame goes out as is `TtsProtocol.Encode`.
- **Time and randomness.**
  - Timers and sleeps are explicit steps or recorded waits.
  - The clock, random ids, the vendor's answers and the success of I/O are parameters.
- **Retries and callbacks.** Callbacks are recorded as effects or notices. Retried operations are functions from the attempt number to an outcome.

## Model

| member | source | states |
|---|---|---|
| AudioFrames.FrameCount | src/main/java/com/character/service/impl/ASRServiceImpl.java:220 | the number of frames is the least k with k·1280 ≥ len |
| AudioFrames.FrameCountAsWrittenAgrees | src/main/java/com/character/service/impl/ASRServiceImpl.java:220 | the 32-bit `(len + 1280 - 1) / 1280` equals the true frame count for every length up to 2^31 − 1280 |
| AudioFrames.OversizedAudioIsDropped | src/main/java/com/character/service/impl/ASRServiceImpl.java:220-224 | past that length the 32-bit sum overflows to a negative count, so the loop sends nothing |
| AudioFrames.Frames | src/main/java/com/character/service/impl/ASRServiceImpl.java:224-229 | the buffer is cut into consecutive frames, all 1280 bytes except possibly a shorter last one, none empty |
| AudioFrames.FrameIsSlice | src/main/java/com/character/service/impl/ASRServiceImpl.java:225-229 | frame i is the copied range from i·1280 to min((i+1)·1280, len) |
| AudioFrames.ProcessAudioFrames | src/main/java/com/character/service/impl/ASRServiceImpl.java:213-245 | the loop's actions are, frame by frame, a send only while connected and a 40 ms pause after each frame but the last, stopping at an interruption |
| AudioFrames.ScheduleSendsAll | src/main/java/com/character/service/impl/ASRServiceImpl.java:224-237 | with the connection up and no interruption every frame goes out, in order, with one pause fewer than frames |
| AudioFrames.FramesReassemble | src/main/java/com/character/service/impl/ASRServiceImpl.java:213-237 | the frames sent for a buffer on a live connection concatenate to the buffer itself |
| AudioFrames.DisconnectedFrameIsDropped | src/main/java/com/character/service/impl/ASRServiceImpl.java:230-232 | a frame met while the connection is down is skipped and never retried |
| AudioFrames.InterruptStopsSending | src/main/java/com/character/service/impl/ASRServiceImpl.java:234-240 | an interruption during the pause after frame k ends the loop: no later frame is sent |
| AsrPool.StartMessage | src/main/java/com/character/service/XunfeiConnectionPool.java:209-219 | the start message carries start=true and the pcm_s16le / autodialect / 16000 format |
| AsrPool.EndMessage | src/main/java/com/character/service/XunfeiConnectionPool.java:221-231 | the end message carries end=true and names the vendor session exactly when one was announced and is non-empty |
| AsrPool.SendStart | src/main/java/com/character/service/XunfeiConnectionPool.java:209-210 | the start message is written, as one text frame, exactly when the connection is up |
| AsrPool.SendEnd | src/main/java/com/character/service/XunfeiConnectionPool.java:221-222 | an end frame is written only while the connection is up |
| AsrPool.SendAudio | src/main/java/com/character/service/XunfeiConnectionPool.java:203-207 | audio goes out as binary, unchanged, only while the connection is up |
| AsrPool.OnText | src/main/java/com/character/service/XunfeiConnectionPool.java:142-163 | an `action` message with a string `data.sessionId` records that session; other messages leave it; every message reaches the handler |
| AsrPool.AnnouncedSessionIsEnded | src/main/java/com/character/service/XunfeiConnectionPool.java:148-154 | a vendor session announced by an action message is named by the next end message |
| AsrPool.ConnectionUrl | src/main/java/com/character/service/XunfeiConnectionPool.java:86-89 | with the pool's credentials always set, the signed URL always exists and starts with the endpoint and `?` |
| AsrPool.Create | src/main/java/com/character/service/XunfeiConnectionPool.java:81-105 | at 100 connections creation fails and nothing changes; otherwise the connection joins the pool if its socket opens and is removed again if not |
| AsrPool.Acquire | src/main/java/com/character/service/XunfeiConnectionPool.java:61-67 | a live queue head is handed out unchanged and leaves the queue; a dead head is dropped and a new connection is created; an empty queue means a new connection; the pool stays valid |
| AsrPool.Release | src/main/java/com/character/service/XunfeiConnectionPool.java:72-76 | a live connection goes to the back of the idle queue; a dead one is not queued |
| AsrPool.ReleaseKeepsValid | src/main/java/com/character/service/XunfeiConnectionPool.java:72-76 | returning a checked-out connection keeps the pool's invariant |
| AsrPool.Drop | src/main/java/com/character/service/XunfeiConnectionPool.java:176-195 | a closed or failed socket marks the connection down and changes nothing else |
| AsrPool.DeadPoolRefusesForever | src/main/java/com/character/service/XunfeiConnectionPool.java:61-67 | once 100 connections exist and none is live in the queue, every later acquisition fails |
| Signing.PutLookup | src/main/java/com/character/service/XunfeiConnectionPool.java:255-264 | after a put the key maps to the new value and every other key keeps its value |
| Signing.PutSorted | src/main/java/com/character/service/XunfeiConnectionPool.java:255-264 | a put keeps the keys in strictly ascending compareTo order |
| Signing.StripDashes | src/main/java/com/character/service/XunfeiConnectionPool.java:260 | no dash remains, and every other character of the uuid is kept |
| Signing.StripDashesAppend | src/main/java/com/character/service/XunfeiConnectionPool.java:260 | stripping a text is stripping its pieces: a dash vanishes and every other character stays, in order and count |
| Signing.SignedPairs | src/main/java/com/character/service/XunfeiConnectionPool.java:285-299 | at most one pair per entry: one for each entry when all are signed, none when no entry is (the signature entry and null or blank values are not) |
| Signing.SignedPairsInOrder | src/main/java/com/character/service/XunfeiConnectionPool.java:285-299 | the pairs are the encoded `key=value` of the signed entries in the map's key order: one per signed entry, each at its rank among them |
| Signing.SignedPairsMembers | src/main/java/com/character/util/ARSUtil.java:92-108 | a pair is in the signed string exactly when some entry that is not the signature and has a non-blank value encodes to it |
| Signing.ParamsString | src/main/java/com/character/util/ARSUtil.java:39-55 | the string exists exactly when no value is null, as URLEncoder throws on null |
| Signing.AuthParams | src/main/java/com/character/service/XunfeiConnectionPool.java:252-267 | the signed map exists exactly when the secret is set, since signing reads it |
| Signing.AuthParamsShape | src/main/java/com/character/service/XunfeiConnectionPool.java:252-267 | the signed map is, in key order, the seven parameters plus the signature computed over them |
| Signing.WsUrl | src/main/java/com/character/util/ARSUtil.java:29-33 | a configured signer's URL exists exactly when the secret, access key and app id are all set, and starts with the endpoint and `?` |
| Signing.GetWsUrlAlwaysThrows | src/main/java/com/character/util/ARSUtil.java:29-33 | as written, the URL is built on a fresh instance whose configuration was never injected, so every call throws |
| Signing.UnsignedShape | src/main/java/com/character/util/ARSUtil.java:60-77 | the map before signing holds exactly the seven vendor parameters |
| Signing.AuthParamsKeyOrder | src/main/java/com/character/service/XunfeiConnectionPool.java:252-267 | the signed map's keys, in TreeMap order, are accessKeyId, appId, audio_encode, lang, samplerate, signature, utc, uuid |
| Signing.AuthParamsValues | src/main/java/com/character/service/XunfeiConnectionPool.java:255-264 | every value of the signed map is non-null exactly when the access key and app id are configured |
| Signing.AuthParamsSorted | src/main/java/com/character/service/XunfeiConnectionPool.java:253 | the signed map is a well-formed TreeMap |
| Signing.SignatureExcludesItself | src/main/java/com/character/service/XunfeiConnectionPool.java:289 | storing a signature leaves the signed string unchanged, so the signature never covers itself |
| Signing.SignatureBaseSplits | src/main/java/com/character/util/ARSUtil.java:91-112 | the signed string splits on `&` back into exactly the signed pairs |
| Signing.ParamsStringIsJoin | src/main/java/com/character/util/ARSUtil.java:39-55 | the parameter string is the `&`-join of every pair |
| Signing.WsUrlQuery | src/main/java/com/character/util/ARSUtil.java:29-33 | the URL's query splits back into the eight signed pairs |
| Transcripts.CwWords | src/main/java/com/character/service/impl/ASRServiceImpl.java:277-284 | the words are the non-empty `optString("w", "")` texts of the cw elements, in element order; a non-object element fails the read |
| Transcripts.WsWords | src/main/java/com/character/service/impl/ASRServiceImpl.java:272-286 | the words are the non-empty `w` texts of every cw element under the ws elements, in document order; it fails exactly when a ws or cw element is not an object or a `cw` member is not an array |
| Transcripts.RtWords | src/main/java/com/character/service/impl/ASRServiceImpl.java:267-289 | the words are the non-empty `w` texts of every cw element under every ws element of the rt array, in document order; it fails exactly when an element on that path is not an object or a `ws`/`cw` member is not an array |
| Transcripts.RtWordsOfResult | src/main/java/com/character/service/impl/ASRServiceImpl.java:267-289 | the rt array of a canonical result message gives back exactly its words |
| Transcripts.Extract | src/main/java/com/character/service/impl/ASRServiceImpl.java:247-307 | a transcript comes only from a `result` message, and its text is non-empty and already trimmed |
| Transcripts.ParseTagged | src/main/java/com/character/service/impl/ASRServiceImpl.java:291-299 | an extracted transcript is relayed as `PARTIAL:` for st.type 1 and `FINAL:` otherwise, followed by the text |
| Transcripts.ParseUntagged | src/main/java/com/character/service/RealtimeASRService.java:195-251 | the untagged service relays the trimmed text alone |
| Transcripts.TaggedExtendsUntagged | src/main/java/com/character/service/RealtimeASRService.java:237-240 | the two services relay the same text; the tagged one only adds a tag in front |
| Transcripts.ExtractResultMessage | src/main/java/com/character/service/impl/ASRServiceImpl.java:264-291 | a canonical result message for some words extracts to those words joined and trimmed, with its type |
| Transcripts.BlankResultIsDropped | src/main/java/com/character/service/impl/ASRServiceImpl.java:291-293 | a result whose text is blank is relayed by neither service |
| Transcripts.TagFollowsType | src/main/java/com/character/service/impl/ASRServiceImpl.java:294 | st.type 1 is tagged PARTIAL, st.type 0 FINAL |
| Transcripts.NonResultIgnored | src/main/java/com/character/service/impl/ASRServiceImpl.java:251-256 | a message that is not JSON or whose msg_type is not `result` carries no transcript |
| AsrSessions.AudioOnWire | src/main/java/com/character/service/impl/ASRServiceImpl.java:229-233 | the frames written to one connection, in order |
| AsrSessions.Start | src/main/java/com/character/service/impl/ASRServiceImpl.java:50-152 | a fresh stream replaces the session's sink; on success the session holds a new connection whose handler feeds that stream; on failure the stream errors and the session keeps no sink or connection |
| AsrSessions.StartKeepsInv | src/main/java/com/character/service/impl/ASRServiceImpl.java:53-65 | starting keeps the invariant: no connection is held by two sessions or queued while held |
| AsrSessions.StartFailure | src/main/java/com/character/service/impl/ASRServiceImpl.java:146-151 | a failed acquisition errors the new stream and registers nothing |
| AsrSessions.Audio | src/main/java/com/character/service/impl/ASRServiceImpl.java:155-174 | audio for a session with a connection is paced onto that connection; without one nothing is written |
| AsrSessions.Listen | src/main/java/com/character/service/XunfeiConnectionPool.java:142-163 | a vendor message changes only that connection's session id, as the pool's reading of it says, and reports whether the handler runs |
| AsrSessions.EmitTo | src/main/java/com/character/service/impl/ASRServiceImpl.java:68-70 | an emission appends to one stream only, and only while it is open |
| AsrSessions.Closed | src/main/java/com/character/service/XunfeiConnectionPool.java:176-195 | a closed vendor socket marks its connection down and nothing else |
| AsrSessions.Cleanup | src/main/java/com/character/service/impl/ASRServiceImpl.java:332-350 | the session's sink and connection entries are removed and its stream closed with its items kept; the connection gets an end message and is queued again exactly when it is still up |
| AsrSessions.CleanupIdempotent | src/main/java/com/character/service/impl/ASRServiceImpl.java:332-350 | a second cleanup changes nothing |
| AsrSessions.CleanupIsLocal | src/main/java/com/character/service/impl/ASRServiceImpl.java:332-350 | cleaning one session leaves every other session's sink and connection in place |
| AsrService.StartAsr | src/main/java/com/character/service/impl/ASRServiceImpl.java:50-65 | the tagging service's start also greets a live connection with the start message |
| AsrService.Deliver | src/main/java/com/character/service/impl/ASRServiceImpl.java:68-89 | a FINAL: item emitted to an open stream also starts a chat reply for its text; other items do not |
| AsrService.Vendor | src/main/java/com/character/service/impl/ASRServiceImpl.java:65-124 | a vendor message writes nothing to the wire and keeps the session's sink and connection maps |
| AsrService.VendorRoutesResult | src/main/java/com/character/service/impl/ASRServiceImpl.java:65-89 | a final result on a session's connection reaches that session's stream and starts exactly one chat reply for its text |
| AsrService.ReplyMessages | src/main/java/com/character/service/impl/ASRServiceImpl.java:84-115 | each reply token becomes a REPLY: message; on completion with non-blank text one AUDIO: message follows, or ERROR: when synthesis fails |
| AsrService.ReplyTextIsSynthesized | src/main/java/com/character/service/impl/ASRServiceImpl.java:91-106 | the AUDIO: message carries the Base64 of the audio synthesized from the concatenated tokens |
| AsrService.ReplyPayloads | src/main/java/com/character/service/impl/ASRServiceImpl.java:84-87 | the REPLY: payloads concatenate to the reply text |
| AsrService.Reply | src/main/java/com/character/service/impl/ASRServiceImpl.java:80-115 | a chat reply's messages are appended to its stream in order while it is open |
| AsrService.SendAudioData | src/main/java/com/character/service/impl/ASRServiceImpl.java:155-174 | the shared framing path keeps the service invariant |
| AsrService.SegmentEnd | src/main/java/com/character/service/impl/ASRServiceImpl.java:178-191 | a segment end writes nothing to the wire and keeps every session's connection |
| AsrService.EndAsr | src/main/java/com/character/service/impl/ASRServiceImpl.java:194-211 | ending sends one end message on the session's connection and forgets that connection, keeping sinks, streams and pending replies; a session without a connection is left as it was |
| AsrService.EndAsrIdempotent | src/main/java/com/character/service/impl/ASRServiceImpl.java:194-211 | a repeated end finds no connection and does nothing |
| AsrService.CleanupSession | src/main/java/com/character/service/impl/ASRServiceImpl.java:312-330 | complete cleanup removes the session's sink and connection entries and keeps pending chat replies |
| RealtimeAsr.StartRealtime | src/main/java/com/character/service/RealtimeASRService.java:41-95 | the untagged start writes nothing to the wire, so no start message is sent |
| RealtimeAsr.Vendor | src/main/java/com/character/service/RealtimeASRService.java:54-71 | a vendor message writes nothing and keeps the session maps, handlers and the set of streams |
| RealtimeAsr.VendorEmitsText | src/main/java/com/character/service/RealtimeASRService.java:195-251 | the emitted item is the bare transcript text, whatever the result's type |
| RealtimeAsr.SendAudioData | src/main/java/com/character/service/RealtimeASRService.java:102-125 | the shared framing path keeps the invariant |
| RealtimeAsr.EndAsrAsWritten | src/main/java/com/character/service/RealtimeASRService.java:131-145 | as written, ending still removes the session's sink and connection entries |
| RealtimeAsr.EndAsrSendsEndTwice | src/main/java/com/character/service/RealtimeASRService.java:131-145 | as written, a session with a connection gets two end messages for one end |
| RealtimeAsr.LiveSessionGetsTwoEndMessages | src/main/java/com/character/service/RealtimeASRService.java:257-277 | on a live connection both end messages are real frames on the wire |
| RealtimeAsr.EndAsr | src/main/java/com/character/service/RealtimeASRService.java:131-145 | corrected: one end message, the stream completed, the session's entries removed |
| RealtimeAsr.CleanupSession | src/main/java/com/character/service/RealtimeASRService.java:257-277 | cleanup removes the session's sink and connection entries |
| SessionRegistry.Empty | src/main/java/com/character/websocket/WebSocketSessionManager.java:20 | a new registry holds no socket and has written nothing |
| SessionRegistry.Add | src/main/java/com/character/websocket/WebSocketSessionManager.java:25-28 | the socket is registered under its id, replacing any earlier one |
| SessionRegistry.Remove | src/main/java/com/character/websocket/WebSocketSessionManager.java:33-36 | the id is unregistered; nothing else changes |
| SessionRegistry.Get | src/main/java/com/character/websocket/WebSocketSessionManager.java:41-43 | the registered socket, or none |
| SessionRegistry.Count | src/main/java/com/character/websocket/WebSocketSessionManager.java:101-103 | the number of registered sockets, zero exactly when none is registered |
| SessionRegistry.Send | src/main/java/com/character/websocket/WebSocketSessionManager.java:48-62 | a frame is written only to a registered, open socket; a socket whose write throws is dropped; otherwise nothing changes |
| SessionRegistry.SendText | src/main/java/com/character/websocket/WebSocketSessionManager.java:48-62 | a text frame reaches a deliverable socket and nothing else is written |
| SessionRegistry.SendBinary | src/main/java/com/character/websocket/WebSocketSessionManager.java:66-79 | a binary frame reaches a deliverable socket and nothing else is written |
| SessionRegistry.BroadcastOver | src/main/java/com/character/websocket/WebSocketSessionManager.java:84-96 | broadcasting writes to sockets in turn, never adding one |
| SessionRegistry.SendIsLocal | src/main/java/com/character/websocket/WebSocketSessionManager.java:48-62 | a send leaves every other socket as it was |
| SessionRegistry.BroadcastEvictsBrokenOnly | src/main/java/com/character/websocket/WebSocketSessionManager.java:89-92 | a broadcast drops exactly the open sockets whose write throws |
| SessionRegistry.BroadcastSkipsClosed | src/main/java/com/character/websocket/WebSocketSessionManager.java:88 | closed sockets are neither written to nor dropped |
| SessionRegistry.BroadcastReachesOpen | src/main/java/com/character/websocket/WebSocketSessionManager.java:84-96 | every open, working socket receives the message |
| SocketHandler.GetAppId | src/main/java/com/character/websocket/AudioWebSocketHandler.java:213-223 | only a non-blank string attribute gives an id: a numeral within the long range reads as its value, anything else gives none |
| SocketHandler.AppIdRoundTrip | src/main/java/com/character/websocket/AudioWebSocketHandler.java:216-219 | an app id written as a decimal numeral reads back as itself |
| SocketHandler.AppIdOutOfRange | src/main/java/com/character/websocket/AudioWebSocketHandler.java:216-219 | a numeral beyond the long range is refused |
| SocketHandler.Dispatch | src/main/java/com/character/websocket/AudioWebSocketHandler.java:92-136 | binary frames are audio; `START` restarts, `END` ends, a segment_end object closes the segment; any other text does nothing |
| SocketHandler.OtherTextIsIgnored | src/main/java/com/character/websocket/AudioWebSocketHandler.java:123-136 | text that is neither a signal nor a segment-end object is ignored, non-JSON included |
| SocketHandler.Initial | src/main/java/com/character/websocket/AudioWebSocketHandler.java:29 | the handler starts with no subscription and no calls |
| SocketHandler.AtMostOneLive | src/main/java/com/character/websocket/AudioWebSocketHandler.java:29 | two live subscriptions of the same socket are the same subscription |
| SocketHandler.Subscribe | src/main/java/com/character/websocket/AudioWebSocketHandler.java:40-47 | recognition starts and the new subscription becomes the socket's current one |
| SocketHandler.Connected | src/main/java/com/character/websocket/AudioWebSocketHandler.java:32-48 | a new socket is registered and recognition starts for it |
| SocketHandler.RestartSession | src/main/java/com/character/websocket/AudioWebSocketHandler.java:138-151 | recognition starts again for the socket under a new live subscription; the registry is untouched |
| SocketHandler.OnMessage | src/main/java/com/character/websocket/AudioWebSocketHandler.java:51-59 | each frame's command is carried out: audio forwarded, restart, end or segment end |
| SocketHandler.Cleanup | src/main/java/com/character/websocket/AudioWebSocketHandler.java:153-164 | the socket's subscription is forgotten and disposed, then recognition is ended |
| SocketHandler.EndingCleansUp | src/main/java/com/character/websocket/AudioWebSocketHandler.java:62-85 | a close and a transport error both leave the socket unregistered, without a live subscription, and recognition ended |
| SocketHandler.ErrorClosesOpenSocket | src/main/java/com/character/websocket/AudioWebSocketHandler.java:62-76 | only a transport error closes the socket, with code 1011 (section 7.4.1 of RFC 6455), and only when it is still open |
| SocketHandler.OnMessageKeepsInv | src/main/java/com/character/websocket/AudioWebSocketHandler.java:51-59 | handling any frame keeps at most one live subscription per socket |
| SocketHandler.EndingKeepsInv | src/main/java/com/character/websocket/AudioWebSocketHandler.java:62-85 | closing or failing keeps at most one live subscription per socket |
| SocketHandler.SplitAtMost | src/main/java/com/character/websocket/AudioWebSocketHandler.java:182 | `split(":", 3)`: at most three pieces, the last holding the rest |
| SocketHandler.SplitAtMostJoins | src/main/java/com/character/websocket/AudioWebSocketHandler.java:182 | joining the pieces on the separator gives the text back |
| SocketHandler.AudioPayloadOfTagged | src/main/java/com/character/websocket/AudioWebSocketHandler.java:181-190 | an AUDIO: result whose payload has no colon yields exactly that payload |
| SocketHandler.AudioPayloadAfterSecondColon | src/main/java/com/character/websocket/AudioWebSocketHandler.java:185-190 | with a second colon only the text after it is decoded; what precedes it is dropped |
| SocketHandler.ResultFrames | src/main/java/com/character/websocket/AudioWebSocketHandler.java:166-200 | an AUDIO: result is written as the decoded bytes, other results as text, and nothing to a closed socket or for an undecodable payload |
| SocketHandler.AudioRelayRoundTrip | src/main/java/com/character/websocket/AudioWebSocketHandler.java:181-200 | synthesized audio Base64-encoded by the service reaches the client as exactly those bytes |
| SocketHandler.OnResult | src/main/java/com/character/websocket/AudioWebSocketHandler.java:166-179 | the result's frame, as `ResultFrames` gives it, is appended to the socket's output under the session id; a result with no frame changes nothing |
| SocketHandler.ErrorFrames | src/main/java/com/character/websocket/AudioWebSocketHandler.java:202-211 | a stream error becomes one `ERROR: ` line carrying the message, only to an open socket |
| SocketHandler.OnError | src/main/java/com/character/websocket/AudioWebSocketHandler.java:202-211 | the error line is appended to the socket's output |
| SocketHandler.ClosedSocketGetsNothing | src/main/java/com/character/websocket/AudioWebSocketHandler.java:166-210 | neither a result nor an error writes anything to a closed socket |
| TtsProtocol.TtsParameters | src/main/java/com/character/service/XunfeiTTSConnectionPool.java:310-330 | the voice's name, and mono 16-bit audio in the voice's encoding and rate; rhy only where the voice has it |
| TtsProtocol.Request | src/main/java/com/character/service/XunfeiTTSConnectionPool.java:300-353 | a request is an object whose header names the app id; its status, seq and text read back as RequestFields states |
| TtsProtocol.RequestFields | src/main/java/com/character/service/XunfeiTTSConnectionPool.java:300-353 | what a receiver reads back from a request is what the sender put in |
| TtsProtocol.Encode | src/main/java/com/character/service/XunfeiTTSConnectionPool.java:300-353 | the JSON of a recorded frame reads back the frame's status (header and payload), its seq, and its text Base64-encoded, or no text |
| TtsProtocol.SignedString | src/main/java/com/character/service/XunfeiTTSConnectionPool.java:108-135 | the signed text starts with the host line and ends with the request line's protocol |
| TtsProtocol.SignedStringLines | src/main/java/com/character/service/XunfeiTTSConnectionPool.java:108-135 | a receiver splitting the signed text on newlines finds exactly the host, date and request lines |
| TtsProtocol.AuthUrl | src/main/java/com/character/service/XunfeiTTSConnectionPool.java:108-135 | the URL is the https endpoint with the authorization as its first query value |
| TtsProtocol.SocketUrlOfHttps | src/main/java/com/character/service/XunfeiTTSConnectionPool.java:94 | rewriting an https URL with a colon-free rest gives wss and the same rest |
| TtsPool.Send | src/main/java/com/character/service/XunfeiTTSConnectionPool.java:253-298 | a send is skipped while the socket is down and for a blank non-last text; otherwise the request carries the current counter as its seq with the operation's status and text, and the counter moves on by one |
| TtsPool.Run | src/main/java/com/character/service/XunfeiTTSConnectionPool.java:253-298 | a series of sends never changes whether the socket is up, its URL or its bindings; what it writes is stated by the three lemmas that follow |
| TtsPool.RunSingle | src/main/java/com/character/service/XunfeiTTSConnectionPool.java:253-270 | a single non-skipped operation writes exactly one request, carrying the counter as its seq with the operation's status and text, and moves the counter on by one |
| TtsPool.RunPair | src/main/java/com/character/service/XunfeiTTSConnectionPool.java:332 | two non-skipped operations write exactly their two requests, in order, with consecutive seq values, and move the counter on by two |
| TtsPool.RunSeqsConsecutive | src/main/java/com/character/service/XunfeiTTSConnectionPool.java:332 | a dead connection writes nothing and keeps its state; a live one writes one request per operation that is not a blank non-last text, with consecutive seq values from its counter, and the counter ends just past the last |
| TtsPool.Reset | src/main/java/com/character/service/XunfeiTTSConnectionPool.java:462-467 | the counter restarts at 0 and no handlers are set |
| TtsPool.OnMessage | src/main/java/com/character/service/XunfeiTTSConnectionPool.java:168-205 | a reply is classified into audio, completion at status 2, or a parse failure; a non-zero code is only logged and signals nothing |
| TtsPool.OnClosed | src/main/java/com/character/service/XunfeiTTSConnectionPool.java:221-227 | the socket is down and completion is signalled |
| TtsPool.OnFailure | src/main/java/com/character/service/XunfeiTTSConnectionPool.java:211-218 | the socket is down and the failure is signalled with its message |
| TtsPool.Create | src/main/java/com/character/service/XunfeiTTSConnectionPool.java:92-103 | a new connection joins the pool; one that opens has sent its initialisation request with seq 0 |
| TtsPool.Acquire | src/main/java/com/character/service/XunfeiTTSConnectionPool.java:63-76 | a live queued connection is handed out; otherwise one is created below the cap of 10, and at the cap the caller waits |
| TtsPool.Take | src/main/java/com/character/service/XunfeiTTSConnectionPool.java:71 | a waiting caller takes the connection returned first, without a health check |
| TtsPool.Release | src/main/java/com/character/service/XunfeiTTSConnectionPool.java:81-87 | a live connection is reset and queued at the back; a dead one is dropped |
| TtsPool.StaleConnectionStaysCounted | src/main/java/com/character/service/XunfeiTTSConnectionPool.java:64-69 | a dead connection polled from the queue leaves the queue but still counts toward the cap |
| TtsPool.AtCapCallerWaits | src/main/java/com/character/service/XunfeiTTSConnectionPool.java:63-76 | with 10 connections and an empty queue a caller waits and nothing changes |
| TtsPool.ReturnedConnectionRestartsSeq | src/main/java/com/character/service/XunfeiTTSConnectionPool.java:81-87 | a returned connection handed out again starts its requests at seq 0 |
| TtsText.Preprocess | src/main/java/com/character/service/impl/TTSServiceImpl.java:170-184 | blank text gives empty; otherwise only allowed characters remain, whitespace runs become one space, and the ends are trimmed |
| TtsText.PreprocessIdempotent | src/main/java/com/character/service/impl/TTSServiceImpl.java:170-184 | preprocessing twice is preprocessing once |
| TtsText.PreprocessKeepsLetters | src/main/java/com/character/service/impl/TTSServiceImpl.java:177 | every allowed non-space character survives, in order |
| TtsText.SplitAfterMarks | src/main/java/com/character/service/impl/TTSServiceImpl.java:197 | cutting after `，。！？；` always yields at least one piece |
| TtsText.SplitAfterMarksConcatenates | src/main/java/com/character/service/impl/TTSServiceImpl.java:197 | the pieces concatenate back to the text |
| TtsText.SplitAfterMarksCuts | src/main/java/com/character/service/impl/TTSServiceImpl.java:197 | every piece but the last ends with a mark and contains no other |
| TtsText.Merge | src/main/java/com/character/service/impl/TTSServiceImpl.java:215-245 | no segments give no groups, and every group kept has at least three characters |
| TtsText.MergePieces | src/main/java/com/character/service/impl/TTSServiceImpl.java:215-245 | before trimming the groups concatenate back to the segments; every group kept has at least 3 characters and at most 30 unless it is one trimmed segment |
| TtsText.GroupConcatenates | src/main/java/com/character/service/impl/TTSServiceImpl.java:220-239 | the groups hold the segments in order |
| TtsText.GroupPieceSizes | src/main/java/com/character/service/impl/TTSServiceImpl.java:227 | a group longer than 30 characters is a single segment taken whole |
| TtsText.SplitByPunctuation | src/main/java/com/character/service/impl/TTSServiceImpl.java:190-203 | blank text gives no segments, and every segment returned has at least three characters |
| TtsText.SplitSegments | src/main/java/com/character/service/impl/TTSServiceImpl.java:190-203 | every segment passed on to merging is a cut piece trimmed at both ends, of at least two characters |
| TtsService.Cleanup | src/main/java/com/character/service/impl/TTSServiceImpl.java:247-264 | the session's entries are removed, its stream closed with its items kept and no other stream touched; its connection goes back to the pool when it had one |
| TtsService.CleanupIdempotent | src/main/java/com/character/service/impl/TTSServiceImpl.java:247-264 | cleaning a session twice is cleaning it once |
| TtsService.Bind | src/main/java/com/character/service/impl/TTSServiceImpl.java:57-90 | the session holds the connection, whose handlers feed its stream |
| TtsService.OpenKeepsInv | src/main/java/com/character/service/impl/TTSServiceImpl.java:37-102 | opening keeps every held connection out of the queue and held by one session only |
| TtsService.OpenReusesLiveSession | src/main/java/com/character/service/impl/TTSServiceImpl.java:41-48 | a live session with a stream is reused without change |
| TtsService.OpenRefused | src/main/java/com/character/service/impl/TTSServiceImpl.java:97-100 | a failed acquisition yields an errored stream and leaves the session cleaned up |
| TtsService.OpenBindsFreshStream | src/main/java/com/character/service/impl/TTSServiceImpl.java:52-90 | otherwise the session is cleaned, then bound to a fresh stream and the acquired connection |
| TtsService.Resume | src/main/java/com/character/service/impl/TTSServiceImpl.java:61-63 | a waiting caller binds the first returned connection to its session |
| TtsService.Prepared | src/main/java/com/character/service/impl/TTSServiceImpl.java:117-120 | at most one cleaned piece per token |
| TtsService.PreparedEmpty | src/main/java/com/character/service/impl/TTSServiceImpl.java:117-120 | nothing is left to send exactly when every token is blank |
| TtsService.TextOps | src/main/java/com/character/service/impl/TTSServiceImpl.java:121-144 | the end request always comes last; the joined text is sent before it exactly when it is not blank |
| TtsService.ProcessText | src/main/java/com/character/service/impl/TTSServiceImpl.java:109-158 | processing the text keeps every held connection out of the queue and held by one session; its requests are stated by the three lemmas that follow |
| TtsService.ProcessTextRequests | src/main/java/com/character/service/impl/TTSServiceImpl.java:117-144 | a non-blank text is sent as one request followed by the end request, with consecutive seq values |
| TtsService.ProcessBlankTextRequests | src/main/java/com/character/service/impl/TTSServiceImpl.java:126-144 | a blank joined text sends only the end request |
| TtsService.ProcessTextError | src/main/java/com/character/service/impl/TTSServiceImpl.java:149-157 | the error path writes only the end request and closes the session's stream |
| TtsService.Handle | src/main/java/com/character/service/impl/TTSServiceImpl.java:66-90 | handling a vendor signal keeps every held connection out of the queue and held by one session |
| TtsService.HandleAll | src/main/java/com/character/service/impl/TTSServiceImpl.java:66-78 | a run of packets changes only streams, and adds no stream |
| TtsService.PacketsArriveInOrder | src/main/java/com/character/service/impl/TTSServiceImpl.java:66-78 | the stream receives exactly the packets, unchanged and in order, and nothing else changes |
| TtsService.TerminalSignalEndsSession | src/main/java/com/character/service/impl/TTSServiceImpl.java:79-90 | completion or an error ends the session's stream and removes the session |
| TtsService.SocketClosed | src/main/java/com/character/service/XunfeiTTSConnectionPool.java:221-227 | a pooled connection closing keeps every held connection out of the queue and held by one session |
| TtsService.SocketFailed | src/main/java/com/character/service/XunfeiTTSConnectionPool.java:211-218 | a pooled connection failing keeps every held connection out of the queue and held by one session |
| TtsService.ClosedConnectionIsNotRequeued | src/main/java/com/character/service/XunfeiTTSConnectionPool.java:81-87 | a connection that closed under a session is not queued again when the session ends |
| TtsClient.ClientVoice | src/main/java/com/character/service/XunfeiTTSClient.java:183-209 | this client's voice parameters carry no rhy field |
| TtsClient.ItemRequest | src/main/java/com/character/service/XunfeiTTSClient.java:172-209 | each text item is one final request (status 2) with seq 0 |
| TtsClient.Begin | src/main/java/com/character/service/XunfeiTTSClient.java:62-74 | a call starts open, or already errored when the URL cannot be built |
| TtsClient.Step | src/main/java/com/character/service/XunfeiTTSClient.java:75-160 | one event only extends the output, never undoes a close request, and only a text item writes a request |
| TtsClient.Run | src/main/java/com/character/service/XunfeiTTSClient.java:75-160 | a call's events folded in order; the output only grows |
| TtsClient.ItemWritesOneRequest | src/main/java/com/character/service/XunfeiTTSClient.java:83 | each text item sent before closing writes exactly one request |
| TtsClient.TextDoneChangesNothing | src/main/java/com/character/service/XunfeiTTSClient.java:89-98 | the end of the text stream neither closes the socket nor touches the output |
| TtsClient.FinalReplyCompletes | src/main/java/com/character/service/XunfeiTTSClient.java:103-125 | a status-2 reply completes the output after its audio and asks the socket to close |
| TtsClient.HeaderlessReplyIgnored | src/main/java/com/character/service/XunfeiTTSClient.java:103-110 | a reply without a header changes nothing |
| TtsClient.SecondCloseChangesNothing | src/main/java/com/character/service/XunfeiTTSClient.java:139-145 | only the first close completes the output |
| TtsClient.AudioArrivesInOrder | src/main/java/com/character/service/XunfeiTTSClient.java:103-125 | decoded audio reaches the output in arrival order, none dropped |
| SyncTts.SyncRequest | src/main/java/com/character/util/SyncTTSGenerator.java:120-150 | the one request carries the whole text as the final frame, seq 0 |
| SyncTts.ApiError | src/main/java/com/character/util/SyncTTSGenerator.java:176-180 | a non-zero code's error starts with the API-error prefix |
| SyncTts.Step | src/main/java/com/character/util/SyncTTSGenerator.java:170-226 | a close releases the caller with no more audio, a socket failure aborts with the socket error, and a non-zero code aborts with the API error |
| SyncTts.ResultConcatenatesAudio | src/main/java/com/character/util/SyncTTSGenerator.java:183-194 | clean replies then a final one give the concatenation of their audio |
| SyncTts.ErrorCodeFails | src/main/java/com/character/util/SyncTTSGenerator.java:176-180 | a non-zero code fails the call and its audio is never appended |
| SyncTts.CloseReturnsGathered | src/main/java/com/character/util/SyncTTSGenerator.java:214-219 | a close before the final reply returns what was gathered, without error |
| AudioChunks.StatusName | src/main/java/com/character/service/AudioDataWithSeq.java:57-64 | a status is named unknown exactly when it is not 0, 1 or 2 |
| AudioChunks.DataLength | src/main/java/com/character/service/AudioDataWithSeq.java:52-55 | the byte count, 0 for a null array |
| AudioChunks.Describe | src/main/java/com/character/service/AudioDataWithSeq.java:52-55 | the description opens with the seq field and ends with the data length |
| AudioChunks.StatusPredicatesPartition | src/main/java/com/character/service/AudioDataWithSeq.java:33-49 | at most one of start, middle and end holds, and exactly one for 0, 1 or 2 |
| AudioChunks.DescribeVendor | src/main/java/com/character/service/AudioDataWithXunfeiSeq.java:37-41 | the vendor chunk's description opens with its seq field and ends with its data length |
| AudioChunks.DescribedSeqReadsBack | src/main/java/com/character/service/AudioDataWithSeq.java:52-55 | the seq in a description reads back as the chunk's seq |
| AudioStorage.Start | src/main/java/com/character/service/AudioStorageService.java:50-64 | a session gets an empty buffer, a zero counter and a path named after the first 8 characters of its id; a shorter id leaves no path |
| AudioStorage.AddChunk | src/main/java/com/character/service/AudioStorageService.java:69-93 | the first chunk of an unknown session starts it; the chunk is appended and the counter returned, incremented |
| AudioStorage.AppendIsLocal | src/main/java/com/character/service/AudioStorageService.java:69-93 | appending to one session changes no other |
| AudioStorage.GetInfo | src/main/java/com/character/service/AudioStorageService.java:146-161 | the chunk count, byte total and path of a session with a buffer, none otherwise |
| AudioStorage.Finish | src/main/java/com/character/service/AudioStorageService.java:98-141 | the session is forgotten; a path is returned exactly when a non-empty buffer was written |
| AudioStorage.Cleanup | src/main/java/com/character/service/AudioStorageService.java:166-180 | the session's buffer, counter and path are all removed; every other session keeps its buffer, counter and path |
| AudioStorage.ActiveSessions | src/main/java/com/character/service/AudioStorageService.java:185-187 | the sessions that hold a buffer |
| AudioStorage.AddAllCounts | src/main/java/com/character/service/AudioStorageService.java:69-93 | n chunks add n to the counter and their bytes, concatenated, to the buffer |
| AudioStorage.StartFillFinish | src/main/java/com/character/service/AudioStorageService.java:50-141 | starting, adding non-empty audio and finishing returns the start's path |
| AudioStorage.FirstChunkStartsSession | src/main/java/com/character/service/AudioStorageService.java:71-74 | a chunk for an unknown session starts it first |
| AudioStorage.ShortIdNeverSaves | src/main/java/com/character/service/AudioStorageService.java:56-60 | a session id shorter than 8 characters never yields a saved file |
| VoiceCapture.Start | aichat-vue/src/services/voiceChatService.ts:134-238 | a second start changes nothing; a granted start records with an empty buffer; a refused microphone or audio context leaves the capture unchanged and not recording, and the start fails |
| VoiceCapture.RefusedStartCapturesNothing | aichat-vue/src/services/voiceChatService.ts:134-238 | after a refused start, incoming blocks change nothing and a stop sends nothing |
| VoiceCapture.Drain | aichat-vue/src/services/voiceChatService.ts:195-220 | every frame cut is 1024 samples, none while the socket is closed, and less than a frame stays, taken from the buffer's end |
| VoiceCapture.DrainKeepsSamples | aichat-vue/src/services/voiceChatService.ts:195-220 | with the socket open, the frames cut followed by the rest kept are the buffer itself |
| VoiceCapture.DrainCount | aichat-vue/src/services/voiceChatService.ts:195-220 | n samples give n div 1024 frames |
| VoiceCapture.OnAudio | aichat-vue/src/services/voiceChatService.ts:172-226 | a block only adds messages, keeps the recording flag, and keeps less than a frame buffered; a block while not recording changes nothing |
| VoiceCapture.OnAudioKeepsSamples | aichat-vue/src/services/voiceChatService.ts:185-220 | sent frames plus what stays buffered are exactly the old buffer plus the block |
| VoiceCapture.Stop | aichat-vue/src/services/voiceChatService.ts:241-293 | as written: the remainder is flushed as one frame, `{"type":"end"}` is sent, and the buffer is emptied |
| VoiceCapture.StopWithSignal | aichat-vue/src/services/voiceChatService.ts:241-293 | corrected: the remainder is flushed, then the plain END signal the server understands |
| VoiceCapture.RecordingKeepsEverySample | aichat-vue/src/services/voiceChatService.ts:172-293 | every captured sample is either sent, in order, or still buffered |
| VoiceLink.SampleRoundTrip | aichat-vue/src/services/voiceChatService.ts:201-206 | a 16-bit sample written little-endian reads back as itself |
| VoiceLink.PcmRoundTrip | aichat-vue/src/services/voiceChatService.ts:201-218 | the server reads back exactly the samples the client wrote |
| VoiceLink.Wire | src/main/java/com/character/websocket/AudioWebSocketHandler.java:92-121 | a client message arrives as a binary frame exactly when it is a PCM frame |
| VoiceLink.FrameIsForwarded | src/main/java/com/character/websocket/AudioWebSocketHandler.java:92-100 | a frame reaches recognition as its PCM bytes |
| VoiceLink.SegmentEndIsForwarded | aichat-vue/src/services/voiceChatService.ts:402-419 | the client's segment-end message makes the server close the segment |
| VoiceLink.EndMarkerIsIgnored | aichat-vue/src/services/voiceChatService.ts:259-262 | the `{"type":"end"}` the client sends on stop is ignored by the server |
| VoiceLink.StopAsWrittenIsIgnored | aichat-vue/src/services/voiceChatService.ts:241-262 | the last message of a stop, as written, ends nothing |
| VoiceLink.StopEndsRecognition | src/main/java/com/character/websocket/AudioWebSocketHandler.java:109-112 | with the plain END signal a stop ends the recognition session |
| VoiceLink.ForwardedAudioIsPcm | src/main/java/com/character/websocket/AudioWebSocketHandler.java:92-100 | the forwarded audio is the PCM of the frames' samples run together |
| VoiceLink.RecordingReachesRecognizer | aichat-vue/src/services/voiceChatService.ts:172-293 | the audio reaching recognition is the PCM of every captured sample, in order |
| VoiceMessages.KindOf | aichat-vue/src/services/voiceChatService.ts:489-601 | a text message's branch follows its prefix, checked in the order REPLY, AUDIO, PARTIAL, FINAL |
| VoiceMessages.Control | aichat-vue/src/services/voiceChatService.ts:601-630 | a JSON asr_result is user speech and an ai_response the assistant's; non-JSON or null text is user speech, other non-object JSON shows nothing |
| VoiceMessages.ResetVad | aichat-vue/src/services/voiceChatService.ts:422-436 | the detector reset clears the partial transcript and nothing else |
| VoiceMessages.ReplyQuiet | aichat-vue/src/services/voiceChatService.ts:530-557 | a quiet period delivers the pending reply as one assistant message and clears it |
| VoiceMessages.ReplyPayload | aichat-vue/src/services/voiceChatService.ts:489-494 | the fragment a REPLY: message carries is the text after the prefix |
| VoiceMessages.ReplyStep | aichat-vue/src/services/voiceChatService.ts:495-522 | one REPLY: message extends the pending reply by its fragment |
| VoiceMessages.RepliesConcatenate | aichat-vue/src/services/voiceChatService.ts:495-522 | fragments in turn make the pending reply their concatenation |
| VoiceMessages.StreamedReplyIsDelivered | aichat-vue/src/services/voiceChatService.ts:489-557 | a reply streamed from nothing and then completed is delivered as the concatenated fragments |
| VoiceMessages.FinalTranscript | aichat-vue/src/services/voiceChatService.ts:585-600 | a final transcript always reaches the final callback, and becomes a user message only when not blank |
| VoiceMessages.AudioMessage | aichat-vue/src/services/voiceChatService.ts:558-572 | an undecodable AUDIO: payload queues nothing; a decodable one joins the back of the queue |
| VoiceMessages.PartialTranscript | aichat-vue/src/services/voiceChatService.ts:573-584 | a partial transcript replaces the last one and reaches the partial callback |
| VoiceMessages.PlainTextIsUserSpeech | aichat-vue/src/services/voiceChatService.ts:601-630 | text with no prefix and no recognised JSON type is shown as user speech |
| VoiceMessages.BinaryIsQueued | aichat-vue/src/services/voiceChatService.ts:442-470 | binary audio goes to the playback queue whether it arrives as a buffer or a blob |
| VoicePlayback.Le16RoundTrip | aichat-vue/src/services/voiceChatService.ts:704-737 | a 16-bit field written little-endian reads back as itself |
| VoicePlayback.Le32RoundTrip | aichat-vue/src/services/voiceChatService.ts:704-737 | a 32-bit field written little-endian reads back as itself |
| VoicePlayback.WavHeader | aichat-vue/src/services/voiceChatService.ts:704-737 | the header is 44 bytes |
| VoicePlayback.ToWav | aichat-vue/src/services/voiceChatService.ts:704-747 | the 44-byte header followed by the PCM bytes unchanged |
| VoicePlayback.WavLayout | aichat-vue/src/services/voiceChatService.ts:704-737 | the header holds RIFF / WAVE / fmt / data, size 36+n, PCM format, one channel, 16000 Hz, 32000 bytes/s, alignment 2, 16 bits, data size n |
| VoicePlayback.Prepare | aichat-vue/src/services/voiceChatService.ts:650-672 | empty audio is rejected; WAV, MP3 and OGG pass unchanged; anything else is wrapped as WAV |
| VoicePlayback.WrappedIsRecognized | aichat-vue/src/services/voiceChatService.ts:654-672 | a wrapped buffer is itself recognised as WAV, so wrapping never happens twice |
| VoicePlayback.Kick | aichat-vue/src/services/voiceChatService.ts:633-648 | the loop starts only when it is not running and a buffer waits |
| VoicePlayback.Enqueue | aichat-vue/src/services/voiceChatService.ts:442-470 | an arriving buffer is received and the loop is running afterwards: behind the queue while playing, played at once when idle with nothing waiting |
| VoicePlayback.EnqueueKeepsOrder | aichat-vue/src/services/voiceChatService.ts:633-648 | arrivals keep FIFO order and never start a second loop |
| VoicePlayback.Finished | aichat-vue/src/services/voiceChatService.ts:640-648 | a finish while idle changes nothing; a failure stops the loop and keeps the rest queued; nothing received is lost |
| VoicePlayback.DrainsInOrder | aichat-vue/src/services/voiceChatService.ts:640-648 | successful completions play the queued buffers in arrival order |
| ChunkProcessor.New | frontend/src/utils/audioUtils.ts:55-60 | a new processor numbers from 0 |
| ChunkProcessor.Reset | frontend/src/utils/audioUtils.ts:151-154 | numbering starts again from 0 |
| ChunkProcessor.CreateChunk | frontend/src/utils/audioUtils.ts:65-72 | the chunk carries the current number, the time and the bytes; the counter moves on by one |
| ChunkProcessor.FramesCount | frontend/src/utils/audioUtils.ts:93-105 | n samples give ⌈n / frameSize⌉ chunks, none for no samples |
| ChunkProcessor.FramesCover | frontend/src/utils/audioUtils.ts:93-105 | the chunks run together are the samples, then silence padding, and nothing else |
| ChunkProcessor.ProcessLarge | frontend/src/utils/audioUtils.ts:89-108 | one chunk per frame, numbered consecutively from the current number, each frameSize samples long |
| ChunkProcessor.ChunksValidate | frontend/src/utils/audioUtils.ts:115-127 | under a 16-bit format every chunk the processor makes validates |
| ChunkProcessor.WrongSizeIsInvalid | frontend/src/utils/audioUtils.ts:115-127 | a chunk of the wrong byte size does not validate |
| ChunkProcessor.ChunksCarryAudio | frontend/src/utils/audioUtils.ts:89-108 | the chunks' data, read back, is the samples plus padding |
| ChunkProcessor.NumberingContinues | frontend/src/utils/audioUtils.ts:89-162 | two calls number their chunks without gap or repeat; a reset starts again from 0 |
| AppErrors.Backoff | frontend/src/services/ErrorManager.ts:253-256 | the delay is initialDelay · factor^k when that is below maxDelay, and maxDelay otherwise |
| AppErrors.BackoffGrows | frontend/src/composables/useRetryMechanism.ts:22-29 | with a factor of at least 1 the delays never shrink |
| AppErrors.DefaultBackoff | frontend/src/services/ErrorManager.ts:23-28 | the default delays are 1 s, 2 s, 4 s, 8 s, then the 10 s cap |
| ErrorManager.New | frontend/src/services/ErrorManager.ts:19-30 | a manager starts with the default handlers and no retry counts |
| ErrorManager.DefaultHandlerCoverage | frontend/src/services/ErrorManager.ts:105-172 | which error types have a default handler, and that none of them retries |
| ErrorManager.Register | frontend/src/services/ErrorManager.ts:38-40 | the type's handler is replaced and nothing else changes |
| ErrorManager.KindOf | frontend/src/services/ErrorManager.ts:206-218 | LOW shows as info, MEDIUM as a warning, HIGH and CRITICAL as errors |
| ErrorManager.Duration | frontend/src/services/ErrorManager.ts:223-236 | only a critical error's toast stays until it is closed |
| ErrorManager.HandlerToast | frontend/src/services/ErrorManager.ts:177-187 | the toast shows the guidance, or the message where the guidance is missing or empty |
| ErrorManager.RetryCount | frontend/src/services/ErrorManager.ts:98-100 | 0 for a type never counted |
| ErrorManager.ResetRetryCount | frontend/src/services/ErrorManager.ts:91-93 | the type's count is forgotten, no other |
| ErrorManager.ExecuteWithRetry | frontend/src/services/ErrorManager.ts:249-256 | the count goes up by one and the wait is the backoff for the count before it |
| ErrorManager.HandleError | frontend/src/services/ErrorManager.ts:45-67 | without a handler, only a generic toast (when toasts are on) and no state change; any error touches no other type's count |
| ErrorManager.HandleErrorChoice | frontend/src/services/ErrorManager.ts:57-66 | after the toast exactly one of: a scheduled retry, the fallback, or nothing |
| ErrorManager.RetryFired | frontend/src/services/ErrorManager.ts:257-270 | as written: success resets the count; a failure while retries remain counts one more and schedules the next backoff |
| ErrorManager.ExhaustedRetryRunsNoFallback | frontend/src/services/ErrorManager.ts:263-269 | as written, a failed last retry runs no fallback even when the handler has one |
| ErrorManager.RetryFiredWithFallback | frontend/src/services/ErrorManager.ts:263-269 | corrected: a failed last retry runs the handler's fallback |
| ErrorManager.FallbackOnlyAtExhaustion | frontend/src/services/ErrorManager.ts:263-269 | the corrected step differs from the written one only where the retries are used up |
| ErrorManager.FailChainSchedule | frontend/src/services/ErrorManager.ts:241-270 | when every retry fails, the retries wait the backoff for 0, 1, … maxRetries−1, then the fallback runs |
| ErrorManager.AttemptsFromZero | frontend/src/services/ErrorManager.ts:57-66 | from a zero count an error with a retrying handler schedules the first backoff |
| ErrorHandling.RetryableTypes | frontend/src/composables/useErrorHandler.ts:219-228 | exactly the network, socket, SSE, lost-connection and session-timeout errors are retryable |
| ErrorHandling.HandleError | frontend/src/composables/useErrorHandler.ts:25-36 | the error becomes current with the manager's count for its type, then the manager handles it |
| ErrorHandling.HelperHandler | frontend/src/composables/useErrorHandler.ts:41-182 | each helper's handler retries, except the synthesis timeout's, which falls back |
| ErrorHandling.HelperWithCallback | frontend/src/composables/useErrorHandler.ts:41-182 | a helper given a callback schedules the first retry, or for the synthesis timeout runs the fallback |
| ErrorHandling.ClearError | frontend/src/composables/useErrorHandler.ts:207-214 | the manager forgets the current type's count and the local state is cleared |
| ErrorHandling.Retry | frontend/src/composables/useErrorHandler.ts:187-202 | nothing unless a retry is allowed; after an allowed retry the retrying flag is down |
| ErrorHandling.RetryClears | frontend/src/composables/useErrorHandler.ts:187-202 | a retry clears the error exactly when it was allowed, the handler retries and the retry succeeded |
| ErrorHandling.Guidance | frontend/src/composables/useErrorHandler.ts:233-288 | three steps of guidance for every error type |
| RetryMechanism.NextRetryDelay | frontend/src/composables/useRetryMechanism.ts:22-29 | 0 once no retry is left, the backoff for the current attempt before that |
| RetryMechanism.ExecuteWithRetry | frontend/src/composables/useRetryMechanism.ts:34-67 | as written: the first success is returned with the state reset; an all-failing run throws after maxRetries waits, each read after the count went up |
| RetryMechanism.Waits | frontend/src/composables/useRetryMechanism.ts:47-54 | an all-failing run waits once per allowed retry |
| RetryMechanism.DefaultWaitsAsWritten | frontend/src/composables/useRetryMechanism.ts:47-54 | as written, the default waits are 2 s, 4 s and 0 s |
| RetryMechanism.ExecuteWithBackoff | frontend/src/composables/useRetryMechanism.ts:34-67 | corrected: each wait is read before the count goes up |
| RetryMechanism.DefaultWaitsCorrected | frontend/src/composables/useRetryMechanism.ts:9-14 | corrected, the default waits are 1 s, 2 s and 4 s |
| RetryMechanism.RetryConnection | frontend/src/composables/useRetryMechanism.ts:72-87 | one progress report per failed attempt before the outcome, with its wait; true exactly when some attempt connects, and then the attempt after the last report connected; false after maxRetries reports |
| TtsTimeout.Delay | frontend/src/utils/ttsTimeoutHandler.ts:31 | a missing or zero delay means 10 s |
| TtsTimeout.Start | frontend/src/utils/ttsTimeoutHandler.ts:26-34 | a new timer is armed and registered for the request; an earlier timer for it stays armed |
| TtsTimeout.Clear | frontend/src/utils/ttsTimeoutHandler.ts:39-45 | the request's registered timer is disarmed and the entry removed |
| TtsTimeout.Fire | frontend/src/utils/ttsTimeoutHandler.ts:50-77 | one more timeout, stamped now; the entry removed; the third enters text-only mode |
| TtsTimeout.EnterFallback | frontend/src/utils/ttsTimeoutHandler.ts:82-95 | text-only mode is on, announced once, with the timers unchanged |
| TtsTimeout.ExitFallback | frontend/src/utils/ttsTimeoutHandler.ts:100-112 | text-only mode is off and the count is 0 |
| TtsTimeout.RecoveryTick | frontend/src/utils/ttsTimeoutHandler.ts:129-162 | a minute after the last timeout a probe that answers restores voice; one that does not restarts the wait |
| TtsTimeout.Toggle | frontend/src/utils/ttsTimeoutHandler.ts:221-227 | a transition happens only when the requested mode differs |
| TtsTimeout.ResetTimeoutCount | frontend/src/utils/ttsTimeoutHandler.ts:232-235 | the count and the last-timeout time return to 0 |
| TtsTimeout.ClearAll | frontend/src/utils/ttsTimeoutHandler.ts:240-245 | every registered timer is disarmed and the map emptied |
| TtsTimeout.FireKeepsInv | frontend/src/utils/ttsTimeoutHandler.ts:50-77 | each registered request still has its own armed timer after one fires |
| TtsTimeout.ThirdTimeoutEntersFallback | frontend/src/utils/ttsTimeoutHandler.ts:58-62 | three timeouts in a row from a fresh watcher enter text-only mode; two do not |
| TtsTimeout.RestartedRequestLeaksTimer | frontend/src/utils/ttsTimeoutHandler.ts:26-45 | as written, a request started twice keeps its first timer armed after being cleared, and that timer still counts a timeout |
| TtsTimeout.StartReplacing | frontend/src/utils/ttsTimeoutHandler.ts:26-34 | corrected: starting disarms the request's earlier timer first |
| TtsTimeout.RestartedRequestClears | frontend/src/utils/ttsTimeoutHandler.ts:26-45 | corrected, starting twice and clearing leaves no timer for the request |
| ConnectionStore.Aggregate | frontend/src/stores/connectionStore.ts:26-31 | connected only when all are; else connecting if any is; else error if any failed; else disconnected |
| ConnectionStore.Update | frontend/src/stores/connectionStore.ts:34-39 | the named channel takes the status, the others keep theirs |
| ConnectionStore.SetError | frontend/src/stores/connectionStore.ts:41-43 | the kind's error is stored and no other kind changes |
| ConnectionStore.ClearError | frontend/src/stores/connectionStore.ts:45-47 | the kind's error is removed |
| ConnectionStore.ClearTheOnlyError | frontend/src/stores/connectionStore.ts:22-47 | setting and then clearing the only error leaves none |
| ConnectionStore.ClearAllErrors | frontend/src/stores/connectionStore.ts:49-51 | no errors remain |
| ConnectionStore.SetSessionId | frontend/src/stores/connectionStore.ts:53-55 | the session id is replaced and nothing else changes |
| ConnectionStore.Reset | frontend/src/stores/connectionStore.ts:57-65 | every channel disconnected, no session, no errors |
| ConnectionStore.ConnectingOutranksError | frontend/src/stores/connectionStore.ts:28-29 | one channel failing while another connects reads as connecting |
| ConnectionStore.ConnectedOnlyWhenAll | frontend/src/stores/connectionStore.ts:18-29 | connecting channels one by one reads connected only with the last |
| ChatStore.AddMessage | frontend/src/stores/chatStore.ts:17-25 | the stamped message goes at the end and is returned |
| ChatStore.UpdateCurrentMessage | frontend/src/stores/chatStore.ts:27-38 | without a current message a new assistant message is appended and becomes current; otherwise the current one takes the text and status in place |
| ChatStore.FinalizeCurrent | frontend/src/stores/chatStore.ts:40-45 | the current message is marked final and is no longer current |
| ChatStore.SetChatState | frontend/src/stores/chatStore.ts:47-49 | the state is replaced; the store is active exactly when it is not idle |
| ChatStore.ClearMessages | frontend/src/stores/chatStore.ts:51-55 | no messages, none current, idle |
| ChatStore.StreamedReplyBecomesOneMessage | frontend/src/stores/chatStore.ts:27-45 | a streamed then finalized reply is one new final assistant message holding the last text |
| ChatStore.FinalizeIdempotent | frontend/src/stores/chatStore.ts:40-45 | finalizing twice is finalizing once |

## Left out

- Sockets, HTTP and files are not modelled as I/O. Writes are recorded frames. Whether a connection opens, a write throws or a file save succeeds is a parameter.
- Threads, reactive scheduling and `CountDownLatch` waits are not modelled. Each handler runs to completion as one step, in the order the events are fed in.
- The 150 s and 10 s connection timeouts are not modelled. A synthesis call that is never released is a timeout outcome.
- HMAC-SHA1, Base64, UTF-8, URL encoding and the RFC 1123 date format are uninterpreted fields of `Primitives.Codecs`. Properties that need a round trip state it as a premise.
- Random UUIDs, clock readings and message ids are parameters.
- The chat model that produces the reply (`AiChatService`) is outside the model. Its tokens and completion are inputs.
- The voice-activity detector, volume meter, sentence-end timer and the float-to-16-bit conversion in the browser are not modelled. The detector's decisions are parameters. As written, `processVAD` (aichat-vue/src/services/voiceChatService.ts:318-393) sets `shouldStop` only inside the sentence-end timer's callback (:372), after the result object was returned (:393). The check at :223 therefore never sees it true, and the client never sends `segment_end`. `VoiceCapture.OnAudio`'s `segmentEnd` parameter is false in every call the code as written makes. The segment-end path is still modelled, as the client's own code around it expects: the `shouldStop` check at :223 and the `segment_end` send at :405.
- Web Audio decoding and playback are reduced to success or failure of playing one buffer.
- Toasts, notifications, DOM events and logging are recorded as effects, or not at all.
- The synthesis pool's audio callback delivers bytes, while the streaming service reads seq/status packets. `TtsService.Handle` takes the packet directly, and that conversion is not modelled.
- The chat and application REST controllers, persistence, RAG, routing, the login guard and the user store are not part of the speech relay and are not modelled.
- AppErrors.RetryConfig: delays, the backoff factor and the retry count are whole numbers (`nat`). The source declares them as JavaScript numbers and computes `initialDelay * Math.pow(backoffFactor, n)` in floating point. A fractional factor such as 1.5 (waits of 1000, 1500, 2250 ms), fractional delays and negative values are not modelled. Every configuration the visible callers pass uses the integer defaults.
- ChunkProcessor.ProcessLarge: requires `frameSize > 0`. The source's loop never ends with a zero frame size, and a non-terminating call is not modelled.
- AudioStorage.Start: an id shorter than 8 characters makes the source throw after the buffer and counter were stored. The model keeps that partial state, with no path, and does not model the exception reaching the caller.
- VoicePlayback.ToWav: an odd-length buffer makes the source's Int16 view throw. `Prepare` models that as a rejection rather than as an exception.
- SocketHandler.GetAppId: `Long.parseLong` also accepts non-ASCII Unicode digits. Only ASCII digits, with a leading `+` or `-`, are modelled.
- Json.OptString: org.json's `optString` returns the JSON text of an object or array member; the model returns the default for those. Numbers are integers only, so a member holding a fraction is not modelled either. A cw element whose `w` is an object or array is therefore dropped by the model, while the source appends its JSON text.
- Strings: Java and JavaScript count UTF-16 code units, while the model counts Unicode characters. A character outside the Basic Multilingual Plane, such as an emoji in a chat reply or a vendor transcript, is one character here and two code units in the source. Nothing in the source keeps such characters out of the relayed text. Where lengths are compared, the model and the source then disagree. Examples are the synthesis text bounds in src/main/java/com/character/service/impl/TTSServiceImpl.java: the 2-character piece minimum at :202, the 30-character merge bound at :226 and the 3-character group minimum at :243.

Divergences from the documented behaviour, where the code is followed:

- The recognition pool's stale connection stays counted. A dead connection polled from the queue is dropped from the queue but stays in the set of all connections, so it still counts toward the cap of 100 (`AsrPool.DeadPoolRefusesForever`). The same holds for the synthesis pool (`TtsPool.StaleConnectionStaysCounted`).
- The untagged recognition service never sends the start message (`RealtimeAsr.StartRealtime`).
- Server `ERROR: ` lines are shown to the user as their own speech. They reach the client as plain text with no recognised prefix (`VoiceMessages.PlainTextIsUserSpeech`).
- The text `null` parses as JSON without a `type`, and is also shown as user speech.
- A failed playback ends the playback loop and leaves the rest of the queue waiting (`VoicePlayback.Finished`).

## Findings

| source | as written | input that shows it | evidently intended | confidence | as-written member | corrected member |
|---|---|---|---|---|---|---|
| src/main/java/com/character/util/ARSUtil.java:29-33 | `getWsUrl` builds its parameters on `new ARSUtil()`, whose configuration is never injected, so reading the credentials throws | any call of `getWsUrl` | build the URL from the injected configuration | not executed | Signing.GetWsUrlAlwaysThrows | Signing.WsUrlQuery |
| src/main/java/com/character/service/RealtimeASRService.java:131-145 | `endASR` sends the end message and then calls `cleanupSession`, which sends it again | ending a session whose connection is live | one end message per session | not executed | RealtimeAsr.LiveSessionGetsTwoEndMessages | RealtimeAsr.EndAsr |
| aichat-vue/src/services/voiceChatService.ts:259-262 | stopping sends `{"type":"end"}`, which the server's control handling ignores (it ends only on the plain `END` text) | stopping a recording with the socket open | the stop ends the recognition session | not executed | VoiceLink.StopAsWrittenIsIgnored | VoiceLink.StopEndsRecognition |
| frontend/src/services/ErrorManager.ts:263-269 | when the last retry fails nothing further happens, although the comment says the fallback should run | a handler with retry and fallback whose every retry fails | the fallback runs once the retries are used up | not executed | ErrorManager.ExhaustedRetryRunsNoFallback | ErrorManager.FailChainSchedule |
| frontend/src/composables/useRetryMechanism.ts:47-54 | the wait is read after the attempt count went up, so it skips the first backoff and the last wait is 0 | the default configuration with an operation that always fails: waits of 2 s, 4 s, 0 s | waits of 1 s, 2 s, 4 s | not executed | RetryMechanism.DefaultWaitsAsWritten | RetryMechanism.DefaultWaitsCorrected |
| frontend/src/utils/ttsTimeoutHandler.ts:26-34 | starting a timeout for a request that already has one overwrites the entry without clearing the old timer | the same request id started twice, then cleared | restarting a request replaces its timer | not executed | TtsTimeout.RestartedRequestLeaksTimer | TtsTimeout.RestartedRequestClears |
| src/main/java/com/character/service/impl/ASRServiceImpl.java:220 | `(audioData.length + FRAME_SIZE - 1) / FRAME_SIZE` is computed in 32-bit arithmetic and overflows to a negative count | a buffer longer than 2^31 − 1280 bytes | the ceiling of length / 1280 | not executed | AudioFrames.OversizedAudioIsDropped | AudioFrames.FramesReassemble |

=== FILE: app_errors.dfy ===
/**
 * The error vocabulary the browser client shares between its error
 * manager and the composables that use it, and the exponential backoff
 * both retry schemes compute.
 */
module AppErrors {

  datatype ErrorType =
    | NetworkError
    | PermissionDenied
    | AudioContextError
    | WebsocketError
    | SseError
    | SessionTimeout
    | TtsTimeout
    | MicrophoneError
    | AudioPlaybackError
    | ConnectionLost

  datatype Severity = Low | Medium | High | Critical

  /** An error as created by the manager; `timestamp` is the clock reading at creation. */
  datatype AppError = AppError(kind: ErrorType, message: string, severity: Severity, timestamp: int)

  datatype RetryConfig = RetryConfig(maxRetries: nat, initialDelay: nat, maxDelay: nat, backoffFactor: nat)

  /** Three retries, starting at 1 s and doubling, capped at 10 s. */
  const DEFAULT_RETRY := RetryConfig(3, 1000, 10000, 2)

  function Pow(b: nat, e: nat): (r: nat)
    ensures b >= 1 ==> r >= 1
  {
    if e == 0 then 1 else b * Pow(b, e - 1)
  }

  /** min(initialDelay · backoffFactor^k, maxDelay). */
  function Backoff(c: RetryConfig, k: nat): (d: nat)
    ensures d <= c.maxDelay && d <= c.initialDelay * Pow(c.backoffFactor, k)
    ensures d == c.maxDelay || d == c.initialDelay * Pow(c.backoffFactor, k)
  {
    var raw := c.initialDelay * Pow(c.backoffFactor, k);
    if raw < c.maxDelay then raw else c.maxDelay
  }

  lemma PowGrows(b: nat, e: nat)
    requires b >= 1
    ensures Pow(b, e) <= Pow(b, e + 1)
  {
    assert Pow(b, e + 1) == b * Pow(b, e);
  }

  /** With a factor of at least 1 the delays never shrink from one retry to the next. */
  lemma BackoffGrows(c: RetryConfig, k: nat)
    requires c.backoffFactor >= 1
    ensures Backoff(c, k) <= Backoff(c, k + 1)
  {
    PowGrows(c.backoffFactor, k);
    MulMonotone(c.initialDelay, Pow(c.backoffFactor, k), Pow(c.backoffFactor, k + 1));
  }

  lemma MulMonotone(a: nat, x: nat, y: nat)
    requires x <= y
    ensures a * x <= a * y
  {
  }

  /** The default delays: 1 s, 2 s, 4 s, 8 s, then the 10 s cap. */
  lemma DefaultBackoff()
    ensures Backoff(DEFAULT_RETRY, 0) == 1000
    ensures Backoff(DEFAULT_RETRY, 1) == 2000
    ensures Backoff(DEFAULT_RETRY, 2) == 4000
    ensures Backoff(DEFAULT_RETRY, 3) == 8000
    ensures Backoff(DEFAULT_RETRY, 4) == 10000
  {
    assert Pow(2, 4) == 16 by {
      assert Pow(2, 1) == 2;
      assert Pow(2, 2) == 4;
      assert Pow(2, 3) == 8;
    }
  }
}

=== FILE: asr_pool.dfy ===
/**
 * The recognition vendor's connections and the pool that hands them out.
 *
 * A connection remembers whether its socket is up and the vendor session id
 * announced by an `action` message; every send is skipped while it is down.
 * The pool keeps a FIFO queue of idle connections and the set of all
 * connections it created, which may never exceed 100. A queued connection
 * found dead when polled leaves the queue but stays in that set.
 */
module AsrPool {
  import opened Wrappers
  import opened Json
  import opened Primitives
  import Signing

  const MAX_POOL_SIZE: nat := 100
  const CONNECTION_TIMEOUT_MS: nat := 150000

  /** The identity of a connection object. */
  type ConnId = nat

  datatype Connection = Connection(url: string, connected: bool, sessionId: Option<string>)

  /** A frame written to the vendor socket. */
  datatype Outgoing = AudioFrame(bytes: seq<byte>) | TextFrame(json: Json)

  /** The start-of-stream message: audio format, language and sample rate. */
  function StartMessage(): (j: Json)
    ensures j.JObj? && j.fields.Keys == {"start", "audio_encode", "lang", "samplerate"}
    ensures j.fields["start"] == JBool(true) && j.fields["audio_encode"] == JStr("pcm_s16le")
    ensures j.fields["lang"] == JStr("autodialect") && j.fields["samplerate"] == JStr("16000")
  {
    JObj(map[
      "start" := JBool(true),
      "audio_encode" := JStr(Signing.AUDIO_ENCODE),
      "lang" := JStr(Signing.LANG),
      "samplerate" := JStr(Signing.SAMPLERATE)])
  }

  /** The end-of-stream message, naming the vendor session when one was announced and is non-empty. */
  function EndMessage(sessionId: Option<string>): (j: Json)
    ensures j.JObj? && "end" in j.fields && j.fields["end"] == JBool(true)
    ensures "sessionId" in j.fields <==> sessionId.Some? && sessionId.value != ""
    ensures "sessionId" in j.fields ==> j.fields["sessionId"] == JStr(sessionId.value)
    ensures j.fields.Keys <= {"end", "sessionId"}
  {
    if sessionId.Some? && sessionId.value != "" then
      JObj(map["end" := JBool(true), "sessionId" := JStr(sessionId.value)])
    else
      JObj(map["end" := JBool(true)])
  }

  function SendStart(c: Connection): (r: Option<Outgoing>)
    ensures r.Some? <==> c.connected
    ensures r.Some? ==> r.value == TextFrame(StartMessage())
  {
    if c.connected then Some(TextFrame(StartMessage())) else None
  }

  function SendEnd(c: Connection): (r: Option<Outgoing>)
    ensures r.Some? <==> c.connected
    ensures r.Some? ==> r.value == TextFrame(EndMessage(c.sessionId))
  {
    if c.connected then Some(TextFrame(EndMessage(c.sessionId))) else None
  }

  function SendAudio(c: Connection, bytes: seq<byte>): (r: Option<Outgoing>)
    ensures r.Some? <==> c.connected
    ensures r.Some? ==> r.value == AudioFrame(bytes)
  {
    if c.connected then Some(AudioFrame(bytes)) else None
  }

  /**
   * A text message from the vendor (`msg` is its parse; `None` when not
   * JSON). An `action` message whose data carries a string sessionId records
   * it. The result says whether the listener goes on to hand the text to the
   * message handler: a message that is not a JSON object, or whose
   * sessionId is not a string, makes it throw before that point.
   */
  function OnText(c: Connection, msg: Option<Json>): (r: (Connection, bool))
    ensures r.0.url == c.url && r.0.connected == c.connected
    ensures r.1 ==> msg.Some? && msg.value.JObj?
    ensures r.0.sessionId != c.sessionId ==> r.1 && MsgType(msg) == "action"
    ensures msg.Some? && msg.value.JObj? && MsgType(msg) != "action" ==> r == (c, true)
  {
    if msg.None? || !msg.value.JObj? then (c, false)
    else
      var o := msg.value.fields;
      if OptString(o, "msg_type", "") == "action" && "data" in o && o["data"].JObj? && Has(o["data"].fields, "sessionId") then
        match GetString(o["data"].fields, "sessionId")
        case None => (c, false)
        case Some(s) => (c.(sessionId := Some(s)), true)
      else (c, true)
  }

  /** The msg_type of a parsed message, "" when absent. */
  function MsgType(msg: Option<Json>): string {
    if msg.Some? && msg.value.JObj? then OptString(msg.value.fields, "msg_type", "") else ""
  }

  /** The vendor session announced in an action message is named in the end message that follows. */
  lemma AnnouncedSessionIsEnded(c: Connection, sid: string)
    requires c.connected && sid != ""
    ensures var msg := JObj(map["msg_type" := JStr("action"), "data" := JObj(map["sessionId" := JStr(sid)])]);
      var c' := OnText(c, Some(msg)).0;
      SendEnd(c') == Some(TextFrame(JObj(map["end" := JBool(true), "sessionId" := JStr(sid)])))
  {
  }

  datatype Pool = Pool(available: seq<ConnId>, all: set<ConnId>, conns: map<ConnId, Connection>)

  datatype PoolError = PoolFull | ConnectFailed

  /** The pool's invariant: queued connections are pool members, queued once; members exist; at most 100. */
  predicate Valid(p: Pool) {
    && (forall i :: 0 <= i < |p.available| ==> p.available[i] in p.all)
    && (forall i, j :: 0 <= i < j < |p.available| ==> p.available[i] != p.available[j])
    && p.all <= p.conns.Keys
    && |p.all| <= MAX_POOL_SIZE
  }

  /** The signed URL a new connection dials, from the pool's configured credentials. */
  function ConnectionUrl(c: Codecs, accessKeyId: string, appId: string, secret: string, uuid: string, utc: string): (url: string)
    ensures Strings.StartsWith(url, Signing.BASE_WS_URL + "?")
  {
    var cred := Signing.Credentials(Some(accessKeyId), Some(appId), Some(secret));
    Signing.WsUrl(c, cred, uuid, utc).value
  }

  /**
   * createNewConnection: refuse at 100 members; otherwise the new connection
   * (`newId`, dialling `url`) joins the members, and leaves them again when
   * it does not open (`opens`).
   */
  function Create(p: Pool, newId: ConnId, url: string, opens: bool): (r: (Pool, Result<ConnId, PoolError>))
    requires newId !in p.conns
    ensures |p.all| >= MAX_POOL_SIZE ==> r == (p, Failure(PoolFull))
    ensures r.1.Success? <==> |p.all| < MAX_POOL_SIZE && opens
    ensures r.1.Success? ==> r.1.value == newId && r.0.all == p.all + {newId} && newId in r.0.conns && r.0.conns[newId].connected
    ensures r.1.Failure? ==> r.0.all == p.all
    ensures r.0.available == p.available
  {
    if |p.all| >= MAX_POOL_SIZE then (p, Failure(PoolFull))
    else
      var conn := Connection(url, opens, None);
      if opens then (p.(all := p.all + {newId}, conns := p.conns[newId := conn]), Success(newId))
      else (p.(conns := p.conns[newId := conn]), Failure(ConnectFailed))
  }

  /**
   * getConnection: the head of the idle queue when it is still up; otherwise
   * (queue empty, or the head is dead and is dropped) a new connection.
   */
  function Acquire(p: Pool, newId: ConnId, url: string, opens: bool): (r: (Pool, Result<ConnId, PoolError>))
    requires Valid(p) && newId !in p.conns
    ensures Valid(r.0)
    ensures r.1.Success? ==> r.1.value in r.0.all && r.1.value in r.0.conns && r.0.conns[r.1.value].connected
    ensures r.1.Success? ==> r.1.value !in r.0.available
    ensures r.1.Success? ==> r.1.value == newId || (|p.available| > 0 && r.1.value == p.available[0])
    ensures r.0.available == p.available || (|p.available| > 0 && r.0.available == p.available[1..])
    ensures p.all <= r.0.all
    ensures |p.available| > 0 && p.conns[p.available[0]].connected ==>
      r == (p.(available := p.available[1..]), Success(p.available[0]))
    ensures |p.available| > 0 && !p.conns[p.available[0]].connected ==>
      r == Create(p.(available := p.available[1..]), newId, url, opens)
    ensures |p.available| == 0 ==> r == Create(p, newId, url, opens)
  {
    if |p.available| > 0 then
      var head := p.available[0];
      var p1 := p.(available := p.available[1..]);
      if p.conns[head].connected then (p1, Success(head))
      else Create(p1, newId, url, opens)
    else Create(p, newId, url, opens)
  }

  /** returnConnection: a connection still up goes to the back of the idle queue; a dead one is forgotten. */
  function Release(p: Pool, c: ConnId): (r: Pool)
    requires c in p.conns
    ensures r.all == p.all && r.conns == p.conns
    ensures r.available == (if p.conns[c].connected then p.available + [c] else p.available)
  {
    if p.conns[c].connected then p.(available := p.available + [c]) else p
  }

  /** Returning a connection that is checked out (a member, not queued) keeps the pool valid. */
  lemma ReleaseKeepsValid(p: Pool, c: ConnId)
    requires Valid(p) && c in p.all && c !in p.available
    ensures Valid(Release(p, c))
  {
  }

  /** The vendor closed connection `c`. */
  function Drop(p: Pool, c: ConnId): (r: Pool)
    requires c in p.conns
    ensures c in r.conns && !r.conns[c].connected
    ensures r.available == p.available && r.all == p.all && r.conns.Keys == p.conns.Keys
  {
    p.(conns := p.conns[c := p.conns[c].(connected := false)])
  }

  /**
   * Dead members are never reclaimed: once all 100 members are down, every
   * request fails with PoolFull and the pool stays in that state.
   */
  lemma {:induction false} DeadPoolRefusesForever(p: Pool, newId: ConnId, url: string, opens: bool)
    requires Valid(p) && newId !in p.conns
    requires |p.all| == MAX_POOL_SIZE
    requires forall c :: c in p.all ==> !p.conns[c].connected
    ensures Acquire(p, newId, url, opens).1 == Failure(PoolFull)
    ensures var p' := Acquire(p, newId, url, opens).0;
      p'.all == p.all && p'.conns == p.conns && |p'.available| <= |p.available|
  {
    if |p.available| > 0 {
      assert p.available[0] in p.all;
    }
  }
}

=== FILE: asr_service.dfy ===
/**
 * The tagging recognition service: each client session gets a result stream
 * and a pooled vendor connection; vendor results are emitted as
 * PARTIAL:/FINAL: text, and every FINAL result starts a chat reply whose
 * tokens are emitted as REPLY: text and, once the reply completes with
 * non-blank text, its synthesized audio as one AUDIO: message.
 */
module AsrService {
  import opened Wrappers
  import opened Strings
  import opened Seqs
  import opened Streams
  import opened AsrPool
  import opened AsrSessions
  import opened Transcripts
  import opened Primitives

  const REPLY_TAG := "REPLY:"
  const AUDIO_TAG := "AUDIO:"
  const TTS_ERROR_TAG := "ERROR:TTS转换失败: "

  /** A chat reply started for FINAL text; its output goes to `stream`. */
  datatype ChatRequest = ChatRequest(stream: StreamId, text: string)

  datatype Service = Service(core: State, chatRequests: seq<ChatRequest>)

  predicate Inv(v: Service) {
    && AsrSessions.Inv(v.core)
    && (forall i :: 0 <= i < |v.chatRequests| ==> v.chatRequests[i].stream in v.core.streams)
  }

  /** startASR: the shared start, greeting the vendor with the start message. */
  function StartAsr(v: Service, sid: SessionId, newStream: StreamId, newId: ConnId, url: string, opens: bool): (r: Service)
    requires Inv(v) && newStream !in v.core.streams && newId !in v.core.pool.conns
    ensures Inv(r)
    ensures r.chatRequests == v.chatRequests
    ensures sid in r.core.sinks ==>
      sid in r.core.connections && r.core.wire == v.core.wire + [(r.core.connections[sid], TextFrame(StartMessage()))]
  {
    StartKeepsInv(v.core, sid, newStream, newId, url, opens, true);
    v.(core := Start(v.core, sid, newStream, newId, url, opens, true))
  }

  /**
   * The handler's work for a parsed result `t`: emit it to stream `k`, and
   * for a FINAL result start a chat reply on the text after the tag.
   */
  function Deliver(v: Service, k: StreamId, t: string): (r: Service)
    requires Inv(v) && k in v.core.streams
    ensures Inv(r)
    ensures r.core == EmitTo(v.core, k, t)
    ensures !StartsWith(t, FINAL_TAG) ==> r.chatRequests == v.chatRequests
    ensures StartsWith(t, FINAL_TAG) ==> r.chatRequests == v.chatRequests + [ChatRequest(k, t[|FINAL_TAG|..])]
  {
    var core := EmitTo(v.core, k, t);
    if StartsWith(t, FINAL_TAG) then Service(core, v.chatRequests + [ChatRequest(k, t[|FINAL_TAG|..])])
    else v.(core := core)
  }

  /**
   * A text message from the vendor on connection `c`. After the listener's
   * own handling, the handler bound to `c` (if any) takes the parsed result.
   */
  function Vendor(v: Service, c: ConnId, msg: Option<Json.Json>): (r: Service)
    requires Inv(v) && c in v.core.pool.conns
    ensures Inv(r)
    ensures r.core.wire == v.core.wire && r.core.sinks == v.core.sinks && r.core.connections == v.core.connections
  {
    var (core1, delivered) := Listen(v.core, c, msg);
    var v1 := v.(core := core1);
    if !delivered || c !in core1.handlers then v1
    else match ParseTagged(msg)
      case None => v1
      case Some(t) => Deliver(v1, core1.handlers[c], t)
  }

  /**
   * For a vendor result that reaches the handler, the result is emitted to
   * the handler's stream, and a chat reply is started exactly when the
   * result is final (type other than 1), on the recognized text.
   */
  lemma VendorRoutesResult(v: Service, c: ConnId, msg: Option<Json.Json>)
    requires Inv(v) && c in v.core.pool.conns && c in v.core.handlers
    requires OnText(v.core.pool.conns[c], msg).1
    requires Extract(msg).Some?
    ensures var r := Vendor(v, c, msg); var k := v.core.handlers[c]; var t := Extract(msg).value;
      && r.core.streams[k] == Emit(v.core.streams[k], Tag(t) + t.text)
      && (t.kind != 1 <==> |r.chatRequests| == |v.chatRequests| + 1)
      && (t.kind != 1 ==> r.chatRequests[|v.chatRequests|] == ChatRequest(k, t.text))
  {
    var t := Extract(msg).value;
    var k := v.core.handlers[c];
    var core1 := Listen(v.core, c, msg).0;
    assert core1.handlers == v.core.handlers && core1.streams == v.core.streams;
    var s := Tag(t) + t.text;
    assert ParseTagged(msg) == Some(s);
    var r := Deliver(v.(core := core1), k, s);
    assert Vendor(v, c, msg) == r;
    assert r.core.streams[k] == Emit(v.core.streams[k], s);
    if t.kind == 1 {
      assert s[0] != FINAL_TAG[0];
      assert !StartsWith(s, FINAL_TAG);
    } else {
      assert s[..|FINAL_TAG|] == FINAL_TAG;
      assert s[|FINAL_TAG|..] == t.text;
    }
  }

  /**
   * The messages a chat reply produces: each token as REPLY:, in order; then,
   * only if the reply completed and its text is not blank, the synthesized
   * audio as AUDIO: Base64, or the synthesis failure as an ERROR: line.
   */
  function ReplyMessages(codecs: Codecs, tokens: seq<string>, completed: bool,
                         synthesize: string -> Result<seq<byte>, string>): (ms: seq<string>)
    ensures |ms| == |tokens| + (if completed && !IsBlank(JavaTrimSpace, Flatten(tokens)) then 1 else 0)
    ensures forall i :: 0 <= i < |tokens| ==> StartsWith(ms[i], REPLY_TAG)
    ensures |ms| > |tokens| ==> StartsWith(ms[|tokens|], AUDIO_TAG) || StartsWith(ms[|tokens|], TTS_ERROR_TAG)
  {
    var replies := seq(|tokens|, i requires 0 <= i < |tokens| => REPLY_TAG + tokens[i]);
    var full := Flatten(tokens);
    if completed && !IsBlank(JavaTrimSpace, full) then
      match synthesize(full)
      case Success(audio) => replies + [AUDIO_TAG + codecs.base64Encode(audio)]
      case Failure(e) => replies + [TTS_ERROR_TAG + e]
    else replies
  }

  /** The REPLY: payloads of a list of messages, concatenated. */
  function ReplyText(ms: seq<string>): string
    requires forall i :: 0 <= i < |ms| ==> StartsWith(ms[i], REPLY_TAG)
  {
    if |ms| == 0 then []
    else
      assert StartsWith(ms[0], REPLY_TAG);
      ms[0][|REPLY_TAG|..] + ReplyText(ms[1..])
  }

  /**
   * The text sent to synthesis is exactly what the client sees as the reply:
   * the concatenated REPLY: payloads, and the audio is of that text.
   */
  lemma {:induction false} ReplyTextIsSynthesized(codecs: Codecs, tokens: seq<string>, completed: bool,
                                                  synthesize: string -> Result<seq<byte>, string>)
    ensures var ms := ReplyMessages(codecs, tokens, completed, synthesize);
      ReplyText(ms[..|tokens|]) == Flatten(tokens)
    ensures var ms := ReplyMessages(codecs, tokens, completed, synthesize);
      |ms| > |tokens| && synthesize(Flatten(tokens)).Success? ==>
        ms[|tokens|] == AUDIO_TAG + codecs.base64Encode(synthesize(Flatten(tokens)).value)
  {
    var ms := ReplyMessages(codecs, tokens, completed, synthesize);
    ReplyPayloads(ms[..|tokens|], tokens);
  }

  lemma {:induction false} ReplyPayloads(ms: seq<string>, tokens: seq<string>)
    requires |ms| == |tokens|
    requires forall i :: 0 <= i < |ms| ==> ms[i] == REPLY_TAG + tokens[i]
    ensures forall i :: 0 <= i < |ms| ==> StartsWith(ms[i], REPLY_TAG)
    ensures ReplyText(ms) == Flatten(tokens)
  {
    if |ms| > 0 {
      ReplyPayloads(ms[1..], tokens[1..]);
      assert ms[0][|REPLY_TAG|..] == tokens[0];
      assert tokens == [tokens[0]] + tokens[1..];
    }
  }

  /**
   * The chat reply for request `i` arrives: its messages are emitted to the
   * request's stream (and dropped if that stream has terminated).
   */
  function Reply(v: Service, i: nat, codecs: Codecs, tokens: seq<string>, completed: bool,
                 synthesize: string -> Result<seq<byte>, string>): (r: Service)
    requires Inv(v) && i < |v.chatRequests|
    ensures Inv(r)
    ensures |r.chatRequests| == |v.chatRequests| - 1
    ensures r.core.(streams := v.core.streams) == v.core
    ensures var k := v.chatRequests[i].stream;
      r.core.streams == v.core.streams[k := EmitAll(v.core.streams[k], ReplyMessages(codecs, tokens, completed, synthesize))]
  {
    var k := v.chatRequests[i].stream;
    var ms := ReplyMessages(codecs, tokens, completed, synthesize);
    Service(v.core.(streams := v.core.streams[k := EmitAll(v.core.streams[k], ms)]),
            v.chatRequests[..i] + v.chatRequests[i + 1..])
  }

  /** sendAudioData: the shared framing path. */
  function SendAudioData(v: Service, sid: SessionId, data: seq<byte>, connected: nat -> bool, stop: Option<nat>): (r: Service)
    requires Inv(v)
    ensures Inv(r)
    ensures r.core.streams == v.core.streams && r.chatRequests == v.chatRequests
  {
    v.(core := Audio(v.core, sid, data, connected, stop))
  }

  /** sendSegmentEnd: the vendor detects the end of speech itself, so nothing is sent. */
  function SegmentEnd(v: Service, sid: SessionId): (r: Service)
    ensures r.core.wire == v.core.wire && r.core.connections == v.core.connections
  {
    v
  }

  /**
   * endASR: send the end message on the session's connection, unregister it
   * and return it to the pool. The result stream stays registered and open,
   * so results the vendor still sends reach the client.
   */
  function EndAsr(v: Service, sid: SessionId): (r: Service)
    requires Inv(v)
    ensures Inv(r)
    ensures sid !in r.core.connections && r.core.connections == v.core.connections - {sid}
    ensures r.core.sinks == v.core.sinks && r.core.streams == v.core.streams && r.chatRequests == v.chatRequests
    ensures sid !in v.core.connections ==> r == v
    ensures sid in v.core.connections ==> (var c := v.core.connections[sid];
      r.core.wire == v.core.wire + Send(c, SendEnd(v.core.pool.conns[c])))
  {
    if sid !in v.core.connections then v
    else
      var s := v.core;
      var c := s.connections[sid];
      assert c in s.pool.all;
      ReleaseKeepsValid(s.pool, c);
      v.(core := s.(connections := s.connections - {sid},
                    wire := s.wire + Send(c, SendEnd(s.pool.conns[c])),
                    pool := Release(s.pool, c)))
  }

  /** A repeated endASR finds no connection and does nothing. */
  lemma EndAsrIdempotent(v: Service, sid: SessionId)
    requires Inv(v)
    ensures EndAsr(EndAsr(v, sid), sid) == EndAsr(v, sid)
  {
  }

  /**
   * cleanupSession and cleanupSessionCompletely (the same steps): the
   * shared cleanup. Pending chat replies still reach the (now completed)
   * stream, where they are dropped.
   */
  function CleanupSession(v: Service, sid: SessionId): (r: Service)
    requires Inv(v)
    ensures Inv(r)
    ensures sid !in r.core.sinks && sid !in r.core.connections
    ensures r.chatRequests == v.chatRequests
  {
    v.(core := Cleanup(v.core, sid))
  }
}

=== FILE: asr_sessions.dfy ===
/**
 * The per-session bookkeeping both recognition services share: which result
 * stream and which pooled vendor connection belong to a client session, the
 * message handler each connection feeds, and the frames written to vendor
 * sockets, all over one connection pool.
 */
module AsrSessions {
  import opened Wrappers
  import opened Streams
  import opened AsrPool
  import AudioFrames
  import Json

  type SessionId = string

  /** The identity of a result stream (the sink object). */
  type StreamId = nat

  datatype State = State(
    pool: Pool,
    sinks: map<SessionId, StreamId>,
    connections: map<SessionId, ConnId>,
    streams: map<StreamId, Stream<string>>,
    handlers: map<ConnId, StreamId>,
    wire: seq<(ConnId, Outgoing)>)

  /**
   * The pool is valid; a connection held by a session is a pool member and is
   * not idle in the queue; no two sessions hold the same connection; every
   * sink and every handler target is a known stream.
   */
  predicate Inv(s: State) {
    && Valid(s.pool)
    && (forall sid :: sid in s.connections ==> s.connections[sid] in s.pool.all && s.connections[sid] !in s.pool.available)
    && (forall a, b :: a in s.connections && b in s.connections && a != b ==> s.connections[a] != s.connections[b])
    && s.sinks.Values <= s.streams.Keys
    && s.handlers.Values <= s.streams.Keys
  }

  /** The exception text a failed acquisition carries into the stream error. */
  function PoolErrorMessage(e: PoolError): (m: string)
    ensures m != []
  {
    match e
    case PoolFull => "连接池已满，无法创建新连接"
    case ConnectFailed => "创建讯飞连接失败"
  }

  /** An optional frame written to connection `c`. */
  function Send(c: ConnId, out: Option<Outgoing>): (w: seq<(ConnId, Outgoing)>)
    ensures |w| <= 1 && (w != [] <==> out.Some?)
    ensures out.Some? ==> w == [(c, out.value)]
  {
    if out.Some? then [(c, out.value)] else []
  }

  /** Audio frames written to connection `c`, in order. */
  function AudioOnWire(c: ConnId, frames: seq<seq<byte>>): (w: seq<(ConnId, Outgoing)>)
    ensures |w| == |frames|
    ensures forall i :: 0 <= i < |w| ==> w[i] == (c, AudioFrame(frames[i]))
  {
    seq(|frames|, i requires 0 <= i < |frames| => (c, AudioFrame(frames[i])))
  }

  /**
   * Start a session: register a fresh open stream under `sid`, then take a
   * connection from the pool. On failure the stream is errored with the
   * pool's exception text and `sid` loses its sink entry; no connection is
   * registered. On success the connection is registered, the start message is
   * sent when `greet` is set, and the connection's handler feeds the new
   * stream.
   */
  function Start(s: State, sid: SessionId, newStream: StreamId, newId: ConnId, url: string, opens: bool, greet: bool): (r: State)
    requires Inv(s) && newStream !in s.streams && newId !in s.pool.conns
    ensures newStream in r.streams
    ensures sid in r.sinks ==> r.sinks[sid] == newStream && r.streams[newStream] == NewStream()
    ensures sid !in r.sinks ==> r.connections == s.connections && r.wire == s.wire && r.streams[newStream].status.Errored?
    ensures sid in r.sinks ==> sid in r.connections && (var c := r.connections[sid];
      c in r.pool.conns && r.pool.conns[c].connected && c in r.handlers && r.handlers[c] == newStream
      && r.wire == s.wire + (if greet then [(c, TextFrame(StartMessage()))] else []))
  {
    var (p, res) := Acquire(s.pool, newId, url, opens);
    match res
    case Failure(e) =>
      s.(pool := p, sinks := s.sinks - {sid},
         streams := s.streams[newStream := Fail(NewStream(), PoolErrorMessage(e))])
    case Success(c) =>
      var greeting := if greet then SendStart(p.conns[c]) else None;
      s.(pool := p,
         sinks := s.sinks[sid := newStream],
         connections := s.connections[sid := c],
         streams := s.streams[newStream := NewStream()],
         handlers := s.handlers[c := newStream],
         wire := s.wire + Send(c, greeting))
  }

  /** Starting a session keeps the invariant: the connection it takes is held by no other session. */
  lemma StartKeepsInv(s: State, sid: SessionId, newStream: StreamId, newId: ConnId, url: string, opens: bool, greet: bool)
    requires Inv(s) && newStream !in s.streams && newId !in s.pool.conns
    ensures Inv(Start(s, sid, newStream, newId, url, opens, greet))
  {
    if Acquire(s.pool, newId, url, opens).1.Success? {
      StartSuccessKeepsInv(s, sid, newStream, newId, url, opens, greet);
    } else {
      StartFailureKeepsInv(s, sid, newStream, newId, url, opens, greet);
    }
  }

  lemma StartSuccessKeepsInv(s: State, sid: SessionId, newStream: StreamId, newId: ConnId, url: string, opens: bool, greet: bool)
    requires Inv(s) && newStream !in s.streams && newId !in s.pool.conns
    requires Acquire(s.pool, newId, url, opens).1.Success?
    ensures Inv(Start(s, sid, newStream, newId, url, opens, greet))
  {
    var (p, res) := Acquire(s.pool, newId, url, opens);
    AcquireTakesUnheld(s, newId, url, opens);
    var r := Start(s, sid, newStream, newId, url, opens, greet);
    assert r.connections == s.connections[sid := res.value] && r.pool == p;
  }

  lemma StartFailureKeepsInv(s: State, sid: SessionId, newStream: StreamId, newId: ConnId, url: string, opens: bool, greet: bool)
    requires Inv(s) && newStream !in s.streams && newId !in s.pool.conns
    requires Acquire(s.pool, newId, url, opens).1.Failure?
    ensures Inv(Start(s, sid, newStream, newId, url, opens, greet))
  {
    var (p, res) := Acquire(s.pool, newId, url, opens);
    var r := Start(s, sid, newStream, newId, url, opens, greet);
    assert r.connections == s.connections && r.pool == p;
    assert forall x :: x in p.available ==> x in s.pool.available;
  }

  /** A connection the pool hands out is held by no session, and the connections held stay held. */
  lemma AcquireTakesUnheld(s: State, newId: ConnId, url: string, opens: bool)
    requires Inv(s) && newId !in s.pool.conns
    ensures var (p, res) := Acquire(s.pool, newId, url, opens);
      res.Success? ==> forall other | other in s.connections ::
        && s.connections[other] != res.value && s.connections[other] !in p.available && s.connections[other] in p.all
  {
    var (p, res) := Acquire(s.pool, newId, url, opens);
    if res.Success? {
      var c := res.value;
      forall other | other in s.connections
        ensures s.connections[other] != c && s.connections[other] !in p.available
      {
        if |s.pool.available| > 0 && c == s.pool.available[0] {
          assert s.connections[other] !in s.pool.available;
        }
        assert forall x :: x in p.available ==> x in s.pool.available;
      }
    }
  }

  /** A failed start errors the new stream, drops `sid`'s sink entry and registers no connection. */
  lemma StartFailure(s: State, sid: SessionId, newStream: StreamId, newId: ConnId, url: string, opens: bool, greet: bool)
    requires Inv(s) && newStream !in s.streams && newId !in s.pool.conns
    requires Acquire(s.pool, newId, url, opens).1.Failure?
    ensures var r := Start(s, sid, newStream, newId, url, opens, greet);
      && sid !in r.sinks && r.connections == s.connections && r.handlers == s.handlers && r.wire == s.wire
      && r.streams[newStream] == Stream([], Errored(PoolErrorMessage(Acquire(s.pool, newId, url, opens).1.error)))
  {
  }

  /**
   * Audio for a session: with no registered connection it is dropped;
   * otherwise it is framed and the frames the schedule sends (`connected`
   * is the connection's state when frame i goes out, `stop` the frame after
   * which the sender is interrupted) are written to that connection. No
   * stream is touched.
   */
  function Audio(s: State, sid: SessionId, data: seq<byte>, connected: nat -> bool, stop: Option<nat>): (r: State)
    ensures r.(wire := s.wire) == s
    ensures sid !in s.connections ==> r == s
    ensures sid in s.connections ==>
      r.wire == s.wire + AudioOnWire(s.connections[sid], AudioFrames.SentFrames(AudioFrames.Schedule(AudioFrames.Frames(data), connected, stop, 0)))
  {
    if sid !in s.connections then s
    else
      var sent := AudioFrames.SentFrames(AudioFrames.Schedule(AudioFrames.Frames(data), connected, stop, 0));
      s.(wire := s.wire + AudioOnWire(s.connections[sid], sent))
  }

  /**
   * The connection listener's handling of a vendor text message on `c`
   * (the session id capture). The flag says whether the message then goes
   * on to the connection's handler.
   */
  function Listen(s: State, c: ConnId, msg: Option<Json.Json>): (r: (State, bool))
    requires Inv(s) && c in s.pool.conns
    ensures Inv(r.0)
    ensures r.0.(pool := s.pool) == s
    ensures r.0.pool.all == s.pool.all && r.0.pool.available == s.pool.available && r.0.pool.conns.Keys == s.pool.conns.Keys
    ensures r.0.pool.conns[c] == OnText(s.pool.conns[c], msg).0 && r.1 == OnText(s.pool.conns[c], msg).1
  {
    var (conn, delivered) := OnText(s.pool.conns[c], msg);
    (s.(pool := s.pool.(conns := s.pool.conns[c := conn])), delivered)
  }

  /** tryEmitNext of `t` on stream `k`; no other stream changes. */
  function EmitTo(s: State, k: StreamId, t: string): (r: State)
    requires Inv(s) && k in s.streams
    ensures Inv(r)
    ensures r.(streams := s.streams) == s
    ensures r.streams.Keys == s.streams.Keys && r.streams[k] == Emit(s.streams[k], t)
    ensures forall j :: j in s.streams && j != k ==> r.streams[j] == s.streams[j]
  {
    s.(streams := s.streams[k := Emit(s.streams[k], t)])
  }

  /** The vendor socket of connection `c` closed or failed. */
  function Closed(s: State, c: ConnId): (r: State)
    requires Inv(s) && c in s.pool.conns
    ensures Inv(r)
    ensures c in r.pool.conns && !r.pool.conns[c].connected
    ensures r.(pool := s.pool) == s
  {
    s.(pool := Drop(s.pool, c))
  }

  /**
   * cleanupSession: remove `sid`'s sink and complete it; remove its
   * connection, send the end message on it and return it to the pool.
   */
  function Cleanup(s: State, sid: SessionId): (r: State)
    requires Inv(s)
    ensures Inv(r)
    ensures sid !in r.sinks && sid !in r.connections
    ensures r.sinks == s.sinks - {sid} && r.connections == s.connections - {sid}
    ensures sid in s.sinks ==> s.sinks[sid] in r.streams && !r.streams[s.sinks[sid]].status.Open?
    ensures sid in s.sinks ==> r.streams[s.sinks[sid]].items == s.streams[s.sinks[sid]].items
    ensures sid in s.connections ==> (var c := s.connections[sid];
      r.wire == s.wire + Send(c, SendEnd(s.pool.conns[c]))
      && (s.pool.conns[c].connected <==> c in r.pool.available))
    ensures sid !in s.connections ==> r.wire == s.wire && r.pool == s.pool
    ensures r.handlers == s.handlers
  {
    var s1 :=
      if sid in s.sinks then
        var k := s.sinks[sid];
        s.(sinks := s.sinks - {sid}, streams := s.streams[k := Complete(s.streams[k])])
      else s;
    if sid in s1.connections then
      var c := s1.connections[sid];
      assert c in s1.pool.all;
      ReleaseKeepsValid(s1.pool, c);
      s1.(connections := s1.connections - {sid},
          wire := s1.wire + Send(c, SendEnd(s1.pool.conns[c])),
          pool := Release(s1.pool, c))
    else s1
  }

  /** After cleanup the session is gone, so a second cleanup changes nothing. */
  lemma CleanupIdempotent(s: State, sid: SessionId)
    requires Inv(s)
    ensures Cleanup(Cleanup(s, sid), sid) == Cleanup(s, sid)
  {
  }

  /** Cleanup of one session leaves every other session's sink and connection in place. */
  lemma CleanupIsLocal(s: State, sid: SessionId, other: SessionId)
    requires Inv(s) && other != sid
    ensures other in s.sinks ==> other in Cleanup(s, sid).sinks && Cleanup(s, sid).sinks[other] == s.sinks[other]
    ensures other in s.connections ==>
      other in Cleanup(s, sid).connections && Cleanup(s, sid).connections[other] == s.connections[other]
  {
  }
}

=== FILE: audio_chunks.dfy ===
/**
 * The immutable audio chunks the synthesis side passes around: one with a
 * sequence number and a 0/1/2 status, and one carrying the vendor's own
 * sequence number unchanged. The byte array may be null.
 */
module AudioChunks {
  import opened Wrappers
  import opened Strings

  /** AudioDataWithSeq. The documented seq range 0..9999999 is not enforced. */
  datatype SeqChunk = SeqChunk(audioData: Option<seq<byte>>, seqNo: int, status: int)

  /** AudioDataWithXunfeiSeq: the vendor's seq as received. */
  datatype VendorChunk = VendorChunk(audioData: Option<seq<byte>>, vendorSeq: int, status: int)

  const STATUS_START := 0
  const STATUS_MIDDLE := 1
  const STATUS_END := 2

  predicate IsStart(c: SeqChunk) { c.status == STATUS_START }
  predicate IsMiddle(c: SeqChunk) { c.status == STATUS_MIDDLE }
  predicate IsEnd(c: SeqChunk) { c.status == STATUS_END }

  /** The name of a status: start, middle, end, or unknown for any other value. */
  function StatusName(status: int): (r: string)
    ensures r == "未知" <==> status != 0 && status != 1 && status != 2
  {
    if status == 0 then "开始"
    else if status == 1 then "中间"
    else if status == 2 then "结束"
    else "未知"
  }

  /** The byte count a description reports: 0 for a null array. */
  function DataLength(data: Option<seq<byte>>): (n: nat)
    ensures data.None? ==> n == 0
    ensures data.Some? ==> n == |data.value|
  {
    if data.Some? then |data.value| else 0
  }

  /** toString of AudioDataWithSeq. */
  function Describe(c: SeqChunk): (r: string)
    ensures StartsWith(r, "AudioDataWithSeq{seq=")
    ensures EndsWith(r, ", dataLength=" + NatToString(DataLength(c.audioData)) + "}")
  {
    var tail := ", dataLength=" + NatToString(DataLength(c.audioData)) + "}";
    var r := "AudioDataWithSeq{seq=" + IntToString(c.seqNo) + ", status=" + IntToString(c.status)
      + "(" + StatusName(c.status) + ")" + tail;
    assert r[|r| - |tail|..] == tail;
    r
  }

  /**
   * The status predicates are exclusive, and one holds exactly when the
   * status has a name other than unknown.
   */
  lemma StatusPredicatesPartition(c: SeqChunk)
    ensures !(IsStart(c) && IsMiddle(c)) && !(IsStart(c) && IsEnd(c)) && !(IsMiddle(c) && IsEnd(c))
    ensures IsStart(c) || IsMiddle(c) || IsEnd(c) <==> StatusName(c.status) != "未知"
    ensures IsStart(c) <==> StatusName(c.status) == "开始"
    ensures IsMiddle(c) <==> StatusName(c.status) == "中间"
    ensures IsEnd(c) <==> StatusName(c.status) == "结束"
  {
  }

  predicate VendorIsEnd(c: VendorChunk) { c.status == STATUS_END }

  /** toString of AudioDataWithXunfeiSeq. */
  function DescribeVendor(c: VendorChunk): (r: string)
    ensures StartsWith(r, "AudioDataWithXunfeiSeq{xunfeiSeq=")
    ensures EndsWith(r, ", dataLength=" + NatToString(DataLength(c.audioData)) + "}")
  {
    var tail := ", dataLength=" + NatToString(DataLength(c.audioData)) + "}";
    var r := "AudioDataWithXunfeiSeq{xunfeiSeq=" + IntToString(c.vendorSeq) + ", status=" + IntToString(c.status) + tail;
    assert r[|r| - |tail|..] == tail;
    r
  }

  /** The seq reported by either description reads back as the chunk's own seq. */
  lemma DescribedSeqReadsBack(c: SeqChunk, v: VendorChunk)
    ensures var d := Describe(c); var n := |"AudioDataWithSeq{seq="|;
      ParseInteger(d[n..n + |IntToString(c.seqNo)|]) == Some(c.seqNo)
    ensures var d := DescribeVendor(v); var n := |"AudioDataWithXunfeiSeq{xunfeiSeq="|;
      ParseInteger(d[n..n + |IntToString(v.vendorSeq)|]) == Some(v.vendorSeq)
  {
    SeqReadsBack(c);
    VendorSeqReadsBack(v);
  }

  lemma SeqReadsBack(c: SeqChunk)
    ensures var d := Describe(c); var n := |"AudioDataWithSeq{seq="|;
      ParseInteger(d[n..n + |IntToString(c.seqNo)|]) == Some(c.seqNo)
  {
    var d := Describe(c);
    var n := |"AudioDataWithSeq{seq="|;
    assert d[n..n + |IntToString(c.seqNo)|] == IntToString(c.seqNo);
    ParseIntToString(c.seqNo);
  }

  lemma VendorSeqReadsBack(v: VendorChunk)
    ensures var d := DescribeVendor(v); var n := |"AudioDataWithXunfeiSeq{xunfeiSeq="|;
      ParseInteger(d[n..n + |IntToString(v.vendorSeq)|]) == Some(v.vendorSeq)
  {
    var e := DescribeVendor(v);
    var m := |"AudioDataWithXunfeiSeq{xunfeiSeq="|;
    assert e[m..m + |IntToString(v.vendorSeq)|] == IntToString(v.vendorSeq);
    ParseIntToString(v.vendorSeq);
  }
}

=== FILE: audio_frames.dfy ===
/**
 * Pacing of recognition audio: a client buffer is cut into 1280-byte frames
 * (40 ms of 16 kHz 16-bit mono PCM) sent 40 ms apart, each only while the
 * vendor connection is up. Both recognition services use the same loop.
 */
module AudioFrames {
  import opened Wrappers
  import opened Seqs
  import JavaInts

  const FRAME_SIZE: nat := 1280
  const FRAME_INTERVAL_MS: nat := 40

  /** What the sending loop does, in order. */
  datatype Action = SendFrame(frame: seq<byte>) | Sleep(ms: nat)

  /** The number of frames a buffer of `len` bytes is cut into: the ceiling of len / 1280. */
  function FrameCount(len: nat): (n: nat)
    ensures n * FRAME_SIZE >= len
    ensures len > 0 ==> (n - 1) * FRAME_SIZE < len
    ensures len == 0 <==> n == 0
  {
    (len + FRAME_SIZE - 1) / FRAME_SIZE
  }

  /** The frame count as the source computes it, in 32-bit `int` arithmetic. */
  function FrameCountAsWritten(len: nat): int
    requires len <= JavaInts.INT_MAX
  {
    JavaInts.JavaDiv(JavaInts.ToInt32(len + FRAME_SIZE - 1), FRAME_SIZE)
  }

  /** On every buffer shorter than 2^31 - 1280 bytes the 32-bit count is the ceiling. */
  lemma FrameCountAsWrittenAgrees(len: nat)
    requires len <= JavaInts.INT_MAX - FRAME_SIZE + 1
    ensures FrameCountAsWritten(len) == FrameCount(len)
  {
  }

  /**
   * A buffer within 1279 bytes of the largest Java array overflows the
   * addition: the count comes out negative, so no frame of it is sent.
   */
  lemma OversizedAudioIsDropped(len: nat)
    requires JavaInts.INT_MAX - FRAME_SIZE + 1 < len <= JavaInts.INT_MAX
    ensures FrameCountAsWritten(len) < 0
    ensures FrameCount(len) > 0
  {
    assert JavaInts.ToInt32(len + FRAME_SIZE - 1) == len + FRAME_SIZE - 1 - 0x1_0000_0000;
  }

  /** The consecutive frames of `data`: all full-sized except possibly the last. */
  function Frames(data: seq<byte>): (r: seq<seq<byte>>)
    ensures |r| == FrameCount(|data|)
    ensures Flatten(r) == data
    ensures forall i :: 0 <= i < |r| ==> 0 < |r[i]| <= FRAME_SIZE
    ensures forall i :: 0 <= i < |r| - 1 ==> |r[i]| == FRAME_SIZE
    decreases |data|
  {
    if |data| == 0 then []
    else if |data| <= FRAME_SIZE then [data]
    else [data[..FRAME_SIZE]] + Frames(data[FRAME_SIZE..])
  }

  /** Frame `i` is the slice the source copies: from i * 1280 to the lesser of (i + 1) * 1280 and the length. */
  lemma {:induction false} FrameIsSlice(data: seq<byte>, i: nat)
    requires i < FrameCount(|data|)
    ensures i * FRAME_SIZE < |data|
    ensures Frames(data)[i] == data[i * FRAME_SIZE .. Min(i * FRAME_SIZE + FRAME_SIZE, |data|)]
    decreases |data|
  {
    if |data| > FRAME_SIZE && i > 0 {
      var rest := data[FRAME_SIZE..];
      FrameIsSlice(rest, i - 1);
      assert Frames(data)[i] == Frames(rest)[i - 1];
      var lo := (i - 1) * FRAME_SIZE;
      NextFrameStart(i);
      DropThenSlice(data, FRAME_SIZE, lo, Min(lo + FRAME_SIZE, |rest|));
    }
  }

  lemma NextFrameStart(i: nat)
    requires i > 0
    ensures i * FRAME_SIZE == (i - 1) * FRAME_SIZE + FRAME_SIZE
  {
  }

  /** Slicing after dropping `k` elements is slicing `k` further on. */
  lemma DropThenSlice<T>(s: seq<T>, k: nat, a: nat, b: nat)
    requires k <= |s| && a <= b <= |s| - k
    ensures s[k..][a..b] == s[k + a..k + b]
  {
  }

  /** The copy the loop makes of frame `i`: the bytes from i * 1280 up to (i + 1) * 1280 or the end. */
  function CopyFrame(data: seq<byte>, i: nat): (f: seq<byte>)
    requires i < FrameCount(|data|)
    ensures f == Frames(data)[i]
  {
    FrameIsSlice(data, i);
    data[i * FRAME_SIZE .. Min(i * FRAME_SIZE + FRAME_SIZE, |data|)]
  }

  function Min(a: int, b: int): int {
    if a <= b then a else b
  }

  /**
   * The reference schedule from frame `i` on: frame `i` goes out when the
   * connection is up at that moment, and a 40 ms pause follows every frame
   * but the last, unless the pause after frame `stop` is interrupted, which
   * ends the loop.
   */
  function Schedule(frames: seq<seq<byte>>, connected: nat -> bool, stop: Option<nat>, i: nat): seq<Action>
    decreases |frames| - i
  {
    if i >= |frames| then []
    else
      var send := if connected(i) then [SendFrame(frames[i])] else [];
      if i == |frames| - 1 || stop == Some(i) then send
      else send + [Sleep(FRAME_INTERVAL_MS)] + Schedule(frames, connected, stop, i + 1)
  }

  /**
   * The sending loop: frame `i` is the slice [i * 1280, min((i + 1) * 1280, len)),
   * sent when `connected(i)` holds; `stop` names the pause that is interrupted.
   */
  method ProcessAudioFrames(data: seq<byte>, connected: nat -> bool, stop: Option<nat>)
      returns (actions: seq<Action>)
    ensures actions == Schedule(Frames(data), connected, stop, 0)
  {
    var frames := Frames(data);
    var total := FrameCount(|data|);
    actions := [];
    var i := 0;
    while i < total
      invariant 0 <= i <= total == |frames|
      invariant actions + Schedule(frames, connected, stop, i) == Schedule(frames, connected, stop, 0)
      decreases total - i
    {
      var frame := CopyFrame(data, i);
      var send := if connected(i) then [SendFrame(frame)] else [];
      ScheduleAdvance(frames, connected, stop, i, actions);
      if i == total - 1 || stop == Some(i) {
        actions := actions + send;
        return;
      }
      actions := actions + send + [Sleep(FRAME_INTERVAL_MS)];
      i := i + 1;
    }
  }

  /**
   * One turn of the loop, given that what has been done so far followed by
   * the schedule from frame `i` is the whole schedule: after frame `i`'s send
   * the loop has either done everything or paused with the rest to do.
   */
  lemma ScheduleAdvance(frames: seq<seq<byte>>, connected: nat -> bool, stop: Option<nat>, i: nat, done: seq<Action>)
    requires i < |frames|
    requires done + Schedule(frames, connected, stop, i) == Schedule(frames, connected, stop, 0)
    ensures var send := if connected(i) then [SendFrame(frames[i])] else [];
      && (i == |frames| - 1 || stop == Some(i) ==> done + send == Schedule(frames, connected, stop, 0))
      && (i < |frames| - 1 && stop != Some(i) ==>
            (done + send + [Sleep(FRAME_INTERVAL_MS)]) + Schedule(frames, connected, stop, i + 1) == Schedule(frames, connected, stop, 0))
  {
    var send := if connected(i) then [SendFrame(frames[i])] else [];
    if i < |frames| - 1 && stop != Some(i) {
      var rest := Schedule(frames, connected, stop, i + 1);
      assert Schedule(frames, connected, stop, i) == send + [Sleep(FRAME_INTERVAL_MS)] + rest;
      RegroupAfterFirst(done, send, [Sleep(FRAME_INTERVAL_MS)], rest);
    }
  }

  /** The frames a schedule puts on the wire, in order. */
  function SentFrames(actions: seq<Action>): seq<seq<byte>>
    decreases |actions|
  {
    if |actions| == 0 then []
    else if actions[0].SendFrame? then [actions[0].frame] + SentFrames(actions[1..])
    else SentFrames(actions[1..])
  }

  /** The pauses in a schedule. */
  function Pauses(actions: seq<Action>): nat
    decreases |actions|
  {
    if |actions| == 0 then 0
    else (if actions[0].Sleep? then 1 else 0) + Pauses(actions[1..])
  }

  lemma SentFramesAppend(a: seq<Action>, b: seq<Action>)
    ensures SentFrames(a + b) == SentFrames(a) + SentFrames(b)
    ensures Pauses(a + b) == Pauses(a) + Pauses(b)
  {
    if |a| == 0 {
      assert a + b == b;
    } else {
      assert (a + b)[0] == a[0];
      assert (a + b)[1..] == a[1..] + b;
      SentFramesAppend(a[1..], b);
    }
  }

  /** With the connection up throughout and no interruption, frames `i..` all go out, 40 ms apart. */
  lemma {:induction false} ScheduleSendsAll(frames: seq<seq<byte>>, connected: nat -> bool, i: nat)
    requires i < |frames|
    requires forall j: nat :: connected(j)
    ensures SentFrames(Schedule(frames, connected, None, i)) == frames[i..]
    ensures Pauses(Schedule(frames, connected, None, i)) == |frames| - i - 1
    decreases |frames| - i
  {
    if i < |frames| - 1 {
      ScheduleSendsAll(frames, connected, i + 1);
      SentFramesAppend([SendFrame(frames[i])], [Sleep(FRAME_INTERVAL_MS)]);
      SentFramesAppend([SendFrame(frames[i])] + [Sleep(FRAME_INTERVAL_MS)], Schedule(frames, connected, None, i + 1));
      assert frames[i..] == [frames[i]] + frames[i + 1..];
    }
  }

  /**
   * Over a connection that stays up, the frames sent reassemble the client's
   * buffer exactly, with one 40 ms pause between consecutive frames.
   */
  lemma FramesReassemble(data: seq<byte>, connected: nat -> bool)
    requires |data| > 0
    requires forall j: nat :: connected(j)
    ensures Flatten(SentFrames(Schedule(Frames(data), connected, None, 0))) == data
    ensures Pauses(Schedule(Frames(data), connected, None, 0)) == FrameCount(|data|) - 1
  {
    ScheduleSendsAll(Frames(data), connected, 0);
    assert Frames(data)[0..] == Frames(data);
  }

  /** A frame observed while the connection is down is dropped, not retried. */
  lemma {:induction false} DisconnectedFrameIsDropped(frames: seq<seq<byte>>, connected: nat -> bool, stop: Option<nat>, i: nat)
    requires i < |frames| - 1 && stop != Some(i)
    requires !connected(i)
    ensures SentFrames(Schedule(frames, connected, stop, i)) == SentFrames(Schedule(frames, connected, stop, i + 1))
  {
    assert Schedule(frames, connected, stop, i) == [Sleep(FRAME_INTERVAL_MS)] + Schedule(frames, connected, stop, i + 1);
    SentFramesAppend([Sleep(FRAME_INTERVAL_MS)], Schedule(frames, connected, stop, i + 1));
  }

  /** An interruption during the pause after frame `k` ends the loop: only frames up to `k` can be sent. */
  lemma {:induction false} InterruptStopsSending(frames: seq<seq<byte>>, connected: nat -> bool, k: nat, i: nat)
    requires i <= k < |frames| - 1
    ensures Schedule(frames, connected, Some(k), i) == Schedule(frames[..k + 1], connected, None, i)
    decreases k - i
  {
    if i < k {
      InterruptStopsSending(frames, connected, k, i + 1);
    }
  }
}

=== FILE: audio_storage.dfy ===
/**
 * The per-session store that gathers synthesized audio before it is saved.
 *
 * Three maps keyed by session id hold the byte buffer, the count of chunks
 * appended and the file path chosen at start. The clock reading that names
 * the file is a parameter, and saving the file is reduced to whether the
 * write succeeds.
 */
module AudioStorage {
  import opened Wrappers
  import opened Strings
  import opened Seqs
  import JavaInts

  const STORAGE_DIR := "C:/test/ai_character_play/src/main/resources/audio"
  const FILE_PREFIX := "tts_audio_"
  const FILE_SUFFIX := ".mp3"
  /** How many leading characters of the session id name the file. */
  const ID_PREFIX_LENGTH: nat := 8

  datatype Store = Store(
    buffers: map<string, seq<byte>>,
    counters: map<string, int>,
    paths: map<string, string>)

  datatype Info = Info(sessionId: string, chunkCount: int, totalSize: int, filePath: Option<string>)

  function Empty(): (st: Store)
    ensures Inv(st) && ActiveSessions(st) == {}
  {
    Store(map[], map[], map[])
  }

  /**
   * Every session with a buffer has a counter and vice versa; a path exists
   * only for a session with a buffer, and always for one whose id is long
   * enough to name a file.
   */
  ghost predicate Inv(st: Store) {
    && st.counters.Keys == st.buffers.Keys
    && st.paths.Keys <= st.buffers.Keys
    && (forall id :: id in st.buffers && |id| >= ID_PREFIX_LENGTH ==> id in st.paths)
    && (forall id :: id in st.paths ==> |id| >= ID_PREFIX_LENGTH)
  }

  /** The file a session's audio is saved to, named by its id's first eight characters and the start time. */
  function FilePath(id: string, stamp: string): (p: string)
    requires |id| >= ID_PREFIX_LENGTH
    ensures StartsWith(p, STORAGE_DIR + "/" + FILE_PREFIX + id[..ID_PREFIX_LENGTH] + "_")
    ensures EndsWith(p, FILE_SUFFIX)
  {
    var p := STORAGE_DIR + "/" + FILE_PREFIX + id[..ID_PREFIX_LENGTH] + "_" + stamp + FILE_SUFFIX;
    assert p[..|STORAGE_DIR + "/" + FILE_PREFIX + id[..ID_PREFIX_LENGTH] + "_"|] == STORAGE_DIR + "/" + FILE_PREFIX + id[..ID_PREFIX_LENGTH] + "_";
    p
  }

  /**
   * startAudioSession: an empty buffer and a zero counter, replacing any
   * existing ones, and the file path. An id shorter than eight characters
   * makes the path's substring throw after the buffer and counter were
   * stored; `ok` is false then.
   */
  function Start(st: Store, id: string, stamp: string): (r: (Store, bool))
    ensures r.1 <==> |id| >= ID_PREFIX_LENGTH
    ensures id in r.0.buffers && r.0.buffers[id] == [] && id in r.0.counters && r.0.counters[id] == 0
    ensures r.1 ==> r.0.paths == st.paths[id := FilePath(id, stamp)]
    ensures !r.1 ==> r.0.paths == st.paths
    ensures forall k :: k != id ==> Session(r.0, k) == Session(st, k)
  {
    var st1 := st.(buffers := st.buffers[id := []], counters := st.counters[id := 0]);
    if |id| >= ID_PREFIX_LENGTH then (st1.(paths := st.paths[id := FilePath(id, stamp)]), true)
    else (st1, false)
  }

  /** Everything the store holds for one session. */
  function Session(st: Store, id: string): (Option<seq<byte>>, Option<int>, Option<string>) {
    (if id in st.buffers then Some(st.buffers[id]) else None,
     if id in st.counters then Some(st.counters[id]) else None,
     if id in st.paths then Some(st.paths[id]) else None)
  }

  /** The bytes appended to a started session's buffer and its counter incremented, or -1 when the write fails. */
  function Append(st: Store, id: string, data: seq<byte>, writeFails: bool): (r: (Store, Option<int>))
    requires id in st.buffers && id in st.counters
    ensures r.1.Some?
    ensures writeFails ==> r == (st, Some(-1))
    ensures !writeFails ==> r.0 == st.(buffers := st.buffers[id := st.buffers[id] + data], counters := st.counters[id := r.1.value])
    ensures !writeFails ==> r.1.value == JavaInts.ToInt32(st.counters[id] + 1)
  {
    if writeFails then (st, Some(-1))
    else
      var n := JavaInts.ToInt32(st.counters[id] + 1);
      (st.(buffers := st.buffers[id := st.buffers[id] + data], counters := st.counters[id := n]), Some(n))
  }

  /**
   * addAudioChunk: an unknown session is started first (and the call
   * throws, giving `None`, where that start throws); then the bytes are
   * appended and the incremented counter returned, or -1 with nothing
   * appended when the buffer write fails (`writeFails`).
   */
  function AddChunk(st: Store, id: string, data: seq<byte>, stamp: string, writeFails: bool): (r: (Store, Option<int>))
    ensures r.1.None? <==> ((id !in st.buffers || id !in st.counters) && |id| < ID_PREFIX_LENGTH)
    ensures r.1.Some? && !writeFails ==> (
      && var before := if id in st.buffers && id in st.counters then st.buffers[id] else [];
      && var count := if id in st.buffers && id in st.counters then st.counters[id] else 0;
      && id in r.0.buffers && id in r.0.counters
      && r.0.buffers[id] == before + data
      && r.1.value == r.0.counters[id] == JavaInts.ToInt32(count + 1))
    ensures r.1.Some? && writeFails ==> r.1.value == -1
  {
    if id in st.buffers && id in st.counters then Append(st, id, data, writeFails)
    else
      var started := Start(st, id, stamp);
      if !started.1 then (started.0, None)
      else Append(started.0, id, data, writeFails)
  }

  lemma AppendKeepsInv(st: Store, id: string, data: seq<byte>, writeFails: bool)
    requires Inv(st) && id in st.buffers && id in st.counters
    ensures Inv(Append(st, id, data, writeFails).0)
  {
  }

  lemma AppendIsLocal(st: Store, id: string, data: seq<byte>, writeFails: bool, k: string)
    requires id in st.buffers && id in st.counters && k != id
    ensures Session(Append(st, id, data, writeFails).0, k) == Session(st, k)
  {
  }

  /** Appending touches no other session, and keeps the store's invariant. */
  lemma AddChunkIsLocal(st: Store, id: string, data: seq<byte>, stamp: string, writeFails: bool)
    requires Inv(st)
    ensures Inv(AddChunk(st, id, data, stamp, writeFails).0)
    ensures forall k :: k != id ==> Session(AddChunk(st, id, data, stamp, writeFails).0, k) == Session(st, k)
  {
    if id in st.buffers && id in st.counters {
      AppendKeepsInv(st, id, data, writeFails);
      forall k | k != id ensures Session(AddChunk(st, id, data, stamp, writeFails).0, k) == Session(st, k) {
        AppendIsLocal(st, id, data, writeFails, k);
      }
    } else {
      var started := Start(st, id, stamp);
      StartKeepsInv(st, id, stamp);
      if started.1 {
        AppendKeepsInv(started.0, id, data, writeFails);
        forall k | k != id ensures Session(AddChunk(st, id, data, stamp, writeFails).0, k) == Session(st, k) {
          AppendIsLocal(started.0, id, data, writeFails, k);
        }
      }
    }
  }

  /** getSessionInfo: `None` for a session without a buffer. */
  function GetInfo(st: Store, id: string): (r: Option<Info>)
    ensures r.Some? <==> id in st.buffers
    ensures r.Some? ==> r.value.sessionId == id && r.value.totalSize == |st.buffers[id]|
    ensures r.Some? ==> r.value.chunkCount == (if id in st.counters then st.counters[id] else 0)
    ensures r.Some? ==> r.value.filePath == (if id in st.paths then Some(st.paths[id]) else None)
  {
    if id !in st.buffers then None
    else Some(Info(id,
                   if id in st.counters then st.counters[id] else 0,
                   |st.buffers[id]|,
                   if id in st.paths then Some(st.paths[id]) else None))
  }

  /** The store without anything for `id`. */
  function Forget(st: Store, id: string): (r: Store)
    ensures Session(r, id) == (None, None, None)
    ensures forall k :: k != id ==> Session(r, k) == Session(st, k)
  {
    Store(st.buffers - {id}, st.counters - {id}, st.paths - {id})
  }

  /**
   * finishAudioSession: everything for the session is removed; the path is
   * returned when the session had a buffer and a path, the buffer is not
   * empty and the file write succeeds (`writeOk`).
   */
  function Finish(st: Store, id: string, writeOk: bool): (r: (Store, Option<string>))
    ensures r.0 == Forget(st, id)
    ensures r.1.Some? <==> id in st.buffers && id in st.paths && st.buffers[id] != [] && writeOk
    ensures r.1.Some? ==> r.1.value == st.paths[id]
  {
    if id !in st.buffers || id !in st.paths then (Forget(st, id), None)
    else if st.buffers[id] == [] then (Forget(st, id), None)
    else if !writeOk then (Forget(st, id), None)
    else (Forget(st, id), Some(st.paths[id]))
  }

  /** cleanupSession: everything for the session is removed, nothing is written. */
  function Cleanup(st: Store, id: string): (r: Store)
    ensures ActiveSessions(r) == ActiveSessions(st) - {id}
    ensures Session(r, id) == (None, None, None)
    ensures forall k :: k != id ==> Session(r, k) == Session(st, k)
  {
    Forget(st, id)
  }

  /** getActiveSessions: the sessions that hold a buffer. */
  function ActiveSessions(st: Store): (ids: set<string>)
    ensures forall id :: id in ids <==> GetInfo(st, id).Some?
  {
    st.buffers.Keys
  }

  lemma StartKeepsInv(st: Store, id: string, stamp: string)
    requires Inv(st)
    ensures Inv(Start(st, id, stamp).0)
  {
  }

  lemma ForgetKeepsInv(st: Store, id: string)
    requires Inv(st)
    ensures Inv(Forget(st, id))
  {
  }

  /** The chunks appended to one session in turn, with the values each call returned. */
  function AddAll(st: Store, id: string, chunks: seq<seq<byte>>, stamp: string): (r: (Store, seq<Option<int>>))
    ensures |r.1| == |chunks|
    decreases |chunks|
  {
    if |chunks| == 0 then (st, [])
    else
      var first := AddChunk(st, id, chunks[0], stamp, false);
      var rest := AddAll(first.0, id, chunks[1..], stamp);
      (rest.0, [first.1] + rest.1)
  }

  /**
   * From a freshly started session, n appended chunks return 1, 2, ..., n,
   * and afterwards the session reports n chunks and a size equal to the
   * sum of their lengths, its buffer holding their concatenation.
   */
  lemma {:induction false} AddAllCounts(st: Store, id: string, chunks: seq<seq<byte>>, stamp: string, start: nat)
    requires id in st.buffers && id in st.counters
    requires st.counters[id] == start && start + |chunks| <= JavaInts.INT_MAX
    ensures var r := AddAll(st, id, chunks, stamp);
      && (forall i :: 0 <= i < |r.1| ==> r.1[i] == Some(start + i + 1))
      && id in r.0.buffers && r.0.buffers[id] == st.buffers[id] + Flatten(chunks)
      && GetInfo(r.0, id) == Some(Info(id, start + |chunks|, |st.buffers[id]| + |Flatten(chunks)|, Session(st, id).2))
    decreases |chunks|
  {
    if |chunks| > 0 {
      var first := AddChunk(st, id, chunks[0], stamp, false);
      var st1 := first.0;
      assert first == Append(st, id, chunks[0], false);
      assert first.1 == Some(start + 1) && st1.counters[id] == start + 1;
      assert st1.buffers[id] == st.buffers[id] + chunks[0];
      assert st1.paths == st.paths;
      AddAllCounts(st1, id, chunks[1..], stamp, start + 1);
      assert Flatten(chunks) == chunks[0] + Flatten(chunks[1..]);
      var ns := AddAll(st, id, chunks, stamp).1;
      var ns1 := AddAll(st1, id, chunks[1..], stamp).1;
      assert ns == [first.1] + ns1;
      forall i | 0 <= i < |ns| ensures ns[i] == Some(start + i + 1) {
        if i > 0 { assert ns[i] == ns1[i - 1]; }
      }
    } else {
      assert Flatten(chunks) == [];
      assert st.buffers[id] + Flatten(chunks) == st.buffers[id];
    }
  }

  /** A session started and then filled reports its chunks and bytes; finishing it returns its path. */
  lemma StartFillFinish(st: Store, id: string, chunks: seq<seq<byte>>, stamp: string)
    requires |id| >= ID_PREFIX_LENGTH && |chunks| <= JavaInts.INT_MAX
    requires Flatten(chunks) != []
    ensures var st1 := Start(st, id, stamp).0;
      var st2 := AddAll(st1, id, chunks, stamp).0;
      && GetInfo(st2, id) == Some(Info(id, |chunks|, |Flatten(chunks)|, Some(FilePath(id, stamp))))
      && Finish(st2, id, true) == (Forget(st2, id), Some(FilePath(id, stamp)))
  {
    var st1 := Start(st, id, stamp).0;
    AddAllCounts(st1, id, chunks, stamp, 0);
    var st2 := AddAll(st1, id, chunks, stamp).0;
    assert Session(st1, id).2 == Some(FilePath(id, stamp));
    assert st2.buffers[id] == Flatten(chunks);
  }

  /** Appending to an unknown session with a long enough id starts it: the first call returns 1. */
  lemma FirstChunkStartsSession(st: Store, id: string, data: seq<byte>, stamp: string)
    requires Inv(st) && id !in st.buffers && |id| >= ID_PREFIX_LENGTH
    ensures var r := AddChunk(st, id, data, stamp, false);
      r.1 == Some(1) && GetInfo(r.0, id) == Some(Info(id, 1, |data|, Some(FilePath(id, stamp))))
  {
  }

  /** A session with a short id holds a buffer but no path, so finishing it returns nothing. */
  lemma ShortIdNeverSaves(st: Store, id: string, stamp: string, data: seq<byte>)
    requires Inv(st) && |id| < ID_PREFIX_LENGTH
    ensures var st1 := Start(st, id, stamp).0;
      && id in ActiveSessions(st1)
      && Finish(AddChunk(st1, id, data, stamp, false).0, id, true).1 == None
  {
  }
}

=== FILE: chat_store.dfy ===
/**
 * The browser's chat store: the list of messages, the assistant message
 * being streamed into (`current`) and the conversation state.
 *
 * The store's current message is the very object pushed onto the list, so
 * updating it updates the list; here it is the index of that message.
 * Message ids and timestamps come from the clock and a random source and
 * are parameters.
 */
module ChatStore {
  import opened Wrappers

  datatype Role = User | Assistant
  datatype Status = Partial | Final
  datatype ChatState = Idle | Listening | Thinking | Speaking

  datatype Message = Message(id: string, role: Role, content: string, timestamp: int, status: Status)

  datatype Store = Store(messages: seq<Message>, current: Option<nat>, state: ChatState)

  const EMPTY := Store([], None, Idle)

  /** The current message, when there is one, is on the list. */
  predicate Valid(s: Store) {
    s.current.Some? ==> s.current.value < |s.messages|
  }

  function MessageCount(s: Store): (n: nat)
    ensures n == |s.messages|
  {
    |s.messages|
  }

  predicate IsActive(s: Store) {
    s.state != Idle
  }

  /** addMessage: the message, stamped with a new id and the time, goes at the end and is returned. */
  function AddMessage(s: Store, role: Role, content: string, status: Status, id: string, now: int): (r: (Store, Message))
    ensures r.0.messages == s.messages + [r.1]
    ensures r.1 == Message(id, role, content, now, status)
    ensures r.0.current == s.current && r.0.state == s.state
    ensures Valid(s) ==> Valid(r.0)
  {
    var m := Message(id, role, content, now, status);
    (s.(messages := s.messages + [m]), m)
  }

  /**
   * updateCurrentMessage: without a current message a new assistant
   * message is added and becomes current; otherwise the current message
   * takes the text and status in place.
   */
  function UpdateCurrentMessage(s: Store, text: string, status: Status, id: string, now: int): (r: Store)
    requires Valid(s)
    ensures Valid(r) && r.current.Some? && r.state == s.state
    ensures var i := r.current.value;
      && r.messages[i].content == text && r.messages[i].status == status
    ensures s.current.None? ==> && r.messages == s.messages + [Message(id, Assistant, text, now, status)]
                                && r.current == Some(|s.messages|)
    ensures s.current.Some? ==> && |r.messages| == |s.messages| && r.current == s.current
                                && (forall j | 0 <= j < |s.messages| && j != s.current.value :: r.messages[j] == s.messages[j])
                                && var i := s.current.value;
                                   r.messages[i] == s.messages[i].(content := text, status := status)
  {
    match s.current
    case None =>
      var (s', _) := AddMessage(s, Assistant, text, status, id, now);
      s'.(current := Some(|s.messages|))
    case Some(i) =>
      s.(messages := s.messages[i := s.messages[i].(content := text, status := status)])
  }

  /** finalizeCurrent: the current message is marked final and is no longer current; without one nothing changes. */
  function FinalizeCurrent(s: Store): (r: Store)
    requires Valid(s)
    ensures Valid(r) && r.current.None? && |r.messages| == |s.messages| && r.state == s.state
    ensures s.current.None? ==> r == s
    ensures s.current.Some? ==> && r.messages[s.current.value] == s.messages[s.current.value].(status := Final)
                                && forall j | 0 <= j < |s.messages| && j != s.current.value :: r.messages[j] == s.messages[j]
  {
    match s.current
    case None => s
    case Some(i) => Store(s.messages[i := s.messages[i].(status := Final)], None, s.state)
  }

  function SetChatState(s: Store, state: ChatState): (r: Store)
    ensures r.state == state && r.messages == s.messages && r.current == s.current
    ensures IsActive(r) <==> state != Idle
  {
    s.(state := state)
  }

  /** clearMessages: no messages, none current, idle. */
  function ClearMessages(s: Store): (r: Store)
    ensures MessageCount(r) == 0 && r.current.None? && !IsActive(r) && Valid(r)
  {
    EMPTY
  }

  /** A stream of updates to the reply, in order. */
  function Stream(s: Store, texts: seq<string>, id: string, now: int): (r: Store)
    requires Valid(s)
    ensures Valid(r)
    ensures |texts| > 0 ==> r.current.Some?
    decreases |texts|
  {
    if texts == [] then s
    else Stream(UpdateCurrentMessage(s, texts[0], Partial, id, now), texts[1..], id, now)
  }

  /**
   * A reply streamed from no current message and then finalized is exactly
   * one new assistant message at the end of the list, holding the last text
   * and marked final; earlier messages are untouched.
   */
  lemma {:induction false} StreamedReplyBecomesOneMessage(s: Store, texts: seq<string>, id: string, now: int)
    requires Valid(s) && s.current.None? && |texts| > 0
    ensures var r := FinalizeCurrent(Stream(s, texts, id, now));
      && r.messages == s.messages + [Message(id, Assistant, texts[|texts| - 1], now, Final)]
      && r.current.None? && r.state == s.state
  {
    var s1 := UpdateCurrentMessage(s, texts[0], Partial, id, now);
    assert s1.messages == s.messages + [Message(id, Assistant, texts[0], now, Partial)];
    StreamKeepsOpenMessage(s1, texts[1..], id, now);
    var r1 := Stream(s1, texts[1..], id, now);
    if |texts| == 1 {
      assert r1 == s1;
    } else {
      assert texts[1..][|texts[1..]| - 1] == texts[|texts| - 1];
    }
  }

  /**
   * Streaming into an open message at the end of the list keeps it the only
   * change: the list keeps its length and the message ends with the last text.
   */
  lemma {:induction false} StreamKeepsOpenMessage(s: Store, texts: seq<string>, id: string, now: int)
    requires Valid(s) && s.current == Some(|s.messages| - 1)
    requires s.messages[|s.messages| - 1].role == Assistant && s.messages[|s.messages| - 1].id == id
    requires s.messages[|s.messages| - 1].timestamp == now
    ensures var r := Stream(s, texts, id, now);
      && |r.messages| == |s.messages| && r.current == s.current && r.state == s.state
      && r.messages[..|s.messages| - 1] == s.messages[..|s.messages| - 1]
      && r.messages[|s.messages| - 1].role == Assistant && r.messages[|s.messages| - 1].id == id
      && r.messages[|s.messages| - 1].timestamp == now
      && r.messages[|s.messages| - 1].status == (if texts == [] then s.messages[|s.messages| - 1].status else Partial)
      && (texts != [] ==> r.messages[|s.messages| - 1].content == texts[|texts| - 1])
      && (texts == [] ==> r == s)
    decreases |texts|
  {
    if texts != [] {
      var s1 := UpdateCurrentMessage(s, texts[0], Partial, id, now);
      assert s1.messages[..|s.messages| - 1] == s.messages[..|s.messages| - 1];
      StreamKeepsOpenMessage(s1, texts[1..], id, now);
      if |texts| > 1 {
        assert texts[1..][|texts[1..]| - 1] == texts[|texts| - 1];
      }
    }
  }

  /** Finalizing twice is finalizing once. */
  lemma FinalizeIdempotent(s: Store)
    requires Valid(s)
    ensures FinalizeCurrent(FinalizeCurrent(s)) == FinalizeCurrent(s)
  {
  }
}

=== FILE: chunk_processor.dfy ===
/**
 * The browser-side chunker: a long run of samples is cut into chunks of
 * exactly `frameSize` samples, the last one padded with silence, and every
 * chunk gets the next sequence number and the time it was made.
 *
 * Samples are the 16-bit values the floats convert to (the float
 * conversion is not modelled); a chunk's data is the Int16Array's bytes.
 * The clock is a parameter: `clock(n)` is the time read when chunk `n` is
 * made.
 */
module ChunkProcessor {
  import opened Wrappers
  import opened Seqs
  import VoiceLink

  datatype Config = Config(sampleRate: nat, channels: nat, bitDepth: nat, frameSize: nat)

  /** 16-bit mono at 16 kHz, 40 ms (640 samples) per chunk. */
  const AUDIO_CONFIG := Config(16000, 1, 16, 640)
  /** The same format with 20 ms (320 samples) per chunk. */
  const AUDIO_CONFIG_20MS := Config(16000, 1, 16, 320)

  /**
   * A chunk as the validator sees it: a field is `None` where it is not a
   * number (or, for the data, not an ArrayBuffer).
   */
  datatype Chunk = Chunk(seqNo: Option<int>, timestamp: Option<int>, data: Option<seq<byte>>)

  datatype Processor = Processor(seqNo: nat, config: Config)

  function New(config: Config): (p: Processor)
    ensures p.seqNo == 0 && p.config == config
  {
    Processor(0, config)
  }

  /** reset: numbering starts again from 0. */
  function Reset(p: Processor): (r: Processor)
    ensures r.seqNo == 0 && r.config == p.config
  {
    p.(seqNo := 0)
  }

  /** getCurrentSeq: the number the next chunk will get. */
  function CurrentSeq(p: Processor): nat {
    p.seqNo
  }

  /** createChunk: the current number, the time, and a copy of the bytes; the counter moves on by one. */
  function CreateChunk(p: Processor, pcm: seq<int>, now: int): (r: (Processor, Chunk))
    ensures r.0.seqNo == p.seqNo + 1 && r.0.config == p.config
    ensures r.1.seqNo == Some(p.seqNo as int) && r.1.timestamp == Some(now)
    ensures r.1.data == Some(VoiceLink.PcmBytes(pcm))
  {
    (p.(seqNo := p.seqNo + 1), Chunk(Some(p.seqNo), Some(now), Some(VoiceLink.PcmBytes(pcm))))
  }

  /** `n` samples of silence. */
  function Zeros(n: nat): (z: seq<int>)
    ensures |z| == n && forall i :: 0 <= i < n ==> z[i] == 0
  {
    seq(n, _ => 0)
  }

  /** `k` is n / size rounded up: the least count of size-sample chunks that holds n samples. */
  predicate IsChunkCount(k: nat, n: nat, size: nat) {
    n <= k * size < n + size
  }

  /**
   * The frames of `processLargeAudio`: successive slices of `size`
   * samples, the last one short if need be and then padded with zeros.
   */
  function Frames(audio: seq<int>, size: nat): (fs: seq<seq<int>>)
    requires size > 0
    ensures forall i :: 0 <= i < |fs| ==> |fs[i]| == size
    decreases |audio|
  {
    if |audio| == 0 then []
    else if |audio| < size then [audio + Zeros(size - |audio|)]
    else [audio[..size]] + Frames(audio[size..], size)
  }

  /** There are ⌈n / size⌉ frames, none for no samples. */
  lemma {:induction false} FramesCount(audio: seq<int>, size: nat)
    requires size > 0
    ensures IsChunkCount(|Frames(audio, size)|, |audio|, size)
    decreases |audio|
  {
    if |audio| >= size {
      var k := |Frames(audio[size..], size)|;
      FramesCount(audio[size..], size);
      assert (k + 1) * size == k * size + size;
    }
  }

  /** The frames run together are the samples followed by the padding and nothing else. */
  lemma {:induction false} FramesCover(audio: seq<int>, size: nat)
    requires size > 0
    ensures |Frames(audio, size)| * size >= |audio|
    ensures Flatten(Frames(audio, size)) == audio + Zeros(|Frames(audio, size)| * size - |audio|)
    decreases |audio|
  {
    var fs := Frames(audio, size);
    if |audio| == 0 {
      assert Flatten<int>([]) == [];
      assert audio + Zeros(0) == [];
    } else if |audio| < size {
      FlattenCons(audio + Zeros(size - |audio|), []);
      assert Flatten<int>([]) == [];
    } else {
      var rest := Frames(audio[size..], size);
      FramesCover(audio[size..], size);
      FlattenCons(audio[..size], rest);
      var pad := |rest| * size - |audio[size..]|;
      assert |fs| == |rest| + 1 && |audio| == |audio[size..]| + size;
      assert (|rest| + 1) * size == |rest| * size + size;
      calc {
        Flatten(fs);
        audio[..size] + Flatten(rest);
        audio[..size] + (audio[size..] + Zeros(pad));
        (audio[..size] + audio[size..]) + Zeros(pad);
        { assert audio[..size] + audio[size..] == audio; }
        audio + Zeros(pad);
      }
    }
  }

  /** Makes one chunk per frame, in order. */
  function Emit(p: Processor, frames: seq<seq<int>>, clock: nat -> int): (r: (Processor, seq<Chunk>))
    ensures r.0.seqNo == p.seqNo + |frames| && r.0.config == p.config
    ensures |r.1| == |frames|
    ensures forall i :: 0 <= i < |frames| ==>
      r.1[i] == Chunk(Some(p.seqNo + i), Some(clock(p.seqNo + i)), Some(VoiceLink.PcmBytes(frames[i])))
    decreases |frames|
  {
    if |frames| == 0 then (p, [])
    else
      var first := CreateChunk(p, frames[0], clock(p.seqNo));
      var rest := Emit(first.0, frames[1..], clock);
      (rest.0, [first.1] + rest.1)
  }

  /**
   * processLargeAudio. A frame size of 0 would make the source loop
   * forever on any samples, so it is excluded.
   */
  function ProcessLarge(p: Processor, audio: seq<int>, clock: nat -> int): (r: (Processor, seq<Chunk>))
    requires p.config.frameSize > 0
    ensures r.0.config == p.config
    ensures r.0.seqNo == p.seqNo + |r.1|
    ensures |r.1| == |Frames(audio, p.config.frameSize)|
    ensures IsChunkCount(|r.1|, |audio|, p.config.frameSize)
    ensures forall i :: 0 <= i < |r.1| ==>
      && r.1[i].seqNo == Some(p.seqNo + i)
      && r.1[i].data == Some(VoiceLink.PcmBytes(Frames(audio, p.config.frameSize)[i]))
  {
    FramesCount(audio, p.config.frameSize);
    Emit(p, Frames(audio, p.config.frameSize), clock)
  }

  /**
   * validateChunk: numbers for seq and timestamp, an ArrayBuffer, and
   * exactly frameSize × bitDepth / 8 bytes (compared without rounding, as
   * the source's floating-point division does for these values).
   */
  predicate Valid(config: Config, c: Option<Chunk>) {
    && c.Some?
    && c.value.seqNo.Some?
    && c.value.timestamp.Some?
    && c.value.data.Some?
    && 8 * |c.value.data.value| == config.frameSize * config.bitDepth
  }

  /** Under a 16-bit format every chunk of processLargeAudio validates. */
  lemma ChunksValidate(p: Processor, audio: seq<int>, clock: nat -> int)
    requires p.config.frameSize > 0 && p.config.bitDepth == 16
    ensures forall c <- ProcessLarge(p, audio, clock).1 :: Valid(p.config, Some(c))
  {
    var r := ProcessLarge(p, audio, clock);
    forall c <- r.1
      ensures Valid(p.config, Some(c))
    {
      var i :| 0 <= i < |r.1| && r.1[i] == c;
      assert |Frames(audio, p.config.frameSize)[i]| == p.config.frameSize;
    }
  }

  /** A chunk of the wrong size does not validate, whatever its other fields. */
  lemma WrongSizeIsInvalid(config: Config, c: Chunk)
    requires c.data.Some? && 8 * |c.data.value| != config.frameSize * config.bitDepth
    ensures !Valid(config, Some(c))
  {
  }

  predicate AllInt16(s: seq<int>) {
    forall i :: 0 <= i < |s| ==> VoiceLink.IsInt16(s[i])
  }

  lemma {:induction false} FramesInt16(audio: seq<int>, size: nat)
    requires size > 0 && AllInt16(audio)
    ensures forall i :: 0 <= i < |Frames(audio, size)| ==> AllInt16(Frames(audio, size)[i])
    decreases |audio|
  {
    if |audio| >= size {
      FramesInt16(audio[size..], size);
    }
  }

  /**
   * Reading every chunk's bytes back as 16-bit samples and running them
   * together gives the samples processed, then silence to fill the last
   * chunk.
   */
  lemma ChunksCarryAudio(p: Processor, audio: seq<int>, clock: nat -> int)
    requires p.config.frameSize > 0 && AllInt16(audio)
    ensures var fs := Frames(audio, p.config.frameSize);
      var r := ProcessLarge(p, audio, clock);
      && (forall i :: 0 <= i < |r.1| ==> VoiceLink.PcmSamples(r.1[i].data.value) == fs[i])
      && Flatten(fs) == audio + Zeros(|r.1| * p.config.frameSize - |audio|)
  {
    var fs := Frames(audio, p.config.frameSize);
    var r := ProcessLarge(p, audio, clock);
    FramesInt16(audio, p.config.frameSize);
    forall i | 0 <= i < |r.1|
      ensures VoiceLink.PcmSamples(r.1[i].data.value) == fs[i]
    {
      VoiceLink.PcmRoundTrip(fs[i]);
    }
    FramesCover(audio, p.config.frameSize);
  }

  /** Two calls in a row number their chunks without a gap or a repeat; a reset starts again from 0. */
  lemma NumberingContinues(p: Processor, a: seq<int>, b: seq<int>, clock: nat -> int)
    requires p.config.frameSize > 0
    ensures var r1 := ProcessLarge(p, a, clock);
      var r2 := ProcessLarge(r1.0, b, clock);
      && CurrentSeq(r2.0) == p.seqNo + |r1.1| + |r2.1|
      && (|r2.1| > 0 ==> r2.1[0].seqNo == Some(p.seqNo + |r1.1|))
      && (|r2.1| > 0 ==> ProcessLarge(Reset(r1.0), b, clock).1[0].seqNo == Some(0))
  {
  }
}

=== FILE: connection_store.dfy ===
/**
 * The browser's connection store: the status of the three channels
 * (recognition audio, reply text, synthesis), the session id and the
 * per-channel error messages, with the aggregate status the page shows.
 */
module ConnectionStore {

  datatype Status = Disconnected | Connecting | Connected | Error

  datatype Channel = Audio | Text | Tts

  datatype Connections = Connections(audio: Status, text: Status, tts: Status)

  datatype Store = Store(connections: Connections, sessionId: string, errors: map<string, string>)

  const ALL_DISCONNECTED := Connections(Disconnected, Disconnected, Disconnected)
  const INITIAL := Store(ALL_DISCONNECTED, "", map[])

  function Get(c: Connections, ch: Channel): Status {
    match ch
    case Audio => c.audio
    case Text => c.text
    case Tts => c.tts
  }

  predicate AnyIs(c: Connections, s: Status) {
    exists ch: Channel :: Get(c, ch) == s
  }

  lemma AnyIsByChannel(c: Connections, s: Status)
    ensures AnyIs(c, s) <==> c.audio == s || c.text == s || c.tts == s
  {
    if c.audio == s { assert Get(c, Audio) == s; }
    if c.text == s { assert Get(c, Text) == s; }
    if c.tts == s { assert Get(c, Tts) == s; }
  }

  /** isAllConnected: every channel is connected. */
  predicate IsAllConnected(c: Connections) {
    c.audio == Connected && c.text == Connected && c.tts == Connected
  }

  /**
   * connectionStatus: connected when all are; otherwise connecting if any
   * is, else error if any channel failed, else disconnected.
   */
  function Aggregate(c: Connections): (s: Status)
    ensures s == Connected <==> forall ch: Channel :: Get(c, ch) == Connected
    ensures s == Connecting <==> !IsAllConnected(c) && AnyIs(c, Connecting)
    ensures s == Error <==> !IsAllConnected(c) && !AnyIs(c, Connecting) && AnyIs(c, Error)
    ensures s == Disconnected <==> !IsAllConnected(c) && !AnyIs(c, Connecting) && !AnyIs(c, Error)
  {
    AnyIsByChannel(c, Connecting);
    AnyIsByChannel(c, Error);
    assert IsAllConnected(c) <==> forall ch: Channel :: Get(c, ch) == Connected by {
      if !IsAllConnected(c) {
        assert Get(c, Audio) != Connected || Get(c, Text) != Connected || Get(c, Tts) != Connected;
      }
    }
    if IsAllConnected(c) then Connected
    else if c.audio == Connecting || c.text == Connecting || c.tts == Connecting then Connecting
    else if c.audio == Error || c.text == Error || c.tts == Error then Error
    else Disconnected
  }

  /** updateConnectionState: the named channel takes the new status; the others keep theirs. */
  function Update(st: Store, ch: Channel, s: Status): (r: Store)
    ensures Get(r.connections, ch) == s
    ensures forall other: Channel | other != ch :: Get(r.connections, other) == Get(st.connections, other)
    ensures r.sessionId == st.sessionId && r.errors == st.errors
  {
    var c := st.connections;
    var c' := match ch
      case Audio => c.(audio := s)
      case Text => c.(text := s)
      case Tts => c.(tts := s);
    st.(connections := c')
  }

  predicate HasErrors(st: Store) {
    |st.errors.Keys| > 0
  }

  function SetError(st: Store, kind: string, message: string): (r: Store)
    ensures kind in r.errors && r.errors[kind] == message && HasErrors(r)
    ensures forall k | k != kind :: (k in r.errors <==> k in st.errors) && (k in st.errors ==> r.errors[k] == st.errors[k])
  {
    assert kind in st.errors[kind := message].Keys;
    st.(errors := st.errors[kind := message])
  }

  function ClearError(st: Store, kind: string): (r: Store)
    ensures kind !in r.errors && r.errors == st.errors - {kind}
    ensures r.connections == st.connections
  {
    st.(errors := st.errors - {kind})
  }

  /** Setting and then clearing the only error leaves none. */
  lemma ClearTheOnlyError(st: Store, kind: string, message: string)
    requires !HasErrors(st)
    ensures HasErrors(SetError(st, kind, message))
    ensures !HasErrors(ClearError(SetError(st, kind, message), kind))
  {
    assert st.errors == map[];
    var r := ClearError(SetError(st, kind, message), kind);
    assert r.errors == map[];
  }

  function ClearAllErrors(st: Store): (r: Store)
    ensures !HasErrors(r) && r.connections == st.connections && r.sessionId == st.sessionId
  {
    st.(errors := map[])
  }

  function SetSessionId(st: Store, id: string): (r: Store)
    ensures r.sessionId == id && r.connections == st.connections && r.errors == st.errors
  {
    st.(sessionId := id)
  }

  /** resetConnections: every channel disconnected, no session, no errors. */
  function Reset(st: Store): (r: Store)
    ensures Aggregate(r.connections) == Disconnected && !HasErrors(r) && r.sessionId == ""
    ensures forall ch: Channel :: Get(r.connections, ch) == Disconnected
  {
    INITIAL
  }

  /** One channel failing while another connects reads as connecting, not as an error. */
  lemma ConnectingOutranksError(st: Store)
    ensures var r := Update(Update(Reset(st), Audio, Error), Text, Connecting);
      Aggregate(r.connections) == Connecting
  {
    var r := Update(Update(Reset(st), Audio, Error), Text, Connecting);
    assert Get(r.connections, Text) == Connecting;
  }

  /** Connecting the three channels one by one reaches connected only with the last. */
  lemma ConnectedOnlyWhenAll(st: Store)
    ensures var a := Update(st, Audio, Connected);
      var b := Update(a, Text, Connected);
      var c := Update(b, Tts, Connected);
      && Aggregate(c.connections) == Connected
      && (st.connections.tts != Connected ==> Aggregate(b.connections) != Connected)
  {
    var b := Update(Update(st, Audio, Connected), Text, Connected);
    if st.connections.tts != Connected {
      assert Get(b.connections, Tts) != Connected;
    }
  }
}

=== FILE: error_handling.dfy ===
/**
 * The error-handler composable: the page's current error, its retry count
 * as last read from the shared error manager, and manual retry.
 *
 * The composable and the manager are one state `Both`. A handler's retry
 * callback is run synchronously; its outcome is a parameter.
 */
module ErrorHandling {
  import opened Wrappers
  import opened AppErrors
  import ErrorManager

  datatype Local = Local(current: Option<AppError>, isRetrying: bool, retryCount: nat)

  datatype Both = Both(local: Local, manager: ErrorManager.Manager)

  const CLEAR := Local(None, false, 0)
  const MANUAL_RETRY_LIMIT: nat := 3

  /** The error types worth retrying. */
  predicate Retryable(t: ErrorType) {
    t in {NetworkError, WebsocketError, SseError, ConnectionLost, SessionTimeout}
  }

  lemma RetryableTypes(t: ErrorType)
    ensures Retryable(t) <==> t == NetworkError || t == WebsocketError || t == SseError || t == ConnectionLost || t == SessionTimeout
    ensures !Retryable(PermissionDenied) && !Retryable(TtsTimeout) && !Retryable(AudioContextError)
    ensures !Retryable(MicrophoneError) && !Retryable(AudioPlaybackError)
  {
  }

  predicate HasError(l: Local) {
    l.current.Some?
  }

  /** canRetry: an error is present, fewer than three retries are counted, and its type is retryable. */
  predicate CanRetry(l: Local) {
    l.current.Some? && l.retryCount < MANUAL_RETRY_LIMIT && Retryable(l.current.value.kind)
  }

  /**
   * handleError: the new error becomes current with the manager's count for
   * its type, then the manager handles it.
   */
  function HandleError(b: Both, t: ErrorType, message: string, severity: Severity, now: int): (r: (Both, seq<ErrorManager.Effect>))
    ensures r.0.local.current == Some(AppError(t, message, severity, now))
    ensures r.0.local.retryCount == ErrorManager.RetryCount(b.manager, t)
    ensures r.0.local.isRetrying == b.local.isRetrying
    ensures (r.0.manager, r.1) == ErrorManager.HandleError(b.manager, AppError(t, message, severity, now))
  {
    var e := AppError(t, message, severity, now);
    var h := ErrorManager.HandleError(b.manager, e);
    (Both(b.local.(current := Some(e), retryCount := ErrorManager.RetryCount(b.manager, t)), h.0), h.1)
  }

  /** The typed helpers that may register their own handler first. */
  datatype Helper = Network(message: string) | Websocket(audio: bool) | Sse | Tts | Session

  /** The type, message and severity each helper reports. */
  function HelperError(k: Helper): (r: (ErrorType, string, Severity))
  {
    match k
    case Network(m) => (NetworkError, m, High)
    case Websocket(audio) => (WebsocketError, (if audio then "音频" else "TTS") + "WebSocket连接失败", High)
    case Sse => (SseError, "SSE连接失败", Medium)
    case Tts => (TtsTimeout, "TTS服务响应超时", Medium)
    case Session => (SessionTimeout, "会话已超时", Medium)
  }

  /** The handler a helper registers when given a callback: a retry, or for the synthesis timeout a fallback. */
  function HelperHandler(k: Helper): (h: ErrorManager.Handler)
    ensures h.kind == HelperError(k).0
    ensures h.retry <==> !k.Tts?
    ensures h.fallback <==> k.Tts?
  {
    match k
    case Network(m) => ErrorManager.Handler(NetworkError, m, High, true, false, Some("网络连接失败，正在尝试重新连接..."))
    case Websocket(audio) => ErrorManager.Handler(WebsocketError, (if audio then "音频" else "TTS") + "WebSocket连接失败", High, true, false, Some("连接服务器失败，正在尝试重新连接..."))
    case Sse => ErrorManager.Handler(SseError, "SSE连接失败", Medium, true, false, Some("文本流连接失败，正在尝试重新连接..."))
    case Tts => ErrorManager.Handler(TtsTimeout, "TTS服务响应超时", Medium, false, true, Some("语音生成较慢，已切换到纯文本模式"))
    case Session => ErrorManager.Handler(SessionTimeout, "会话已超时", Medium, true, false, Some("会话已过期，正在重新建立连接..."))
  }

  /** handleNetworkError and its siblings: register the helper's handler when a callback is given, then handle. */
  function HandleHelper(b: Both, k: Helper, hasCallback: bool, now: int): (r: (Both, seq<ErrorManager.Effect>))
  {
    var m := if hasCallback then ErrorManager.Register(b.manager, HelperError(k).0, HelperHandler(k)) else b.manager;
    HandleError(b.(manager := m), HelperError(k).0, HelperError(k).1, HelperError(k).2, now)
  }

  /**
   * A helper given a retry callback, from a zero count, schedules the
   * manager's first retry; the synthesis-timeout helper given a fallback
   * runs it.
   */
  lemma HelperWithCallback(b: Both, k: Helper, now: int)
    requires ErrorManager.RetryCount(b.manager, HelperError(k).0) == 0 && b.manager.config.retry.maxRetries > 0
    ensures var r := HandleHelper(b, k, true, now);
      && |r.1| > 0
      && (!k.Tts? ==> r.1[|r.1| - 1] == ErrorManager.ScheduleRetry(Backoff(b.manager.config.retry, 0)))
      && (k.Tts? ==> r.1[|r.1| - 1] == ErrorManager.Fallback)
      && r.0.local.current.Some? && r.0.local.current.value.kind == HelperError(k).0
  {
    var t := HelperError(k).0;
    var m := ErrorManager.Register(b.manager, t, HelperHandler(k));
    assert ErrorManager.RetryCount(m, t) == 0;
    ErrorManager.HandleErrorChoice(m, AppError(t, HelperError(k).1, HelperError(k).2, now));
  }

  /**
   * clearError: the manager forgets the count for the current error's type
   * and the local state is cleared.
   */
  function ClearError(b: Both): (r: Both)
    ensures r.local == CLEAR && !HasError(r.local) && !CanRetry(r.local)
    ensures b.local.current.Some? ==> ErrorManager.RetryCount(r.manager, b.local.current.value.kind) == 0
    ensures b.local.current.None? ==> r.manager == b.manager
  {
    var m := if b.local.current.Some? then ErrorManager.ResetRetryCount(b.manager, b.local.current.value.kind) else b.manager;
    Both(CLEAR, m)
  }

  /**
   * retry: nothing unless a retry is allowed; then the handler's retry
   * callback runs, and only its success clears the error.
   */
  function Retry(b: Both, ok: bool): (r: Both)
    ensures !CanRetry(b.local) ==> r == b
    ensures CanRetry(b.local) ==> !r.local.isRetrying
  {
    if !CanRetry(b.local) then b
    else
      var t := b.local.current.value.kind;
      if t in b.manager.handlers && b.manager.handlers[t].retry && ok then ClearError(b)
      else b.(local := b.local.(isRetrying := false))
  }

  /** A retry clears the error exactly when it was allowed, the handler has a retry callback, and that succeeded. */
  lemma RetryClears(b: Both, ok: bool)
    ensures var t := if b.local.current.Some? then b.local.current.value.kind else NetworkError;
      !HasError(Retry(b, ok).local) <==>
        !HasError(b.local) || (CanRetry(b.local) && t in b.manager.handlers && b.manager.handlers[t].retry && ok)
  {
  }

  /** Three steps of guidance for every error type. */
  function Guidance(t: ErrorType): (g: seq<string>)
    ensures |g| == 3
  {
    match t
    case PermissionDenied => ["点击地址栏左侧的锁图标", "选择\"允许\"麦克风权限", "刷新页面重试"]
    case NetworkError => ["检查网络连接是否正常", "尝试刷新页面", "如问题持续，请联系技术支持"]
    case AudioContextError => ["确保浏览器支持Web Audio API", "检查音频设备是否正常", "尝试使用其他浏览器"]
    case WebsocketError => ["检查网络连接", "确认服务器状态正常", "稍后重试"]
    case SseError => ["检查网络连接", "刷新页面重试", "如问题持续，请联系技术支持"]
    case TtsTimeout => ["网络较慢，已切换到文本模式", "可以继续使用文字对话", "网络恢复后语音功能将自动恢复"]
    case SessionTimeout => ["会话已过期", "点击重新开始按钮", "重新建立连接"]
    case ConnectionLost => ["连接已断开", "正在尝试重新连接", "请稍等片刻"]
    case MicrophoneError => ["检查麦克风设备连接", "确认麦克风权限已开启", "尝试重新插拔麦克风"]
    case AudioPlaybackError => ["检查音频输出设备", "调整系统音量设置", "尝试刷新页面"]
  }
}

=== FILE: error_manager.dfy ===
/**
 * The browser client's error manager: a handler per error type, a retry
 * counter per type, and what handling an error does — a toast, a retry
 * scheduled after an exponential backoff, or the handler's fallback.
 *
 * Handler callbacks are abstracted to whether they are present; the
 * toasts, the retry timer and the fallback call are recorded as
 * `Effect`s. The timer firing is the explicit step `RetryFired`, with the
 * retry's outcome as a parameter.
 */
module ErrorManager {
  import opened Wrappers
  import opened AppErrors

  /** A registered handler; `retry` and `fallback` say whether those callbacks are present. */
  datatype Handler = Handler(kind: ErrorType, message: string, severity: Severity, retry: bool, fallback: bool, guidance: Option<string>)

  datatype Config = Config(showToast: bool, logErrors: bool, retry: RetryConfig)

  const DEFAULT_CONFIG := Config(true, true, DEFAULT_RETRY)
  const GENERIC_PREFIX := "发生未知错误: "
  const GENERIC_DURATION: nat := 5000

  datatype MessageKind = Info | Warning | Error

  datatype Effect =
    | Toast(text: string, kind: MessageKind, duration: nat)
    | ScheduleRetry(delay: nat)
    | Fallback

  datatype Manager = Manager(handlers: map<ErrorType, Handler>, attempts: map<ErrorType, nat>, config: Config)

  /** The handlers every manager starts with; none can retry and only the synthesis timeout has a fallback. */
  function DefaultHandlers(): map<ErrorType, Handler> {
    map[
      NetworkError := Handler(NetworkError, "网络连接失败，请检查网络设置", High, false, false, Some("请检查网络连接并重试")),
      PermissionDenied := Handler(PermissionDenied, "需要麦克风权限才能使用语音功能", High, false, false, Some("请在浏览器设置中允许麦克风权限，然后刷新页面重试")),
      WebsocketError := Handler(WebsocketError, "WebSocket连接失败", High, false, false, Some("连接服务器失败，请稍后重试")),
      SseError := Handler(SseError, "文本流连接失败", Medium, false, false, Some("文本接收出现问题，正在尝试重新连接")),
      TtsTimeout := Handler(TtsTimeout, "语音合成超时", Medium, false, true, Some("语音生成较慢，将显示纯文本回复")),
      AudioContextError := Handler(AudioContextError, "音频系统初始化失败", High, false, false, Some("音频功能不可用，请刷新页面重试")),
      SessionTimeout := Handler(SessionTimeout, "会话已超时", Medium, false, false, Some("会话已过期，请重新开始对话")),
      ConnectionLost := Handler(ConnectionLost, "连接已断开", High, false, false, Some("连接中断，正在尝试重新连接"))
    ]
  }

  function New(config: Config): (m: Manager)
    ensures m.attempts == map[] && m.handlers == DefaultHandlers() && m.config == config
  {
    Manager(DefaultHandlers(), map[], config)
  }

  /** The error types with no handler at start, and what the defaults can do. */
  lemma DefaultHandlerCoverage()
    ensures forall t :: t in DefaultHandlers() <==> t != MicrophoneError && t != AudioPlaybackError
    ensures forall t | t in DefaultHandlers() :: !DefaultHandlers()[t].retry && DefaultHandlers()[t].kind == t
    ensures forall t | t in DefaultHandlers() :: DefaultHandlers()[t].fallback <==> t == TtsTimeout
  {
  }

  /** registerHandler: the type's handler is replaced, no other changes. */
  function Register(m: Manager, t: ErrorType, h: Handler): (r: Manager)
    ensures t in r.handlers && r.handlers[t] == h
    ensures forall u | u != t :: (u in r.handlers <==> u in m.handlers) && (u in m.handlers ==> r.handlers[u] == m.handlers[u])
    ensures r.attempts == m.attempts && r.config == m.config
  {
    m.(handlers := m.handlers[t := h])
  }

  /** LOW shows as info, MEDIUM as a warning, HIGH and CRITICAL as errors. */
  function KindOf(s: Severity): (k: MessageKind)
    ensures k == Error <==> s == High || s == Critical
    ensures k == Info <==> s == Low
    ensures k == Warning <==> s == Medium
  {
    match s
    case Low => Info
    case Medium => Warning
    case High => Error
    case Critical => Error
  }

  /** How long a toast stays: 3 s, 5 s, 8 s, or until closed (0) for a critical error. */
  function Duration(s: Severity): (ms: nat)
    ensures ms == 0 <==> s == Critical
  {
    match s
    case Low => 3000
    case Medium => 5000
    case High => 8000
    case Critical => 0
  }

  /** The toast a handler shows: its guidance, or its message where the guidance is missing or empty. */
  function HandlerToast(h: Handler): (e: Effect)
    ensures e.Toast? && e.kind == KindOf(h.severity) && e.duration == Duration(h.severity)
    ensures h.guidance.Some? && h.guidance.value != "" ==> e.text == h.guidance.value
    ensures h.guidance.None? || h.guidance.value == "" ==> e.text == h.message
  {
    Toast(if h.guidance.Some? && h.guidance.value != "" then h.guidance.value else h.message, KindOf(h.severity), Duration(h.severity))
  }

  /** getRetryCount: 0 for a type never counted. */
  function RetryCount(m: Manager, t: ErrorType): (n: nat)
    ensures t !in m.attempts ==> n == 0
    ensures t in m.attempts ==> n == m.attempts[t]
  {
    if t in m.attempts then m.attempts[t] else 0
  }

  /** resetRetryCount. */
  function ResetRetryCount(m: Manager, t: ErrorType): (r: Manager)
    ensures RetryCount(r, t) == 0
    ensures forall u | u != t :: RetryCount(r, u) == RetryCount(m, u)
    ensures r.handlers == m.handlers && r.config == m.config
  {
    m.(attempts := m.attempts - {t})
  }

  predicate ShouldRetry(m: Manager, t: ErrorType) {
    RetryCount(m, t) < m.config.retry.maxRetries
  }

  /** executeWithRetry: the count goes up by one and the retry waits the backoff for the count before it. */
  function ExecuteWithRetry(m: Manager, t: ErrorType): (r: (Manager, nat))
    ensures RetryCount(r.0, t) == RetryCount(m, t) + 1
    ensures forall u | u != t :: RetryCount(r.0, u) == RetryCount(m, u)
    ensures r.0.handlers == m.handlers && r.0.config == m.config
    ensures r.1 == Backoff(m.config.retry, RetryCount(m, t))
  {
    var n := RetryCount(m, t);
    (m.(attempts := m.attempts[t := n + 1]), Backoff(m.config.retry, n))
  }

  /**
   * handleError: with no handler, a generic toast; otherwise the handler's
   * toast, then a scheduled retry if the handler can retry and the count
   * allows, else the fallback if there is one.
   */
  function HandleError(m: Manager, e: AppError): (r: (Manager, seq<Effect>))
    ensures e.kind !in m.handlers ==> r.0 == m && r.1 == (if m.config.showToast then [Toast(GENERIC_PREFIX + e.message, Error, GENERIC_DURATION)] else [])
    ensures r.0.handlers == m.handlers && r.0.config == m.config
    ensures forall u | u != e.kind :: RetryCount(r.0, u) == RetryCount(m, u)
  {
    if e.kind !in m.handlers then
      (m, if m.config.showToast then [Toast(GENERIC_PREFIX + e.message, Error, GENERIC_DURATION)] else [])
    else
      var h := m.handlers[e.kind];
      var toast := if m.config.showToast then [HandlerToast(h)] else [];
      if h.retry && ShouldRetry(m, e.kind) then
        var s := ExecuteWithRetry(m, e.kind);
        (s.0, toast + [ScheduleRetry(s.1)])
      else if h.fallback then (m, toast + [Fallback])
      else (m, toast)
  }

  /** The effects of handling an error, after the toast: a retry, the fallback, or nothing. */
  lemma HandleErrorChoice(m: Manager, e: AppError)
    requires e.kind in m.handlers
    ensures var h := m.handlers[e.kind];
      var r := HandleError(m, e);
      var n := if m.config.showToast then 1 else 0;
      && |r.1| >= n
      && (n == 1 ==> r.1[0] == HandlerToast(h))
      && (h.retry && ShouldRetry(m, e.kind) <==> r.1[n..] == [ScheduleRetry(Backoff(m.config.retry, RetryCount(m, e.kind)))])
      && (r.1[n..] == [Fallback] <==> !(h.retry && ShouldRetry(m, e.kind)) && h.fallback)
      && (RetryCount(r.0, e.kind) == RetryCount(m, e.kind) + (if h.retry && ShouldRetry(m, e.kind) then 1 else 0))
  {
  }

  /**
   * The retry timer fires, as written: success clears the count; failure
   * schedules another retry while the count allows, and otherwise does
   * nothing.
   */
  function RetryFired(m: Manager, t: ErrorType, ok: bool): (r: (Manager, seq<Effect>))
    ensures ok ==> RetryCount(r.0, t) == 0 && r.1 == []
    ensures r.0.handlers == m.handlers && r.0.config == m.config
    ensures !ok && ShouldRetry(m, t) ==>
      RetryCount(r.0, t) == RetryCount(m, t) + 1 && r.1 == [ScheduleRetry(Backoff(m.config.retry, RetryCount(m, t)))]
  {
    if ok then (ResetRetryCount(m, t), [])
    else if ShouldRetry(m, t) then
      var s := ExecuteWithRetry(m, t);
      (s.0, [ScheduleRetry(s.1)])
    else (m, [])
  }

  /** As written, a failed last retry runs no fallback even when the handler has one. */
  lemma ExhaustedRetryRunsNoFallback(m: Manager, t: ErrorType)
    requires t in m.handlers && m.handlers[t].fallback
    requires !ShouldRetry(m, t)
    ensures RetryFired(m, t, false).1 == []
  {
  }

  /**
   * The retry timer fires, with the fallback the manager's own comment
   * promises once the retries are used up.
   */
  function RetryFiredWithFallback(m: Manager, t: ErrorType, ok: bool): (r: (Manager, seq<Effect>))
    ensures ok ==> RetryCount(r.0, t) == 0 && r.1 == []
    ensures r.0.handlers == m.handlers && r.0.config == m.config
    ensures !ok ==> (|r.1| > 0 <==> ShouldRetry(m, t) || (t in m.handlers && m.handlers[t].fallback))
    ensures !ok && !ShouldRetry(m, t) ==> r.0 == m && (r.1 == [Fallback] <==> t in m.handlers && m.handlers[t].fallback)
    ensures !ok && ShouldRetry(m, t) ==> RetryCount(r.0, t) == RetryCount(m, t) + 1
  {
    if ok || ShouldRetry(m, t) then RetryFired(m, t, ok)
    else if t in m.handlers && m.handlers[t].fallback then (m, [Fallback])
    else (m, [])
  }

  /** The corrected step differs from the written one only where the retries are used up. */
  lemma FallbackOnlyAtExhaustion(m: Manager, t: ErrorType, ok: bool)
    ensures ok || ShouldRetry(m, t) ==> RetryFiredWithFallback(m, t, ok) == RetryFired(m, t, ok)
    ensures !ok && !ShouldRetry(m, t) ==> RetryFiredWithFallback(m, t, ok).0 == RetryFired(m, t, ok).0
  {
  }

  /** The delays of the retries scheduled when every retry fails, ending with the fallback if any. */
  function FailChain(m: Manager, t: ErrorType): (r: (Manager, seq<Effect>))
    decreases m.config.retry.maxRetries - RetryCount(m, t)
  {
    var step := RetryFiredWithFallback(m, t, false);
    if ShouldRetry(m, t) then
      var rest := FailChain(step.0, t);
      (rest.0, step.1 + rest.1)
    else step
  }

  /**
   * When every retry fails, the retries already counted plus those the
   * chain schedules reach exactly maxRetries; retry k waits the backoff for
   * k, and the chain ends with the fallback exactly when the handler has
   * one.
   */
  lemma {:induction false} FailChainSchedule(m: Manager, t: ErrorType)
    requires RetryCount(m, t) <= m.config.retry.maxRetries
    ensures var r := FailChain(m, t);
      var c := RetryCount(m, t);
      var n := m.config.retry.maxRetries - c;
      var fb := t in m.handlers && m.handlers[t].fallback;
      && |r.1| == n + (if fb then 1 else 0)
      && (forall i :: 0 <= i < n ==> r.1[i] == ScheduleRetry(Backoff(m.config.retry, c + i)))
      && (fb ==> r.1[n] == Fallback)
      && RetryCount(r.0, t) == m.config.retry.maxRetries
    decreases m.config.retry.maxRetries - RetryCount(m, t)
  {
    var step := RetryFiredWithFallback(m, t, false);
    if ShouldRetry(m, t) {
      var c := RetryCount(m, t);
      assert step.1 == [ScheduleRetry(Backoff(m.config.retry, c))];
      assert RetryCount(step.0, t) == c + 1;
      FailChainSchedule(step.0, t);
      var rest := FailChain(step.0, t);
      assert FailChain(m, t).1 == step.1 + rest.1;
      forall i | 1 <= i < m.config.retry.maxRetries - c
        ensures (step.1 + rest.1)[i] == ScheduleRetry(Backoff(m.config.retry, c + i))
      {
        assert (step.1 + rest.1)[i] == rest.1[i - 1];
      }
    }
  }

  /**
   * From a zero count, an error whose handler can retry leads to exactly
   * maxRetries attempts when all of them fail, waiting 1 s, 2 s and 4 s
   * under the default configuration.
   */
  lemma AttemptsFromZero(m: Manager, e: AppError)
    requires e.kind in m.handlers && m.handlers[e.kind].retry && !m.handlers[e.kind].fallback
    requires RetryCount(m, e.kind) == 0 && m.config.retry.maxRetries > 0
    ensures var h := HandleError(m, e);
      var chain := FailChain(h.0, e.kind);
      && h.1[|h.1| - 1] == ScheduleRetry(Backoff(m.config.retry, 0))
      && |chain.1| + 1 == m.config.retry.maxRetries
      && (forall i :: 0 <= i < |chain.1| ==> chain.1[i] == ScheduleRetry(Backoff(m.config.retry, i + 1)))
  {
    var h := HandleError(m, e);
    HandleErrorChoice(m, e);
    FailChainSchedule(h.0, e.kind);
  }
}

=== FILE: ints.dfy ===
/** Java's 32-bit and 64-bit integer arithmetic, written out over unbounded integers. */
module JavaInts {
  const INT_MIN: int := -0x8000_0000
  const INT_MAX: int := 0x7fff_ffff
  const LONG_MIN: int := -0x8000_0000_0000_0000
  const LONG_MAX: int := 0x7fff_ffff_ffff_ffff

  predicate IsInt(n: int) { INT_MIN <= n <= INT_MAX }
  predicate IsLong(n: int) { LONG_MIN <= n <= LONG_MAX }

  /** The low 32 bits of `n` read as a two's-complement `int` (Java's narrowing and overflow). */
  function ToInt32(n: int): (r: int)
    ensures IsInt(r)
    ensures IsInt(n) ==> r == n
    ensures (r - n) % 0x1_0000_0000 == 0
  {
    (n - INT_MIN) % 0x1_0000_0000 + INT_MIN
  }

  /** Java's integer division, which rounds toward zero. */
  function JavaDiv(a: int, b: int): (q: int)
    requires b > 0
    ensures a >= 0 ==> q == a / b
    ensures a < 0 ==> q <= 0
  {
    if a >= 0 then a / b else -((-a) / b)
  }
}

=== FILE: json.dfy ===
/**
 * Parsed JSON documents and the lookups the services perform on them.
 *
 * The accessors follow the org.json library the recognition code uses:
 * `get…` lookups fail (org.json throws a JSONException) when the member is
 * missing or of the wrong kind, `opt…` lookups fall back to a default.
 * Numbers are integers; no relayed field carries a fraction.
 */
module Json {
  import opened Wrappers
  import opened Strings
  import JavaInts

  datatype Json =
    | JNull
    | JBool(b: bool)
    | JNum(n: int)
    | JStr(s: string)
    | JArr(items: seq<Json>)
    | JObj(fields: map<string, Json>)

  type Fields = map<string, Json>

  /** org.json `has`: the key is present, even when its value is `null`. */
  predicate Has(o: Fields, key: string) {
    key in o
  }

  /** org.json `getJSONObject(key)`. */
  function GetObject(o: Fields, key: string): (r: Option<Fields>)
    ensures r.Some? <==> key in o && o[key].JObj?
  {
    if key in o && o[key].JObj? then Some(o[key].fields) else None
  }

  /** org.json `getJSONArray(key)`. */
  function GetArray(o: Fields, key: string): (r: Option<seq<Json>>)
    ensures r.Some? <==> key in o && o[key].JArr?
  {
    if key in o && o[key].JArr? then Some(o[key].items) else None
  }

  /** org.json `getString(key)`: only a string member qualifies. */
  function GetString(o: Fields, key: string): (r: Option<string>)
    ensures r.Some? <==> key in o && o[key].JStr?
  {
    if key in o && o[key].JStr? then Some(o[key].s) else None
  }

  /** org.json `JSONArray.getJSONObject(i)`. */
  function ObjectAt(a: seq<Json>, i: nat): (r: Option<Fields>)
    ensures r.Some? <==> i < |a| && a[i].JObj?
  {
    if i < |a| && a[i].JObj? then Some(a[i].fields) else None
  }

  /**
   * org.json `optString(key, default)`: the default for a missing or `null`
   * member, the text of a string, a boolean or a number otherwise.
   */
  function OptString(o: Fields, key: string, default: string): (r: string)
    ensures key in o && o[key].JStr? ==> r == o[key].s
    ensures (key !in o || o[key].JNull?) ==> r == default
  {
    if key !in o then default
    else match o[key]
      case JStr(s) => s
      case JBool(b) => if b then "true" else "false"
      case JNum(n) => IntToString(n)
      case _ => default
  }

  /**
   * org.json `optInt(key, default)`: a number narrowed to 32 bits, a string
   * that reads as a decimal integer (leading `-` allowed, leading `+` not),
   * and the default for anything else.
   */
  function OptInt(o: Fields, key: string, default: int): (r: int)
    ensures key in o && o[key].JNum? && JavaInts.IsInt(o[key].n) ==> r == o[key].n
    ensures key !in o ==> r == default
  {
    if key !in o then default
    else match o[key]
      case JNum(n) => JavaInts.ToInt32(n)
      case JStr(s) =>
        if |s| > 0 && s[0] == '+' then default
        else (match ParseInteger(s)
          case Some(v) => JavaInts.ToInt32(v)
          case None => default)
      case _ => default
  }
}

=== FILE: primitives.dfy ===
/**
 * The cryptographic and text codecs the services call into.
 *
 * Their internals are outside this model: each is a field of a record of
 * functions that the operations take as a parameter, so every property
 * proved here holds whatever the codecs compute.
 */
module Primitives {
  import opened Wrappers

  datatype Codecs = Codecs(
    /** Base64 encoding, section 4 of RFC 4648 (java.util.Base64 encoder). */
    base64Encode: seq<byte> -> string,
    /** Base64 decoding on the server; `None` where the decoder throws. */
    base64Decode: string -> Option<seq<byte>>,
    /** The browser's `atob` followed by the byte copy; `None` where it throws. */
    atob: string -> Option<seq<byte>>,
    /** UTF-8 encoding of a string. */
    utf8: string -> seq<byte>,
    /** URLEncoder.encode(_, "UTF-8") on the server. */
    urlEncode: string -> string,
    /** Percent-encoding of a query value by the HTTP client's URL builder. */
    queryEncode: string -> string,
    /** HMAC-SHA1 (RFC 2104) of a message under a key. */
    hmacSha1: (seq<byte>, seq<byte>) -> seq<byte>,
    /** HMAC-SHA256 (RFC 2104) of a message under a key. */
    hmacSha256: (seq<byte>, seq<byte>) -> seq<byte>)
}

=== FILE: realtime_asr.dfy ===
/**
 * The untagged recognition service: the same session bookkeeping as the
 * tagging service, but no start message is sent, results are emitted as
 * plain text, nothing else is triggered by a result, and ending a session
 * completes its stream and cleans it up.
 */
module RealtimeAsr {
  import opened Wrappers
  import opened Streams
  import opened AsrPool
  import opened AsrSessions
  import opened Transcripts
  import Json

  /** startRealtimeASR: the shared start, without a start message. */
  function StartRealtime(s: State, sid: SessionId, newStream: StreamId, newId: ConnId, url: string, opens: bool): (r: State)
    requires Inv(s) && newStream !in s.streams && newId !in s.pool.conns
    ensures Inv(r)
    ensures r.wire == s.wire
    ensures sid in r.sinks ==> sid in r.connections && r.connections[sid] in r.handlers && r.handlers[r.connections[sid]] == r.sinks[sid]
  {
    StartKeepsInv(s, sid, newStream, newId, url, opens, false);
    Start(s, sid, newStream, newId, url, opens, false)
  }

  /** A vendor text message on `c`: a parsed result is emitted, untagged, to the handler's stream. */
  function Vendor(s: State, c: ConnId, msg: Option<Json.Json>): (r: State)
    requires Inv(s) && c in s.pool.conns
    ensures Inv(r)
    ensures r.wire == s.wire && r.sinks == s.sinks && r.connections == s.connections && r.handlers == s.handlers
    ensures r.streams.Keys == s.streams.Keys
  {
    var (s1, delivered) := Listen(s, c, msg);
    if !delivered || c !in s1.handlers then s1
    else match ParseUntagged(msg)
      case None => s1
      case Some(t) =>
        EmitTo(s1, s1.handlers[c], t)
  }

  /** A recognized result reaching the handler is emitted as its bare text, whatever its type. */
  lemma VendorEmitsText(s: State, c: ConnId, msg: Option<Json.Json>)
    requires Inv(s) && c in s.pool.conns && c in s.handlers
    requires OnText(s.pool.conns[c], msg).1
    requires Extract(msg).Some?
    ensures var k := s.handlers[c];
      Vendor(s, c, msg).streams[k] == Emit(s.streams[k], Extract(msg).value.text)
  {
  }

  /** sendAudioData: the shared framing path. */
  function SendAudioData(s: State, sid: SessionId, data: seq<byte>, connected: nat -> bool, stop: Option<nat>): (r: State)
    requires Inv(s)
    ensures Inv(r)
    ensures r.streams == s.streams && r.sinks == s.sinks && r.connections == s.connections
  {
    Audio(s, sid, data, connected, stop)
  }

  /**
   * endASR as written: send the end message, complete the stream, then
   * clean up, which sends the end message a second time before returning
   * the connection.
   */
  function EndAsrAsWritten(s: State, sid: SessionId): (r: State)
    requires Inv(s)
    ensures Inv(r)
    ensures sid !in r.sinks && sid !in r.connections
  {
    var s1 :=
      if sid in s.connections then
        var c := s.connections[sid];
        s.(wire := s.wire + Send(c, SendEnd(s.pool.conns[c])))
      else s;
    var s2 :=
      if sid in s1.sinks then
        var k := s1.sinks[sid];
        s1.(streams := s1.streams[k := Complete(s1.streams[k])])
      else s1;
    Cleanup(s2, sid)
  }

  /**
   * endASR as evidently intended: one end message, the stream completed, both
   * entries removed and the connection returned, which is the cleanup alone.
   */
  function EndAsr(s: State, sid: SessionId): (r: State)
    requires Inv(s)
    ensures Inv(r)
    ensures sid !in r.sinks && sid !in r.connections
    ensures sid in s.sinks ==> s.sinks[sid] in r.streams && !r.streams[s.sinks[sid]].status.Open?
    ensures sid in s.connections ==> (var c := s.connections[sid];
      r.wire == s.wire + Send(c, SendEnd(s.pool.conns[c])))
    ensures sid !in s.connections ==> r.wire == s.wire
  {
    Cleanup(s, sid)
  }

  /**
   * As written, ending a session whose connection is up writes the same end
   * message twice; otherwise it agrees with the intended endASR.
   */
  lemma EndAsrSendsEndTwice(s: State, sid: SessionId)
    requires Inv(s)
    ensures var e := if sid in s.connections then Send(s.connections[sid], SendEnd(s.pool.conns[s.connections[sid]])) else [];
      && EndAsr(s, sid).wire == s.wire + e
      && EndAsrAsWritten(s, sid) == EndAsr(s, sid).(wire := s.wire + e + e)
  {
    var e := if sid in s.connections then Send(s.connections[sid], SendEnd(s.pool.conns[s.connections[sid]])) else [];
    var s1 := if sid in s.connections then s.(wire := s.wire + e) else s;
    assert s1.wire == s.wire + e;
    if sid in s.sinks {
      var k := s.sinks[sid];
      assert Complete(Complete(s.streams[k])) == Complete(s.streams[k]);
    }
  }

  /** For a live connection the duplicate is a real second frame. */
  lemma LiveSessionGetsTwoEndMessages(s: State, sid: SessionId)
    requires Inv(s) && sid in s.connections && s.pool.conns[s.connections[sid]].connected
    ensures var c := s.connections[sid]; var end := (c, TextFrame(EndMessage(s.pool.conns[c].sessionId)));
      EndAsrAsWritten(s, sid).wire == s.wire + [end, end]
  {
    EndAsrSendsEndTwice(s, sid);
  }

  /** cleanupSession: the shared cleanup, run by the stream's cancel, complete and error hooks. */
  function CleanupSession(s: State, sid: SessionId): (r: State)
    requires Inv(s)
    ensures Inv(r)
    ensures sid !in r.sinks && sid !in r.connections
  {
    Cleanup(s, sid)
  }
}

=== FILE: retry_mechanism.dfy ===
/**
 * The retry composable: an operation is run until it succeeds or the
 * retries run out, sleeping an exponential backoff between attempts.
 *
 * The operation is a parameter: `operation(k)` is what the k-th call
 * (counting from 0) yields, `None` where it throws. Sleeps are recorded as
 * the `(attempt, delay)` pairs handed to the `onRetry` callback before each
 * wait; `clock(k)` is the time read before the k-th wait.
 */
module RetryMechanism {
  import opened Wrappers
  import opened AppErrors

  datatype State = State(currentAttempt: nat, isRetrying: bool, lastRetryTime: int)

  /** The state `reset` leaves. */
  const RESET := State(0, false, 0)

  predicate CanRetry(c: RetryConfig, s: State) {
    s.currentAttempt < c.maxRetries
  }

  /** nextRetryDelay: 0 once no retry is left, the backoff for the current attempt before that. */
  function NextRetryDelay(c: RetryConfig, s: State): (d: nat)
    ensures !CanRetry(c, s) ==> d == 0
    ensures CanRetry(c, s) ==> d == Backoff(c, s.currentAttempt) && d <= c.maxDelay
  {
    if !CanRetry(c, s) then 0 else Backoff(c, s.currentAttempt)
  }

  /** The wait after the k-th failure (k from 1), read as the source reads it: after counting the failure. */
  function WaitAfterFailure(c: RetryConfig, k: nat): nat {
    NextRetryDelay(c, State(k, true, 0))
  }

  /**
   * executeWithRetry. The operation runs at most maxRetries + 1 times; it
   * stops at the first success, whose value is returned; otherwise the
   * last failure is passed on (`None`). Either way the state is reset.
   */
  method ExecuteWithRetry<T>(c: RetryConfig, operation: nat -> Option<T>, clock: nat -> int)
    returns (calls: nat, notices: seq<(nat, nat)>, result: Option<T>, s: State)
    ensures 1 <= calls <= c.maxRetries + 1
    ensures forall k :: 0 <= k < calls - 1 ==> operation(k).None?
    ensures result == operation(calls - 1)
    ensures result.None? ==> calls == c.maxRetries + 1
    ensures |notices| == calls - 1
    ensures forall i :: 0 <= i < |notices| ==> notices[i] == (i + 1, WaitAfterFailure(c, i + 1))
    ensures s == RESET
  {
    var attempt: nat := 0;
    s := RESET;
    notices := [];
    calls := 0;
    while true
      invariant attempt <= c.maxRetries
      invariant calls == attempt && |notices| == attempt
      invariant forall i :: 0 <= i < attempt ==> notices[i] == (i + 1, WaitAfterFailure(c, i + 1))
      invariant forall k :: 0 <= k < attempt ==> operation(k).None?
      invariant s.currentAttempt == attempt
      decreases c.maxRetries - attempt
    {
      calls := calls + 1;
      result := operation(attempt);
      if result.Some? {
        s := RESET;
        return;
      }
      attempt := attempt + 1;
      if attempt > c.maxRetries {
        s := RESET;
        return;
      }
      var delay := NextRetryDelay(c, s.(currentAttempt := attempt));
      s := State(attempt, true, clock(attempt));
      notices := notices + [(attempt, delay)];
    }
  }

  /** The waits an all-failing run sleeps, in order. */
  function Waits(c: RetryConfig): (w: seq<nat>)
    ensures |w| == c.maxRetries
  {
    seq(c.maxRetries, i requires 0 <= i < c.maxRetries => WaitAfterFailure(c, i + 1))
  }

  /**
   * As written, the default configuration waits 2 s, 4 s and then not at
   * all: the first wait skips the initial delay and the last retry runs at
   * once.
   */
  lemma DefaultWaitsAsWritten()
    ensures Waits(DEFAULT_RETRY) == [2000, 4000, 0]
  {
    DefaultBackoff();
  }

  /**
   * The same loop reading the delay before counting the failure, so retry
   * k waits the backoff for k - 1.
   */
  method ExecuteWithBackoff<T>(c: RetryConfig, operation: nat -> Option<T>, clock: nat -> int)
    returns (calls: nat, notices: seq<(nat, nat)>, result: Option<T>, s: State)
    ensures 1 <= calls <= c.maxRetries + 1
    ensures forall k :: 0 <= k < calls - 1 ==> operation(k).None?
    ensures result == operation(calls - 1)
    ensures result.None? ==> calls == c.maxRetries + 1
    ensures |notices| == calls - 1
    ensures forall i :: 0 <= i < |notices| ==> notices[i] == (i + 1, Backoff(c, i))
    ensures s == RESET
  {
    var attempt: nat := 0;
    s := RESET;
    notices := [];
    calls := 0;
    while true
      invariant attempt <= c.maxRetries
      invariant calls == attempt && |notices| == attempt
      invariant forall i :: 0 <= i < attempt ==> notices[i] == (i + 1, Backoff(c, i))
      invariant forall k :: 0 <= k < attempt ==> operation(k).None?
      invariant s.currentAttempt == attempt
      decreases c.maxRetries - attempt
    {
      calls := calls + 1;
      result := operation(attempt);
      if result.Some? {
        s := RESET;
        return;
      }
      if attempt + 1 > c.maxRetries {
        s := RESET;
        return;
      }
      var delay := NextRetryDelay(c, s);
      attempt := attempt + 1;
      s := State(attempt, true, clock(attempt));
      notices := notices + [(attempt, delay)];
    }
  }

  /** With the delay read first, the default waits are 1 s, 2 s and 4 s. */
  lemma DefaultWaitsCorrected()
    ensures seq(3, i requires 0 <= i < 3 => Backoff(DEFAULT_RETRY, i)) == [1000, 2000, 4000]
  {
    DefaultBackoff();
  }

  /**
   * retryConnection: true when some attempt succeeds, false once all have
   * failed; it never fails itself. Progress reports carry the attempt, the
   * retry limit and the wait.
   */
  method RetryConnection(c: RetryConfig, connect: nat -> bool, clock: nat -> int)
    returns (ok: bool, progress: seq<(nat, nat, nat)>)
    ensures ok <==> exists k :: 0 <= k <= c.maxRetries && connect(k)
    ensures forall i :: 0 <= i < |progress| ==> progress[i] == (i + 1, c.maxRetries, WaitAfterFailure(c, i + 1))
    ensures |progress| <= c.maxRetries
    ensures forall k :: 0 <= k < |progress| ==> !connect(k)
    ensures ok ==> connect(|progress|)
    ensures !ok ==> |progress| == c.maxRetries
  {
    var attempt: nat -> Option<()> := (k: nat) => if connect(k) then Some(()) else None;
    var calls, notices, result, s := ExecuteWithRetry(c, attempt, clock);
    ok := result.Some?;
    progress := seq(|notices|, i requires 0 <= i < |notices| => (notices[i].0, c.maxRetries, notices[i].1));
    forall k | 0 <= k < |progress|
      ensures !connect(k)
    {
      assert attempt(k).None?;
    }
    if ok {
      assert attempt(calls - 1).Some?;
    }
    if !ok {
      forall k | 0 <= k <= c.maxRetries
        ensures !connect(k)
      {
        assert attempt(k).None?;
      }
    }
  }
}

=== FILE: seqs.dfy ===
/** Sequence helpers shared by the framing, text and queue models. */
module Seqs {

  /** The sequences run together in order. */
  function Flatten<T>(xs: seq<seq<T>>): seq<T>
    decreases |xs|
  {
    if |xs| == 0 then [] else xs[0] + Flatten(xs[1..])
  }

  lemma FlattenCons<T>(x: seq<T>, xs: seq<seq<T>>)
    ensures Flatten([x] + xs) == x + Flatten(xs)
  {
    assert ([x] + xs)[1..] == xs;
  }

  /** What precedes the first piece can be grouped with it. */
  lemma FlattenConsAfter<T>(p: seq<T>, x: seq<T>, xs: seq<seq<T>>)
    ensures (p + x) + Flatten(xs) == p + Flatten([x] + xs)
  {
    FlattenCons(x, xs);
  }

  /** Regrouping a four-part concatenation around its first part. */
  lemma RegroupAfterFirst<T>(a: seq<T>, b: seq<T>, c: seq<T>, d: seq<T>)
    ensures (a + b + c) + d == a + (b + c + d)
  {
  }

  lemma FlattenAppend<T>(a: seq<seq<T>>, b: seq<seq<T>>)
    ensures Flatten(a + b) == Flatten(a) + Flatten(b)
  {
    if |a| == 0 {
      assert a + b == b;
    } else {
      assert (a + b)[0] == a[0];
      assert (a + b)[1..] == a[1..] + b;
      FlattenAppend(a[1..], b);
    }
  }

  lemma FlattenSnoc<T>(a: seq<seq<T>>, x: seq<T>)
    ensures Flatten(a + [x]) == Flatten(a) + x
  {
    FlattenAppend(a, [x]);
    assert Flatten([x]) == x + Flatten([x][1..]);
  }
}

=== FILE: session_registry.dfy ===
/**
 * The registry of open client sockets, keyed by socket session id.
 *
 * A socket is either open or closed, and a write to it either succeeds or
 * throws an I/O error (`broken`). Every send goes only to a registered, open
 * socket; a socket whose write throws is dropped from the registry, and the
 * caller never sees the error. The frames that were written are kept in
 * order in `sent`.
 */
module SessionRegistry {
  import opened Wrappers

  type SessionId = string

  datatype Socket = Socket(open: bool, broken: bool)

  /** A frame written to a client socket. */
  datatype Frame = TextOut(text: string) | BinaryOut(bytes: seq<byte>)

  datatype Registry = Registry(sessions: map<SessionId, Socket>, sent: seq<(SessionId, Frame)>)

  function Empty(): (r: Registry)
    ensures Count(r) == 0 && r.sent == []
  {
    Registry(map[], [])
  }

  /** Registers a socket, replacing any socket already under that id. */
  function Add(r: Registry, id: SessionId, s: Socket): (r': Registry)
    ensures Get(r', id) == Some(s)
    ensures forall k :: k != id ==> Get(r', k) == Get(r, k)
    ensures r'.sent == r.sent
  {
    r.(sessions := r.sessions[id := s])
  }

  /** Forgets a socket; a no-op for an unknown id. */
  function Remove(r: Registry, id: SessionId): (r': Registry)
    ensures Get(r', id) == None
    ensures forall k :: k != id ==> Get(r', k) == Get(r, k)
    ensures r'.sent == r.sent
  {
    r.(sessions := r.sessions - {id})
  }

  function Get(r: Registry, id: SessionId): (s: Option<Socket>)
    ensures s.Some? <==> id in r.sessions
    ensures s.Some? ==> s.value == r.sessions[id]
  {
    if id in r.sessions then Some(r.sessions[id]) else None
  }

  /** The number of registered sockets. */
  function Count(r: Registry): (n: nat)
    ensures n == 0 <==> r.sessions == map[]
  {
    |r.sessions.Keys|
  }

  /**
   * Writes one frame to one socket: nothing happens unless the socket is
   * registered and open; a write that throws drops the socket instead.
   */
  function Send(r: Registry, id: SessionId, f: Frame): (r': Registry)
    ensures Delivered(r, id) ==> r' == r.(sent := r.sent + [(id, f)])
    ensures !Delivered(r, id) ==> r'.sent == r.sent
    ensures id in r.sessions && r.sessions[id].open && r.sessions[id].broken ==> r' == Remove(r, id)
    ensures !(id in r.sessions && r.sessions[id].open) ==> r' == r
  {
    if id in r.sessions && r.sessions[id].open then
      if r.sessions[id].broken then Remove(r, id)
      else r.(sent := r.sent + [(id, f)])
    else r
  }

  /** A write to `id` goes through: registered, open and not broken. */
  predicate Delivered(r: Registry, id: SessionId) {
    id in r.sessions && r.sessions[id].open && !r.sessions[id].broken
  }

  /** sendMessage: a text frame. */
  function SendText(r: Registry, id: SessionId, message: string): (r': Registry)
    ensures Delivered(r, id) ==> r'.sent == r.sent + [(id, TextOut(message))] && r'.sessions == r.sessions
    ensures !Delivered(r, id) ==> r'.sent == r.sent
  {
    Send(r, id, TextOut(message))
  }

  /** sendBinaryMessage: a binary frame. */
  function SendBinary(r: Registry, id: SessionId, data: seq<byte>): (r': Registry)
    ensures Delivered(r, id) ==> r'.sent == r.sent + [(id, BinaryOut(data))] && r'.sessions == r.sessions
    ensures !Delivered(r, id) ==> r'.sent == r.sent
  {
    Send(r, id, BinaryOut(data))
  }

  /** The text frame written to each socket of `order` in turn, skipping closed ones. */
  function BroadcastOver(r: Registry, order: seq<SessionId>, message: string): (r': Registry)
    ensures |r.sent| <= |r'.sent| && r'.sent[..|r.sent|] == r.sent
    ensures r'.sessions.Keys <= r.sessions.Keys
    decreases |order|
  {
    if |order| == 0 then r
    else BroadcastOver(Send(r, order[0], TextOut(message)), order[1..], message)
  }

  /** The ids of `order` a broadcast reaches: open, unbroken, in iteration order. */
  function Reached(r: Registry, order: seq<SessionId>): seq<SessionId>
    decreases |order|
  {
    if |order| == 0 then []
    else (if Delivered(r, order[0]) then [order[0]] else []) + Reached(r, order[1..])
  }

  /** The ids of `order` whose write throws. */
  function Evicted(r: Registry, order: seq<SessionId>): set<SessionId> {
    set i | 0 <= i < |order| && order[i] in r.sessions && r.sessions[order[i]].open && r.sessions[order[i]].broken :: order[i]
  }

  /** `order` visits every registered socket once: the map's iteration order. */
  predicate Enumerates(r: Registry, order: seq<SessionId>) {
    && (forall i, j :: 0 <= i < j < |order| ==> order[i] != order[j])
    && r.sessions.Keys == set i | 0 <= i < |order| :: order[i]
  }

  /** broadcast: the message to every registered socket in the map's iteration order. */
  function Broadcast(r: Registry, order: seq<SessionId>, message: string): (r': Registry)
    requires Enumerates(r, order)
  {
    BroadcastOver(r, order, message)
  }

  /** Sending to `id` leaves every other socket's entry as it was. */
  lemma SendIsLocal(r: Registry, id: SessionId, f: Frame, k: SessionId)
    requires k != id
    ensures Get(Send(r, id, f), k) == Get(r, k)
  {
  }

  /** A socket a broadcast has not reached yet is unaffected by the sends before it. */
  lemma {:induction false} BroadcastOverKeeps(r: Registry, order: seq<SessionId>, message: string, k: SessionId)
    requires k !in order
    ensures Get(BroadcastOver(r, order, message), k) == Get(r, k)
    decreases |order|
  {
    if |order| > 0 {
      SendIsLocal(r, order[0], TextOut(message), k);
      BroadcastOverKeeps(Send(r, order[0], TextOut(message)), order[1..], message, k);
    }
  }

  /**
   * A broadcast over distinct ids writes the message to exactly the open,
   * unbroken sockets in iteration order, drops exactly the open broken
   * ones, and keeps every other entry.
   */
  lemma {:induction false} BroadcastOverEffect(r: Registry, order: seq<SessionId>, message: string)
    requires forall i, j :: 0 <= i < j < |order| ==> order[i] != order[j]
    ensures var r' := BroadcastOver(r, order, message);
      && r'.sent == r.sent + seq(|Reached(r, order)|, i requires 0 <= i < |Reached(r, order)| => (Reached(r, order)[i], TextOut(message)))
      && r'.sessions == r.sessions - Evicted(r, order)
    decreases |order|
  {
    if |order| > 0 {
      var head := order[0];
      var r1 := Send(r, head, TextOut(message));
      var tail := order[1..];
      forall i, j | 0 <= i < j < |tail| ensures tail[i] != tail[j] {
        assert tail[i] == order[i + 1] && tail[j] == order[j + 1];
      }
      BroadcastOverEffect(r1, tail, message);
      ReachedUnaffected(r, head, TextOut(message), tail);
      ReachedStep(r, order, message);
      EvictedStep(r, order);
    }
  }

  /** The frames a broadcast over `order` writes, split at its first id. */
  lemma ReachedStep(r: Registry, order: seq<SessionId>, message: string)
    requires |order| > 0
    ensures var all := Reached(r, order);
      var rest := Reached(r, order[1..]);
      var r1 := Send(r, order[0], TextOut(message));
      r1.sent + seq(|rest|, i requires 0 <= i < |rest| => (rest[i], TextOut(message)))
        == r.sent + seq(|all|, i requires 0 <= i < |all| => (all[i], TextOut(message)))
  {
    var head := order[0];
    var rest := Reached(r, order[1..]);
    var all := Reached(r, order);
    var tagged := seq(|rest|, i requires 0 <= i < |rest| => (rest[i], TextOut(message)));
    if Delivered(r, head) {
      assert all == [head] + rest;
      var taggedAll := seq(|all|, i requires 0 <= i < |all| => (all[i], TextOut(message)));
      assert taggedAll == [(head, TextOut(message))] + tagged;
      assert (r.sent + [(head, TextOut(message))]) + tagged == r.sent + ([(head, TextOut(message))] + tagged);
    } else {
      assert all == rest;
    }
  }

  /** The sockets a broadcast over `order` evicts: its first id when that write throws, and those of the rest. */
  lemma EvictedStep(r: Registry, order: seq<SessionId>)
    requires |order| > 0
    ensures var head := order[0];
      Evicted(r, order) == Evicted(r, order[1..])
        + (if head in r.sessions && r.sessions[head].open && r.sessions[head].broken then {head} else {})
  {
    var head := order[0];
    var tail := order[1..];
    var ev := Evicted(r, order);
    var evTail := Evicted(r, tail);
    forall k ensures k in ev <==> k in evTail || (k == head && head in r.sessions && r.sessions[head].open && r.sessions[head].broken) {
      if k in ev {
        var i :| 0 <= i < |order| && order[i] == k && k in r.sessions && r.sessions[k].open && r.sessions[k].broken;
        if i > 0 { assert tail[i - 1] == k; }
      }
      if k in evTail {
        var i :| 0 <= i < |tail| && tail[i] == k && k in r.sessions && r.sessions[k].open && r.sessions[k].broken;
        assert order[i + 1] == k;
      }
    }
  }

  /** Sending to `id` does not change what the rest of a broadcast over ids other than `id` reaches. */
  lemma {:induction false} ReachedUnaffected(r: Registry, id: SessionId, f: Frame, order: seq<SessionId>)
    requires id !in order
    ensures Reached(Send(r, id, f), order) == Reached(r, order)
    ensures Evicted(Send(r, id, f), order) == Evicted(r, order)
    decreases |order|
  {
    if |order| > 0 {
      SendIsLocal(r, id, f, order[0]);
      ReachedUnaffected(r, id, f, order[1..]);
    }
    EvictedUnaffected(r, id, f, order);
  }

  lemma EvictedUnaffected(r: Registry, id: SessionId, f: Frame, order: seq<SessionId>)
    requires id !in order
    ensures Evicted(Send(r, id, f), order) == Evicted(r, order)
  {
    var r1 := Send(r, id, f);
    forall k | k in order ensures Get(r1, k) == Get(r, k) {
      SendIsLocal(r, id, f, k);
    }
    forall k ensures k in Evicted(r1, order) <==> k in Evicted(r, order) {
      if k in Evicted(r1, order) {
        var i :| 0 <= i < |order| && order[i] == k && k in r1.sessions && r1.sessions[k].open && r1.sessions[k].broken;
        assert Get(r1, k) == Get(r, k);
      }
      if k in Evicted(r, order) {
        var i :| 0 <= i < |order| && order[i] == k && k in r.sessions && r.sessions[k].open && r.sessions[k].broken;
        assert Get(r1, k) == Get(r, k);
      }
    }
  }

  /**
   * After a broadcast the registry holds every socket except the open ones
   * whose write threw, and the count drops by exactly that many.
   */
  lemma BroadcastEvictsBrokenOnly(r: Registry, order: seq<SessionId>, message: string)
    requires Enumerates(r, order)
    ensures var r' := Broadcast(r, order, message);
      forall k :: k in r'.sessions <==> k in r.sessions && !(r.sessions[k].open && r.sessions[k].broken)
  {
    BroadcastOverEffect(r, order, message);
  }

  /** A closed socket stays registered and is never written to by a broadcast. */
  lemma BroadcastSkipsClosed(r: Registry, order: seq<SessionId>, message: string, k: SessionId)
    requires Enumerates(r, order)
    requires k in r.sessions && !r.sessions[k].open
    ensures var r' := Broadcast(r, order, message);
      k in r'.sessions && forall i :: |r.sent| <= i < |r'.sent| ==> r'.sent[i].0 != k
  {
    BroadcastOverEffect(r, order, message);
    ReachedDelivered(r, order, k);
    var r' := Broadcast(r, order, message);
    var reached := Reached(r, order);
    forall i | |r.sent| <= i < |r'.sent| ensures r'.sent[i].0 != k {
      assert r'.sent[i].0 == reached[i - |r.sent|];
    }
  }

  /** Every id a broadcast reaches is one whose write goes through. */
  lemma {:induction false} ReachedDelivered(r: Registry, order: seq<SessionId>, k: SessionId)
    ensures k in Reached(r, order) ==> Delivered(r, k)
    decreases |order|
  {
    if |order| > 0 {
      ReachedDelivered(r, order[1..], k);
    }
  }

  /** Every id of `order` whose write goes through is reached. */
  lemma {:induction false} DeliveredReached(r: Registry, order: seq<SessionId>, k: SessionId)
    requires k in order && Delivered(r, k)
    ensures k in Reached(r, order)
    decreases |order|
  {
    if order[0] != k {
      DeliveredReached(r, order[1..], k);
    }
  }

  /** A broadcast writes the message to every registered socket that is open and unbroken. */
  lemma BroadcastReachesOpen(r: Registry, order: seq<SessionId>, message: string, k: SessionId)
    requires Enumerates(r, order)
    requires Delivered(r, k)
    ensures var r' := Broadcast(r, order, message);
      (k, TextOut(message)) in r'.sent[|r.sent|..]
  {
    BroadcastOverEffect(r, order, message);
    assert k in r.sessions.Keys;
    DeliveredReached(r, order, k);
    var r' := Broadcast(r, order, message);
    var reached := Reached(r, order);
    var i :| 0 <= i < |reached| && reached[i] == k;
    assert r'.sent[|r.sent|..][i] == (k, TextOut(message));
  }
}

=== FILE: signing.dfy ===
/**
 * Signed connection URLs for the recognition vendor.
 *
 * The query parameters live in a map kept in ascending key order (Java's
 * TreeMap). The signature is the Base64 text of HMAC-SHA1 (RFC 2104), keyed
 * by the account secret, over the `&`-joined `key=value` pairs of every
 * non-blank parameter other than the signature itself, each side
 * URL-encoded. The URL is the endpoint, `?`, and every parameter, the
 * signature included, encoded and joined the same way.
 */
module Signing {
  import opened Wrappers
  import opened Strings
  import opened Primitives

  const AUDIO_ENCODE := "pcm_s16le"
  const LANG := "autodialect"
  const SAMPLERATE := "16000"
  const BASE_WS_URL := "wss://office-api-ast-dx.iflyaisol.com/ast/communicate/v1"

  /** Java's String.compareTo(a, b) < 0: lexicographic order, a proper prefix first. */
  predicate Less(a: string, b: string)
    decreases |a|
  {
    if |a| == 0 then |b| > 0
    else if |b| == 0 then false
    else if a[0] != b[0] then a[0] < b[0]
    else Less(a[1..], b[1..])
  }

  lemma {:induction false} LessTotal(a: string, b: string)
    ensures a == b || Less(a, b) || Less(b, a)
    decreases |a|
  {
    if |a| > 0 && |b| > 0 && a[0] == b[0] {
      LessTotal(a[1..], b[1..]);
      if a[1..] == b[1..] {
        assert a == [a[0]] + a[1..] && b == [b[0]] + b[1..];
      }
    }
  }

  /** A parameter map: entries in strictly ascending key order; `None` is a Java `null` value. */
  type Params = seq<(string, Option<string>)>

  predicate Sorted(m: Params) {
    forall i :: 0 <= i < |m| - 1 ==> Less(m[i].0, m[i + 1].0)
  }

  function Keys(m: Params): (ks: seq<string>)
    ensures |ks| == |m|
  {
    seq(|m|, i requires 0 <= i < |m| => m[i].0)
  }

  /** The value stored under `k`; `None` when the key is absent. */
  function Lookup(m: Params, k: string): Option<Option<string>>
    decreases |m|
  {
    if |m| == 0 then None
    else if m[0].0 == k then Some(m[0].1)
    else Lookup(m[1..], k)
  }

  /** TreeMap.put: store `v` under `k`, replacing a previous value, keeping key order. */
  function Put(m: Params, k: string, v: Option<string>): Params
    decreases |m|
  {
    if |m| == 0 then [(k, v)]
    else if m[0].0 == k then [(k, v)] + m[1..]
    else if Less(k, m[0].0) then [(k, v)] + m
    else [m[0]] + Put(m[1..], k, v)
  }

  /** After a put the key maps to the new value and every other key keeps its value. */
  lemma {:induction false} PutLookup(m: Params, k: string, v: Option<string>)
    ensures Lookup(Put(m, k, v), k) == Some(v)
    ensures forall k' :: k' != k ==> Lookup(Put(m, k, v), k') == Lookup(m, k')
    decreases |m|
  {
    if |m| > 0 && m[0].0 != k && !Less(k, m[0].0) {
      PutLookup(m[1..], k, v);
    }
  }

  /** A put keeps the keys in strictly ascending order. */
  lemma {:induction false} PutSorted(m: Params, k: string, v: Option<string>)
    requires Sorted(m)
    ensures Sorted(Put(m, k, v))
    ensures Put(m, k, v)[0].0 == k || (|m| > 0 && Put(m, k, v)[0].0 == m[0].0)
    decreases |m|
  {
    if |m| > 0 && m[0].0 != k && !Less(k, m[0].0) {
      LessTotal(k, m[0].0);
      PutSorted(m[1..], k, v);
      var r := Put(m, k, v);
      assert r == [m[0]] + Put(m[1..], k, v);
      assert Less(r[0].0, r[1].0);
      assert forall i :: 1 <= i < |r| - 1 ==> r[i] == Put(m[1..], k, v)[i - 1];
    }
  }

  /** The account credentials; each may be unset (`null`) in the configuration. */
  datatype Credentials = Credentials(accessKeyId: Option<string>, appId: Option<string>, accessKeySecret: Option<string>)

  /** A random UUID's text with its dashes removed. */
  function StripDashes(s: string): (r: string)
    ensures '-' !in r
    ensures forall c :: c != '-' ==> (c in r <==> c in s)
    decreases |s|
  {
    if |s| == 0 then ""
    else if s[0] == '-' then StripDashes(s[1..])
    else [s[0]] + StripDashes(s[1..])
  }

  /** Stripping works piece by piece, and drops exactly the dash characters. */
  lemma {:induction false} StripDashesAppend(a: string, b: string)
    ensures StripDashes(a + b) == StripDashes(a) + StripDashes(b)
    ensures forall x :: StripDashes([x]) == (if x == '-' then "" else [x])
    decreases |a|
  {
    if |a| == 0 {
      assert a + b == b;
    } else {
      assert (a + b)[0] == a[0];
      assert (a + b)[1..] == a[1..] + b;
      StripDashesAppend(a[1..], b);
    }
    forall x
      ensures StripDashes([x]) == (if x == '-' then "" else [x])
    {
      assert [x][1..] == "";
    }
  }

  /** One URL-encoded `key=value` pair. */
  function Pair(c: Codecs, key: string, value: string): string {
    c.urlEncode(key) + "=" + c.urlEncode(value)
  }

  /** The entries that are signed: not the signature, not null, not blank. */
  predicate Signed(e: (string, Option<string>)) {
    e.0 != "signature" && e.1.Some? && !IsBlank(JavaTrimSpace, e.1.value)
  }

  /** The pairs the signature covers, in key order. */
  function SignedPairs(c: Codecs, m: Params): (ps: seq<string>)
    ensures |ps| <= |m|
    ensures (forall i :: 0 <= i < |m| ==> Signed(m[i])) ==> |ps| == |m|
    ensures (forall i :: 0 <= i < |m| ==> !Signed(m[i])) ==> ps == []
    decreases |m|
  {
    assert forall i :: 1 <= i < |m| ==> m[1..][i - 1] == m[i];
    if |m| == 0 then []
    else if Signed(m[0]) then [Pair(c, m[0].0, m[0].1.value)] + SignedPairs(c, m[1..])
    else SignedPairs(c, m[1..])
  }

  /** How many of the first `i` entries are signed: the rank of entry `i` among the signed ones. */
  function SignedBefore(m: Params, i: nat): nat
    requires i <= |m|
    decreases i
  {
    if i == 0 then 0 else SignedBefore(m, i - 1) + (if Signed(m[i - 1]) then 1 else 0)
  }

  lemma {:induction false} SignedBeforeCons(m: Params, i: nat)
    requires 1 <= i <= |m|
    ensures SignedBefore(m, i) == (if Signed(m[0]) then 1 else 0) + SignedBefore(m[1..], i - 1)
    decreases i
  {
    if i > 1 {
      SignedBeforeCons(m, i - 1);
      assert m[1..][i - 2] == m[i - 1];
    }
  }

  /** A signed entry ranks below every later entry. */
  lemma {:induction false} SignedBeforeGrows(m: Params, i: nat, j: nat)
    requires i < j <= |m| && Signed(m[i])
    ensures SignedBefore(m, i) < SignedBefore(m, j)
    decreases j
  {
    if j > i + 1 {
      SignedBeforeGrows(m, i, j - 1);
    }
  }

  /** One pair per signed entry. */
  lemma {:induction false} SignedPairsCount(c: Codecs, m: Params)
    ensures |SignedPairs(c, m)| == SignedBefore(m, |m|)
    decreases |m|
  {
    if |m| > 0 {
      SignedPairsCount(c, m[1..]);
      SignedBeforeCons(m, |m|);
    }
  }

  /** The pair of the signed entry `i` sits at its rank. */
  lemma {:induction false} SignedPairAt(c: Codecs, m: Params, i: nat)
    requires i < |m| && Signed(m[i])
    ensures SignedBefore(m, i) < |SignedPairs(c, m)|
    ensures SignedPairs(c, m)[SignedBefore(m, i)] == Pair(c, m[i].0, m[i].1.value)
    decreases i
  {
    if i > 0 {
      var rest := SignedPairs(c, m[1..]);
      assert m[1..][i - 1] == m[i];
      SignedPairAt(c, m[1..], i - 1);
      SignedBeforeCons(m, i);
      var k := SignedBefore(m[1..], i - 1);
      if Signed(m[0]) {
        assert SignedPairs(c, m)[1 + k] == rest[k];
      } else {
        assert SignedPairs(c, m) == rest;
      }
    }
  }

  /**
   * The signed pairs are exactly the encoded signed entries, in the map's
   * (key) order: the pair of the signed entry `i` sits at its rank, the
   * ranks grow with the keys, and there is one pair per signed entry.
   */
  lemma SignedPairsInOrder(c: Codecs, m: Params)
    ensures |SignedPairs(c, m)| == SignedBefore(m, |m|)
    ensures forall i :: 0 <= i < |m| && Signed(m[i]) ==>
      SignedBefore(m, i) < |SignedPairs(c, m)| && SignedPairs(c, m)[SignedBefore(m, i)] == Pair(c, m[i].0, m[i].1.value)
    ensures forall i, j :: 0 <= i < j < |m| && Signed(m[i]) ==> SignedBefore(m, i) < SignedBefore(m, j)
  {
    SignedPairsCount(c, m);
    forall i | 0 <= i < |m| && Signed(m[i])
      ensures SignedBefore(m, i) < |SignedPairs(c, m)| && SignedPairs(c, m)[SignedBefore(m, i)] == Pair(c, m[i].0, m[i].1.value)
    {
      SignedPairAt(c, m, i);
    }
    forall i, j | 0 <= i < j < |m| && Signed(m[i])
      ensures SignedBefore(m, i) < SignedBefore(m, j)
    {
      SignedBeforeGrows(m, i, j);
    }
  }

  /** Every pair comes from a signed entry, and every signed entry gives a pair. */
  lemma {:induction false} SignedPairsMembers(c: Codecs, m: Params)
    ensures forall p :: p in SignedPairs(c, m) <==>
      exists i :: 0 <= i < |m| && Signed(m[i]) && p == Pair(c, m[i].0, m[i].1.value)
    decreases |m|
  {
    if |m| > 0 {
      SignedPairsMembers(c, m[1..]);
      var ps := SignedPairs(c, m);
      forall p
        ensures p in ps <==> exists i :: 0 <= i < |m| && Signed(m[i]) && p == Pair(c, m[i].0, m[i].1.value)
      {
        if p in SignedPairs(c, m[1..]) {
          var k :| 0 <= k < |m[1..]| && Signed(m[1..][k]) && p == Pair(c, m[1..][k].0, m[1..][k].1.value);
          assert m[1..][k] == m[k + 1];
        }
        if exists i :: 0 <= i < |m| && Signed(m[i]) && p == Pair(c, m[i].0, m[i].1.value) {
          var i :| 0 <= i < |m| && Signed(m[i]) && p == Pair(c, m[i].0, m[i].1.value);
          if i > 0 {
            assert m[1..][i - 1] == m[i];
          }
        }
      }
    }
  }

  /** The string the signature is computed over. */
  function SignatureBase(c: Codecs, m: Params): string {
    Join(SignedPairs(c, m), "&")
  }

  /** The signature: Base64 of HMAC-SHA1 keyed by the UTF-8 secret over the UTF-8 base string. */
  function Signature(c: Codecs, secret: string, m: Params): string {
    c.base64Encode(c.hmacSha1(c.utf8(secret), c.utf8(SignatureBase(c, m))))
  }

  /**
   * ARSUtil.buildParamsString: every pair joined by `&`; a null value makes
   * the encoder throw, so the whole call fails.
   */
  function ParamsString(c: Codecs, m: Params): (r: Option<string>)
    ensures r.Some? <==> forall i :: 0 <= i < |m| ==> m[i].1.Some?
    decreases |m|
  {
    if |m| == 0 then Some("")
    else if m[0].1.None? then None
    else match ParamsString(c, m[1..])
      case None => None
      case Some(rest) =>
        var p := Pair(c, m[0].0, m[0].1.value);
        Some(if |m| == 1 then p else p + "&" + rest)
  }

  /**
   * The parameters before signing: the three fixed audio settings, the
   * account key and application id, the dash-free UUID and the time stamp.
   */
  function UnsignedParams(cred: Credentials, uuid: string, utc: string): Params
  {
    var m0 := Put([], "audio_encode", Some(AUDIO_ENCODE));
    var m1 := Put(m0, "lang", Some(LANG));
    var m2 := Put(m1, "samplerate", Some(SAMPLERATE));
    var m3 := Put(m2, "accessKeyId", cred.accessKeyId);
    var m4 := Put(m3, "appId", cred.appId);
    var m5 := Put(m4, "uuid", Some(StripDashes(uuid)));
    Put(m5, "utc", Some(utc))
  }

  /**
   * ARSUtil.generateAuthParams on a configured instance: the unsigned
   * parameters plus their signature. Signing reads the secret, so an unset
   * secret makes it fail.
   */
  function AuthParams(c: Codecs, cred: Credentials, uuid: string, utc: string): (r: Option<Params>)
    ensures r.Some? <==> cred.accessKeySecret.Some?
  {
    var m := UnsignedParams(cred, uuid, utc);
    match cred.accessKeySecret
    case None => None
    case Some(secret) => Some(Put(m, "signature", Some(Signature(c, secret, m))))
  }

  /** The URL a configured signer produces: endpoint, `?`, parameter string. */
  function WsUrl(c: Codecs, cred: Credentials, uuid: string, utc: string): (r: Option<string>)
    ensures r.Some? ==> StartsWith(r.value, BASE_WS_URL + "?")
    ensures r.Some? <==> cred.accessKeySecret.Some? && cred.accessKeyId.Some? && cred.appId.Some?
  {
    match AuthParams(c, cred, uuid, utc)
    case None => None
    case Some(m) =>
      AuthParamsValues(c, cred, uuid, utc);
      match ParamsString(c, m)
      case None => None
      case Some(q) => Some(BASE_WS_URL + "?" + q)
  }

  /** The configuration of an instance created with `new` rather than by the container: never injected. */
  const FRESH_INSTANCE_CONFIG: Option<Credentials> := None

  /**
   * ARSUtil.getWsUrl as written: it signs on a freshly constructed instance
   * whose configuration was never injected, so reading the access key
   * dereferences null and every call throws, whatever is configured.
   */
  function GetWsUrlAsWritten(injected: Credentials, c: Codecs, uuid: string, utc: string): (r: Option<string>)
  {
    match FRESH_INSTANCE_CONFIG
    case None => None
    case Some(cred) => WsUrl(c, cred, uuid, utc)
  }

  lemma GetWsUrlAlwaysThrows(injected: Credentials, c: Codecs, uuid: string, utc: string)
    ensures GetWsUrlAsWritten(injected, c, uuid, utc) == None
    ensures injected.accessKeySecret.Some? && injected.accessKeyId.Some? && injected.appId.Some?
      ==> WsUrl(c, injected, uuid, utc).Some?
  {
  }

  lemma {:induction false} LessAsymmetric(a: string, b: string)
    ensures !(Less(a, b) && Less(b, a))
    ensures !Less(a, a)
    decreases |a|
  {
    if |a| > 0 && |b| > 0 && a[0] == b[0] {
      LessAsymmetric(a[1..], b[1..]);
    }
    if |a| > 0 {
      LessAsymmetric(a[1..], a[1..]);
    }
  }

  /** Storing a key greater than every key of `a` leaves `a` in front untouched. */
  lemma {:induction false} PutAfter(a: Params, b: Params, k: string, v: Option<string>)
    requires forall i :: 0 <= i < |a| ==> Less(a[i].0, k)
    ensures Put(a + b, k, v) == a + Put(b, k, v)
    decreases |a|
  {
    if |a| > 0 {
      LessAsymmetric(a[0].0, k);
      var ab := a + b;
      assert ab[0] == a[0];
      assert ab[0].0 != k && !Less(k, ab[0].0);
      assert Put(ab, k, v) == [ab[0]] + Put(ab[1..], k, v);
      assert ab[1..] == a[1..] + b;
      PutAfter(a[1..], b, k, v);
      assert a == [a[0]] + a[1..];
    } else {
      assert a + b == b;
    }
  }

  lemma KeyOrderFacts()
    ensures Less("accessKeyId", "appId") && Less("appId", "audio_encode")
    ensures Less("audio_encode", "lang") && Less("lang", "samplerate")
    ensures Less("samplerate", "signature") && Less("signature", "utc") && Less("utc", "uuid")
    ensures Less("samplerate", "utc") && Less("samplerate", "uuid")
    ensures Less("accessKeyId", "audio_encode") && Less("audio_encode", "samplerate")
  {
  }

  lemma PutBefore(m: Params, k: string, v: Option<string>)
    requires |m| > 0 && Less(k, m[0].0)
    ensures Put(m, k, v) == [(k, v)] + m
  {
    LessAsymmetric(k, m[0].0);
  }

  /** The three fixed entries, stored into an empty map, come out in key order. */
  lemma FixedEntriesShape()
    ensures Put(Put(Put([], "audio_encode", Some(AUDIO_ENCODE)), "lang", Some(LANG)), "samplerate", Some(SAMPLERATE))
      == [("audio_encode", Some(AUDIO_ENCODE)), ("lang", Some(LANG)), ("samplerate", Some(SAMPLERATE))]
  {
    var ae := ("audio_encode", Some(AUDIO_ENCODE));
    var la := ("lang", Some(LANG));
    assert Less("audio_encode", "lang") && Less("lang", "samplerate") && Less("audio_encode", "samplerate");
    assert Put([], "audio_encode", Some(AUDIO_ENCODE)) == [ae];
    PutAfter([ae], [], "lang", Some(LANG));
    assert [ae] + [] == [ae];
    PutAfter([ae, la], [], "samplerate", Some(SAMPLERATE));
    assert [ae, la] + [] == [ae, la];
  }

  /** The two credential entries sort in front of the fixed ones. */
  lemma CredentialEntriesShape(ak: Option<string>, ap: Option<string>)
    ensures var fixed := [("audio_encode", Some(AUDIO_ENCODE)), ("lang", Some(LANG)), ("samplerate", Some(SAMPLERATE))];
      Put(Put(fixed, "accessKeyId", ak), "appId", ap)
      == [("accessKeyId", ak), ("appId", ap), ("audio_encode", Some(AUDIO_ENCODE)), ("lang", Some(LANG)), ("samplerate", Some(SAMPLERATE))]
  {
    var fixed := [("audio_encode", Some(AUDIO_ENCODE)), ("lang", Some(LANG)), ("samplerate", Some(SAMPLERATE))];
    assert Less("accessKeyId", "audio_encode") && Less("accessKeyId", "appId") && Less("appId", "audio_encode");
    PutBefore(fixed, "accessKeyId", ak);
    PutAfter([("accessKeyId", ak)], fixed, "appId", ap);
    PutBefore(fixed, "appId", ap);
  }

  /** The time and id keys sort after every other unsigned key. */
  lemma StampKeysLast()
    ensures Less("accessKeyId", "utc") && Less("appId", "utc") && Less("audio_encode", "utc")
    ensures Less("lang", "utc") && Less("samplerate", "utc")
    ensures Less("accessKeyId", "uuid") && Less("appId", "uuid") && Less("audio_encode", "uuid")
    ensures Less("lang", "uuid") && Less("samplerate", "uuid")
  {
  }

  /** The signature key sorts after the five leading keys and before the time. */
  lemma SignatureKeyMiddle()
    ensures Less("accessKeyId", "signature") && Less("appId", "signature") && Less("audio_encode", "signature")
    ensures Less("lang", "signature") && Less("samplerate", "signature") && Less("signature", "utc")
  {
  }

  /** The five keys in front of the time and id, with the given credential values. */
  function Leading(ak: Option<string>, ap: Option<string>): (front: Params)
    ensures Keys(front) == ["accessKeyId", "appId", "audio_encode", "lang", "samplerate"]
  {
    [("accessKeyId", ak), ("appId", ap), ("audio_encode", Some(AUDIO_ENCODE)), ("lang", Some(LANG)), ("samplerate", Some(SAMPLERATE))]
  }

  /** Every leading key sorts before `k`. */
  lemma LeadingBefore(ak: Option<string>, ap: Option<string>, k: string)
    requires Less("accessKeyId", k) && Less("appId", k) && Less("audio_encode", k) && Less("lang", k) && Less("samplerate", k)
    ensures forall i :: 0 <= i < |Leading(ak, ap)| ==> Less(Leading(ak, ap)[i].0, k)
  {
    var front := Leading(ak, ap);
    forall i | 0 <= i < |front|
      ensures Less(front[i].0, k)
    {
      assert front[i].0 == Keys(front)[i];
    }
  }

  /** The signature is stored between the leading keys and the time. */
  lemma SignatureGoesInMiddle(ak: Option<string>, ap: Option<string>, back: Params, sig: Option<string>)
    requires |back| > 0 && back[0].0 == "utc"
    ensures Put(Leading(ak, ap) + back, "signature", sig) == Leading(ak, ap) + [("signature", sig)] + back
  {
    SignatureKeyMiddle();
    LeadingBefore(ak, ap, "signature");
    PutAfter(Leading(ak, ap), back, "signature", sig);
    PutBefore(back, "signature", sig);
  }

  /** The time and id entries sort after the other five, `utc` before `uuid`. */
  lemma StampEntriesShape(front: Params, utc: string, uid: string)
    requires forall i :: 0 <= i < |front| ==> Less(front[i].0, "utc") && Less(front[i].0, "uuid")
    ensures Put(Put(front, "uuid", Some(uid)), "utc", Some(utc)) == front + [("utc", Some(utc)), ("uuid", Some(uid))]
  {
    var uu := ("uuid", Some(uid));
    PutAfter(front, [], "uuid", Some(uid));
    assert front + [] == front;
    assert Put([], "uuid", Some(uid)) == [uu];
    PutAfter(front, [uu], "utc", Some(utc));
    assert Less("utc", "uuid");
    PutBefore([uu], "utc", Some(utc));
  }

  /** The parameter map before signing, entry by entry. */
  lemma UnsignedShape(cred: Credentials, uuid: string, utc: string)
    ensures UnsignedParams(cred, uuid, utc) == [
        ("accessKeyId", cred.accessKeyId), ("appId", cred.appId),
        ("audio_encode", Some(AUDIO_ENCODE)), ("lang", Some(LANG)), ("samplerate", Some(SAMPLERATE)),
        ("utc", Some(utc)), ("uuid", Some(StripDashes(uuid)))]
  {
    FixedEntriesShape();
    CredentialEntriesShape(cred.accessKeyId, cred.appId);
    var front := Leading(cred.accessKeyId, cred.appId);
    StampKeysLast();
    LeadingBefore(cred.accessKeyId, cred.appId, "utc");
    LeadingBefore(cred.accessKeyId, cred.appId, "uuid");
    StampEntriesShape(front, utc, StripDashes(uuid));
  }

  /** The signed parameter map, entry by entry. */
  lemma AuthParamsShape(c: Codecs, cred: Credentials, uuid: string, utc: string)
    requires cred.accessKeySecret.Some?
    ensures var m := UnsignedParams(cred, uuid, utc);
      AuthParams(c, cred, uuid, utc).value == [
        ("accessKeyId", cred.accessKeyId), ("appId", cred.appId),
        ("audio_encode", Some(AUDIO_ENCODE)), ("lang", Some(LANG)), ("samplerate", Some(SAMPLERATE)),
        ("signature", Some(Signature(c, cred.accessKeySecret.value, m))),
        ("utc", Some(utc)), ("uuid", Some(StripDashes(uuid)))]
  {
    UnsignedShape(cred, uuid, utc);
    var m := UnsignedParams(cred, uuid, utc);
    var back := [("utc", Some(utc)), ("uuid", Some(StripDashes(uuid)))];
    assert m == Leading(cred.accessKeyId, cred.appId) + back;
    SignatureGoesInMiddle(cred.accessKeyId, cred.appId, back, Some(Signature(c, cred.accessKeySecret.value, m)));
  }

  /** The signed parameters are keyed exactly as the vendor expects, in this order. */
  lemma AuthParamsKeyOrder(c: Codecs, cred: Credentials, uuid: string, utc: string)
    requires cred.accessKeySecret.Some?
    ensures Keys(AuthParams(c, cred, uuid, utc).value)
      == ["accessKeyId", "appId", "audio_encode", "lang", "samplerate", "signature", "utc", "uuid"]
  {
    AuthParamsShape(c, cred, uuid, utc);
  }

  lemma AuthParamsValues(c: Codecs, cred: Credentials, uuid: string, utc: string)
    requires cred.accessKeySecret.Some?
    ensures var m := AuthParams(c, cred, uuid, utc).value;
      (forall i :: 0 <= i < |m| ==> m[i].1.Some?) <==> cred.accessKeyId.Some? && cred.appId.Some?
  {
    AuthParamsShape(c, cred, uuid, utc);
    var m := AuthParams(c, cred, uuid, utc).value;
    assert m[0].1 == cred.accessKeyId && m[1].1 == cred.appId;
  }

  /** The signed map is a well-formed TreeMap: keys strictly ascending. */
  lemma AuthParamsSorted(c: Codecs, cred: Credentials, uuid: string, utc: string)
    requires cred.accessKeySecret.Some?
    ensures Sorted(AuthParams(c, cred, uuid, utc).value)
  {
    AuthParamsKeyOrder(c, cred, uuid, utc);
    SignedKeysSorted(AuthParams(c, cred, uuid, utc).value);
  }

  /** A map keyed by the eight vendor keys in this order is sorted. */
  lemma SignedKeysSorted(m: Params)
    requires Keys(m) == ["accessKeyId", "appId", "audio_encode", "lang", "samplerate", "signature", "utc", "uuid"]
    ensures Sorted(m)
  {
    KeyOrderFacts();
    forall i | 0 <= i < |m| - 1
      ensures Less(m[i].0, m[i + 1].0)
    {
      assert m[i].0 == Keys(m)[i] && m[i + 1].0 == Keys(m)[i + 1];
    }
  }

  /** The signature never covers itself: storing a signature leaves the signed string unchanged. */
  lemma {:induction false} SignatureExcludesItself(c: Codecs, m: Params, sig: Option<string>)
    ensures SignedPairs(c, Put(m, "signature", sig)) == SignedPairs(c, m)
    decreases |m|
  {
    if |m| > 0 && m[0].0 != "signature" && !Less("signature", m[0].0) {
      var r := Put(m, "signature", sig);
      assert r == [m[0]] + Put(m[1..], "signature", sig);
      assert r[1..] == Put(m[1..], "signature", sig);
      SignatureExcludesItself(c, m[1..], sig);
    } else if |m| > 0 && m[0].0 == "signature" {
      var r := Put(m, "signature", sig);
      assert r[1..] == m[1..];
    } else if |m| > 0 {
      var r := Put(m, "signature", sig);
      assert r[1..] == m;
    }
  }

  /** The encoder never emits a literal `&` (URLEncoder turns it into %26). */
  ghost predicate AmpersandFree(c: Codecs) {
    forall s :: '&' !in c.urlEncode(s)
  }

  lemma {:induction false} SignedPairsAmpersandFree(c: Codecs, m: Params)
    requires AmpersandFree(c)
    ensures forall i :: 0 <= i < |SignedPairs(c, m)| ==> '&' !in SignedPairs(c, m)[i]
    decreases |m|
  {
    if |m| > 0 {
      SignedPairsAmpersandFree(c, m[1..]);
      if Signed(m[0]) {
        var p := Pair(c, m[0].0, m[0].1.value);
        assert '&' !in c.urlEncode(m[0].0) && '&' !in c.urlEncode(m[0].1.value);
        assert '&' !in p;
      }
    }
  }

  /**
   * The signed string splits back on `&` into exactly the encoded pairs of
   * the signed entries, one per entry, in key order: no empty or merged pair.
   */
  lemma SignatureBaseSplits(c: Codecs, m: Params)
    requires AmpersandFree(c)
    requires |SignedPairs(c, m)| >= 1
    ensures SplitOn(SignatureBase(c, m), '&') == SignedPairs(c, m)
  {
    SignedPairsAmpersandFree(c, m);
    SplitJoin(SignedPairs(c, m), '&');
  }

  /** Every pair of a map without nulls, in key order. */
  function AllPairs(c: Codecs, m: Params): (ps: seq<string>)
    requires forall i :: 0 <= i < |m| ==> m[i].1.Some?
    ensures |ps| == |m|
    ensures forall i :: 0 <= i < |m| ==> ps[i] == Pair(c, m[i].0, m[i].1.value)
    decreases |m|
  {
    if |m| == 0 then [] else [Pair(c, m[0].0, m[0].1.value)] + AllPairs(c, m[1..])
  }

  /** The parameter string is the `&`-join of every pair. */
  lemma {:induction false} ParamsStringIsJoin(c: Codecs, m: Params)
    requires forall i :: 0 <= i < |m| ==> m[i].1.Some?
    ensures ParamsString(c, m) == Some(Join(AllPairs(c, m), "&"))
    decreases |m|
  {
    if |m| > 0 {
      ParamsStringIsJoin(c, m[1..]);
    }
  }

  /**
   * The URL of a fully configured signer: the endpoint, `?`, and eight
   * `&`-separated pairs, one per parameter in ascending key order, the
   * signature among them.
   */
  lemma WsUrlQuery(c: Codecs, cred: Credentials, uuid: string, utc: string)
    requires AmpersandFree(c)
    requires cred.accessKeySecret.Some? && cred.accessKeyId.Some? && cred.appId.Some?
    ensures var m := AuthParams(c, cred, uuid, utc).value;
      (forall i :: 0 <= i < |m| ==> m[i].1.Some?)
      && WsUrl(c, cred, uuid, utc) == Some(BASE_WS_URL + "?" + Join(AllPairs(c, m), "&"))
      && SplitOn(Join(AllPairs(c, m), "&"), '&') == AllPairs(c, m)
      && |AllPairs(c, m)| == 8
  {
    AuthParamsShape(c, cred, uuid, utc);
    var m := AuthParams(c, cred, uuid, utc).value;
    ParamsStringIsJoin(c, m);
    var ps := AllPairs(c, m);
    forall i | 0 <= i < |ps|
      ensures '&' !in ps[i]
    {
      assert '&' !in c.urlEncode(m[i].0) && '&' !in c.urlEncode(m[i].1.value);
    }
    SplitJoin(ps, '&');
  }
}

=== FILE: socket_handler.dfy ===
/**
 * The client-facing voice socket: what each incoming frame asks of the
 * recognition service, the one live result subscription per socket, the
 * cleanup on close or transport error, and how recognition results are
 * written back to the client.
 *
 * Calls into the recognition service are recorded, in order, as `Call`s;
 * the results it streams back are fed in through `OnResult` and `OnError`.
 * Writes to the client socket are recorded in `out`; a write that throws is
 * only logged by the source, so it is not modelled.
 */
module SocketHandler {
  import opened Wrappers
  import opened Strings
  import opened Json
  import opened Primitives
  import JavaInts
  import opened SessionRegistry

  const END_SIGNAL := "END"
  const START_SIGNAL := "START"
  const SEGMENT_END_TYPE := "segment_end"
  const AUDIO_PREFIX := "AUDIO:"
  const ERROR_PREFIX := "ERROR: "
  /** The close code for an internal server error, section 7.4.1 of RFC 6455. */
  const SERVER_ERROR: int := 1011

  /** The identity of a result subscription. */
  type SubId = nat

  /** The value stored under the app-id attribute at handshake time. */
  datatype Attr = NoAttr | TextAttr(text: string) | OtherAttr

  /** A frame from the client; a text frame carries its JSON parse, `None` when it is not JSON. */
  datatype Incoming = BinaryIn(bytes: seq<byte>) | TextIn(payload: string, parsed: Option<Json>)

  /** A call into the recognition service. */
  datatype Call = StartCall | AudioCall(bytes: seq<byte>) | EndCall | SegmentEndCall

  /** What a client frame asks for. */
  datatype Command = Forward(call: Call) | Restart | Ignore

  datatype Handler = Handler(
    registry: Registry,
    /** The current subscription of each socket. */
    subscriptions: map<SessionId, SubId>,
    /** The socket every subscription ever made belongs to. */
    owner: map<SubId, SessionId>,
    disposed: set<SubId>,
    calls: seq<(SessionId, Call)>,
    out: seq<(SessionId, Frame)>,
    closes: seq<(SessionId, int)>,
    nextSub: SubId)

  /**
   * getAppId: a string attribute that is not blank, read as a Java long;
   * `None` for a missing, non-string, blank or unparsable attribute.
   */
  function GetAppId(a: Attr): (r: Option<int>)
    ensures r.Some? ==> a.TextAttr? && !IsBlank(JavaWhitespace, a.text)
    ensures r.Some? ==> JavaInts.IsLong(r.value) && ParseInteger(a.text) == r
    ensures a.TextAttr? && ParseInteger(a.text).Some? && JavaInts.IsLong(ParseInteger(a.text).value) ==> r == ParseInteger(a.text)
  {
    match a
    case TextAttr(s) =>
      if IsBlank(JavaWhitespace, s) then None
      else
        var v := ParseInteger(s);
        if v.Some? && JavaInts.IsLong(v.value) then v else None
    case _ => None
  }

  /** A parsed numeral is never blank: it holds at least one digit. */
  lemma ParsedIsNotBlank(s: string)
    requires ParseInteger(s).Some?
    ensures !IsBlank(JavaWhitespace, s)
  {
    var i := |s| - 1;
    assert IsDigit(s[i]);
  }

  /** The app id written as a decimal numeral reads back as itself. */
  lemma AppIdRoundTrip(v: int)
    requires JavaInts.IsLong(v)
    ensures GetAppId(TextAttr(IntToString(v))) == Some(v)
  {
    ParseIntToString(v);
    ParsedIsNotBlank(IntToString(v));
  }

  /** A numeral beyond the long range is refused, as parseLong throws on it. */
  lemma AppIdOutOfRange(v: int)
    requires v > JavaInts.LONG_MAX
    ensures GetAppId(TextAttr(IntToString(v))) == None
  {
    ParseIntToString(v);
  }

  /** The command a client frame carries. */
  function Dispatch(m: Incoming): (c: Command)
    ensures m.BinaryIn? ==> c == Forward(AudioCall(m.bytes))
    ensures c == Restart <==> m.TextIn? && m.payload == START_SIGNAL
    ensures c == Forward(EndCall) <==> m.TextIn? && m.payload == END_SIGNAL
    ensures c == Forward(SegmentEndCall) <==> m.TextIn? && m.payload != END_SIGNAL && m.payload != START_SIGNAL && IsSegmentEnd(m.parsed)
    ensures c.Forward? && c.call.AudioCall? ==> m.BinaryIn?
    ensures !c.Forward? || c.call != StartCall
  {
    match m
    case BinaryIn(bytes) => Forward(AudioCall(bytes))
    case TextIn(payload, parsed) =>
      if payload == END_SIGNAL then Forward(EndCall)
      else if payload == START_SIGNAL then Restart
      else if IsSegmentEnd(parsed) then Forward(SegmentEndCall)
      else Ignore
  }

  /** A JSON object whose "type" member reads as "segment_end". */
  predicate IsSegmentEnd(parsed: Option<Json>) {
    parsed.Some? && parsed.value.JObj? && OptString(parsed.value.fields, "type", "") == SEGMENT_END_TYPE
  }

  /** Text that is neither a signal nor a segment-end object (including text that is not JSON) is ignored. */
  lemma OtherTextIsIgnored(payload: string, parsed: Option<Json>)
    requires payload != END_SIGNAL && payload != START_SIGNAL
    requires parsed.None? || !parsed.value.JObj? || !("type" in parsed.value.fields && parsed.value.fields["type"] == JStr(SEGMENT_END_TYPE))
    requires parsed.Some? && parsed.value.JObj? && "type" in parsed.value.fields ==> parsed.value.fields["type"].JStr?
    ensures Dispatch(TextIn(payload, parsed)) == Ignore
  {
  }

  /** The socket has a subscription that is not disposed. */
  predicate Live(h: Handler, s: SubId) {
    s in h.owner && s !in h.disposed
  }

  /**
   * Every subscription was made by the handler, and a live one is the
   * current subscription of its socket; so a socket has at most one live
   * subscription.
   */
  ghost predicate Inv(h: Handler) {
    && (forall s :: s in h.owner ==> s < h.nextSub)
    && h.disposed <= h.owner.Keys
    && (forall id :: id in h.subscriptions ==> h.subscriptions[id] in h.owner && h.owner[h.subscriptions[id]] == id)
    && (forall s :: Live(h, s) ==> h.owner[s] in h.subscriptions && h.subscriptions[h.owner[s]] == s)
  }

  function Initial(): (h: Handler)
    ensures Inv(h) && h.subscriptions == map[] && h.calls == []
  {
    Handler(Empty(), map[], map[], {}, [], [], [], 0)
  }

  /** Two live subscriptions of the same socket are the same subscription. */
  lemma AtMostOneLive(h: Handler, s1: SubId, s2: SubId)
    requires Inv(h) && Live(h, s1) && Live(h, s2) && h.owner[s1] == h.owner[s2]
    ensures s1 == s2
  {
  }

  /** Starts recognition for the socket and makes the new subscription its current one. */
  function Subscribe(h: Handler, id: SessionId): (r: Handler)
    ensures r.calls == h.calls + [(id, StartCall)]
    ensures r.subscriptions == h.subscriptions[id := h.nextSub]
    ensures r.owner == h.owner[h.nextSub := id] && r.nextSub == h.nextSub + 1
    ensures r.registry == h.registry && r.disposed == h.disposed && r.out == h.out && r.closes == h.closes
  {
    h.(calls := h.calls + [(id, StartCall)],
       subscriptions := h.subscriptions[id := h.nextSub],
       owner := h.owner[h.nextSub := id],
       nextSub := h.nextSub + 1)
  }

  /** afterConnectionEstablished: register the socket, then start recognition. */
  function Connected(h: Handler, id: SessionId, s: Socket): (r: Handler)
    requires Inv(h)
    ensures Get(r.registry, id) == Some(s)
    ensures r.calls == h.calls + [(id, StartCall)]
    ensures id in r.subscriptions && Live(r, r.subscriptions[id])
  {
    Subscribe(h.(registry := Add(h.registry, id, s)), id)
  }

  /** restartASR: dispose the current subscription if it is live, then subscribe again. */
  function RestartSession(h: Handler, id: SessionId): (r: Handler)
    requires Inv(h)
    ensures r.calls == h.calls + [(id, StartCall)]
    ensures r.registry == h.registry
    ensures id in r.subscriptions && Live(r, r.subscriptions[id])
  {
    var h1 :=
      if id in h.subscriptions && h.subscriptions[id] !in h.disposed then
        h.(disposed := h.disposed + {h.subscriptions[id]})
      else h;
    Subscribe(h1, id)
  }

  /** handleMessage: act on one client frame. */
  function OnMessage(h: Handler, id: SessionId, m: Incoming): (r: Handler)
    requires Inv(h)
    ensures match Dispatch(m)
      case Forward(c) => r == h.(calls := h.calls + [(id, c)])
      case Restart => r == RestartSession(h, id)
      case Ignore => r == h
  {
    match Dispatch(m)
    case Forward(c) => h.(calls := h.calls + [(id, c)])
    case Restart => RestartSession(h, id)
    case Ignore => h
  }

  /** cleanupSession: forget and dispose the socket's subscription, then end recognition. */
  function Cleanup(h: Handler, id: SessionId): (r: Handler)
    ensures id !in r.subscriptions
    ensures forall k :: k != id && k in h.subscriptions ==> k in r.subscriptions && r.subscriptions[k] == h.subscriptions[k]
    ensures r.subscriptions.Keys <= h.subscriptions.Keys
    ensures id in h.subscriptions ==> h.subscriptions[id] in r.disposed
    ensures r.disposed <= h.disposed + (if id in h.subscriptions then {h.subscriptions[id]} else {})
    ensures r.calls == h.calls + [(id, EndCall)]
    ensures r.registry == h.registry && r.owner == h.owner && r.nextSub == h.nextSub
  {
    var h1 :=
      if id in h.subscriptions then
        h.(subscriptions := h.subscriptions - {id}, disposed := h.disposed + {h.subscriptions[id]})
      else h;
    h1.(calls := h1.calls + [(id, EndCall)])
  }

  /** afterConnectionClosed: unregister the socket, then clean up. */
  function Closed(h: Handler, id: SessionId): (r: Handler)
  {
    Cleanup(h.(registry := Remove(h.registry, id)), id)
  }

  /**
   * handleTransportError: unregister and clean up like a close; a socket
   * still open (`open`) is then closed with the server-error code.
   */
  function TransportError(h: Handler, id: SessionId, open: bool): (r: Handler)
  {
    var h1 := Cleanup(h.(registry := Remove(h.registry, id)), id);
    if open then h1.(closes := h1.closes + [(id, SERVER_ERROR)]) else h1
  }

  /** `r` is `h` after the socket `id` ended: unregistered, without a live subscription, recognition ended. */
  ghost predicate EndedCleanly(h: Handler, r: Handler, id: SessionId) {
    && Get(r.registry, id) == None
    && id !in r.subscriptions
    && (id in h.subscriptions ==> !Live(r, h.subscriptions[id]))
    && r.calls == h.calls + [(id, EndCall)]
    && (forall k :: k != id ==> Get(r.registry, k) == Get(h.registry, k))
  }

  /** Close and transport error both leave the socket unregistered, without a subscription, and recognition ended. */
  lemma EndingCleansUp(h: Handler, id: SessionId, open: bool)
    ensures EndedCleanly(h, Closed(h, id), id)
    ensures EndedCleanly(h, TransportError(h, id, open), id)
  {
  }

  /** Only a transport error closes the socket, with 1011 and only when it is still open. */
  lemma ErrorClosesOpenSocket(h: Handler, id: SessionId, open: bool)
    ensures Closed(h, id).closes == h.closes
    ensures TransportError(h, id, open).closes == h.closes + (if open then [(id, SERVER_ERROR)] else [])
  {
  }

  lemma SubscribeKeepsInv(h: Handler, id: SessionId)
    requires Inv(h)
    requires id in h.subscriptions ==> h.subscriptions[id] in h.disposed
    ensures Inv(Subscribe(h, id))
  {
    var r := Subscribe(h, id);
    forall s | Live(r, s) ensures r.owner[s] in r.subscriptions && r.subscriptions[r.owner[s]] == s {
      if s != h.nextSub {
        assert Live(h, s);
        assert h.subscriptions[h.owner[s]] == s;
        assert h.owner[s] != id;
      }
    }
  }

  /** Connecting a socket id with no subscription keeps the invariant. */
  lemma ConnectedKeepsInv(h: Handler, id: SessionId, s: Socket)
    requires Inv(h) && id !in h.subscriptions
    ensures Inv(Connected(h, id, s))
  {
    SubscribeKeepsInv(h.(registry := Add(h.registry, id, s)), id);
  }

  /**
   * Restarting disposes the socket's previous subscription and keeps the
   * invariant: the socket is left with exactly the new live subscription.
   */
  lemma RestartKeepsInv(h: Handler, id: SessionId)
    requires Inv(h)
    ensures Inv(RestartSession(h, id))
    ensures id in h.subscriptions ==> !Live(RestartSession(h, id), h.subscriptions[id])
    ensures forall s :: Live(RestartSession(h, id), s) && RestartSession(h, id).owner[s] == id ==> s == h.nextSub
  {
    var h1 :=
      if id in h.subscriptions && h.subscriptions[id] !in h.disposed then
        h.(disposed := h.disposed + {h.subscriptions[id]})
      else h;
    assert Inv(h1);
    SubscribeKeepsInv(h1, id);
  }

  lemma CleanupKeepsInv(h: Handler, id: SessionId)
    requires Inv(h)
    ensures Inv(Cleanup(h, id))
  {
    var r := Cleanup(h, id);
    forall s | Live(r, s) ensures r.owner[s] in r.subscriptions && r.subscriptions[r.owner[s]] == s {
      assert Live(h, s);
    }
  }

  /** Every frame handled keeps at most one live subscription per socket. */
  lemma OnMessageKeepsInv(h: Handler, id: SessionId, m: Incoming)
    requires Inv(h)
    ensures Inv(OnMessage(h, id, m))
  {
    if Dispatch(m) == Restart {
      RestartKeepsInv(h, id);
    }
  }

  lemma EndingKeepsInv(h: Handler, id: SessionId, open: bool)
    requires Inv(h)
    ensures Inv(Closed(h, id)) && Inv(TransportError(h, id, open))
  {
    CleanupKeepsInv(h.(registry := Remove(h.registry, id)), id);
  }

  /**
   * The text between the separators of `s`, splitting at most `limit - 1`
   * times so that the last piece keeps the rest (Java's `String.split` with
   * a positive limit, for a literal one-character separator).
   */
  function SplitAtMost(s: string, sep: char, limit: nat): (r: seq<string>)
    requires limit >= 1
    ensures 1 <= |r| <= limit
    ensures forall i :: 0 <= i < |r| - 1 ==> sep !in r[i]
    decreases limit
  {
    if limit == 1 || sep !in s then [s]
    else
      var i := IndexOf(s, sep);
      [s[..i]] + SplitAtMost(s[i + 1..], sep, limit - 1)
  }

  /** A first piece free of the separator is split off, and the rest is split with one piece fewer. */
  lemma SplitAtMostFirst(p: string, sep: char, rest: string, limit: nat)
    requires limit >= 2 && sep !in p
    ensures SplitAtMost(p + [sep] + rest, sep, limit) == [p] + SplitAtMost(rest, sep, limit - 1)
  {
    var s := p + [sep] + rest;
    IndexOfAfterPrefix(p, sep, rest);
    assert s[..|p|] == p;
    assert s[|p| + 1..] == rest;
  }

  /** Joining the pieces on the separator gives the text back. */
  lemma {:induction false} SplitAtMostJoins(s: string, sep: char, limit: nat)
    requires limit >= 1
    ensures Join(SplitAtMost(s, sep, limit), [sep]) == s
    decreases limit
  {
    if limit > 1 && sep in s {
      var i := IndexOf(s, sep);
      SplitAtMostJoins(s[i + 1..], sep, limit - 1);
      var rest := SplitAtMost(s[i + 1..], sep, limit - 1);
      var r := [s[..i]] + rest;
      assert r[1..] == rest;
      assert s == s[..i] + [sep] + s[i + 1..];
    }
  }

  /** The Base64 text of an AUDIO: result: the second of two pieces, or the third of three. */
  function AudioPayload(result: string): (p: Option<string>)
  {
    var parts := SplitAtMost(result, ':', 3);
    if |parts| == 2 then Some(parts[1])
    else if |parts| == 3 then Some(parts[2])
    else None
  }

  /** An AUDIO: result whose payload has no colon yields exactly that payload. */
  lemma AudioPayloadOfTagged(b64: string)
    requires ':' !in b64
    ensures AudioPayload(AUDIO_PREFIX + b64) == Some(b64)
  {
    assert AUDIO_PREFIX + b64 == "AUDIO" + [':'] + b64;
    SplitAtMostFirst("AUDIO", ':', b64, 3);
    assert SplitAtMost(b64, ':', 2) == [b64];
    assert ["AUDIO"] + [b64] == ["AUDIO", b64];
  }

  /** With a second colon, only the text after it is kept: what precedes it is dropped. */
  lemma AudioPayloadAfterSecondColon(x: string, y: string)
    requires ':' !in x
    ensures AudioPayload(AUDIO_PREFIX + x + ":" + y) == Some(y)
  {
    var rest := x + [':'] + y;
    assert AUDIO_PREFIX + x + ":" + y == "AUDIO" + [':'] + rest;
    SplitAtMostFirst("AUDIO", ':', rest, 3);
    SplitAtMostFirst(x, ':', y, 2);
    assert SplitAtMost(y, ':', 1) == [y];
    assert ["AUDIO"] + ([x] + [y]) == ["AUDIO", x, y];
  }

  /**
   * The frames a recognition result becomes: none for a closed socket;
   * an AUDIO: result becomes its decoded bytes, or nothing when the
   * payload is empty or does not decode; anything else goes verbatim.
   */
  function ResultFrames(codecs: Codecs, open: bool, result: string): (fs: seq<Frame>)
    ensures !open ==> fs == []
    ensures open && !StartsWith(result, AUDIO_PREFIX) ==> fs == [TextOut(result)]
    ensures |fs| <= 1
    ensures StartsWith(result, AUDIO_PREFIX) && |fs| == 1 ==>
      && AudioPayload(result).Some? && AudioPayload(result).value != ""
      && fs[0].BinaryOut? && codecs.base64Decode(AudioPayload(result).value) == Some(fs[0].bytes)
  {
    if !open then []
    else if StartsWith(result, AUDIO_PREFIX) then
      match AudioPayload(result)
      case Some(b64) =>
        if b64 == "" then []
        else (match codecs.base64Decode(b64)
              case Some(bytes) => [BinaryOut(bytes)]
              case None => [])
      case None => []
    else [TextOut(result)]
  }

  /**
   * Synthesized audio relayed as AUDIO: Base64 reaches the client as the
   * original bytes, provided the encoder never writes a colon (RFC 4648's
   * alphabet has none) and its output decodes back.
   */
  lemma AudioRelayRoundTrip(codecs: Codecs, audio: seq<byte>)
    requires ':' !in codecs.base64Encode(audio) && codecs.base64Encode(audio) != ""
    requires codecs.base64Decode(codecs.base64Encode(audio)) == Some(audio)
    ensures ResultFrames(codecs, true, AUDIO_PREFIX + codecs.base64Encode(audio)) == [BinaryOut(audio)]
  {
    AudioPayloadOfTagged(codecs.base64Encode(audio));
    assert StartsWith(AUDIO_PREFIX + codecs.base64Encode(audio), AUDIO_PREFIX);
  }

  /** handleASRResult: write the result's frames to the socket. */
  function OnResult(h: Handler, codecs: Codecs, id: SessionId, open: bool, result: string): (r: Handler)
    ensures r == h.(out := r.out)
    ensures |h.out| <= |r.out| <= |h.out| + 1 && r.out[..|h.out|] == h.out
    ensures !open ==> r == h
    ensures ResultFrames(codecs, open, result) == [] ==> r == h
    ensures |ResultFrames(codecs, open, result)| == 1 ==> r.out == h.out + [(id, ResultFrames(codecs, open, result)[0])]
  {
    var fs := ResultFrames(codecs, open, result);
    h.(out := h.out + seq(|fs|, i requires 0 <= i < |fs| => (id, fs[i])))
  }

  /** The frames a stream error becomes: an ERROR: line, only to an open socket. */
  function ErrorFrames(open: bool, message: string): (fs: seq<Frame>)
    ensures open <==> |fs| == 1
    ensures |fs| == 1 ==> fs[0].TextOut? && StartsWith(fs[0].text, ERROR_PREFIX) && fs[0].text[|ERROR_PREFIX|..] == message
    ensures !open ==> fs == []
  {
    if open then [TextOut(ERROR_PREFIX + message)] else []
  }

  /** handleASRError. */
  function OnError(h: Handler, id: SessionId, open: bool, message: string): (r: Handler)
    ensures r == h.(out := r.out)
    ensures !open ==> r == h
    ensures open ==> && |r.out| == |h.out| + 1 && r.out[..|h.out|] == h.out && r.out[|h.out|].0 == id
                     && r.out[|h.out|].1.TextOut? && StartsWith(r.out[|h.out|].1.text, ERROR_PREFIX)
                     && r.out[|h.out|].1.text[|ERROR_PREFIX|..] == message
  {
    var fs := ErrorFrames(open, message);
    h.(out := h.out + seq(|fs|, i requires 0 <= i < |fs| => (id, fs[i])))
  }

  /** Neither a result nor an error writes anything to a closed socket. */
  lemma ClosedSocketGetsNothing(h: Handler, codecs: Codecs, id: SessionId, result: string, message: string)
    ensures OnResult(h, codecs, id, false, result) == h
    ensures OnError(h, id, false, message) == h
  {
  }
}

=== FILE: streams.dfy ===
/**
 * A reactive result stream as the services use it: items are appended while
 * the stream is open; after completion or an error every further emission is
 * refused and the stream no longer changes.
 */
module Streams {

  datatype Status = Open | Completed | Errored(reason: string)

  datatype Stream<T> = Stream(items: seq<T>, status: Status)

  function NewStream<T>(): Stream<T> {
    Stream([], Open)
  }

  /** `t` is a later state of `s`: the same items and possibly more, and a closed stream does not change. */
  predicate Extends<T(==)>(s: Stream<T>, t: Stream<T>) {
    && |s.items| <= |t.items| && t.items[..|s.items|] == s.items
    && (!s.status.Open? ==> t == s)
  }

  /** tryEmitNext. */
  function Emit<T>(s: Stream<T>, x: T): (r: Stream<T>)
    ensures Extends(s, r)
    ensures s.status.Open? ==> r.items == s.items + [x] && r.status.Open?
  {
    if s.status.Open? then s.(items := s.items + [x]) else s
  }

  /** tryEmitNext for each item in turn. */
  function EmitAll<T>(s: Stream<T>, xs: seq<T>): (r: Stream<T>)
    ensures Extends(s, r)
    ensures s.status.Open? ==> r.items == s.items + xs && r.status.Open?
    decreases |xs|
  {
    if |xs| == 0 then s
    else
      var r := EmitAll(Emit(s, xs[0]), xs[1..]);
      assert s.status.Open? ==> r.items == s.items + [xs[0]] + xs[1..];
      assert [xs[0]] + xs[1..] == xs;
      r
  }

  /** tryEmitComplete. */
  function Complete<T>(s: Stream<T>): (r: Stream<T>)
    ensures Extends(s, r) && r.items == s.items && !r.status.Open?
  {
    if s.status.Open? then s.(status := Completed) else s
  }

  /** tryEmitError. */
  function Fail<T>(s: Stream<T>, reason: string): (r: Stream<T>)
    ensures Extends(s, r) && r.items == s.items && !r.status.Open?
    ensures s.status.Open? ==> r.status == Errored(reason)
  {
    if s.status.Open? then s.(status := Errored(reason)) else s
  }

  lemma ExtendsTransitive<T>(a: Stream<T>, b: Stream<T>, c: Stream<T>)
    requires Extends(a, b) && Extends(b, c)
    ensures Extends(a, c)
  {
    assert c.items[..|a.items|] == c.items[..|b.items|][..|a.items|];
  }
}

=== FILE: strings.dfy ===
/**
 * Character classes, trimming, joining, splitting and decimal text.
 *
 * Strings are sequences of Unicode scalar values. The Java and JavaScript
 * sources count UTF-16 code units instead: a character outside the Basic
 * Multilingual Plane (an emoji, say) is one element here and two there, so
 * lengths and length bounds agree only on text without such characters.
 */
module Strings {
  import opened Wrappers

  /** The four notions of "whitespace" the sources rely on. */
  datatype Space =
    | JavaTrimSpace   // what Java's String.trim() strips: every char up to U+0020
    | JavaWhitespace  // Java's Character.isWhitespace, used by String.isBlank()
    | RegexSpace      // the `\s` class of a Java regular expression
    | JsSpace         // what JavaScript's String.prototype.trim() strips

  predicate IsSpace(k: Space, c: char) {
    match k
    case JavaTrimSpace => c <= ' '
    case JavaWhitespace =>
      c == '\t' || c == '\n' || c == '\U{000B}' || c == '\U{000C}' || c == '\r'
      || ('\U{001C}' <= c <= '\U{001F}') || c == ' ' || c == '\U{1680}'
      || ('\U{2000}' <= c <= '\U{2006}') || ('\U{2008}' <= c <= '\U{200A}')
      || c == '\U{2028}' || c == '\U{2029}' || c == '\U{205F}' || c == '\U{3000}'
    case RegexSpace =>
      c == ' ' || c == '\t' || c == '\n' || c == '\U{000B}' || c == '\U{000C}' || c == '\r'
    case JsSpace =>
      c == '\t' || c == '\n' || c == '\U{000B}' || c == '\U{000C}' || c == '\r' || c == ' '
      || c == '\U{00A0}' || c == '\U{1680}' || ('\U{2000}' <= c <= '\U{200A}')
      || c == '\U{2028}' || c == '\U{2029}' || c == '\U{202F}' || c == '\U{205F}'
      || c == '\U{3000}' || c == '\U{FEFF}'
  }

  /** Every character of `s` is whitespace of kind `k` (an empty string qualifies). */
  predicate IsBlank(k: Space, s: string) {
    forall i :: 0 <= i < |s| ==> IsSpace(k, s[i])
  }

  /** `s` without its leading whitespace of kind `k`. */
  function TrimStart(k: Space, s: string): (r: string)
    ensures |r| <= |s| && r == s[|s| - |r|..]
    ensures forall i :: 0 <= i < |s| - |r| ==> IsSpace(k, s[i])
    ensures r == [] || !IsSpace(k, r[0])
    decreases |s|
  {
    if |s| > 0 && IsSpace(k, s[0]) then TrimStart(k, s[1..]) else s
  }

  /** `s` without its trailing whitespace of kind `k`. */
  function TrimEnd(k: Space, s: string): (r: string)
    ensures |r| <= |s| && r == s[..|r|]
    ensures forall i :: |r| <= i < |s| ==> IsSpace(k, s[i])
    ensures r == [] || !IsSpace(k, r[|r| - 1])
    decreases |s|
  {
    if |s| > 0 && IsSpace(k, s[|s| - 1]) then TrimEnd(k, s[..|s| - 1]) else s
  }

  /** `s` without leading and trailing whitespace of kind `k`. */
  function Trim(k: Space, s: string): (r: string)
    ensures |r| <= |s|
    ensures r == [] || (!IsSpace(k, r[0]) && !IsSpace(k, r[|r| - 1]))
  {
    TrimEnd(k, TrimStart(k, s))
  }

  /** Trimming leaves exactly nothing precisely when the string is all whitespace. */
  lemma TrimEmptyIffBlank(k: Space, s: string)
    ensures Trim(k, s) == [] <==> IsBlank(k, s)
  {
  }

  /** A string with no whitespace at either end is its own trim. */
  lemma TrimOfTrimmed(k: Space, s: string)
    requires s == [] || (!IsSpace(k, s[0]) && !IsSpace(k, s[|s| - 1]))
    ensures Trim(k, s) == s
  {
  }

  /** Trimming twice is trimming once. */
  lemma TrimIdempotent(k: Space, s: string)
    ensures Trim(k, Trim(k, s)) == Trim(k, s)
  {
    TrimOfTrimmed(k, Trim(k, s));
  }

  predicate StartsWith(s: string, prefix: string) {
    |prefix| <= |s| && s[..|prefix|] == prefix
  }

  predicate EndsWith(s: string, suffix: string) {
    |suffix| <= |s| && s[|s| - |suffix|..] == suffix
  }

  /** The parts separated by `sep`, with no separator before the first or after the last. */
  function Join(parts: seq<string>, sep: string): string
    decreases |parts|
  {
    if |parts| == 0 then ""
    else if |parts| == 1 then parts[0]
    else parts[0] + sep + Join(parts[1..], sep)
  }

  /** The position of the first `c` in `s`. */
  function IndexOf(s: string, c: char): (i: nat)
    requires c in s
    ensures i < |s| && s[i] == c && c !in s[..i]
  {
    if s[0] == c then 0 else 1 + IndexOf(s[1..], c)
  }

  /**
   * The pieces of `s` between occurrences of `sep`, keeping empty pieces
   * (Java's `String.split` with a negative limit, for a literal separator).
   */
  function SplitOn(s: string, sep: char): (r: seq<string>)
    ensures |r| >= 1
    decreases |s|
  {
    if sep !in s then [s]
    else
      var i := IndexOf(s, sep);
      [s[..i]] + SplitOn(s[i + 1..], sep)
  }

  /** In `p + [sep] + rest`, the first separator is the one after `p` when `p` has none. */
  lemma {:induction false} IndexOfAfterPrefix(p: string, sep: char, rest: string)
    requires sep !in p
    ensures sep in p + [sep] + rest
    ensures IndexOf(p + [sep] + rest, sep) == |p|
    decreases |p|
  {
    var s := p + [sep] + rest;
    assert s[|p|] == sep;
    if |p| > 0 {
      assert s[1..] == p[1..] + [sep] + rest;
      IndexOfAfterPrefix(p[1..], sep, rest);
    }
  }

  /** Splitting a join on its one-character separator gives the parts back, when no part contains it. */
  lemma {:induction false} SplitJoin(parts: seq<string>, sep: char)
    requires |parts| >= 1
    requires forall i :: 0 <= i < |parts| ==> sep !in parts[i]
    ensures SplitOn(Join(parts, [sep]), sep) == parts
    decreases |parts|
  {
    if |parts| == 1 {
    } else {
      var s := Join(parts, [sep]);
      var rest := Join(parts[1..], [sep]);
      assert s == parts[0] + [sep] + rest;
      IndexOfAfterPrefix(parts[0], sep, rest);
      var i := IndexOf(s, sep);
      assert s[..i] == parts[0];
      assert s[i + 1..] == rest;
      SplitJoin(parts[1..], sep);
      assert SplitOn(s, sep) == [parts[0]] + parts[1..];
    }
  }

  predicate IsDigit(c: char) {
    '0' <= c <= '9'
  }

  function DigitChar(d: nat): (c: char)
    requires d < 10
    ensures IsDigit(c) && c as int - '0' as int == d
  {
    (d + '0' as int) as char
  }

  /** The decimal numeral of `n`, without leading zeros (Java's `Long.toString`, JavaScript's `String(n)`). */
  function NatToString(n: nat): (r: string)
    ensures |r| >= 1 && forall i :: 0 <= i < |r| ==> IsDigit(r[i])
    decreases n
  {
    if n < 10 then [DigitChar(n)] else NatToString(n / 10) + [DigitChar(n % 10)]
  }

  function IntToString(i: int): (r: string)
    ensures |r| >= 1
  {
    if i < 0 then "-" + NatToString(-i) else NatToString(i)
  }

  function DigitOf(c: char): (d: nat)
    requires IsDigit(c)
    ensures d < 10
  {
    c as int - '0' as int
  }

  /** The value of a run of decimal digits. */
  function DigitsValue(s: string): nat
    requires forall i :: 0 <= i < |s| ==> IsDigit(s[i])
    decreases |s|
  {
    if |s| == 0 then 0
    else DigitsValue(s[..|s| - 1]) * 10 + DigitOf(s[|s| - 1])
  }

  /**
   * An optional `+` or `-` followed by one or more ASCII digits, read as an
   * integer; `None` for anything else.
   */
  function ParseInteger(s: string): (r: Option<int>)
    ensures r.Some? ==> |s| >= 1
  {
    if |s| >= 2 && (s[0] == '-' || s[0] == '+') && forall i :: 1 <= i < |s| ==> IsDigit(s[i]) then
      var v: int := DigitsValue(s[1..]);
      Some(if s[0] == '-' then -v else v)
    else if |s| >= 1 && forall i :: 0 <= i < |s| ==> IsDigit(s[i]) then
      Some(DigitsValue(s))
    else
      None
  }

  lemma {:induction false} DigitsValueOfNatToString(n: nat)
    ensures DigitsValue(NatToString(n)) == n
    decreases n
  {
    if n >= 10 {
      var s := NatToString(n / 10) + [DigitChar(n % 10)];
      assert s[..|s| - 1] == NatToString(n / 10);
      DigitsValueOfNatToString(n / 10);
    }
  }

  /** Reading back the decimal numeral of any integer gives that integer. */
  lemma ParseIntToString(i: int)
    ensures ParseInteger(IntToString(i)) == Some(i)
  {
    if i < 0 {
      var t := NatToString(-i);
      var s := "-" + t;
      assert IntToString(i) == s;
      assert s[1..] == t;
      assert forall k :: 1 <= k < |s| ==> s[k] == t[k - 1];
      DigitsValueOfNatToString(-i);
      assert ParseInteger(s) == Some(i);
    } else {
      var t := NatToString(i);
      assert IntToString(i) == t;
      assert IsDigit(t[0]);
      DigitsValueOfNatToString(i);
      assert ParseInteger(t) == Some(DigitsValue(t));
    }
  }

  /**
   * Every non-overlapping occurrence of `from`, scanning left to right,
   * replaced by `to` (Java's `String.replace`).
   */
  function ReplaceAll(s: string, from: string, to: string): string
    requires |from| > 0
    decreases |s|
  {
    if |s| < |from| then s
    else if s[..|from|] == from then to + ReplaceAll(s[|from|..], from, to)
    else [s[0]] + ReplaceAll(s[1..], from, to)
  }

  /** A string that begins with the pattern has the replacement at its front. */
  lemma ReplaceAllAtFront(from: string, rest: string, to: string)
    requires |from| > 0
    ensures ReplaceAll(from + rest, from, to) == to + ReplaceAll(rest, from, to)
  {
    assert (from + rest)[..|from|] == from;
    assert (from + rest)[|from|..] == rest;
  }
}

=== FILE: sync_tts.dfy ===
/**
 * The synchronous synthesis generator: one socket, one request carrying the
 * whole text, and the vendor's replies folded into a single result. The
 * caller waits until the first reply or socket event that releases it; the
 * decoded audio gathered by then is the result, unless an error was
 * recorded. A wait that is never released ends in a timeout.
 */
module SyncTts {
  import opened Wrappers
  import opened Strings
  import opened Seqs
  import opened Json
  import opened Primitives
  import opened TtsProtocol

  const TIMEOUT_MS: nat := 30000
  const TIMEOUT_ERROR := "TTS音频生成超时"
  const SOCKET_ERROR := "WebSocket连接失败"

  /**
   * What reaches the listener after the request: a text reply (`resp` is
   * its parse, None where parsing throws, `detail` the message of whatever
   * exception handling it raises), the socket closing, or a socket failure.
   */
  datatype Event = Reply(resp: Option<Response>, detail: string) | Closed | Failed

  /** The one request of a call: the whole text as the final frame, seq 0, with the fixed voice. */
  function SyncRequest(codecs: Codecs, appId: string, text: string): (j: Json)
    ensures HeaderStatus(j) == Some(STATUS_LAST) && TextStatus(j) == Some(STATUS_LAST) && TextSeq(j) == Some(0)
    ensures TextPayload(j) == Some(codecs.base64Encode(codecs.utf8(text)))
  {
    RequestFields(codecs, appId, FIXED_VOICE, STATUS_LAST, 0, Some(text));
    Request(codecs, appId, FIXED_VOICE, STATUS_LAST, 0, Some(text))
  }

  /** The error a non-zero reply code records. */
  function ApiError(h: Header): (m: string)
    ensures StartsWith(m, "TTS API错误，错误码: ")
  {
    var prefix := "TTS API错误，错误码: ";
    var m := prefix + IntToString(h.code) + ", SID: " + (if h.sid.Some? then h.sid.value else "null");
    assert m[..|prefix|] == prefix;
    m
  }

  /** How one event leaves the call: go on with these bytes appended, or release it with or without an error. */
  datatype Outcome = Continue(bytes: seq<byte>) | Release(bytes: seq<byte>) | Abort(error: string)

  /**
   * onMessage, onClosed and onFailure. A reply that does not parse or has no
   * header, a non-zero code, or audio that does not decode records an error;
   * otherwise the decoded audio is appended and status 2 releases the call.
   */
  function Step(codecs: Codecs, e: Event): (o: Outcome)
    ensures e.Closed? ==> o == Release([])
    ensures e.Failed? ==> o == Abort(SOCKET_ERROR)
    ensures e.Reply? && e.resp.Some? && e.resp.value.header.Some? && e.resp.value.header.value.code != 0 ==>
      o == Abort(ApiError(e.resp.value.header.value))
  {
    match e
    case Closed => Release([])
    case Failed => Abort(SOCKET_ERROR)
    case Reply(resp, detail) =>
      if resp.None? || resp.value.header.None? then Abort(detail)
      else
        var h := resp.value.header.value;
        if h.code != 0 then Abort(ApiError(h))
        else
          var audio :=
            if resp.value.audio.Some? then codecs.base64Decode(resp.value.audio.value) else Some([]);
          if audio.None? then Abort(detail)
          else if h.status == STATUS_LAST then Release(audio.value)
          else Continue(audio.value)
  }

  /** The fold from the audio gathered so far (`acc`) up to the first event that releases the call. */
  function Collect(codecs: Codecs, acc: seq<byte>, events: seq<Event>): (r: Result<seq<byte>, string>)
    decreases |events|
  {
    if |events| == 0 then Failure(TIMEOUT_ERROR)
    else
      match Step(codecs, events[0])
      case Continue(b) => Collect(codecs, acc + b, events[1..])
      case Release(b) => Success(acc + b)
      case Abort(m) => Failure(m)
  }

  /** generateAudioData: every call starts from an empty buffer and no error. */
  function Generate(codecs: Codecs, events: seq<Event>): (r: Result<seq<byte>, string>) {
    Collect(codecs, [], events)
  }

  /** A reply that the fold accepts without releasing: header, code 0, status not 2, audio absent or decodable. */
  predicate Clean(codecs: Codecs, e: Event) {
    Step(codecs, e).Continue?
  }

  /** The audio a clean reply contributes. */
  function Contribution(codecs: Codecs, e: Event): seq<byte>
    requires Clean(codecs, e)
  {
    Step(codecs, e).bytes
  }

  /** The audio of a run of clean replies, concatenated in arrival order. */
  function Gathered(codecs: Codecs, events: seq<Event>): seq<byte>
    requires forall i :: 0 <= i < |events| ==> Clean(codecs, events[i])
    decreases |events|
  {
    if |events| == 0 then [] else Contribution(codecs, events[0]) + Gathered(codecs, events[1..])
  }

  /**
   * The result is the decoded audio of every reply in arrival order: clean
   * replies followed by one that releases the call give exactly their audio
   * concatenated, and with no releasing event the call times out.
   */
  lemma {:induction false} ResultConcatenatesAudio(codecs: Codecs, acc: seq<byte>, clean: seq<Event>, rest: seq<Event>)
    requires forall i :: 0 <= i < |clean| ==> Clean(codecs, clean[i])
    ensures |rest| == 0 ==> Collect(codecs, acc, clean + rest) == Failure(TIMEOUT_ERROR)
    ensures |rest| > 0 && Step(codecs, rest[0]).Release? ==>
      Collect(codecs, acc, clean + rest) == Success(acc + Gathered(codecs, clean) + Step(codecs, rest[0]).bytes)
    ensures |rest| > 0 && Step(codecs, rest[0]).Abort? ==>
      Collect(codecs, acc, clean + rest) == Failure(Step(codecs, rest[0]).error)
    decreases |clean|
  {
    if |clean| == 0 {
      assert clean + rest == rest;
      assert acc + Gathered(codecs, clean) == acc;
    } else {
      var b := Contribution(codecs, clean[0]);
      assert (clean + rest)[0] == clean[0];
      assert (clean + rest)[1..] == clean[1..] + rest;
      ResultConcatenatesAudio(codecs, acc + b, clean[1..], rest);
      assert acc + b + Gathered(codecs, clean[1..]) == acc + Gathered(codecs, clean);
    }
  }

  /** A reply with a non-zero code fails the call at once, and its audio is never appended. */
  lemma ErrorCodeFails(codecs: Codecs, h: Header, audio: Option<string>, detail: string, later: seq<Event>)
    requires h.code != 0
    ensures Generate(codecs, [Reply(Some(Response(Some(h), audio)), detail)] + later) == Failure(ApiError(h))
  {
  }

  /** A socket that closes before the final reply returns what was gathered, without error. */
  lemma CloseReturnsGathered(codecs: Codecs, clean: seq<Event>, later: seq<Event>)
    requires forall i :: 0 <= i < |clean| ==> Clean(codecs, clean[i])
    ensures Generate(codecs, clean + [Closed] + later) == Success(Gathered(codecs, clean))
  {
    ResultConcatenatesAudio(codecs, [], clean, [Closed] + later);
    assert clean + ([Closed] + later) == clean + [Closed] + later;
    assert [] + Gathered(codecs, clean) + [] == Gathered(codecs, clean);
  }
}

=== FILE: transcripts.dfy ===
/**
 * Reading a recognition vendor message into transcript text.
 *
 * A vendor result nests the recognised words as data.cn.st.rt[].ws[].cw[].w;
 * st.type is 1 for an interim hypothesis and anything else for a final one.
 * Both recognition services extract the text the same way; the tagging
 * service prefixes it with `PARTIAL:` or `FINAL:`, the other relays it bare.
 */
module Transcripts {
  import opened Wrappers
  import opened Strings
  import opened Seqs
  import opened Json

  const PARTIAL_TAG := "PARTIAL:"
  const FINAL_TAG := "FINAL:"

  /** What a vendor result carries once extracted: its st.type and the trimmed text. */
  datatype Transcript = Transcript(kind: int, text: string)

  predicate AllNonEmpty(words: seq<string>) {
    forall i :: 0 <= i < |words| ==> words[i] != []
  }

  /** What `optString("w", "")` reads from a cw element; a non-object reads as "". */
  function WordOf(e: Json): string {
    if e.JObj? then OptString(e.fields, "w", "") else ""
  }

  /** The `w` text of every cw element, one per element, in order. */
  function WordsOf(cw: seq<Json>): (r: seq<string>)
    ensures |r| == |cw|
  {
    seq(|cw|, i requires 0 <= i < |cw| => WordOf(cw[i]))
  }

  /** The `!word.isEmpty()` test: the non-empty texts, in order. */
  function Kept(texts: seq<string>): (r: seq<string>)
    ensures AllNonEmpty(r) && Flatten(r) == Flatten(texts)
    decreases |texts|
  {
    if |texts| == 0 then []
    else if texts[0] == [] then
      assert Flatten(texts) == Flatten(texts[1..]);
      Kept(texts[1..])
    else
      FlattenCons(texts[0], Kept(texts[1..]));
      [texts[0]] + Kept(texts[1..])
  }

  /** The array under `key` of an element, when it is an object holding one; nothing otherwise. */
  function Nested(e: Json, key: string): seq<Json> {
    if e.JObj? && key in e.fields && e.fields[key].JArr? then e.fields[key].items else []
  }

  /** The arrays under `key` of the elements, run together in element order. */
  function Gather(a: seq<Json>, key: string): seq<Json> {
    Flatten(seq(|a|, j requires 0 <= j < |a| => Nested(a[j], key)))
  }

  /** `getJSONObject(i)` succeeds on every element. */
  predicate AllObjects(a: seq<Json>) {
    forall i | 0 <= i < |a| :: a[i].JObj?
  }

  /** Every element is an object whose `key` member, when present, is an array. */
  predicate NestsArrays(a: seq<Json>, key: string) {
    forall i | 0 <= i < |a| :: a[i].JObj? && (key in a[i].fields ==> a[i].fields[key].JArr?)
  }

  /**
   * The non-empty `w` members of a cw array, in element order; `None`
   * (getJSONObject throws) when an element is not an object.
   */
  function CwWords(cw: seq<Json>): (r: Option<seq<string>>)
    ensures r.Some? <==> AllObjects(cw)
    ensures r.Some? ==> r.value == Kept(WordsOf(cw))
    decreases |cw|
  {
    if |cw| == 0 then Some([])
    else
      AllObjectsCons(cw);
      WordsOfCons(cw);
      KeptCons(WordOf(cw[0]), WordsOf(cw[1..]));
      match ObjectAt(cw, 0)
      case None => None
      case Some(o) =>
        match CwWords(cw[1..])
        case None => None
        case Some(rest) =>
          var w := OptString(o, "w", "");
          Some(if w == [] then rest else [w] + rest)
  }

  /**
   * The words of a ws array: the non-empty `w` members of all its cw
   * arrays, in document order; an element without `cw` contributes none.
   * `None` when an element, or a cw element, is not an object, or a `cw`
   * member is not an array.
   */
  function WsWords(ws: seq<Json>): (r: Option<seq<string>>)
    ensures r.Some? <==> NestsArrays(ws, "cw") && AllObjects(Gather(ws, "cw"))
    ensures r.Some? ==> r.value == Kept(WordsOf(Gather(ws, "cw")))
    decreases |ws|
  {
    if |ws| == 0 then Some([])
    else
      GatherStep(ws, "cw");
      match ObjectAt(ws, 0)
      case None => None
      case Some(o) =>
        var here := if Has(o, "cw") then (match GetArray(o, "cw") case None => None case Some(cw) => CwWords(cw)) else Some([]);
        match here
        case None => None
        case Some(h) =>
          match WsWords(ws[1..])
          case None => None
          case Some(rest) => Some(h + rest)
  }

  /**
   * The words of an rt array: the non-empty `w` members of every cw
   * element under every ws element, in document order; an element without
   * `ws` contributes none.
   */
  function RtWords(rt: seq<Json>): (r: Option<seq<string>>)
    ensures r.Some? <==> && NestsArrays(rt, "ws") && NestsArrays(Gather(rt, "ws"), "cw")
                         && AllObjects(Gather(Gather(rt, "ws"), "cw"))
    ensures r.Some? ==> r.value == Kept(WordsOf(Gather(Gather(rt, "ws"), "cw")))
    decreases |rt|
  {
    if |rt| == 0 then Some([])
    else
      RtStep(rt);
      match ObjectAt(rt, 0)
      case None => None
      case Some(o) =>
        var here := if Has(o, "ws") then (match GetArray(o, "ws") case None => None case Some(ws) => WsWords(ws)) else Some([]);
        match here
        case None => None
        case Some(h) =>
          match RtWords(rt[1..])
          case None => None
          case Some(rest) => Some(h + rest)
  }

  lemma AllObjectsCons(a: seq<Json>)
    requires |a| > 0
    ensures AllObjects(a) <==> a[0].JObj? && AllObjects(a[1..])
  {
    if a[0].JObj? && AllObjects(a[1..]) {
      forall i | 0 < i < |a| ensures a[i].JObj? {
        assert a[i] == a[1..][i - 1];
      }
    }
  }

  lemma AllObjectsAppend(a: seq<Json>, b: seq<Json>)
    ensures AllObjects(a + b) <==> AllObjects(a) && AllObjects(b)
  {
    if AllObjects(a + b) {
      forall i | 0 <= i < |a| ensures a[i].JObj? {
        assert a[i] == (a + b)[i];
      }
      forall i | 0 <= i < |b| ensures b[i].JObj? {
        assert b[i] == (a + b)[|a| + i];
      }
    }
    if AllObjects(a) && AllObjects(b) {
      forall i | 0 <= i < |a + b| ensures (a + b)[i].JObj? {
        if i >= |a| { assert (a + b)[i] == b[i - |a|]; }
      }
    }
  }

  lemma NestsArraysCons(a: seq<Json>, key: string)
    requires |a| > 0
    ensures NestsArrays(a, key) <==>
      && a[0].JObj? && (key in a[0].fields ==> a[0].fields[key].JArr?)
      && NestsArrays(a[1..], key)
  {
    if a[0].JObj? && (key in a[0].fields ==> a[0].fields[key].JArr?) && NestsArrays(a[1..], key) {
      forall i | 0 < i < |a| ensures a[i].JObj? && (key in a[i].fields ==> a[i].fields[key].JArr?) {
        assert a[i] == a[1..][i - 1];
      }
    }
  }

  lemma NestsArraysAppend(a: seq<Json>, b: seq<Json>, key: string)
    ensures NestsArrays(a + b, key) <==> NestsArrays(a, key) && NestsArrays(b, key)
  {
    if NestsArrays(a + b, key) {
      forall i | 0 <= i < |a| ensures a[i].JObj? && (key in a[i].fields ==> a[i].fields[key].JArr?) {
        assert a[i] == (a + b)[i];
      }
      forall i | 0 <= i < |b| ensures b[i].JObj? && (key in b[i].fields ==> b[i].fields[key].JArr?) {
        assert b[i] == (a + b)[|a| + i];
      }
    }
    if NestsArrays(a, key) && NestsArrays(b, key) {
      forall i | 0 <= i < |a + b| ensures (a + b)[i].JObj? && (key in (a + b)[i].fields ==> (a + b)[i].fields[key].JArr?) {
        if i >= |a| { assert (a + b)[i] == b[i - |a|]; }
      }
    }
  }

  lemma WordsOfCons(cw: seq<Json>)
    requires |cw| > 0
    ensures WordsOf(cw) == [WordOf(cw[0])] + WordsOf(cw[1..])
  {
  }

  lemma WordsOfAppend(a: seq<Json>, b: seq<Json>)
    ensures WordsOf(a + b) == WordsOf(a) + WordsOf(b)
  {
  }

  lemma KeptCons(x: string, xs: seq<string>)
    ensures Kept([x] + xs) == (if x == [] then [] else [x]) + Kept(xs)
  {
    assert ([x] + xs)[1..] == xs;
  }

  lemma {:induction false} KeptAppend(a: seq<string>, b: seq<string>)
    ensures Kept(a + b) == Kept(a) + Kept(b)
    decreases |a|
  {
    if |a| == 0 {
      assert a + b == b;
    } else {
      var pre := if a[0] == [] then [] else [a[0]];
      assert (a + b)[1..] == a[1..] + b;
      assert Kept(a + b) == pre + Kept(a[1..] + b);
      assert Kept(a) == pre + Kept(a[1..]);
      KeptAppend(a[1..], b);
      Assoc(pre, Kept(a[1..]), Kept(b));
    }
  }

  lemma Assoc(x: seq<string>, y: seq<string>, z: seq<string>)
    ensures x + (y + z) == (x + y) + z
  {
  }

  lemma GatherCons(a: seq<Json>, key: string)
    requires |a| > 0
    ensures Gather(a, key) == Nested(a[0], key) + Gather(a[1..], key)
  {
    var s := seq(|a|, j requires 0 <= j < |a| => Nested(a[j], key));
    var t := seq(|a[1..]|, j requires 0 <= j < |a[1..]| => Nested(a[1..][j], key));
    assert s == [s[0]] + t;
    FlattenCons(s[0], t);
  }

  lemma GatherAppend(a: seq<Json>, b: seq<Json>, key: string)
    ensures Gather(a + b, key) == Gather(a, key) + Gather(b, key)
  {
    var s := seq(|a + b|, j requires 0 <= j < |a + b| => Nested((a + b)[j], key));
    var sa := seq(|a|, j requires 0 <= j < |a| => Nested(a[j], key));
    var sb := seq(|b|, j requires 0 <= j < |b| => Nested(b[j], key));
    assert s == sa + sb;
    FlattenAppend(sa, sb);
  }

  /** The words of an element's nested array, followed by those of the rest, are the words of the whole. */
  lemma WordsSplit(n: seq<Json>, g: seq<Json>)
    ensures Kept(WordsOf(n + g)) == Kept(WordsOf(n)) + Kept(WordsOf(g))
    ensures AllObjects(n + g) <==> AllObjects(n) && AllObjects(g)
  {
    WordsOfAppend(n, g);
    KeptAppend(WordsOf(n), WordsOf(g));
    AllObjectsAppend(n, g);
  }

  /** One ws element, then the rest: how the reference reading of a ws array splits. */
  lemma GatherStep(ws: seq<Json>, key: string)
    requires |ws| > 0
    ensures NestsArrays(ws, key) <==>
      && ws[0].JObj? && (key in ws[0].fields ==> ws[0].fields[key].JArr?)
      && NestsArrays(ws[1..], key)
    ensures Gather(ws, key) == Nested(ws[0], key) + Gather(ws[1..], key)
    ensures Kept(WordsOf(Gather(ws, key))) == Kept(WordsOf(Nested(ws[0], key))) + Kept(WordsOf(Gather(ws[1..], key)))
    ensures AllObjects(Gather(ws, key)) <==> AllObjects(Nested(ws[0], key)) && AllObjects(Gather(ws[1..], key))
  {
    NestsArraysCons(ws, key);
    GatherCons(ws, key);
    WordsSplit(Nested(ws[0], key), Gather(ws[1..], key));
  }

  /** One rt element, then the rest: how the reference reading of an rt array splits. */
  lemma RtStep(rt: seq<Json>)
    requires |rt| > 0
    ensures NestsArrays(rt, "ws") <==>
      && rt[0].JObj? && ("ws" in rt[0].fields ==> rt[0].fields["ws"].JArr?)
      && NestsArrays(rt[1..], "ws")
    ensures var n := Nested(rt[0], "ws"); var g := Gather(rt[1..], "ws");
      && (NestsArrays(Gather(rt, "ws"), "cw") <==> NestsArrays(n, "cw") && NestsArrays(g, "cw"))
      && Gather(Gather(rt, "ws"), "cw") == Gather(n, "cw") + Gather(g, "cw")
      && Kept(WordsOf(Gather(Gather(rt, "ws"), "cw"))) == Kept(WordsOf(Gather(n, "cw"))) + Kept(WordsOf(Gather(g, "cw")))
      && (AllObjects(Gather(Gather(rt, "ws"), "cw")) <==> AllObjects(Gather(n, "cw")) && AllObjects(Gather(g, "cw")))
  {
    var n := Nested(rt[0], "ws");
    var g := Gather(rt[1..], "ws");
    NestsArraysCons(rt, "ws");
    GatherCons(rt, "ws");
    NestsArraysAppend(n, g, "cw");
    GatherAppend(n, g, "cw");
    WordsSplit(Gather(n, "cw"), Gather(g, "cw"));
  }

  /** The msg_type of a message, or "" when it has none or is not an object. */
  function MsgType(msg: Option<Json>): string {
    if msg.Some? && msg.value.JObj? then OptString(msg.value.fields, "msg_type", "") else ""
  }

  /**
   * The transcript a vendor message carries. `msg` is the parsed message text
   * (`None` when it is not JSON). Messages that are not results, are
   * malformed on the path to the words, or whose words trim to nothing carry
   * none.
   */
  function Extract(msg: Option<Json>): (r: Option<Transcript>)
    ensures r.Some? ==> MsgType(msg) == "result"
    ensures r.Some? ==> r.value.text != [] && Trim(JavaTrimSpace, r.value.text) == r.value.text
  {
    if msg.None? || !msg.value.JObj? then None
    else
      var json := msg.value.fields;
      if OptString(json, "msg_type", "") != "result" || !Has(json, "data") then None
      else match GetObject(json, "data")
        case None => None
        case Some(data) =>
          if !Has(data, "cn") then None
          else match GetObject(data, "cn")
            case None => None
            case Some(cn) =>
              if !Has(cn, "st") then None
              else match GetObject(cn, "st")
                case None => None
                case Some(st) =>
                  var kind := OptInt(st, "type", 0);
                  if !Has(st, "rt") then None
                  else match GetArray(st, "rt")
                    case None => None
                    case Some(rt) =>
                      match RtWords(rt)
                      case None => None
                      case Some(words) =>
                        var text := Trim(JavaTrimSpace, Flatten(words));
                        TrimIdempotent(JavaTrimSpace, Flatten(words));
                        if text == [] then None else Some(Transcript(kind, text))
  }

  /** The tag the tagging service puts in front of a transcript. */
  function Tag(t: Transcript): string {
    if t.kind == 1 then PARTIAL_TAG else FINAL_TAG
  }

  /**
   * The tagging service's reading of a vendor message: `PARTIAL:` or
   * `FINAL:` followed by the trimmed transcript, or nothing.
   */
  function ParseTagged(msg: Option<Json>): (r: Option<string>)
    ensures r.Some? <==> Extract(msg).Some?
    ensures r.Some? ==> r.value == Tag(Extract(msg).value) + Extract(msg).value.text
  {
    match Extract(msg)
    case None => None
    case Some(t) => Some(Tag(t) + t.text)
  }

  /** The untagged service's reading of a vendor message: the trimmed transcript alone. */
  function ParseUntagged(msg: Option<Json>): (r: Option<string>)
    ensures r.Some? <==> Extract(msg).Some?
    ensures r.Some? ==> r.value == Extract(msg).value.text && r.value != []
  {
    match Extract(msg)
    case None => None
    case Some(t) => Some(t.text)
  }

  /** The two services relay the same text: the tagged reading is a tag followed by the untagged one. */
  lemma TaggedExtendsUntagged(msg: Option<Json>)
    ensures ParseTagged(msg).Some? <==> ParseUntagged(msg).Some?
    ensures ParseTagged(msg).Some? ==>
      ParseTagged(msg).value == PARTIAL_TAG + ParseUntagged(msg).value
      || ParseTagged(msg).value == FINAL_TAG + ParseUntagged(msg).value
  {
  }

  // A canonical vendor result, one word per ws element, for round-trip statements.

  function WsItems(words: seq<string>): (r: seq<Json>)
    ensures |r| == |words|
  {
    seq(|words|, i requires 0 <= i < |words| =>
      JObj(map["cw" := JArr([JObj(map["w" := JStr(words[i])])])]))
  }

  function StFields(kind: int, words: seq<string>): Fields {
    map["type" := JNum(kind), "rt" := JArr([JObj(map["ws" := JArr(WsItems(words))])])]
  }

  /** The result message a vendor sends for `words` with st.type = `kind`. */
  function ResultMessage(kind: int, words: seq<string>): Json {
    JObj(map[
      "msg_type" := JStr("result"),
      "data" := JObj(map["cn" := JObj(map["st" := JObj(StFields(kind, words))])])])
  }

  lemma {:induction false} WsWordsOfItems(words: seq<string>)
    requires AllNonEmpty(words)
    ensures WsWords(WsItems(words)) == Some(words)
    decreases |words|
  {
    if |words| > 0 {
      var cw := [JObj(map["w" := JStr(words[0])])];
      assert WsItems(words) == [JObj(map["cw" := JArr(cw)])] + WsItems(words[1..]);
      WsWordsOfItems(words[1..]);
      OneWord(words[0]);
      WsWordsCons(cw, WsItems(words[1..]), [words[0]], words[1..]);
      assert [words[0]] + words[1..] == words;
    }
  }

  /** A ws element holding a cw array, in front of the rest: its words come first. */
  lemma WsWordsCons(cw: seq<Json>, rest: seq<Json>, h: seq<string>, t: seq<string>)
    requires CwWords(cw) == Some(h) && WsWords(rest) == Some(t)
    ensures WsWords([JObj(map["cw" := JArr(cw)])] + rest) == Some(h + t)
  {
    var ws := [JObj(map["cw" := JArr(cw)])] + rest;
    assert ws[1..] == rest;
    assert ObjectAt(ws, 0) == Some(map["cw" := JArr(cw)]);
  }

  /** A cw array of one object whose `w` is a non-empty string gives that word. */
  lemma OneWord(w: string)
    requires w != []
    ensures CwWords([JObj(map["w" := JStr(w)])]) == Some([w])
  {
    var o := map["w" := JStr(w)];
    assert [JObj(o)][1..] == [];
    assert ObjectAt([JObj(o)], 0) == Some(o);
    assert OptString(o, "w", "") == w;
    assert CwWords([JObj(o)][1..]) == Some([]);
    assert [w] + [] == [w];
  }

  /** The words of a canonical result message come back unchanged. */
  lemma RtWordsOfResult(words: seq<string>)
    requires AllNonEmpty(words)
    ensures RtWords([JObj(map["ws" := JArr(WsItems(words))])]) == Some(words)
  {
    WsWordsOfItems(words);
    var rt := [JObj(map["ws" := JArr(WsItems(words))])];
    assert rt[1..] == [];
    assert RtWords(rt[1..]) == Some([]);
    assert words + [] == words;
  }

  lemma ExtractOfResult(kind: int, words: seq<string>)
    requires AllNonEmpty(words)
    requires JavaInts.IsInt(kind)
    ensures Extract(Some(ResultMessage(kind, words)))
      == (var text := Trim(JavaTrimSpace, Flatten(words)); if text == [] then None else Some(Transcript(kind, text)))
  {
    var st := StFields(kind, words);
    var cn := map["st" := JObj(st)];
    var data := map["cn" := JObj(cn)];
    var json := ResultMessage(kind, words).fields;
    assert OptString(json, "msg_type", "") == "result";
    assert GetObject(json, "data") == Some(data);
    assert GetObject(data, "cn") == Some(cn);
    assert GetObject(cn, "st") == Some(st);
    assert OptInt(st, "type", 0) == kind;
    assert GetArray(st, "rt") == Some([JObj(map["ws" := JArr(WsItems(words))])]);
    RtWordsOfResult(words);
  }

  /**
   * Round trip: a result message built from non-empty words yields their
   * concatenation, trimmed, with the message's type, whenever that is not
   * blank.
   */
  lemma ExtractResultMessage(kind: int, words: seq<string>)
    requires AllNonEmpty(words)
    requires JavaInts.IsInt(kind)
    requires !IsBlank(JavaTrimSpace, Flatten(words))
    ensures Extract(Some(ResultMessage(kind, words))) == Some(Transcript(kind, Trim(JavaTrimSpace, Flatten(words))))
  {
    ExtractOfResult(kind, words);
    TrimEmptyIffBlank(JavaTrimSpace, Flatten(words));
  }

  /** A result whose words are all whitespace is relayed by neither service. */
  lemma BlankResultIsDropped(kind: int, words: seq<string>)
    requires AllNonEmpty(words)
    requires JavaInts.IsInt(kind)
    requires IsBlank(JavaTrimSpace, Flatten(words))
    ensures Extract(Some(ResultMessage(kind, words))) == None
    ensures ParseTagged(Some(ResultMessage(kind, words))) == None
  {
    ExtractOfResult(kind, words);
    TrimEmptyIffBlank(JavaTrimSpace, Flatten(words));
  }

  /** An interim hypothesis (st.type 1) is tagged PARTIAL, a final one (st.type 0) FINAL. */
  lemma TagFollowsType(words: seq<string>)
    requires AllNonEmpty(words)
    requires !IsBlank(JavaTrimSpace, Flatten(words))
    ensures ParseTagged(Some(ResultMessage(1, words))) == Some(PARTIAL_TAG + Trim(JavaTrimSpace, Flatten(words)))
    ensures ParseTagged(Some(ResultMessage(0, words))) == Some(FINAL_TAG + Trim(JavaTrimSpace, Flatten(words)))
  {
    ExtractResultMessage(1, words);
    ExtractResultMessage(0, words);
  }

  /** A message that is not JSON, or whose msg_type is not "result", carries no transcript. */
  lemma NonResultIgnored(msg: Option<Json>)
    requires MsgType(msg) != "result"
    ensures ParseTagged(msg) == None && ParseUntagged(msg) == None
  {
  }
}

=== FILE: tts_client.dfy ===
/**
 * The one-shot streaming synthesis client: a socket opened per call, one
 * final request per text item, and the vendor's replies turned into an
 * output stream of audio chunks.
 */
module TtsClient {
  import opened Wrappers
  import opened Streams
  import opened Json
  import opened Primitives
  import opened TtsProtocol

  /** The configured voice; this client's parameters carry no `rhy` field. */
  function ClientVoice(vcn: string, encoding: string, sampleRate: int): (v: Voice)
    ensures !v.rhy
  {
    Voice(vcn, encoding, sampleRate, false)
  }

  /**
   * buildTtsRequestJson as called for each text item: final frame (status 2)
   * and seq 0, with the item's Base64 UTF-8 text.
   */
  function ItemRequest(codecs: Codecs, appId: string, v: Voice, text: string): (j: Json)
    ensures HeaderStatus(j) == Some(STATUS_LAST) && TextStatus(j) == Some(STATUS_LAST) && TextSeq(j) == Some(0)
    ensures TextPayload(j) == Some(codecs.base64Encode(codecs.utf8(text)))
  {
    RequestFields(codecs, appId, v, STATUS_LAST, 0, Some(text));
    Request(codecs, appId, v, STATUS_LAST, 0, Some(text))
  }

  /**
   * The call's state: the output stream, the flag onClosed sets, whether the
   * client has asked the socket to close, and the requests written.
   */
  datatype Client = Client(out: Stream<seq<byte>>, closedFlag: bool, closing: bool, sent: seq<Json>)

  /**
   * What happens during a call: a text item or the end or failure of the
   * text stream; a text reply (`resp` its parse, None where parsing throws,
   * `detail` the exception's message); a binary frame; the socket closing
   * or failing.
   */
  datatype Event =
    | Item(text: string)
    | TextFailed(reason: string)
    | TextDone
    | Reply(resp: Option<Response>, detail: string)
    | Binary(bytes: seq<byte>)
    | SocketClosed
    | SocketFailed(reason: string)

  /** A call's start: an open output, or one already errored when the URL cannot be built. */
  function Begin(setupError: Option<string>): (c: Client)
    ensures c.sent == [] && !c.closedFlag
    ensures setupError.None? <==> c.out.status.Open?
  {
    match setupError
    case None => Client(NewStream(), false, false, [])
    case Some(e) => Client(Fail(NewStream(), e), false, false, [])
  }

  /** The listener and the text subscriber for one event. */
  function Step(codecs: Codecs, appId: string, v: Voice, c: Client, e: Event): (r: Client)
    ensures Extends(c.out, r.out)
    ensures c.closing ==> r.closing
    ensures !e.Item? ==> r.sent == c.sent
  {
    match e
    case Item(t) =>
      if c.closing then c else c.(sent := c.sent + [ItemRequest(codecs, appId, v, t)])
    case TextFailed(reason) => c.(closing := true, out := Fail(c.out, reason))
    case TextDone => c
    case Reply(resp, detail) =>
      if resp.None? then c.(out := Fail(c.out, detail))
      else if resp.value.header.None? then c
      else
        var h := resp.value.header.value;
        var decoded := if resp.value.audio.Some? then codecs.base64Decode(resp.value.audio.value) else Some([]);
        if decoded.None? then c.(out := Fail(c.out, detail))
        else
          var out1 := if resp.value.audio.Some? then Emit(c.out, decoded.value) else c.out;
          if h.status == STATUS_LAST then c.(closing := true, out := Complete(out1)) else c.(out := out1)
    case Binary(b) => c.(out := Emit(c.out, b))
    case SocketClosed => if c.closedFlag then c else c.(out := Complete(c.out), closedFlag := true)
    case SocketFailed(reason) => c.(out := Fail(c.out, reason), closing := true)
  }

  /** A whole call's events in order. */
  function Run(codecs: Codecs, appId: string, v: Voice, c: Client, events: seq<Event>): (r: Client)
    ensures Extends(c.out, r.out)
    decreases |events|
  {
    if |events| == 0 then c
    else
      var c1 := Step(codecs, appId, v, c, events[0]);
      var r := Run(codecs, appId, v, c1, events[1..]);
      ExtendsTransitive(c.out, c1.out, r.out);
      r
  }

  /** Each text item sent before the socket is asked to close writes exactly one request for that item. */
  lemma ItemWritesOneRequest(codecs: Codecs, appId: string, v: Voice, c: Client, t: string)
    requires !c.closing
    ensures Step(codecs, appId, v, c, Item(t)).sent == c.sent + [ItemRequest(codecs, appId, v, t)]
  {
  }

  /** The end of the text stream neither closes the socket nor touches the output. */
  lemma TextDoneChangesNothing(codecs: Codecs, appId: string, v: Voice, c: Client)
    ensures Step(codecs, appId, v, c, TextDone) == c
  {
  }

  /** A reply with status 2 completes the output after its audio and asks the socket to close. */
  lemma FinalReplyCompletes(codecs: Codecs, appId: string, v: Voice, c: Client, h: Header, audio: string, detail: string, b: seq<byte>)
    requires c.out.status.Open? && h.status == STATUS_LAST && codecs.base64Decode(audio) == Some(b)
    ensures var r := Step(codecs, appId, v, c, Reply(Some(Response(Some(h), Some(audio))), detail));
      r.out == Stream(c.out.items + [b], Completed) && r.closing
  {
  }

  /** A reply without a header is ignored. */
  lemma HeaderlessReplyIgnored(codecs: Codecs, appId: string, v: Voice, c: Client, audio: Option<string>, detail: string)
    ensures Step(codecs, appId, v, c, Reply(Some(Response(None, audio)), detail)) == c
  {
  }

  /** onClosed completes the output only the first time; a second close changes nothing. */
  lemma SecondCloseChangesNothing(codecs: Codecs, appId: string, v: Voice, c: Client)
    requires !c.closedFlag
    ensures var c1 := Step(codecs, appId, v, c, SocketClosed);
      c1.closedFlag && !c1.out.status.Open? && Step(codecs, appId, v, c1, SocketClosed) == c1
  {
  }

  /** A non-final reply whose audio decodes. */
  predicate AudioReply(codecs: Codecs, e: Event) {
    && e.Reply? && e.resp.Some? && e.resp.value.header.Some? && e.resp.value.header.value.status != STATUS_LAST
    && e.resp.value.audio.Some? && codecs.base64Decode(e.resp.value.audio.value).Some?
  }

  function Decoded(codecs: Codecs, e: Event): seq<byte>
    requires AudioReply(codecs, e)
  {
    codecs.base64Decode(e.resp.value.audio.value).value
  }

  /** Audio chunks reach the output decoded, in arrival order, with nothing dropped or reordered. */
  lemma {:induction false} AudioArrivesInOrder(codecs: Codecs, appId: string, v: Voice, c: Client, events: seq<Event>)
    requires c.out.status.Open?
    requires forall i :: 0 <= i < |events| ==> AudioReply(codecs, events[i])
    ensures Run(codecs, appId, v, c, events).out ==
      Stream(c.out.items + seq(|events|, i requires 0 <= i < |events| && AudioReply(codecs, events[i]) => Decoded(codecs, events[i])), Open)
    decreases |events|
  {
    var ds := seq(|events|, i requires 0 <= i < |events| && AudioReply(codecs, events[i]) => Decoded(codecs, events[i]));
    if |events| == 0 {
      assert ds == [];
      assert c.out == Stream(c.out.items, Open);
    } else {
      var c1 := Step(codecs, appId, v, c, events[0]);
      AudioStep(codecs, appId, v, c, events[0]);
      AudioArrivesInOrder(codecs, appId, v, c1, events[1..]);
      var ds1 := seq(|events[1..]|, i requires 0 <= i < |events[1..]| && AudioReply(codecs, events[1..][i]) => Decoded(codecs, events[1..][i]));
      assert ds == [ds[0]] + ds1;
      assert (c.out.items + [ds[0]]) + ds1 == c.out.items + ([ds[0]] + ds1);
    }
  }

  /** One audio reply on an open output appends its decoded bytes and keeps it open. */
  lemma AudioStep(codecs: Codecs, appId: string, v: Voice, c: Client, e: Event)
    requires c.out.status.Open? && AudioReply(codecs, e)
    ensures Step(codecs, appId, v, c, e).out == Stream(c.out.items + [Decoded(codecs, e)], Open)
  {
  }
}

=== FILE: tts_pool.dfy ===
/**
 * The synthesis vendor's pooled connections. A connection stamps each
 * request with its sequence counter and then increments it; it sends an
 * initialisation request as soon as it opens; every send is skipped while it
 * is down. The pool creates at most 10 connections; at that cap a caller
 * whose polled connection is missing or dead waits for one to be returned,
 * and takes it without a health check.
 */
module TtsPool {
  import opened Wrappers
  import opened Strings
  import opened Json
  import opened Primitives
  import opened TtsProtocol

  const MAX_POOL_SIZE: nat := 10
  const CONNECTION_TIMEOUT_MS: nat := 15000

  /** The placeholder text of the initialisation request: a backslash and the letter n. */
  const INIT_TEXT := "\\n"

  /** The prefixes of the texts a failed parse and a socket failure report, before the exception's message. */
  const PARSE_FAILURE := "处理响应失败: "
  const SOCKET_FAILURE := "WebSocket连接失败: "
  const CONNECT_FAILURE := "TTS WebSocket连接建立失败"

  type ConnId = nat

  /** Whose handlers a connection currently calls: a session and its audio stream. */
  datatype Binding = Binding(session: string, stream: nat)

  datatype Connection = Connection(url: string, connected: bool, seqNo: nat, binding: Option<Binding>)

  /** The three request kinds a connection sends. */
  datatype Op = Init | Text(text: string, isLast: bool) | End

  /** The status an operation stamps in the header and the text payload. */
  function OpStatus(op: Op): int {
    match op
    case Init => STATUS_FIRST
    case Text(_, isLast) => if isLast then STATUS_LAST else STATUS_MIDDLE
    case End => STATUS_LAST
  }

  /** The text an operation carries: the placeholder, the text unless empty, or none. */
  function OpText(op: Op): Option<string> {
    match op
    case Init => Some(INIT_TEXT)
    case Text(t, _) => if t == "" then None else Some(t)
    case End => None
  }

  /** A send is skipped when the socket is down, and a blank text that is not the last is never sent. */
  predicate Skipped(c: Connection, op: Op) {
    !c.connected || (op.Text? && IsBlank(JavaTrimSpace, op.text) && !op.isLast)
  }

  /**
   * sendInitMessage, sendText and sendEndMessage: a request that is sent
   * carries the connection's current counter as its seq and the operation's
   * status, and the counter then moves on by one.
   */
  function Send(c: Connection, op: Op): (r: (Connection, Option<Frame>))
    ensures r.1.None? <==> Skipped(c, op)
    ensures r.1.None? ==> r.0 == c
    ensures r.1.Some? ==> r.0 == c.(seqNo := c.seqNo + 1)
    ensures r.1.Some? ==> r.1.value.seqNo == c.seqNo && r.1.value.status == OpStatus(op) && r.1.value.text == OpText(op)
  {
    if Skipped(c, op) then (c, None)
    else
      (c.(seqNo := c.seqNo + 1), Some(Frame(OpStatus(op), c.seqNo, OpText(op))))
  }

  /** A series of sends on one connection: the connection afterwards and the requests written. */
  function Run(c: Connection, ops: seq<Op>): (r: (Connection, seq<Frame>))
    ensures r.0.connected == c.connected && r.0.url == c.url && r.0.binding == c.binding
    decreases |ops|
  {
    if |ops| == 0 then (c, [])
    else
      var (c1, out) := Send(c, ops[0]);
      var (c2, rest) := Run(c1, ops[1..]);
      (c2, (if out.Some? then [out.value] else []) + rest)
  }

  /** An operation that is not skipped sends exactly its request. */
  lemma SendSends(c: Connection, op: Op)
    requires !Skipped(c, op)
    ensures Send(c, op) == (c.(seqNo := c.seqNo + 1), Some(Frame(OpStatus(op), c.seqNo, OpText(op))))
  {
  }

  /** A first operation that is sent, followed by the rest. */
  lemma RunSentFirst(c: Connection, ops: seq<Op>)
    requires |ops| > 0 && !Skipped(c, ops[0])
    ensures var rest := Run(c.(seqNo := c.seqNo + 1), ops[1..]);
      Run(c, ops) ==
        (rest.0, [Frame(OpStatus(ops[0]), c.seqNo, OpText(ops[0]))] + rest.1)
  {
    SendSends(c, ops[0]);
  }

  /** A first operation that is skipped changes nothing. */
  lemma RunSkippedFirst(c: Connection, ops: seq<Op>)
    requires |ops| > 0 && Skipped(c, ops[0])
    ensures Run(c, ops) == Run(c, ops[1..])
  {
    var rest := Run(c, ops[1..]).1;
    assert Send(c, ops[0]) == (c, None);
    assert [] + rest == rest;
  }

  /** A single operation that is not skipped writes exactly its request. */
  lemma RunSingle(c: Connection, op: Op)
    requires !Skipped(c, op)
    ensures Run(c, [op]) == (c.(seqNo := c.seqNo + 1), [Frame(OpStatus(op), c.seqNo, OpText(op))])
  {
    var c1 := c.(seqNo := c.seqNo + 1);
    var req := Frame(OpStatus(op), c.seqNo, OpText(op));
    RunSentFirst(c, [op]);
    assert [op][1..] == [];
    assert Run(c1, []) == (c1, []);
    assert [req] + [] == [req];
  }

  /** Two operations neither of which is skipped write their two requests with consecutive seq values. */
  lemma RunPair(c: Connection, a: Op, b: Op)
    requires !Skipped(c, a) && !Skipped(c.(seqNo := c.seqNo + 1), b)
    ensures Run(c, [a, b]) ==
      (c.(seqNo := c.seqNo + 2),
       [Frame(OpStatus(a), c.seqNo, OpText(a)),
        Frame(OpStatus(b), c.seqNo + 1, OpText(b))])
  {
    RunSentFirst(c, [a, b]);
    assert [a, b][1..] == [b];
    RunSingle(c.(seqNo := c.seqNo + 1), b);
    assert [Frame(OpStatus(a), c.seqNo, OpText(a))] + [Frame(OpStatus(b), c.seqNo + 1, OpText(b))]
      == [Frame(OpStatus(a), c.seqNo, OpText(a)), Frame(OpStatus(b), c.seqNo + 1, OpText(b))];
  }

  /** The number of operations a live connection actually sends. */
  function SentCount(ops: seq<Op>): nat {
    if |ops| == 0 then 0
    else (if ops[0].Text? && IsBlank(JavaTrimSpace, ops[0].text) && !ops[0].isLast then 0 else 1) + SentCount(ops[1..])
  }

  /**
   * On a live connection the requests carry consecutive seq values from the
   * counter, with no gap or repeat, one per operation not skipped, and the
   * counter ends just past the last; a dead connection sends nothing.
   */
  lemma {:induction false} RunSeqsConsecutive(c: Connection, ops: seq<Op>)
    ensures var (c', out) := Run(c, ops);
      && (!c.connected ==> out == [] && c' == c)
      && (c.connected ==>
            (|out| == SentCount(ops) && c'.seqNo == c.seqNo + |out|
             && forall i :: 0 <= i < |out| ==> out[i].seqNo == c.seqNo + i))
    decreases |ops|
  {
    if |ops| > 0 {
      var op := ops[0];
      if Skipped(c, op) {
        RunSkippedFirst(c, ops);
        RunSeqsConsecutive(c, ops[1..]);
        if c.connected {
          assert SentCount(ops) == SentCount(ops[1..]);
        }
      } else {
        var c1 := c.(seqNo := c.seqNo + 1);
        var req := Frame(OpStatus(op), c.seqNo, OpText(op));
        SendSends(c, op);
        assert Send(c, op).1 == Some(req);
        RunSentFirst(c, ops);
        RunSeqsConsecutive(c1, ops[1..]);
        var rest := Run(c1, ops[1..]).1;
        assert Run(c, ops).1 == [req] + rest;
        assert SentCount(ops) == 1 + SentCount(ops[1..]);
        SeqsShift(req, rest, c.seqNo);
      }
    }
  }

  /** A request carrying seq `n` ahead of requests numbered from `n + 1` starts a run numbered from `n`. */
  lemma SeqsShift(req: Frame, rest: seq<Frame>, n: int)
    requires req.seqNo == n
    requires forall i :: 0 <= i < |rest| ==> rest[i].seqNo == n + 1 + i
    ensures forall i :: 0 <= i < |[req] + rest| ==> ([req] + rest)[i].seqNo == n + i
  {
    var all := [req] + rest;
    assert forall i :: 1 <= i < |all| ==> all[i] == rest[i - 1];
  }

  /** reset, applied when a connection is returned: the counter restarts and no handlers are set. */
  function Reset(c: Connection): (r: Connection)
    ensures r.seqNo == 0 && r.binding.None? && r.connected == c.connected && r.url == c.url
  {
    c.(seqNo := 0, binding := None)
  }

  /** What the connection's handlers are told. */
  datatype Event = AudioBytes(bytes: seq<byte>) | Completion | Broken(message: string)

  /**
   * onMessage: a frame that does not parse or has no header is a failure;
   * otherwise decoded audio is delivered (a payload that does not decode is
   * only logged), then a header status of 2 signals completion. A non-zero
   * code is only logged. `detail` is the parser's exception message.
   */
  function OnMessage(codecs: Codecs, resp: Option<Response>, detail: string): (evs: seq<Event>)
    ensures resp.None? || resp.value.header.None? ==> evs == [Broken(PARSE_FAILURE + detail)]
    ensures resp.Some? && resp.value.header.Some? ==>
      && (Completion in evs <==> resp.value.header.value.status == STATUS_LAST)
      && (forall e :: e in evs ==> !e.Broken?)
      && (|evs| > 0 && evs[0].AudioBytes? <==> resp.value.audio.Some? && codecs.base64Decode(resp.value.audio.value).Some?)
    ensures |evs| <= 2
  {
    if resp.None? || resp.value.header.None? then [Broken(PARSE_FAILURE + detail)]
    else
      var h := resp.value.header.value;
      var audio :=
        if resp.value.audio.Some? then
          match codecs.base64Decode(resp.value.audio.value)
          case Some(b) => [AudioBytes(b)]
          case None => []
        else [];
      audio + (if h.status == STATUS_LAST then [Completion] else [])
  }

  /** onClosed: the socket is down and completion is signalled. */
  function OnClosed(c: Connection): (r: (Connection, seq<Event>))
    ensures !r.0.connected && r.1 == [Completion]
  {
    (c.(connected := false), [Completion])
  }

  /** onFailure: the socket is down and the failure, with the exception's message, is signalled. */
  function OnFailure(c: Connection, detail: string): (r: (Connection, seq<Event>))
    ensures !r.0.connected && r.1 == [Broken(SOCKET_FAILURE + detail)]
  {
    (c.(connected := false), [Broken(SOCKET_FAILURE + detail)])
  }

  datatype Pool = Pool(available: seq<ConnId>, all: set<ConnId>, conns: map<ConnId, Connection>, wire: seq<(ConnId, Frame)>)

  /** getConnection's outcomes: a connection, a wait for a returned one, or a failed creation. */
  datatype Acquired = Got(id: ConnId) | MustWait | CreateFailed(message: string)

  /** Queued connections are pool members, queued once; members exist; at most 10. */
  predicate Valid(p: Pool) {
    && (forall i :: 0 <= i < |p.available| ==> p.available[i] in p.all)
    && (forall i, j :: 0 <= i < j < |p.available| ==> p.available[i] != p.available[j])
    && p.all <= p.conns.Keys
    && |p.all| <= MAX_POOL_SIZE
  }

  /**
   * createNewConnection plus the add: a connection that opens sends its
   * initialisation request (seq 0) at once and joins the members; one that
   * does not open fails the call and is not kept.
   */
  function Create(p: Pool, newId: ConnId, url: string, opens: bool): (r: (Pool, Acquired))
    requires Valid(p) && newId !in p.conns && |p.all| < MAX_POOL_SIZE
    ensures Valid(r.0) && r.0.available == p.available
    ensures opens <==> r.1 == Got(newId)
    ensures !opens ==> r == (p, CreateFailed(CONNECT_FAILURE))
    ensures opens ==> r.0.conns == p.conns[newId := Connection(url, true, 1, None)]
    ensures opens ==>
      (r.0.all == p.all + {newId} && newId in r.0.conns && r.0.conns[newId] == Connection(url, true, 1, None)
       && r.0.wire == p.wire + [(newId, Frame(STATUS_FIRST, 0, Some(INIT_TEXT)))])
  {
    if !opens then (p, CreateFailed(CONNECT_FAILURE))
    else
      var (c, init) := Send(Connection(url, true, 0, None), Init);
      (p.(all := p.all + {newId}, conns := p.conns[newId := c], wire := p.wire + [(newId, init.value)]), Got(newId))
  }

  /**
   * getConnection: a polled connection that is up is reused. Otherwise a
   * new one is created while fewer than 10 exist; at the cap the caller takes
   * the next queued connection unchecked, or waits when there is none.
   */
  function Acquire(p: Pool, newId: ConnId, url: string, opens: bool): (r: (Pool, Acquired))
    requires Valid(p) && newId !in p.conns
    ensures Valid(r.0) && p.all <= r.0.all
    ensures r.1.Got? ==> r.1.id in r.0.all && r.1.id !in r.0.available
    ensures r.1.Got? ==> r.1.id == newId || r.1.id in p.available
    ensures forall x :: x in r.0.available ==> x in p.available
    ensures |p.available| > 0 && p.conns[p.available[0]].connected ==> r == (p.(available := p.available[1..]), Got(p.available[0]))
    ensures r.1.MustWait? ==> |p.all| >= MAX_POOL_SIZE && r.0.available == [] && r.0.all == p.all
    ensures r.0.conns == p.conns || r.0.conns == p.conns[newId := Connection(url, true, 1, None)]
    ensures r.0.wire == p.wire || (r.1 == Got(newId) && |r.0.wire| == |p.wire| + 1 && r.0.wire[..|p.wire|] == p.wire)
  {
    var p1 := if |p.available| > 0 then p.(available := p.available[1..]) else p;
    assert forall x :: x in p1.available ==> x in p.available;
    if |p.available| > 0 && p.conns[p.available[0]].connected then (p1, Got(p.available[0]))
    else if |p1.all| < MAX_POOL_SIZE then Create(p1, newId, url, opens)
    else if |p1.available| > 0 then (p1.(available := p1.available[1..]), Got(p1.available[0]))
    else (p1, MustWait)
  }

  /** A caller that waited resumes with the connection returned first, unchecked. */
  function Take(p: Pool): (r: (Pool, ConnId))
    requires Valid(p) && |p.available| > 0
    ensures Valid(r.0) && r.0.all == p.all && r.1 in p.all && r.1 !in r.0.available
    ensures r.0.available == p.available[1..]
  {
    (p.(available := p.available[1..]), p.available[0])
  }

  /** returnConnection: a live connection is reset and queued at the back; a dead one is forgotten. */
  function Release(p: Pool, c: ConnId): (r: Pool)
    requires Valid(p) && c in p.all && c !in p.available
    ensures Valid(r) && r.all == p.all && r.conns.Keys == p.conns.Keys && r.wire == p.wire
    ensures p.conns[c].connected ==> r.available == p.available + [c] && r.conns[c] == Reset(p.conns[c])
    ensures !p.conns[c].connected ==> r == p
  {
    if p.conns[c].connected then p.(available := p.available + [c], conns := p.conns[c := Reset(p.conns[c])]) else p
  }

  /**
   * A stale polled connection leaves the queue but stays counted: once 10
   * connections exist, only returned ones are ever handed out again.
   */
  lemma StaleConnectionStaysCounted(p: Pool, newId: ConnId, url: string, opens: bool)
    requires Valid(p) && newId !in p.conns && |p.available| > 0 && !p.conns[p.available[0]].connected
    ensures var r := Acquire(p, newId, url, opens);
      p.available[0] in r.0.all && p.available[0] !in r.0.available
  {
  }

  /** With 10 connections and an empty queue a caller waits and nothing changes. */
  lemma AtCapCallerWaits(p: Pool, newId: ConnId, url: string, opens: bool)
    requires Valid(p) && newId !in p.conns && |p.all| == MAX_POOL_SIZE && p.available == []
    ensures Acquire(p, newId, url, opens) == (p, MustWait)
  {
  }

  /**
   * A returned connection is handed out again with its counter at 0: the
   * next session's first request is seq 0, where a fresh connection's is
   * seq 1 after its initialisation request.
   */
  lemma ReturnedConnectionRestartsSeq(p: Pool, c: ConnId, newId: ConnId, url: string, opens: bool)
    requires Valid(p) && c in p.all && c !in p.available && p.conns[c].connected && p.available == []
    requires newId !in p.conns
    ensures var r := Acquire(Release(p, c), newId, url, opens);
      r.1 == Got(c) && r.0.conns[c].seqNo == 0 && r.0.conns[c].binding.None?
  {
  }
}

=== FILE: tts_protocol.dfy ===
/**
 * The synthesis vendor's wire protocol, shared by the pooled connections,
 * the one-shot client and the synchronous generator: the request frame
 * (a header status, a payload text status and sequence number, and the
 * Base64 UTF-8 text when there is any), the signed socket URL, and the
 * parsed shape of a response frame.
 */
module TtsProtocol {
  import opened Wrappers
  import opened Strings
  import opened Json
  import opened Primitives

  const HOST := "cbm01.cn-huabei-1.xf-yun.com"
  const PATH := "/v1/private/mcd9m97e6"
  const HOST_URL := "https://" + HOST + PATH
  const VCN := "x5_lingfeiyi_flow"

  /** Header and text status codes: first frame, middle frame, last frame. */
  const STATUS_FIRST := 0
  const STATUS_MIDDLE := 1
  const STATUS_LAST := 2

  /** The voice parameters a sender puts in every request. */
  datatype Voice = Voice(vcn: string, encoding: string, sampleRate: int, rhy: bool)

  /** The pooled connections and the synchronous generator: lame at 24 kHz, with rhy. */
  const FIXED_VOICE := Voice(VCN, "lame", 24000, true)

  /** The parameter.tts object: fixed prosody, mono 16-bit audio in the voice's encoding and rate. */
  function TtsParameters(v: Voice): (j: Json)
    ensures j.JObj? && "audio" in j.fields && "vcn" in j.fields
    ensures "rhy" in j.fields <==> v.rhy
    ensures j.fields["vcn"] == JStr(v.vcn)
    ensures var a := j.fields["audio"];
      && a.JObj? && {"encoding", "sample_rate", "channels", "bit_depth"} <= a.fields.Keys
      && a.fields["encoding"] == JStr(v.encoding) && a.fields["sample_rate"] == JNum(v.sampleRate)
      && a.fields["channels"] == JNum(1) && a.fields["bit_depth"] == JNum(16)
  {
    var audio := JObj(map[
      "encoding" := JStr(v.encoding), "sample_rate" := JNum(v.sampleRate),
      "channels" := JNum(1), "bit_depth" := JNum(16), "frame_size" := JNum(0)]);
    var base := map[
      "vcn" := JStr(v.vcn), "speed" := JNum(50), "volume" := JNum(50), "pitch" := JNum(50),
      "bgs" := JNum(0), "reg" := JNum(0), "rdn" := JNum(0), "audio" := audio];
    JObj(if v.rhy then base["rhy" := JNum(0)] else base)
  }

  /**
   * A request frame: `status` in the header and in payload.text, `seq` in
   * payload.text, and the text field only when `text` is present.
   */
  function Request(codecs: Codecs, appId: string, v: Voice, status: int, seqNo: int, text: Option<string>): (j: Json)
    ensures j.JObj? && "header" in j.fields && j.fields["header"].JObj?
    ensures "app_id" in j.fields["header"].fields && j.fields["header"].fields["app_id"] == JStr(appId)
  {
    var textFields := map[
      "encoding" := JStr("utf8"), "compress" := JStr("raw"), "format" := JStr("json"),
      "status" := JNum(status), "seq" := JNum(seqNo)];
    var textObj := if text.Some? then textFields["text" := JStr(codecs.base64Encode(codecs.utf8(text.value)))] else textFields;
    JObj(map[
      "header" := JObj(map["app_id" := JStr(appId), "status" := JNum(status)]),
      "parameter" := JObj(map["tts" := TtsParameters(v)]),
      "payload" := JObj(map["text" := JObj(textObj)])])
  }

  /** payload.text of a request, when present. */
  function TextObject(j: Json): Option<Fields> {
    if j.JObj? && "payload" in j.fields && j.fields["payload"].JObj?
       && "text" in j.fields["payload"].fields && j.fields["payload"].fields["text"].JObj?
    then Some(j.fields["payload"].fields["text"].fields)
    else None
  }

  function IntField(o: Fields, key: string): Option<int> {
    if key in o && o[key].JNum? then Some(o[key].n) else None
  }

  /** header.status of a request. */
  function HeaderStatus(j: Json): Option<int> {
    if j.JObj? && "header" in j.fields && j.fields["header"].JObj? then IntField(j.fields["header"].fields, "status") else None
  }

  /** payload.text.status of a request. */
  function TextStatus(j: Json): Option<int> {
    if TextObject(j).Some? then IntField(TextObject(j).value, "status") else None
  }

  /** payload.text.seq of a request. */
  function TextSeq(j: Json): Option<int> {
    if TextObject(j).Some? then IntField(TextObject(j).value, "seq") else None
  }

  /** payload.text.text of a request, as sent (Base64). */
  function TextPayload(j: Json): Option<string> {
    if TextObject(j).Some? && "text" in TextObject(j).value && TextObject(j).value["text"].JStr?
    then Some(TextObject(j).value["text"].s) else None
  }

  /** What a receiver reads back from a request is what the sender put in. */
  lemma RequestFields(codecs: Codecs, appId: string, v: Voice, status: int, seqNo: int, text: Option<string>)
    ensures var j := Request(codecs, appId, v, status, seqNo, text);
      && HeaderStatus(j) == Some(status) && TextStatus(j) == Some(status) && TextSeq(j) == Some(seqNo)
      && (text.None? ==> TextPayload(j).None?)
      && (text.Some? ==> TextPayload(j) == Some(codecs.base64Encode(codecs.utf8(text.value))))
  {
  }

  /** A request as a connection records it: its status, its seq and its text, if any. */
  datatype Frame = Frame(status: int, seqNo: int, text: Option<string>)

  /** The JSON a frame is sent as, in the fixed voice: a receiver reads back the frame's status, seq and text. */
  function Encode(codecs: Codecs, appId: string, f: Frame): (j: Json)
    ensures HeaderStatus(j) == Some(f.status) && TextStatus(j) == Some(f.status) && TextSeq(j) == Some(f.seqNo)
    ensures f.text.None? ==> TextPayload(j).None?
    ensures f.text.Some? ==> TextPayload(j) == Some(codecs.base64Encode(codecs.utf8(f.text.value)))
  {
    RequestFields(codecs, appId, FIXED_VOICE, f.status, f.seqNo, f.text);
    Request(codecs, appId, FIXED_VOICE, f.status, f.seqNo, f.text)
  }

  /** The string the URL signature covers: host, date and request line. */
  function SignedString(host: string, date: string, path: string): (s: string)
    ensures StartsWith(s, "host: " + host + "\n")
    ensures EndsWith(s, " HTTP/1.1")
  {
    var s := "host: " + host + "\n" + "date: " + date + "\n" + "GET " + path + " HTTP/1.1";
    assert s[..|"host: " + host + "\n"|] == "host: " + host + "\n";
    assert s[|s| - |" HTTP/1.1"|..] == " HTTP/1.1";
    s
  }

  /**
   * The signed text splits back into exactly its three lines, when none of
   * the host, the date and the path holds a line break.
   */
  lemma SignedStringLines(host: string, date: string, path: string)
    requires '\n' !in host && '\n' !in date && '\n' !in path
    ensures SplitOn(SignedString(host, date, path), '\n') == ["host: " + host, "date: " + date, "GET " + path + " HTTP/1.1"]
  {
    var lines := ["host: " + host, "date: " + date, "GET " + path + " HTTP/1.1"];
    assert Join(lines[2..], "\n") == lines[2];
    assert Join(lines[1..], "\n") == lines[1] + "\n" + lines[2];
    assert Join(lines, "\n") == SignedString(host, date, path);
    assert '\n' !in lines[0] && '\n' !in lines[1] && '\n' !in lines[2] by {
      assert lines[0] == "host: " + host && '\n' !in "host: ";
      assert '\n' !in "date: " && '\n' !in "GET " && '\n' !in " HTTP/1.1";
    }
    SplitJoin(lines, '\n');
  }

  /** The authorization header value naming the key, the algorithm, the signed headers and the signature. */
  function Authorization(apiKey: string, signature: string): string {
    "hmac username=\"" + apiKey + "\", algorithm=\"hmac-sha256\", headers=\"host date request-line\", signature=\"" + signature + "\""
  }

  /**
   * getAuthUrl: sign (host, date, request line) with HMAC-SHA256 under the
   * secret, and carry the Base64 authorization, the date and the host as
   * query parameters of the https URL.
   */
  function AuthUrl(codecs: Codecs, host: string, path: string, apiKey: string, apiSecret: string, date: string): (url: string)
    ensures StartsWith(url, "https://" + host + path + "?authorization=")
  {
    var sha := codecs.base64Encode(codecs.hmacSha256(codecs.utf8(apiSecret), codecs.utf8(SignedString(host, date, path))));
    var auth := codecs.base64Encode(codecs.utf8(Authorization(apiKey, sha)));
    var prefix := "https://" + host + path + "?authorization=";
    var url := prefix + codecs.queryEncode(auth) + "&date=" + codecs.queryEncode(date) + "&host=" + codecs.queryEncode(host);
    assert url[..|prefix|] == prefix;
    url
  }

  /** The socket URL: every http:// becomes ws://, then every https:// becomes wss://. */
  function SocketUrl(authUrl: string): string {
    ReplaceAll(ReplaceAll(authUrl, "http://", "ws://"), "https://", "wss://")
  }

  /** Replacing a pattern that contains ':' leaves a string without ':' unchanged. */
  lemma {:induction false} ReplaceSkipsColonFree(s: string, from: string, to: string)
    requires |from| > 0 && ':' in from && ':' !in s
    ensures ReplaceAll(s, from, to) == s
    decreases |s|
  {
    if |s| >= |from| {
      var k :| 0 <= k < |from| && from[k] == ':';
      assert s[k] != ':';
      assert s[..|from|] != from;
      ReplaceSkipsColonFree(s[1..], from, to);
      assert [s[0]] + s[1..] == s;
    }
  }

  /** A character that cannot begin the pattern is kept, and replacement goes on after it. */
  lemma ReplaceAllCons(c: char, t: string, from: string, to: string)
    requires |from| > 0 && c != from[0]
    ensures ReplaceAll([c] + t, from, to) == [c] + ReplaceAll(t, from, to)
  {
    var s := [c] + t;
    assert s[1..] == t;
    if |s| < |from| {
      assert ReplaceAll(t, from, to) == t;
    } else {
      assert s[..|from|][0] == c;
    }
  }

  /** "https:" followed by a ':'-free tail contains no "http://". */
  lemma {:induction false} SchemeNotHttp(tail: string)
    requires ':' !in tail
    ensures ReplaceAll("https:" + tail, "http://", "ws://") == "https:" + tail
  {
    var from := "http://";
    ReplaceSkipsColonFree(tail, from, "ws://");
    ReplaceAllCons(':', tail, from, "ws://");
    assert [':'] + tail == ":" + tail;
    ReplaceAllCons('s', ":" + tail, from, "ws://");
    assert ['s'] + (":" + tail) == "s:" + tail;
    ReplaceAllCons('p', "s:" + tail, from, "ws://");
    assert ['p'] + ("s:" + tail) == "ps:" + tail;
    ReplaceAllCons('t', "ps:" + tail, from, "ws://");
    assert ['t'] + ("ps:" + tail) == "tps:" + tail;
    ReplaceAllCons('t', "tps:" + tail, from, "ws://");
    assert ['t'] + ("tps:" + tail) == "ttps:" + tail;
    var u := "https:" + tail;
    assert |u| >= 7 ==> u[..7][4] == 's';
    assert |u| >= 7 ==> u[..7] != from;
    assert u[1..] == "ttps:" + tail;
  }

  /**
   * The signed https URL becomes a wss URL with the rest untouched, when
   * the encoded parts after the scheme contain no ':' (the query encoder
   * escapes it).
   */
  lemma SocketUrlOfHttps(rest: string)
    requires ':' !in rest
    ensures SocketUrl("https://" + rest) == "wss://" + rest
  {
    var tail := "//" + rest;
    var u := "https://" + rest;
    assert ':' !in tail;
    assert u == "https:" + tail;
    SchemeNotHttp(tail);
    var a := ReplaceAll(u, "http://", "ws://");
    assert a == u;
    ReplaceSkipsColonFree(rest, "https://", "wss://");
    ReplaceAllAtFront("https://", rest, "wss://");
    var b := ReplaceAll(u, "https://", "wss://");
    assert b == "wss://" + rest;
    assert SocketUrl(u) == ReplaceAll(a, "https://", "wss://");
  }

  /** header of a parsed response. */
  datatype Header = Header(code: int, sid: Option<string>, status: int)

  /**
   * A response frame as the vendor's client classes parse it: the header,
   * and payload.audio.audio (absent when any level is missing).
   */
  datatype Response = Response(header: Option<Header>, audio: Option<string>)
}

=== FILE: tts_service.dfy ===
/**
 * The streaming synthesis service: per client session, an audio stream and a
 * pooled vendor connection whose handlers feed that stream. A call reuses a
 * live connection that still has its stream, or else clears the session and
 * takes a connection from the pool. The text tokens of one call are cleaned,
 * joined and sent as a single final request, always followed by exactly one
 * end request.
 */
module TtsService {
  import opened Wrappers
  import opened Strings
  import opened Seqs
  import opened Streams
  import opened Json
  import opened Primitives
  import opened TtsPool
  import opened TtsProtocol
  import opened TtsText
  import opened AudioChunks

  type SessionId = string

  /** The identity of an audio stream (the sink object). */
  type StreamId = nat

  datatype State = State(
    pool: Pool,
    sinks: map<SessionId, StreamId>,
    connections: map<SessionId, ConnId>,
    streams: map<StreamId, Stream<VendorChunk>>)

  /**
   * The pool is valid; a held connection is a member not idle in the queue;
   * no two sessions hold the same connection; sinks and connection handlers
   * name known streams.
   */
  predicate Inv(s: State) {
    && Valid(s.pool)
    && (forall sid :: sid in s.connections ==> s.connections[sid] in s.pool.all && s.connections[sid] !in s.pool.available)
    && (forall a, b :: a in s.connections && b in s.connections && a != b ==> s.connections[a] != s.connections[b])
    && s.sinks.Values <= s.streams.Keys
    && (forall c :: c in s.pool.conns && s.pool.conns[c].binding.Some? ==> s.pool.conns[c].binding.value.stream in s.streams)
  }

  /**
   * cleanupTTSSession: the session's stream entry is removed and the stream
   * completed; its connection entry is removed and the connection returned to
   * the pool. Nothing is sent to the vendor.
   */
  function Cleanup(s: State, sid: SessionId): (r: State)
    requires Inv(s)
    ensures Inv(r)
    ensures r.sinks == s.sinks - {sid} && r.connections == s.connections - {sid}
    ensures r.streams.Keys == s.streams.Keys && r.pool.wire == s.pool.wire && r.pool.all == s.pool.all
    ensures forall k :: k in s.streams && (sid !in s.sinks || k != s.sinks[sid]) ==> r.streams[k] == s.streams[k]
    ensures sid in s.sinks ==> (var k := s.sinks[sid]; r.streams[k].items == s.streams[k].items && !r.streams[k].status.Open?)
    ensures sid !in s.connections ==> r.pool == s.pool
    ensures sid in s.connections ==> r.pool == Release(s.pool, s.connections[sid])
  {
    var streams := if sid in s.sinks then s.streams[s.sinks[sid] := Complete(s.streams[s.sinks[sid]])] else s.streams;
    var pool := if sid in s.connections then Release(s.pool, s.connections[sid]) else s.pool;
    State(pool, s.sinks - {sid}, s.connections - {sid}, streams)
  }

  /** Cleaning a session twice is cleaning it once. */
  lemma CleanupIdempotent(s: State, sid: SessionId)
    requires Inv(s)
    ensures Cleanup(Cleanup(s, sid), sid) == Cleanup(s, sid)
  {
  }

  /** How a call obtained its connection. */
  datatype Opened =
    | Reused(conn: ConnId, stream: StreamId)
    | Bound(conn: ConnId, stream: StreamId)
    | Waiting(stream: StreamId)
    | Refused(message: string)

  /** The session holds connection `c`, whose handlers feed stream `k` on behalf of `sid`. */
  function Bind(s: State, sid: SessionId, c: ConnId, k: StreamId): (r: State)
    requires c in s.pool.conns
    ensures r.connections == s.connections[sid := c] && r.sinks == s.sinks && r.streams == s.streams
    ensures r.pool.conns == s.pool.conns[c := s.pool.conns[c].(binding := Some(Binding(sid, k)))]
    ensures r.pool.available == s.pool.available && r.pool.all == s.pool.all && r.pool.wire == s.pool.wire
  {
    s.(connections := s.connections[sid := c],
       pool := s.pool.(conns := s.pool.conns[c := s.pool.conns[c].(binding := Some(Binding(sid, k)))]))
  }

  /** The connection a live session would reuse. */
  predicate Reusable(s: State, sid: SessionId) {
    sid in s.connections && s.connections[sid] in s.pool.conns && s.pool.conns[s.connections[sid]].connected && sid in s.sinks
  }

  /**
   * The connection part of streamTextToSpeech. A session whose connection is
   * up and whose stream exists is reused as it is. Otherwise a session that
   * holds a connection is cleaned up, a new open stream is registered and a
   * connection acquired: it is bound to the session, or the call waits for a
   * returned connection, or creation failed and the stream is errored and its
   * entry removed.
   */
  function Open(s: State, sid: SessionId, newStream: StreamId, newId: ConnId, url: string, opens: bool): (r: (State, Opened))
    requires Inv(s) && newStream !in s.streams && newId !in s.pool.conns
  {
    if Reusable(s, sid) then (s, Reused(s.connections[sid], s.sinks[sid]))
    else
      var s1 := if sid in s.connections then Cleanup(s, sid) else s;
      var s2 := s1.(sinks := s1.sinks[sid := newStream], streams := s1.streams[newStream := NewStream()]);
      var (p, a) := Acquire(s2.pool, newId, url, opens);
      match a
      case Got(c) => (Bind(s2.(pool := p), sid, c, newStream), Bound(c, newStream))
      case MustWait => (s2.(pool := p), Waiting(newStream))
      case CreateFailed(m) =>
        (s2.(pool := p, sinks := s2.sinks - {sid}, streams := s2.streams[newStream := Fail(NewStream(), m)]), Refused(m))
  }

  /** Taking a connection from the pool keeps the invariant: held connections stay out of the queue. */
  lemma AcquireKeepsInv(s: State, newId: ConnId, url: string, opens: bool)
    requires Inv(s) && newId !in s.pool.conns
    ensures Inv(s.(pool := Acquire(s.pool, newId, url, opens).0))
  {
    var p := Acquire(s.pool, newId, url, opens).0;
    forall sid | sid in s.connections
      ensures s.connections[sid] in p.all && s.connections[sid] !in p.available
    {
    }
  }

  /** Binding a connection that is a member, not queued and not held by another session keeps the invariant. */
  lemma BindKeepsInv(s: State, sid: SessionId, c: ConnId, k: StreamId)
    requires Inv(s) && c in s.pool.all && c !in s.pool.available && k in s.streams
    requires forall other :: other in s.connections && other != sid ==> s.connections[other] != c
    ensures Inv(Bind(s, sid, c, k))
  {
  }

  /** Opening keeps the invariant: a bound connection is held by no other session. */
  lemma OpenKeepsInv(s: State, sid: SessionId, newStream: StreamId, newId: ConnId, url: string, opens: bool)
    requires Inv(s) && newStream !in s.streams && newId !in s.pool.conns
    ensures Inv(Open(s, sid, newStream, newId, url, opens).0)
  {
    if !Reusable(s, sid) {
      var s1 := if sid in s.connections then Cleanup(s, sid) else s;
      var s2 := s1.(sinks := s1.sinks[sid := newStream], streams := s1.streams[newStream := NewStream()]);
      assert Inv(s2);
      AcquireKeepsInv(s2, newId, url, opens);
      var (p, a) := Acquire(s2.pool, newId, url, opens);
      if a.Got? {
        assert sid !in s2.connections;
        forall other | other in s2.connections
          ensures s2.connections[other] != a.id
        {
          assert s2.connections[other] in s2.pool.conns;
        }
        BindKeepsInv(s2.(pool := p), sid, a.id, newStream);
      }
    }
  }

  /** A live session with a stream is reused without any change. */
  lemma OpenReusesLiveSession(s: State, sid: SessionId, newStream: StreamId, newId: ConnId, url: string, opens: bool)
    requires Inv(s) && newStream !in s.streams && newId !in s.pool.conns
    requires sid in s.connections && s.pool.conns[s.connections[sid]].connected && sid in s.sinks
    ensures Open(s, sid, newStream, newId, url, opens) == (s, Reused(s.connections[sid], s.sinks[sid]))
  {
  }

  /**
   * When no connection can be created, the new stream carries the creation
   * error, the session has no stream entry and no connection, and nothing is
   * written to any vendor socket.
   */
  lemma OpenRefused(s: State, sid: SessionId, newStream: StreamId, newId: ConnId, url: string)
    requires Inv(s) && newStream !in s.streams && newId !in s.pool.conns
    requires sid !in s.connections && |s.pool.all| < MAX_POOL_SIZE && s.pool.available == []
    ensures var (r, o) := Open(s, sid, newStream, newId, url, false);
      && o == Refused(CONNECT_FAILURE)
      && sid !in r.sinks && sid !in r.connections
      && r.streams[newStream] == Stream([], Errored(CONNECT_FAILURE))
      && r.pool.wire == s.pool.wire
  {
  }

  /**
   * A session that was not reusable ends up with a fresh open stream, and,
   * when a connection was bound, that connection's handlers feed the stream.
   */
  lemma OpenBindsFreshStream(s: State, sid: SessionId, newStream: StreamId, newId: ConnId, url: string, opens: bool)
    requires Inv(s) && newStream !in s.streams && newId !in s.pool.conns
    requires !Reusable(s, sid)
    ensures var (r, o) := Open(s, sid, newStream, newId, url, opens);
      && (o.Bound? || o.Waiting? ==> sid in r.sinks && r.sinks[sid] == newStream && r.streams[newStream] == NewStream())
      && (o.Bound? ==>
            (o.conn in r.pool.conns && r.connections[sid] == o.conn
             && r.pool.conns[o.conn].binding == Some(Binding(sid, newStream))))
      && !o.Reused?
  {
  }

  /** A caller that waited takes the connection returned first and binds it to its session and stream. */
  function Resume(s: State, sid: SessionId, k: StreamId): (r: (State, ConnId))
    requires Inv(s) && |s.pool.available| > 0 && k in s.streams
    ensures Inv(r.0)
    ensures r.1 == s.pool.available[0] && r.0.connections == s.connections[sid := r.1]
    ensures r.1 in r.0.pool.conns && r.0.pool.conns[r.1].binding == Some(Binding(sid, k))
  {
    var (p, c) := Take(s.pool);
    assert forall other :: other in s.connections ==> s.connections[other] != c;
    BindKeepsInv(s.(pool := p), sid, c, k);
    (Bind(s.(pool := p), sid, c, k), c)
  }

  /** The tokens that survive the blank filter, each cleaned. */
  function Prepared(tokens: seq<string>): (r: seq<string>)
    ensures |r| <= |tokens|
    decreases |tokens|
  {
    if |tokens| == 0 then []
    else (if IsBlank(JavaTrimSpace, tokens[0]) then [] else [Preprocess(tokens[0])]) + Prepared(tokens[1..])
  }

  /** A token is kept by the blank filter. */
  predicate Kept(t: string) {
    !IsBlank(JavaTrimSpace, t)
  }

  /** Nothing is prepared exactly when every token is blank. */
  lemma {:induction false} PreparedEmpty(tokens: seq<string>)
    ensures Prepared(tokens) == [] <==> forall k :: 0 <= k < |tokens| ==> !Kept(tokens[k])
    decreases |tokens|
  {
    if |tokens| > 0 {
      var rest := tokens[1..];
      PreparedEmpty(rest);
      assert forall k :: 1 <= k < |tokens| ==> rest[k - 1] == tokens[k];
    }
  }

  /** The one text a call sends: the cleaned tokens joined without separator. */
  function FullText(tokens: seq<string>): string {
    Flatten(Prepared(tokens))
  }

  /** Requests written to connection `c`, in order. */
  function Tagged(c: ConnId, out: seq<Frame>): (w: seq<(ConnId, Frame)>)
    ensures |w| == |out| && forall i :: 0 <= i < |w| ==> w[i] == (c, out[i])
  {
    seq(|out|, i requires 0 <= i < |out| => (c, out[i]))
  }

  /** Sends on connection `c`, recording the requests it writes. */
  function RunOn(s: State, c: ConnId, ops: seq<Op>): (r: State)
    requires c in s.pool.conns
    ensures Inv(s) ==> Inv(r)
    ensures r.sinks == s.sinks && r.connections == s.connections && r.streams == s.streams
    ensures r.pool.available == s.pool.available && r.pool.all == s.pool.all && r.pool.conns.Keys == s.pool.conns.Keys
    ensures var run := Run(s.pool.conns[c], ops);
      r.pool.conns == s.pool.conns[c := run.0] && r.pool.wire == s.pool.wire + Tagged(c, run.1)
  {
    var run := Run(s.pool.conns[c], ops);
    s.(pool := s.pool.(conns := s.pool.conns[c := run.0], wire := s.pool.wire + Tagged(c, run.1)))
  }

  /** Two operations sent on a live connection put their two requests on the wire, with consecutive seq values. */
  lemma TaggedPair(conn: Connection, c: ConnId, a: Op, b: Op)
    requires !Skipped(conn, a) && !Skipped(conn, b)
    ensures var (conn', out) := Run(conn, [a, b]);
      && Tagged(c, out) == [(c, Frame(OpStatus(a), conn.seqNo, OpText(a))),
                            (c, Frame(OpStatus(b), conn.seqNo + 1, OpText(b)))]
      && conn'.seqNo == conn.seqNo + 2
  {
    var n := conn.seqNo;
    RunPair(conn, a, b);
    var req1 := Frame(OpStatus(a), n, OpText(a));
    var req2 := Frame(OpStatus(b), n + 1, OpText(b));
    TaggedTwo(c, req1, req2);
  }

  lemma TaggedTwo(c: ConnId, x: Frame, y: Frame)
    ensures Tagged(c, [x, y]) == [(c, x), (c, y)]
  {
  }

  /** The requests a call sends once its text stream completes: the joined text if not blank, then the end request. */
  function TextOps(tokens: seq<string>): (ops: seq<Op>)
    ensures |ops| >= 1 && ops[|ops| - 1] == End
    ensures |ops| == 1 <==> IsBlank(JavaTrimSpace, FullText(tokens))
    ensures |ops| == 2 ==> ops[0] == Text(FullText(tokens), true) && !IsBlank(JavaTrimSpace, ops[0].text)
  {
    (if IsBlank(JavaTrimSpace, FullText(tokens)) then [] else [Text(FullText(tokens), true)]) + [End]
  }

  /**
   * processTextWithExistingConnection, once the text stream terminates. On
   * completion (`failure` is None) the text requests are sent. On an error
   * only the end request is sent, the stream is errored, and the session is
   * cleaned up when the error reaches the stream's subscriber.
   */
  function ProcessText(s: State, sid: SessionId, c: ConnId, k: StreamId, tokens: seq<string>, failure: Option<string>): (r: State)
    requires Inv(s) && c in s.pool.conns && k in s.streams
    ensures Inv(r)
  {
    match failure
    case None => RunOn(s, c, TextOps(tokens))
    case Some(e) =>
      var s1 := RunOn(s, c, [End]);
      Cleanup(s1.(streams := s1.streams[k := Fail(s1.streams[k], e)]), sid)
  }

  /**
   * One call writes, on a live connection, the joined text as a final
   * request carrying the connection's current seq, then exactly one end
   * request with the next seq and no text.
   */
  lemma ProcessTextRequests(s: State, sid: SessionId, c: ConnId, k: StreamId, tokens: seq<string>)
    requires Inv(s) && c in s.pool.conns && k in s.streams && s.pool.conns[c].connected
    requires !IsBlank(JavaTrimSpace, FullText(tokens))
    ensures var r := ProcessText(s, sid, c, k, tokens, None);
      var n := s.pool.conns[c].seqNo;
      && r.pool.wire == s.pool.wire + [(c, Frame(STATUS_LAST, n, Some(FullText(tokens)))),
                                       (c, Frame(STATUS_LAST, n + 1, None))]
      && r.pool.conns[c].seqNo == n + 2
  {
    var full := FullText(tokens);
    assert TextOps(tokens) == [Text(full, true), End];
    assert full != "";
    SendTextThenEnd(s, c, full);
  }

  /** The final text then the end request, sent on a live connection. */
  lemma SendTextThenEnd(s: State, c: ConnId, full: string)
    requires c in s.pool.conns && s.pool.conns[c].connected && full != ""
    ensures var r := RunOn(s, c, [Text(full, true), End]);
      var n := s.pool.conns[c].seqNo;
      && r.pool.wire == s.pool.wire + [(c, Frame(STATUS_LAST, n, Some(full))),
                                       (c, Frame(STATUS_LAST, n + 1, None))]
      && r.pool.conns[c].seqNo == n + 2
  {
    var conn := s.pool.conns[c];
    var n := conn.seqNo;
    var ops := [Text(full, true), End];
    var run := Run(conn, ops);
    var req1 := Frame(STATUS_LAST, n, Some(full));
    var req2 := Frame(STATUS_LAST, n + 1, None);
    assert OpText(Text(full, true)) == Some(full);
    TaggedPair(conn, c, Text(full, true), End);
    assert Tagged(c, run.1) == [(c, req1), (c, req2)] && run.0.seqNo == n + 2;
    var r := RunOn(s, c, ops);
    assert r.pool.wire == s.pool.wire + Tagged(c, run.1) && r.pool.conns[c] == run.0;
  }

  /** A blank joined text sends only the end request. */
  lemma ProcessBlankTextRequests(s: State, sid: SessionId, c: ConnId, k: StreamId, tokens: seq<string>)
    requires Inv(s) && c in s.pool.conns && k in s.streams && s.pool.conns[c].connected
    requires IsBlank(JavaTrimSpace, FullText(tokens))
    ensures var r := ProcessText(s, sid, c, k, tokens, None);
      && r.pool.wire == s.pool.wire + [(c, Frame(STATUS_LAST, s.pool.conns[c].seqNo, None))]
      && r.pool.conns[c].seqNo == s.pool.conns[c].seqNo + 1
  {
    assert TextOps(tokens) == [End];
    RunSingle(s.pool.conns[c], End);
    var out := Run(s.pool.conns[c], [End]).1;
    assert Tagged(c, out) == [(c, out[0])];
  }

  /** The error path writes only the end request and leaves the session cleaned up with its stream closed. */
  lemma ProcessTextError(s: State, sid: SessionId, c: ConnId, k: StreamId, tokens: seq<string>, e: string)
    requires Inv(s) && c in s.pool.conns && k in s.streams && s.pool.conns[c].connected
    ensures var r := ProcessText(s, sid, c, k, tokens, Some(e));
      && r.pool.wire == s.pool.wire + [(c, Frame(STATUS_LAST, s.pool.conns[c].seqNo, None))]
      && sid !in r.sinks && sid !in r.connections
      && !r.streams[k].status.Open? && r.streams[k].items == s.streams[k].items
      && (s.streams[k].status.Open? ==> r.streams[k].status == Errored(e))
  {
    RunSingle(s.pool.conns[c], End);
    var out := Run(s.pool.conns[c], [End]).1;
    assert Tagged(c, out) == [(c, out[0])];
  }

  /** What a connection's handlers receive: an audio packet, completion, or an error text. */
  datatype Signal = Packet(chunk: VendorChunk) | Done | Error(message: string)

  /**
   * The handlers bound in streamTextToSpeech, run for a signal from
   * connection `c`: a packet is emitted to the bound stream as it is; on
   * completion the stream completes and on an error it errors, and in both
   * cases the bound session is cleaned up. A connection with no handlers
   * ignores the signal.
   */
  function Handle(s: State, c: ConnId, sig: Signal): (r: State)
    requires Inv(s) && c in s.pool.conns
    ensures Inv(r)
  {
    match s.pool.conns[c].binding
    case None => s
    case Some(Binding(sid, k)) =>
      match sig
      case Packet(ch) => s.(streams := s.streams[k := Emit(s.streams[k], ch)])
      case Done => Cleanup(s.(streams := s.streams[k := Complete(s.streams[k])]), sid)
      case Error(m) => Cleanup(s.(streams := s.streams[k := Fail(s.streams[k], m)]), sid)
  }

  /** Packets reach the bound stream unchanged and in arrival order; nothing else changes. */
  function HandleAll(s: State, c: ConnId, chunks: seq<VendorChunk>): (r: State)
    requires Inv(s) && c in s.pool.conns
    ensures Inv(r) && r.pool == s.pool && r.sinks == s.sinks && r.connections == s.connections
    ensures r.streams.Keys == s.streams.Keys
    decreases |chunks|
  {
    if |chunks| == 0 then s else HandleAll(Handle(s, c, Packet(chunks[0])), c, chunks[1..])
  }

  lemma {:induction false} PacketsArriveInOrder(s: State, c: ConnId, chunks: seq<VendorChunk>)
    requires Inv(s) && c in s.pool.conns && s.pool.conns[c].binding.Some?
    requires s.streams[s.pool.conns[c].binding.value.stream].status.Open?
    ensures var k := s.pool.conns[c].binding.value.stream;
      HandleAll(s, c, chunks).streams == s.streams[k := s.streams[k].(items := s.streams[k].items + chunks)]
    decreases |chunks|
  {
    var k := s.pool.conns[c].binding.value.stream;
    if |chunks| == 0 {
      assert s.streams[k].items + chunks == s.streams[k].items;
      assert s.streams[k := s.streams[k]] == s.streams;
    } else {
      var s1 := Handle(s, c, Packet(chunks[0]));
      assert s1.streams == s.streams[k := s.streams[k].(items := s.streams[k].items + [chunks[0]])];
      PacketsArriveInOrder(s1, c, chunks[1..]);
      assert s.streams[k].items + [chunks[0]] + chunks[1..] == s.streams[k].items + chunks;
    }
  }

  /**
   * Completion or an error ends the bound session: its entries are gone, the
   * stream is closed with its items kept, and a connection still up is reset
   * and queued again.
   */
  lemma TerminalSignalEndsSession(s: State, c: ConnId, sid: SessionId, k: StreamId, sig: Signal)
    requires Inv(s) && c in s.pool.conns && s.pool.conns[c].binding == Some(Binding(sid, k))
    requires sig.Done? || sig.Error?
    requires sid in s.connections && s.connections[sid] == c
    ensures var r := Handle(s, c, sig);
      && sid !in r.sinks && sid !in r.connections
      && !r.streams[k].status.Open? && r.streams[k].items == s.streams[k].items
      && (s.pool.conns[c].connected <==> c in r.pool.available)
      && (s.pool.conns[c].connected ==> r.pool.conns[c].seqNo == 0 && r.pool.conns[c].binding.None?)
  {
    var r := Handle(s, c, sig);
    assert c !in s.pool.available;
  }

  /** onClosed of a pooled connection: it is marked down and its handlers see completion. */
  function SocketClosed(s: State, c: ConnId): (r: State)
    requires Inv(s) && c in s.pool.conns
    ensures Inv(r)
  {
    var (conn, _) := OnClosed(s.pool.conns[c]);
    Handle(s.(pool := s.pool.(conns := s.pool.conns[c := conn])), c, Done)
  }

  /** onFailure of a pooled connection: it is marked down and its handlers see the failure text. */
  function SocketFailed(s: State, c: ConnId, detail: string): (r: State)
    requires Inv(s) && c in s.pool.conns
    ensures Inv(r)
  {
    var (conn, _) := OnFailure(s.pool.conns[c], detail);
    Handle(s.(pool := s.pool.(conns := s.pool.conns[c := conn])), c, Error(SOCKET_FAILURE + detail))
  }

  /** A connection that closes under a session is not queued again: the next call creates or waits. */
  lemma ClosedConnectionIsNotRequeued(s: State, c: ConnId, sid: SessionId, k: StreamId)
    requires Inv(s) && c in s.pool.conns && s.pool.conns[c].binding == Some(Binding(sid, k))
    requires sid in s.connections && s.connections[sid] == c
    ensures var r := SocketClosed(s, c);
      c !in r.pool.available && c in r.pool.all && sid !in r.connections && !r.streams[k].status.Open?
  {
    assert c !in s.pool.available;
  }
}

=== FILE: tts_text.dfy ===
/**
 * The synthesis service's text preparation: character cleanup, splitting
 * after punctuation, and merging short segments into pieces of at most 30
 * characters.
 */
module TtsText {
  import opened Strings
  import opened Seqs

  /** The characters the cleanup keeps: CJK ideographs U+4E00..U+9FA5, ASCII letters and digits, Chinese punctuation, curly quotes, full-width parentheses and regex whitespace. */
  predicate Allowed(c: char) {
    || ('\U{4E00}' <= c <= '\U{9FA5}')
    || ('a' <= c <= 'z') || ('A' <= c <= 'Z') || ('0' <= c <= '9')
    || c == '，' || c == '。' || c == '！' || c == '？' || c == '；' || c == '：' || c == '、'
    || c == '\U{201C}' || c == '\U{201D}' || c == '\U{2018}' || c == '\U{2019}'
    || c == '（' || c == '）'
    || IsSpace(RegexSpace, c)
  }

  /** The characters that carry content: allowed and not whitespace. */
  predicate Visible(c: char) {
    Allowed(c) && !IsSpace(RegexSpace, c)
  }

  /** The first replaceAll: every character outside the allowed class removed. */
  function Clean(s: string): (r: string)
    ensures forall i :: 0 <= i < |r| ==> Allowed(r[i])
    ensures |r| <= |s|
    decreases |s|
  {
    if |s| == 0 then ""
    else (if Allowed(s[0]) then [s[0]] else "") + Clean(s[1..])
  }

  /** The content characters of `s`, in order. */
  function Letters(s: string): (r: string)
    ensures forall i :: 0 <= i < |r| ==> Visible(r[i])
    decreases |s|
  {
    if |s| == 0 then ""
    else (if Visible(s[0]) then [s[0]] else "") + Letters(s[1..])
  }

  /** The second replaceAll: every run of whitespace replaced by one space. */
  function Collapse(s: string): (r: string)
    ensures Normal(r)
    ensures |s| > 0 && !IsSpace(RegexSpace, s[0]) ==> |r| > 0 && r[0] == s[0]
    ensures |s| > 0 ==> |r| > 0
    ensures (forall i :: 0 <= i < |s| ==> Allowed(s[i])) ==> (forall i :: 0 <= i < |r| ==> Allowed(r[i]))
    decreases |s|
  {
    if |s| == 0 then ""
    else if IsSpace(RegexSpace, s[0]) then " " + Collapse(TrimStart(RegexSpace, s))
    else [s[0]] + Collapse(s[1..])
  }

  /** Every whitespace character is a plain space and no two spaces are adjacent. */
  predicate Normal(s: string) {
    && (forall i :: 0 <= i < |s| ==> IsSpace(RegexSpace, s[i]) ==> s[i] == ' ')
    && (forall i :: 0 <= i < |s| - 1 ==> !(s[i] == ' ' && s[i + 1] == ' '))
  }

  /**
   * preprocessText: blank text gives ""; otherwise disallowed characters are
   * removed, whitespace runs collapse to one space and the ends are trimmed.
   */
  function Preprocess(s: string): (r: string)
    ensures IsBlank(JavaTrimSpace, s) ==> r == ""
    ensures forall i :: 0 <= i < |r| ==> Allowed(r[i])
    ensures Normal(r)
    ensures r == [] || (r[0] != ' ' && r[|r| - 1] != ' ')
  {
    if IsBlank(JavaTrimSpace, s) then ""
    else
      CleanedShape(s);
      Trim(JavaTrimSpace, Collapse(Clean(s)))
  }

  /** The cleaned, collapsed and trimmed text is normal, allowed, and has no space at either end. */
  lemma CleanedShape(s: string)
    ensures var t := Trim(JavaTrimSpace, Collapse(Clean(s)));
      && (forall i :: 0 <= i < |t| ==> Allowed(t[i]))
      && Normal(t)
      && (t == [] || (t[0] != ' ' && t[|t| - 1] != ' '))
  {
    var c := Collapse(Clean(s));
    TrimKeepsNormal(c);
  }

  /** Trimming a normal text of allowed characters keeps it normal and allowed. */
  lemma TrimKeepsNormal(c: string)
    requires Normal(c) && forall i :: 0 <= i < |c| ==> Allowed(c[i])
    ensures var t := Trim(JavaTrimSpace, c);
      Normal(t) && forall i :: 0 <= i < |t| ==> Allowed(t[i])
  {
    var t1 := TrimStart(JavaTrimSpace, c);
    var t := TrimEnd(JavaTrimSpace, t1);
    var a := |c| - |t1|;
    assert t == c[a..a + |t|];
    SliceKeepsNormal(c, a, a + |t|);
  }

  /** A slice of a normal text of allowed characters is itself normal and allowed. */
  lemma SliceKeepsNormal(c: string, a: nat, b: nat)
    requires a <= b <= |c|
    requires Normal(c) && forall i :: 0 <= i < |c| ==> Allowed(c[i])
    ensures Normal(c[a..b]) && forall i :: 0 <= i < b - a ==> Allowed(c[a..b][i])
  {
    forall i | 0 <= i < b - a
      ensures c[a..b][i] == c[a + i]
    {
    }
  }

  /** Trimming yields a contiguous slice. */
  lemma TrimIsSlice(s: string)
    ensures exists a, b :: 0 <= a <= b <= |s| && Trim(JavaTrimSpace, s) == s[a..b]
  {
    var t1 := TrimStart(JavaTrimSpace, s);
    var t2 := TrimEnd(JavaTrimSpace, t1);
    var a := |s| - |t1|;
    assert t2 == s[a..a + |t2|];
  }

  lemma {:induction false} CleanKeepsAllowed(s: string)
    requires forall i :: 0 <= i < |s| ==> Allowed(s[i])
    ensures Clean(s) == s
    decreases |s|
  {
    if |s| > 0 {
      CleanKeepsAllowed(s[1..]);
    }
  }

  lemma {:induction false} CollapseKeepsNormal(s: string)
    requires Normal(s)
    requires s == [] || s[0] != ' '
    ensures Collapse(s) == s
    decreases |s|
  {
    if |s| > 0 {
      assert !IsSpace(RegexSpace, s[0]);
      var t := s[1..];
      if |t| > 0 && IsSpace(RegexSpace, t[0]) {
        assert t[0] == ' ';
        var u := t[1..];
        assert u == [] || u[0] != ' ';
        assert u == [] || !IsSpace(RegexSpace, u[0]);
        assert TrimStart(RegexSpace, t) == u;
        CollapseKeepsNormal(u);
        assert Collapse(t) == " " + u;
      } else {
        CollapseKeepsNormal(t);
      }
    }
  }

  /** Cleaning an already clean text changes nothing: preprocessText is idempotent. */
  lemma PreprocessIdempotent(s: string)
    ensures Preprocess(Preprocess(s)) == Preprocess(s)
  {
    var r := Preprocess(s);
    if r != [] {
      assert !IsSpace(JavaTrimSpace, r[0]);
      CleanKeepsAllowed(r);
      CollapseKeepsNormal(r);
      TrimOfTrimmed(JavaTrimSpace, r);
    }
  }

  lemma {:induction false} LettersAppend(a: string, b: string)
    ensures Letters(a + b) == Letters(a) + Letters(b)
    decreases |a|
  {
    if |a| > 0 {
      var h := if Visible(a[0]) then [a[0]] else "";
      assert (a + b)[0] == a[0];
      assert (a + b)[1..] == a[1..] + b;
      assert Letters(a + b) == h + Letters(a[1..] + b);
      LettersAppend(a[1..], b);
      assert Letters(a) == h + Letters(a[1..]);
    } else {
      assert a + b == b;
    }
  }

  lemma {:induction false} LettersOfClean(s: string)
    ensures Letters(Clean(s)) == Letters(s)
    decreases |s|
  {
    if |s| > 0 {
      LettersOfClean(s[1..]);
      LettersAppend(if Allowed(s[0]) then [s[0]] else "", Clean(s[1..]));
    }
  }

  lemma {:induction false} LettersOfSpaces(s: string)
    requires forall i :: 0 <= i < |s| ==> !Visible(s[i])
    ensures Letters(s) == ""
    decreases |s|
  {
    if |s| > 0 {
      LettersOfSpaces(s[1..]);
    }
  }

  lemma {:induction false} LettersOfCollapse(s: string)
    ensures Letters(Collapse(s)) == Letters(s)
    decreases |s|
  {
    if |s| > 0 {
      if IsSpace(RegexSpace, s[0]) {
        var t := TrimStart(RegexSpace, s);
        LettersOfCollapse(t);
        assert s == s[..|s| - |t|] + t;
        LettersAppend(s[..|s| - |t|], t);
        LettersOfSpaces(s[..|s| - |t|]);
        LettersAppend(" ", Collapse(t));
      } else {
        LettersOfCollapse(s[1..]);
        LettersAppend([s[0]], Collapse(s[1..]));
      }
    }
  }

  /** Characters Java's trim removes are never content characters. */
  lemma {:induction false} LettersOfLow(s: string)
    requires IsBlank(JavaTrimSpace, s)
    ensures Letters(s) == ""
  {
    forall i | 0 <= i < |s|
      ensures !Visible(s[i])
    {
    }
    LettersOfSpaces(s);
  }

  lemma LettersOfTrimStart(s: string)
    ensures Letters(TrimStart(JavaTrimSpace, s)) == Letters(s)
  {
    var t := TrimStart(JavaTrimSpace, s);
    var a := |s| - |t|;
    LettersOfLow(s[..a]);
    assert s == s[..a] + t;
    LettersAppend(s[..a], t);
  }

  lemma LettersOfTrimEnd(s: string)
    ensures Letters(TrimEnd(JavaTrimSpace, s)) == Letters(s)
  {
    var t := TrimEnd(JavaTrimSpace, s);
    LettersOfLow(s[|t|..]);
    assert s == t + s[|t|..];
    LettersAppend(t, s[|t|..]);
  }

  /** Only whitespace is trimmed, so no content character is lost. */
  lemma LettersOfTrim(s: string)
    ensures Letters(Trim(JavaTrimSpace, s)) == Letters(s)
  {
    LettersOfTrimStart(s);
    LettersOfTrimEnd(TrimStart(JavaTrimSpace, s));
  }

  /**
   * preprocessText loses no content: its output has exactly the allowed,
   * non-whitespace characters of the input, in order.
   */
  lemma PreprocessKeepsLetters(s: string)
    ensures Letters(Preprocess(s)) == Letters(s)
  {
    if IsBlank(JavaTrimSpace, s) {
      LettersOfSpaces(s);
    } else {
      LettersOfClean(s);
      LettersOfCollapse(Clean(s));
      LettersOfTrim(Collapse(Clean(s)));
    }
  }

  /** The marks after which splitTextByPunctuation cuts. */
  predicate IsMark(c: char) {
    c == '，' || c == '。' || c == '！' || c == '？' || c == '；'
  }

  /** The first mark in `s`, if any. */
  function FirstMark(s: string): (i: nat)
    ensures i <= |s|
    ensures i < |s| ==> IsMark(s[i])
    ensures forall j :: 0 <= j < i ==> !IsMark(s[j])
    decreases |s|
  {
    if |s| == 0 then 0
    else if IsMark(s[0]) then 0
    else 1 + FirstMark(s[1..])
  }

  /**
   * `split("(?<=[，。！？；])")`: a cut after every mark, the mark staying with
   * the piece before it. (Java also drops a trailing empty piece, which the
   * filters that follow drop in any case.)
   */
  function SplitAfterMarks(s: string): (r: seq<string>)
    ensures |r| >= 1
    decreases |s|
  {
    var i := FirstMark(s);
    if i == |s| then [s] else [s[..i + 1]] + SplitAfterMarks(s[i + 1..])
  }

  /** The pieces concatenate to the text. */
  lemma {:induction false} SplitAfterMarksConcatenates(s: string)
    ensures Flatten(SplitAfterMarks(s)) == s
    decreases |s|
  {
    var i := FirstMark(s);
    if i < |s| {
      SplitAfterMarksConcatenates(s[i + 1..]);
      FlattenCons(s[..i + 1], SplitAfterMarks(s[i + 1..]));
      assert s == s[..i + 1] + s[i + 1..];
    }
  }

  predicate NoMark(p: string) {
    forall j :: 0 <= j < |p| ==> !IsMark(p[j])
  }

  /** A piece cut after a mark: it ends in that mark and has no other. */
  predicate EndsInOnlyMark(p: string) {
    |p| > 0 && IsMark(p[|p| - 1]) && NoMark(p[..|p| - 1])
  }

  /** Each piece but the last ends in its only mark; the last piece has none. */
  predicate CutAfterMarks(r: seq<string>) {
    && |r| >= 1
    && (forall k :: 0 <= k < |r| - 1 ==> EndsInOnlyMark(r[k]))
    && NoMark(r[|r| - 1])
  }

  lemma {:induction false} SplitAfterMarksCuts(s: string)
    ensures CutAfterMarks(SplitAfterMarks(s))
    decreases |s|
  {
    var i := FirstMark(s);
    if i < |s| {
      SplitAfterMarksCuts(s[i + 1..]);
      var rest := SplitAfterMarks(s[i + 1..]);
      var p := s[..i + 1];
      assert p[..|p| - 1] == s[..i];
      assert EndsInOnlyMark(p);
      var r := [p] + rest;
      assert forall k :: 1 <= k < |r| ==> r[k] == rest[k - 1];
    }
  }

  /** Each string trimmed with Java's trim. */
  function TrimEach(xs: seq<string>): (r: seq<string>)
    ensures |r| == |xs| && forall k :: 0 <= k < |xs| ==> r[k] == Trim(JavaTrimSpace, xs[k])
    decreases |xs|
  {
    if |xs| == 0 then [] else [Trim(JavaTrimSpace, xs[0])] + TrimEach(xs[1..])
  }

  /** The strings of at least `n` characters, in order. */
  function AtLeast(xs: seq<string>, n: nat): (r: seq<string>)
    ensures |r| <= |xs|
    ensures forall k :: 0 <= k < |r| ==> |r[k]| >= n && r[k] in xs
    decreases |xs|
  {
    if |xs| == 0 then [] else (if |xs[0]| >= n then [xs[0]] else []) + AtLeast(xs[1..], n)
  }

  /** A string dropped by the length filter is shorter than the bound; one kept appears in order. */
  lemma {:induction false} AtLeastKeeps(xs: seq<string>, n: nat, x: string)
    ensures x in AtLeast(xs, n) <==> x in xs && |x| >= n
    decreases |xs|
  {
    if |xs| > 0 {
      AtLeastKeeps(xs[1..], n, x);
      assert xs == [xs[0]] + xs[1..];
    }
  }

  /** The characters Java's `.` does not match. */
  predicate IsLineTerminator(c: char) {
    c == '\n' || c == '\r' || c == '\U{0085}' || c == '\U{2028}' || c == '\U{2029}'
  }

  /** `seg.matches(".*[。！？]$")`: ends with 。！？ and has no line terminator before that. */
  predicate EndsSentence(seg: string) {
    && |seg| > 0
    && (seg[|seg| - 1] == '。' || seg[|seg| - 1] == '！' || seg[|seg| - 1] == '？')
    && forall j :: 0 <= j < |seg| - 1 ==> !IsLineTerminator(seg[j])
  }

  const MAX_MERGED: nat := 30

  /**
   * The loop of mergeShortSegments, from the current piece `cur`: a segment
   * starts a new piece when `cur` is non-empty and either the combined
   * length would exceed 30 or the segment ends a sentence; otherwise it is
   * appended to `cur`. The pieces are returned before trimming.
   */
  function Group(segs: seq<string>, cur: string): (r: seq<string>)
    decreases |segs|
  {
    if |segs| == 0 then (if |cur| > 0 then [cur] else [])
    else if |cur| > 0 && (|cur| + |segs[0]| > MAX_MERGED || EndsSentence(segs[0])) then [cur] + Group(segs[1..], segs[0])
    else Group(segs[1..], cur + segs[0])
  }

  /** mergeShortSegments: the grouped pieces, trimmed, keeping those of at least 3 characters. */
  function Merge(segs: seq<string>): (r: seq<string>)
    ensures segs == [] ==> r == []
    ensures forall k :: 0 <= k < |r| ==> |r[k]| >= 3
  {
    if |segs| == 0 then segs else AtLeast(TrimEach(Group(segs, "")), 3)
  }

  /** Grouping only cuts: the pieces concatenate to the current piece followed by the segments. */
  lemma {:induction false} GroupConcatenates(segs: seq<string>, cur: string)
    ensures Flatten(Group(segs, cur)) == cur + Flatten(segs)
    decreases |segs|
  {
    if |segs| == 0 {
      if |cur| > 0 {
        assert Flatten([cur]) == cur + Flatten([]);
      }
    } else if |cur| > 0 && (|cur| + |segs[0]| > MAX_MERGED || EndsSentence(segs[0])) {
      GroupConcatenates(segs[1..], segs[0]);
      FlattenCons(cur, Group(segs[1..], segs[0]));
      FlattenCons(segs[0], segs[1..]);
      assert segs == [segs[0]] + segs[1..];
    } else {
      GroupConcatenates(segs[1..], cur + segs[0]);
      FlattenCons(segs[0], segs[1..]);
      assert segs == [segs[0]] + segs[1..];
    }
  }

  /**
   * Every grouped piece is one of the segments, or at most 30 characters:
   * segments are only ever appended while the total stays within 30.
   */
  lemma {:induction false} GroupPieceSizes(segs: seq<string>, cur: string, pool: seq<string>)
    requires |cur| <= MAX_MERGED || cur in pool
    requires forall k :: 0 <= k < |segs| ==> segs[k] in pool
    ensures forall p :: p in Group(segs, cur) ==> |p| <= MAX_MERGED || p in pool
    decreases |segs|
  {
    if |segs| > 0 {
      if |cur| > 0 && (|cur| + |segs[0]| > MAX_MERGED || EndsSentence(segs[0])) {
        GroupPieceSizes(segs[1..], segs[0], pool);
      } else {
        if |cur| > 0 {
          assert |cur + segs[0]| <= MAX_MERGED;
        } else {
          assert cur + segs[0] == segs[0];
        }
        GroupPieceSizes(segs[1..], cur + segs[0], pool);
      }
    }
  }

  /** One merged piece is a trimmed input segment or at most 30 characters. */
  lemma MergePiece(segs: seq<string>, p: string)
    requires p in Merge(segs)
    ensures |p| <= MAX_MERGED || exists k :: 0 <= k < |segs| && p == Trim(JavaTrimSpace, segs[k])
  {
    var g := Group(segs, "");
    GroupPieceSizes(segs, "", segs);
    var t := TrimEach(g);
    AtLeastKeeps(t, 3, p);
    var m :| 0 <= m < |t| && t[m] == p;
    assert g[m] in g;
    if |g[m]| > MAX_MERGED {
      var k :| 0 <= k < |segs| && segs[k] == g[m];
      assert p == Trim(JavaTrimSpace, segs[k]);
    }
  }

  /**
   * mergeShortSegments, stated on its output: every piece is a trimmed
   * input segment or at most 30 characters, and has at least 3 characters;
   * before trimming and filtering the pieces concatenate to the input.
   */
  lemma MergePieces(segs: seq<string>)
    ensures Flatten(Group(segs, "")) == Flatten(segs)
    ensures forall p :: p in Merge(segs) ==> 3 <= |p| && (|p| <= MAX_MERGED || exists k :: 0 <= k < |segs| && p == Trim(JavaTrimSpace, segs[k]))
  {
    GroupConcatenates(segs, "");
    assert "" + Flatten(segs) == Flatten(segs);
    forall p | p in Merge(segs)
      ensures |p| <= MAX_MERGED || exists k :: 0 <= k < |segs| && p == Trim(JavaTrimSpace, segs[k])
    {
      MergePiece(segs, p);
    }
  }

  /**
   * splitTextByPunctuation: nothing for blank text; otherwise the pieces
   * cut after each mark, trimmed, those under 2 characters dropped, then
   * merged.
   */
  function SplitByPunctuation(text: string): (r: seq<string>)
    ensures IsBlank(JavaTrimSpace, text) ==> r == []
    ensures forall k :: 0 <= k < |r| ==> |r[k]| >= 3
  {
    if IsBlank(JavaTrimSpace, text) then []
    else Merge(AtLeast(AtLeast(TrimEach(SplitAfterMarks(text)), 1), 2))
  }

  /**
   * The segments merged by splitTextByPunctuation are trimmed pieces of the
   * text of at least 2 characters, each ending in a mark unless it is the
   * text's last piece.
   */
  lemma SplitSegments(text: string)
    ensures var pieces := SplitAfterMarks(text);
      forall seg :: seg in AtLeast(AtLeast(TrimEach(pieces), 1), 2) ==>
        |seg| >= 2 && exists k :: 0 <= k < |pieces| && seg == Trim(JavaTrimSpace, pieces[k])
  {
    var pieces := SplitAfterMarks(text);
    var t := TrimEach(pieces);
    forall seg | seg in AtLeast(AtLeast(t, 1), 2)
      ensures |seg| >= 2 && exists k :: 0 <= k < |pieces| && seg == Trim(JavaTrimSpace, pieces[k])
    {
      AtLeastKeeps(AtLeast(t, 1), 2, seg);
      AtLeastKeeps(t, 1, seg);
      var k :| 0 <= k < |t| && t[k] == seg;
    }
  }
}

=== FILE: tts_timeout.dfy ===
/**
 * The synthesis timeout watcher in the browser: one timer per request,
 * a count of timeouts that switches the client to text-only mode at three,
 * and a periodic recovery check that switches back once the service
 * answers again.
 *
 * Timers are explicit: `Start` arms one and `Fire` is the step of it going
 * off. Toasts, notifications, window events and the report to the error
 * manager are recorded as `Event`s. The clock and the availability probe
 * are parameters.
 */
module TtsTimeout {
  import opened Wrappers

  type RequestId = string
  type TimerId = nat

  const MAX_TIMEOUTS: nat := 3
  const TIMEOUT_THRESHOLD: int := 10000
  const FALLBACK_DURATION: int := 60000

  datatype Event =
    | Warned(count: nat)                    // the "slow" warning toast
    | Entered                               // text-only mode entered
    | Exited                                // voice restored
    | Reported(count: nat, fallback: bool)  // the timeout reported to the error manager

  datatype Watcher = Watcher(
    /** The timer registered for each request. */
    timeouts: map<RequestId, TimerId>,
    /** Every armed timer, with the request it is for and its delay. */
    armed: map<TimerId, (RequestId, int)>,
    nextTimer: TimerId,
    fallback: bool,
    count: nat,
    lastTimeout: int,
    events: seq<Event>)

  const INITIAL := Watcher(map[], map[], 0, false, 0, 0, [])

  /** Each registered request's timer is armed, for that request; timer names are fresh. */
  ghost predicate Inv(w: Watcher) {
    && (forall id | id in w.timeouts :: w.timeouts[id] in w.armed && w.armed[w.timeouts[id]].0 == id)
    && (forall t | t in w.armed :: t < w.nextTimer)
  }

  /** `customTimeout || 10000`: a missing or zero delay means ten seconds. */
  function Delay(custom: Option<int>): (d: int)
    ensures custom.None? || custom == Some(0) ==> d == TIMEOUT_THRESHOLD
    ensures custom.Some? && custom.value != 0 ==> d == custom.value
  {
    if custom.None? || custom.value == 0 then TIMEOUT_THRESHOLD else custom.value
  }

  /**
   * startTimeout, as written: a new timer is armed and registered for the
   * request, replacing the entry but not disarming a timer already there.
   */
  function Start(w: Watcher, id: RequestId, custom: Option<int>): (r: Watcher)
    ensures id in r.timeouts && r.timeouts[id] in r.armed && r.armed[r.timeouts[id]] == (id, Delay(custom))
    ensures r.armed.Keys == w.armed.Keys + {w.nextTimer}
    ensures forall t | t in w.armed && t != w.nextTimer :: r.armed[t] == w.armed[t]
    ensures r.timeouts.Keys == w.timeouts.Keys + {id}
  {
    var t := w.nextTimer;
    w.(timeouts := w.timeouts[id := t], armed := w.armed[t := (id, Delay(custom))], nextTimer := t + 1)
  }

  /** clearTimeout: the request's registered timer is disarmed and the entry removed. */
  function Clear(w: Watcher, id: RequestId): (r: Watcher)
    ensures id !in r.timeouts
    ensures id in w.timeouts ==> w.timeouts[id] !in r.armed
    ensures r.timeouts == w.timeouts - {id}
    ensures r.fallback == w.fallback && r.count == w.count && r.events == w.events
  {
    if id in w.timeouts then w.(armed := w.armed - {w.timeouts[id]}, timeouts := w.timeouts - {id})
    else w
  }

  /**
   * A timer goes off: one more timeout, stamped now; the request's entry is
   * removed; at three or more the client enters text-only mode, otherwise
   * it warns; then the timeout is reported. A timer not armed does nothing.
   */
  function Fire(w: Watcher, t: TimerId, now: int): (r: Watcher)
    ensures t !in w.armed ==> r == w
    ensures t in w.armed ==> && r.count == w.count + 1
                             && r.lastTimeout == now
                             && w.armed[t].0 !in r.timeouts
                             && t !in r.armed
                             && (r.count >= MAX_TIMEOUTS ==> r.fallback)
                             && (r.count < MAX_TIMEOUTS ==> r.fallback == w.fallback)
  {
    if t !in w.armed then w
    else
      var id := w.armed[t].0;
      var n := w.count + 1;
      var w1 := w.(armed := w.armed - {t}, timeouts := w.timeouts - {id}, count := n, lastTimeout := now);
      var w2 := if n >= MAX_TIMEOUTS then EnterFallback(w1) else w1.(events := w1.events + [Warned(n)]);
      w2.(events := w2.events + [Reported(n, w2.fallback)])
  }

  function EnterFallback(w: Watcher): (r: Watcher)
    ensures r.fallback && r.count == w.count && r.events == w.events + [Entered]
    ensures r.timeouts == w.timeouts && r.armed == w.armed && r.lastTimeout == w.lastTimeout
  {
    w.(fallback := true, events := w.events + [Entered])
  }

  function ExitFallback(w: Watcher): (r: Watcher)
    ensures !r.fallback && r.count == 0 && r.events == w.events + [Exited]
    ensures r.timeouts == w.timeouts && r.armed == w.armed && r.lastTimeout == w.lastTimeout
  {
    w.(fallback := false, count := 0, events := w.events + [Exited])
  }

  predicate ShouldAttemptRecovery(w: Watcher, now: int) {
    now - w.lastTimeout >= FALLBACK_DURATION
  }

  /**
   * The minute timer: in text-only mode, once a minute has passed since the
   * last timeout, the service is probed; if it answers, voice is restored,
   * otherwise the wait starts again from now.
   */
  function RecoveryTick(w: Watcher, now: int, available: bool): (r: Watcher)
    ensures !w.fallback || !ShouldAttemptRecovery(w, now) ==> r == w
    ensures w.fallback && ShouldAttemptRecovery(w, now) && available ==> !r.fallback && r.count == 0
    ensures w.fallback && ShouldAttemptRecovery(w, now) && !available ==> r == w.(lastTimeout := now)
  {
    if w.fallback && ShouldAttemptRecovery(w, now) then
      if available then ExitFallback(w) else w.(lastTimeout := now)
    else w
  }

  /** toggleFallbackMode: a transition only when the requested mode differs. */
  function Toggle(w: Watcher, enabled: bool): (r: Watcher)
    ensures r.fallback == enabled
    ensures w.fallback == enabled ==> r == w
    ensures w.fallback != enabled ==> |r.events| == |w.events| + 1
    ensures !enabled && w.fallback ==> r.count == 0
  {
    if enabled && !w.fallback then EnterFallback(w)
    else if !enabled && w.fallback then ExitFallback(w)
    else w
  }

  function ResetTimeoutCount(w: Watcher): (r: Watcher)
    ensures r.count == 0 && r.lastTimeout == 0
    ensures r.timeouts == w.timeouts && r.armed == w.armed && r.fallback == w.fallback
  {
    w.(count := 0, lastTimeout := 0)
  }

  /** clearAllTimeouts: every registered timer is disarmed and the map emptied. */
  function ClearAll(w: Watcher): (r: Watcher)
    ensures r.timeouts == map[] && ActiveTimeouts(r) == 0
    ensures forall t | t in r.armed :: t in w.armed && t !in w.timeouts.Values
    ensures forall t | t in w.armed && t !in w.timeouts.Values :: t in r.armed
  {
    w.(armed := map t | t in w.armed && t !in w.timeouts.Values :: w.armed[t], timeouts := map[])
  }

  /** getStatus's activeTimeouts. */
  function ActiveTimeouts(w: Watcher): nat {
    |w.timeouts.Keys|
  }

  lemma StartKeepsInv(w: Watcher, id: RequestId, custom: Option<int>)
    requires Inv(w)
    ensures Inv(Start(w, id, custom))
  {
  }

  lemma ClearKeepsInv(w: Watcher, id: RequestId)
    requires Inv(w)
    ensures Inv(Clear(w, id))
  {
  }

  lemma FireKeepsInv(w: Watcher, t: TimerId, now: int)
    requires Inv(w)
    ensures Inv(Fire(w, t, now))
  {
    if t in w.armed {
      var r := Fire(w, t, now);
      var id := w.armed[t].0;
      forall x | x in r.timeouts
        ensures r.timeouts[x] in r.armed && r.armed[r.timeouts[x]].0 == x
      {
        assert x != id && x in w.timeouts;
        assert w.timeouts[x] != t;
      }
    }
  }

  lemma ClearAllKeepsInv(w: Watcher)
    requires Inv(w)
    ensures Inv(ClearAll(w))
  {
  }

  /** A request started and then cleared has nothing left to fire for it, when it was started once. */
  lemma StartThenClear(w: Watcher, id: RequestId, custom: Option<int>)
    requires Inv(w) && id !in w.timeouts
    requires forall t | t in w.armed :: w.armed[t].0 != id
    ensures var r := Clear(Start(w, id, custom), id);
      forall t | t in r.armed :: r.armed[t].0 != id
  {
  }

  /** Three timeouts in a row from a fresh watcher switch to text-only mode; two do not. */
  lemma ThirdTimeoutEntersFallback(w: Watcher, a: TimerId, b: TimerId, c: TimerId, now: int)
    requires w.count == 0 && !w.fallback
    requires a in w.armed
    ensures var w1 := Fire(w, a, now);
      && w1.count == 1 && !w1.fallback
      && (b in w1.armed ==> var w2 := Fire(w1, b, now);
            w2.count == 2 && !w2.fallback && (c in w2.armed ==> Fire(w2, c, now).fallback))
  {
  }

  /**
   * As written, a request started twice keeps its first timer armed after
   * being cleared: that timer can still fire and count a timeout.
   */
  lemma RestartedRequestLeaksTimer(w: Watcher, id: RequestId, now: int)
    requires Inv(w)
    ensures var r := Clear(Start(Start(w, id, None), id, None), id);
      && w.nextTimer in r.armed && r.armed[w.nextTimer].0 == id
      && Fire(r, w.nextTimer, now).count == r.count + 1
  {
  }

  /** startTimeout disarming the request's earlier timer before arming the new one. */
  function StartReplacing(w: Watcher, id: RequestId, custom: Option<int>): (r: Watcher)
    ensures Inv(w) ==> Inv(r)
    ensures id in r.timeouts && r.timeouts[id] in r.armed && r.armed[r.timeouts[id]] == (id, Delay(custom))
    ensures Inv(w) ==> forall t | t in r.armed && r.armed[t].0 == id :: t == r.timeouts[id] || (t in w.armed && t !in w.timeouts.Values)
  {
    Start(Clear(w, id), id, custom)
  }

  /** With replacement, starting twice and clearing leaves no timer from either start. */
  lemma RestartedRequestClears(w: Watcher, id: RequestId)
    requires Inv(w)
    requires forall t | t in w.armed :: w.armed[t].0 != id
    ensures var r := Clear(StartReplacing(StartReplacing(w, id, None), id, None), id);
      forall t | t in r.armed :: r.armed[t].0 != id
  {
  }
}

=== FILE: voice_capture.dfy ===
/**
 * The browser side of the upstream audio: microphone samples are gathered
 * and leave as fixed frames of 1024 samples, a stop flushes what is left
 * and sends an end marker.
 *
 * The voice-activity detector decides, per microphone block, whether the
 * block is sent and whether a segment ends; both decisions are parameters.
 * Samples are the 16-bit values each float is converted to on sending; the
 * clamping and rounding of that conversion is not modelled.
 */
module VoiceCapture {
  import opened Seqs

  const FRAME_SAMPLES: nat := 1024
  /** The JSON text of the control messages the client sends. */
  const SEGMENT_END_TEXT := "{\"type\":\"segment_end\"}"
  const END_TEXT := "{\"type\":\"end\"}"
  /** The plain text the server ends recognition on. */
  const END_SIGNAL_TEXT := "END"

  type Sample = int

  /**
   * What the client writes to the voice socket. `EndSignal` is the plain
   * END text, which only the corrected stop sends.
   */
  datatype Outgoing = PcmFrame(samples: seq<Sample>) | SegmentEndText | EndText | EndSignal

  datatype Capture = Capture(recording: bool, buffer: seq<Sample>, sent: seq<Outgoing>)

  /**
   * startRecording. A second start changes nothing. Otherwise the
   * microphone and the audio context are requested (`granted` is whether
   * both are obtained): when they are, recording starts with an empty
   * buffer; when either is refused, the capture is left as it was, not
   * recording, and the error is rethrown to the caller (`r.1` is false).
   */
  function Start(c: Capture, granted: bool): (r: (Capture, bool))
    ensures r.1 <==> c.recording || granted
    ensures r.0.recording <==> r.1
    ensures r.0.sent == c.sent
    ensures !c.recording && granted ==> r.0.buffer == []
    ensures c.recording || !granted ==> r.0 == c
  {
    if c.recording then (c, true)
    else if granted then (c.(recording := true, buffer := []), true)
    else (c, false)
  }

  /** After a refused start no block is captured or sent, and stopping sends nothing. */
  lemma RefusedStartCapturesNothing(c: Capture, blocks: seq<seq<Sample>>, open: bool)
    requires !c.recording
    ensures var r := Start(c, false);
      && !r.1 && Record(r.0, blocks) == c && Stop(Record(r.0, blocks), open) == c
  {
    RecordNotRecording(c, blocks);
  }

  /** Blocks that arrive while not recording change nothing. */
  lemma {:induction false} RecordNotRecording(c: Capture, blocks: seq<seq<Sample>>)
    requires !c.recording
    ensures Record(c, blocks) == c
    decreases |blocks|
  {
    if |blocks| > 0 {
      RecordNotRecording(c, blocks[1..]);
    }
  }

  /**
   * Cuts whole frames off the front of the buffer while it holds at least
   * one frame; each is written when the socket is open and dropped
   * otherwise.
   */
  function Drain(buffer: seq<Sample>, open: bool): (r: (seq<seq<Sample>>, seq<Sample>))
    ensures |r.1| < FRAME_SAMPLES
    ensures forall i :: 0 <= i < |r.0| ==> |r.0[i]| == FRAME_SAMPLES
    ensures !open ==> r.0 == []
    ensures |r.1| <= |buffer| && r.1 == buffer[|buffer| - |r.1|..]
    decreases |buffer|
  {
    if |buffer| < FRAME_SAMPLES then ([], buffer)
    else
      var tail := buffer[FRAME_SAMPLES..];
      var rest := Drain(tail, open);
      assert tail[|tail| - |rest.1|..] == buffer[|buffer| - |rest.1|..];
      if open then ([buffer[..FRAME_SAMPLES]] + rest.0, rest.1) else rest
  }

  /** With the socket open, the frames cut and the rest kept are the buffer, in order. */
  lemma {:induction false} DrainKeepsSamples(buffer: seq<Sample>)
    ensures var r := Drain(buffer, true);
      Flatten(r.0) + r.1 == buffer
    decreases |buffer|
  {
    if |buffer| >= FRAME_SAMPLES {
      var head := buffer[..FRAME_SAMPLES];
      var tail := buffer[FRAME_SAMPLES..];
      var rest := Drain(tail, true);
      assert Drain(buffer, true) == ([head] + rest.0, rest.1);
      DrainKeepsSamples(tail);
      FrameThenRest(head, tail, rest.0, rest.1);
      assert buffer == head + tail;
    }
  }

  /** A frame put in front of frames that, with a rest, make up `tail` makes up the frame then `tail`. */
  lemma FrameThenRest(head: seq<Sample>, tail: seq<Sample>, frames: seq<seq<Sample>>, rest: seq<Sample>)
    requires Flatten(frames) + rest == tail
    ensures Flatten([head] + frames) + rest == head + tail
  {
    FlattenCons(head, frames);
  }

  /** The frames cut from a buffer of n samples: n div 1024 of them, when the socket is open. */
  lemma {:induction false} DrainCount(buffer: seq<Sample>)
    ensures |Drain(buffer, true).0| == |buffer| / FRAME_SAMPLES
    decreases |buffer|
  {
    if |buffer| >= FRAME_SAMPLES {
      DrainCount(buffer[FRAME_SAMPLES..]);
    }
  }

  /**
   * One microphone block: while recording, a block the detector passes is
   * appended and whole frames are sent; then, when the detector ends a
   * segment after speech, a segment-end message goes out if the socket is
   * open. As written, the detector's stop flag is only set by a timer
   * after its result was returned, so `segmentEnd` is false in every call
   * the client makes; the parameter keeps the path that the client's own
   * stop check and segment_end sender exist for.
   */
  function OnAudio(c: Capture, block: seq<Sample>, send: bool, segmentEnd: bool, open: bool): (r: Capture)
    ensures r.recording == c.recording
    ensures !c.recording ==> r == c
    ensures |c.buffer| < FRAME_SAMPLES && c.recording ==> |r.buffer| < FRAME_SAMPLES
    ensures |c.sent| <= |r.sent| && r.sent[..|c.sent|] == c.sent
  {
    if !c.recording then c
    else
      var tail := if segmentEnd && open then [SegmentEndText] else [];
      if !send then c.(sent := c.sent + tail)
      else
        var d := Drain(c.buffer + block, open);
        c.(buffer := d.1, sent := c.sent + PcmFrames(d.0) + tail)
  }

  /** Frames as messages. */
  function PcmFrames(frames: seq<seq<Sample>>): (ms: seq<Outgoing>)
    ensures |ms| == |frames|
  {
    seq(|frames|, i requires 0 <= i < |frames| => PcmFrame(frames[i]))
  }

  /** With the socket open, a passed block leaves as whole frames plus what stays buffered: no sample is lost or reordered. */
  lemma OnAudioKeepsSamples(c: Capture, block: seq<Sample>, segmentEnd: bool)
    requires c.recording
    ensures var r := OnAudio(c, block, true, segmentEnd, true);
      Flatten(Frames(r.sent[|c.sent|..])) + r.buffer == c.buffer + block
  {
    var d := Drain(c.buffer + block, true);
    var tail := if segmentEnd then [SegmentEndText] else [];
    var r := OnAudio(c, block, true, segmentEnd, true);
    assert r.sent[|c.sent|..] == PcmFrames(d.0) + tail;
    DrainKeepsSamples(c.buffer + block);
    FramesOfPcm(d.0);
    FramesAppend(PcmFrames(d.0), tail);
    assert Frames(tail) == [];
    assert Frames(PcmFrames(d.0) + tail) == d.0;
  }

  /** The sample payloads of the frames among some messages, in order. */
  function Frames(ms: seq<Outgoing>): seq<seq<Sample>>
    decreases |ms|
  {
    if |ms| == 0 then []
    else (if ms[0].PcmFrame? then [ms[0].samples] else []) + Frames(ms[1..])
  }

  lemma {:induction false} FramesOfPcm(frames: seq<seq<Sample>>)
    ensures Frames(PcmFrames(frames)) == frames
    decreases |frames|
  {
    if |frames| > 0 {
      assert PcmFrames(frames)[1..] == PcmFrames(frames[1..]);
      FramesOfPcm(frames[1..]);
    }
  }

  lemma {:induction false} FramesAppend(a: seq<Outgoing>, b: seq<Outgoing>)
    ensures Frames(a + b) == Frames(a) + Frames(b)
    decreases |a|
  {
    if |a| > 0 {
      assert (a + b)[1..] == a[1..] + b;
      FramesAppend(a[1..], b);
    } else {
      assert a + b == b;
    }
  }

  /**
   * stopRecording: what is left in the buffer goes out as one short frame,
   * then the end marker, each only when the socket is open; the buffer is
   * emptied either way. Stopping when not recording changes nothing.
   */
  function Stop(c: Capture, open: bool): (r: Capture)
    ensures !c.recording ==> r == c
    ensures c.recording ==> !r.recording && r.buffer == []
    ensures c.recording && open ==> r.sent == c.sent + (if c.buffer != [] then [PcmFrame(c.buffer)] else []) + [EndText]
    ensures c.recording && !open ==> r.sent == c.sent
  {
    if !c.recording then c
    else
      var flush := if c.buffer != [] && open then [PcmFrame(c.buffer)] else [];
      var end := if open then [EndText] else [];
      Capture(false, [], c.sent + flush + end)
  }

  /**
   * The stop as it should be: the same flush, then the END signal the
   * server ends recognition on instead of the JSON end marker.
   */
  function StopWithSignal(c: Capture, open: bool): (r: Capture)
    ensures !c.recording ==> r == c
    ensures c.recording ==> !r.recording && r.buffer == []
    ensures c.recording && open ==> r.sent == c.sent + (if c.buffer != [] then [PcmFrame(c.buffer)] else []) + [EndSignal]
    ensures c.recording && !open ==> r.sent == c.sent
  {
    if !c.recording then c
    else
      var flush := if c.buffer != [] && open then [PcmFrame(c.buffer)] else [];
      var end := if open then [EndSignal] else [];
      Capture(false, [], c.sent + flush + end)
  }

  /**
   * Over a whole recording with the socket open and every block passed,
   * the frames sent are the samples captured, in order and none lost; all
   * but the last are whole frames.
   */
  lemma {:induction false} RecordingKeepsEverySample(c: Capture, blocks: seq<seq<Sample>>)
    requires c.recording
    ensures var r := Record(c, blocks);
      Flatten(Frames(r.sent[|c.sent|..])) + r.buffer == c.buffer + Flatten(blocks)
    decreases |blocks|
  {
    if |blocks| == 0 {
      assert c.sent[|c.sent|..] == [];
      assert Flatten(blocks) == [];
    } else {
      var c1 := OnAudio(c, blocks[0], true, false, true);
      var r := Record(c1, blocks[1..]);
      assert r == Record(c, blocks);
      OnAudioKeepsSamples(c, blocks[0], false);
      RecordingKeepsEverySample(c1, blocks[1..]);
      assert blocks == [blocks[0]] + blocks[1..];
      RecordStep(c.sent, c1.sent, r.sent, c.buffer, c1.buffer, r.buffer, blocks[0], blocks[1..]);
    }
  }

  /**
   * One block, then the rest: the account for the first block and the
   * account for the rest of the recording compose into the account for
   * the whole (`x`, `y`, `z` are what was sent before, after the first
   * block and at the end; `b0`, `b1`, `b2` the buffers then).
   */
  lemma RecordStep(x: seq<Outgoing>, y: seq<Outgoing>, z: seq<Outgoing>, b0: seq<Sample>, b1: seq<Sample>, b2: seq<Sample>,
                   block: seq<Sample>, rest: seq<seq<Sample>>)
    requires |x| <= |y| <= |z| && y[..|x|] == x && z[..|y|] == y
    requires Flatten(Frames(y[|x|..])) + b1 == b0 + block
    requires Flatten(Frames(z[|y|..])) + b2 == b1 + Flatten(rest)
    ensures Flatten(Frames(z[|x|..])) + b2 == b0 + Flatten([block] + rest)
  {
    FramesSplit(x, y, z);
    FlattenCons(block, rest);
    Chain(Flatten(Frames(y[|x|..])), Flatten(Frames(z[|y|..])), b1, b2, b0 + block, Flatten(rest));
    assert (b0 + block) + Flatten(rest) == b0 + (block + Flatten(rest));
  }

  /** Two steps of "sent so far plus buffered equals captured" compose. */
  lemma Chain<T>(a: seq<T>, b: seq<T>, y: seq<T>, z: seq<T>, p: seq<T>, w: seq<T>)
    requires a + y == p && b + z == y + w
    ensures (a + b) + z == p + w
  {
    assert (a + b) + z == a + (b + z);
  }

  /** The frames sent across two consecutive stretches are those of the first then those of the second. */
  lemma FramesSplit(x: seq<Outgoing>, y: seq<Outgoing>, z: seq<Outgoing>)
    requires |x| <= |y| <= |z| && y[..|x|] == x && z[..|y|] == y
    ensures Flatten(Frames(z[|x|..])) == Flatten(Frames(y[|x|..])) + Flatten(Frames(z[|y|..]))
  {
    SentSplits(x, y, z);
    FramesAppend(y[|x|..], z[|y|..]);
    FlattenAppend(Frames(y[|x|..]), Frames(z[|y|..]));
  }

  /** What was sent after `x`, when `x` is a prefix of `y` and `y` of `z`, is what came after `x` in `y` and then after `y` in `z`. */
  lemma SentSplits<T>(x: seq<T>, y: seq<T>, z: seq<T>)
    requires |x| <= |y| <= |z| && y[..|x|] == x && z[..|y|] == y
    ensures z[|x|..] == y[|x|..] + z[|y|..]
  {
  }

  /** Microphone blocks fed in turn, each passed by the detector, with the socket open. */
  function Record(c: Capture, blocks: seq<seq<Sample>>): (r: Capture)
    ensures r.recording == c.recording
    ensures |c.sent| <= |r.sent| && r.sent[..|c.sent|] == c.sent
    decreases |blocks|
  {
    if |blocks| == 0 then c
    else Record(OnAudio(c, blocks[0], true, false, true), blocks[1..])
  }
}

=== FILE: voice_link.dfy ===
/**
 * What the voice client's messages become on the server side of the
 * socket: the wire form of each `VoiceCapture.Outgoing`, and the command
 * `SocketHandler.Dispatch` makes of it.
 *
 * A frame travels as the bytes of an Int16Array, two bytes per sample,
 * least significant first (the byte order of the browsers the client runs
 * on). A control message travels as its JSON text, which the server parses.
 */
module VoiceLink {
  import opened Wrappers
  import opened Seqs
  import opened Json
  import VoiceCapture
  import SocketHandler
  import VoicePlayback

  predicate IsInt16(s: int) {
    -0x8000 <= s < 0x8000
  }

  /** One sample in two's complement, least significant byte first. */
  function SampleBytes(s: int): (b: seq<byte>)
    ensures |b| == 2
  {
    VoicePlayback.Le16(s % 0x1_0000)
  }

  function ReadSample(b: seq<byte>): (s: int)
    requires |b| == 2
    ensures IsInt16(s)
  {
    var u := VoicePlayback.ReadLe16(b);
    if u >= 0x8000 then u - 0x1_0000 else u
  }

  lemma SampleRoundTrip(s: int)
    requires IsInt16(s)
    ensures ReadSample(SampleBytes(s)) == s
  {
    VoicePlayback.Le16RoundTrip(s % 0x1_0000);
  }

  /** The bytes of an Int16Array holding `samples`. */
  function PcmBytes(samples: seq<int>): (b: seq<byte>)
    ensures |b| == 2 * |samples|
    decreases |samples|
  {
    if |samples| == 0 then [] else SampleBytes(samples[0]) + PcmBytes(samples[1..])
  }

  /** Reads a byte buffer back as 16-bit samples; an odd last byte is not a sample. */
  function PcmSamples(b: seq<byte>): (s: seq<int>)
    ensures |s| == |b| / 2
    decreases |b|
  {
    if |b| < 2 then [] else [ReadSample(b[..2])] + PcmSamples(b[2..])
  }

  /** The server reads back exactly the samples the client wrote. */
  lemma {:induction false} PcmRoundTrip(samples: seq<int>)
    requires forall i :: 0 <= i < |samples| ==> IsInt16(samples[i])
    ensures PcmSamples(PcmBytes(samples)) == samples
    decreases |samples|
  {
    if |samples| > 0 {
      var b := PcmBytes(samples);
      assert b[..2] == SampleBytes(samples[0]);
      assert b[2..] == PcmBytes(samples[1..]);
      SampleRoundTrip(samples[0]);
      PcmRoundTrip(samples[1..]);
      assert samples == [samples[0]] + samples[1..];
    }
  }

  lemma {:induction false} PcmBytesAppend(a: seq<int>, b: seq<int>)
    ensures PcmBytes(a + b) == PcmBytes(a) + PcmBytes(b)
    decreases |a|
  {
    if |a| == 0 {
      assert a + b == b;
    } else {
      assert (a + b)[1..] == a[1..] + b;
      PcmBytesAppend(a[1..], b);
    }
  }

  /** The text the server receives, with what `new JSONObject` makes of it. */
  function Wire(m: VoiceCapture.Outgoing): (w: SocketHandler.Incoming)
    ensures m.PcmFrame? <==> w.BinaryIn?
  {
    match m
    case PcmFrame(samples) => SocketHandler.BinaryIn(PcmBytes(samples))
    case SegmentEndText => SocketHandler.TextIn(VoiceCapture.SEGMENT_END_TEXT, Some(JObj(map["type" := JStr("segment_end")])))
    case EndText => SocketHandler.TextIn(VoiceCapture.END_TEXT, Some(JObj(map["type" := JStr("end")])))
    case EndSignal => SocketHandler.TextIn(VoiceCapture.END_SIGNAL_TEXT, None)
  }

  /** A frame reaches the recognizer as its PCM bytes. */
  lemma FrameIsForwarded(samples: seq<int>)
    ensures SocketHandler.Dispatch(Wire(VoiceCapture.PcmFrame(samples))) == SocketHandler.Forward(SocketHandler.AudioCall(PcmBytes(samples)))
  {
  }

  /** The client's segment-end message makes the server close the segment. */
  lemma SegmentEndIsForwarded()
    ensures SocketHandler.Dispatch(Wire(VoiceCapture.SegmentEndText)) == SocketHandler.Forward(SocketHandler.SegmentEndCall)
  {
    var f := map["type" := JStr("segment_end")];
    assert OptString(f, "type", "") == "segment_end";
  }

  /**
   * The end marker the client sends on stopping is a JSON object, but the
   * server only ends recognition on the plain text END: the marker is
   * ignored and the recognition session is left running.
   */
  lemma EndMarkerIsIgnored()
    ensures SocketHandler.Dispatch(Wire(VoiceCapture.EndText)) == SocketHandler.Ignore
  {
    var f := map["type" := JStr("end")];
    assert OptString(f, "type", "") == "end";
  }

  /** The last message of a stop with the socket open, as written: the server ignores it. */
  lemma StopAsWrittenIsIgnored(c: VoiceCapture.Capture)
    requires c.recording
    ensures var r := VoiceCapture.Stop(c, true);
      |r.sent| > 0 && SocketHandler.Dispatch(Wire(r.sent[|r.sent| - 1])) == SocketHandler.Ignore
  {
    EndMarkerIsIgnored();
  }

  /** With the plain END signal, a stop with the socket open ends the recognition session. */
  lemma StopEndsRecognition(c: VoiceCapture.Capture)
    requires c.recording
    ensures var r := VoiceCapture.StopWithSignal(c, true);
      |r.sent| > 0 && SocketHandler.Dispatch(Wire(r.sent[|r.sent| - 1])) == SocketHandler.Forward(SocketHandler.EndCall)
  {
  }

  /** The audio the server forwards for a run of client messages, in order. */
  function ForwardedAudio(ms: seq<VoiceCapture.Outgoing>): seq<byte>
    decreases |ms|
  {
    if |ms| == 0 then []
    else
      var c := SocketHandler.Dispatch(Wire(ms[0]));
      (if c.Forward? && c.call.AudioCall? then c.call.bytes else []) + ForwardedAudio(ms[1..])
  }

  /** The forwarded audio is the PCM of the frames' samples run together. */
  lemma {:induction false} ForwardedAudioIsPcm(ms: seq<VoiceCapture.Outgoing>)
    ensures ForwardedAudio(ms) == PcmBytes(Flatten(VoiceCapture.Frames(ms)))
    decreases |ms|
  {
    if |ms| == 0 {
      assert Flatten<int>([]) == [];
    } else {
      ForwardedAudioIsPcm(ms[1..]);
      var head := if ms[0].PcmFrame? then [ms[0].samples] else [];
      assert VoiceCapture.Frames(ms) == head + VoiceCapture.Frames(ms[1..]);
      FlattenAppend(head, VoiceCapture.Frames(ms[1..]));
      PcmBytesAppend(Flatten(head), Flatten(VoiceCapture.Frames(ms[1..])));
      if ms[0].PcmFrame? {
        FlattenCons(ms[0].samples, []);
        assert Flatten(head) == ms[0].samples + Flatten<int>([]);
        assert Flatten(head) == ms[0].samples;
      } else {
        assert Flatten(head) == [];
      }
    }
  }

  /**
   * Over a whole recording with the socket open, the server forwards the
   * PCM of every captured sample but those still buffered, in order.
   */
  lemma RecordingReachesRecognizer(c: VoiceCapture.Capture, blocks: seq<seq<int>>)
    requires c.recording
    ensures var r := VoiceCapture.Record(c, blocks);
      ForwardedAudio(r.sent[|c.sent|..]) + PcmBytes(r.buffer) == PcmBytes(c.buffer + Flatten(blocks))
  {
    var r := VoiceCapture.Record(c, blocks);
    VoiceCapture.RecordingKeepsEverySample(c, blocks);
    ForwardedAudioIsPcm(r.sent[|c.sent|..]);
    PcmBytesAppend(Flatten(VoiceCapture.Frames(r.sent[|c.sent|..])), r.buffer);
  }
}

=== FILE: voice_messages.dfy ===
/**
 * How the voice client handles what arrives on its socket: binary audio is
 * queued for playback; text is routed by its prefix (reply fragment,
 * Base64 audio, partial or final transcript), then tried as a JSON control
 * message, and otherwise shown as the user's own words.
 *
 * The callbacks the page registers are recorded, in order, as `Notice`s.
 * The 500 ms quiet period that completes a streamed reply is an explicit
 * step, `ReplyQuiet`.
 */
module VoiceMessages {
  import opened Wrappers
  import opened Strings
  import opened Seqs
  import opened Json
  import opened Primitives
  import VoicePlayback

  const REPLY_PREFIX := "REPLY:"
  const AUDIO_PREFIX := "AUDIO:"
  const PARTIAL_PREFIX := "PARTIAL:"
  const FINAL_PREFIX := "FINAL:"

  /**
   * A socket message: an ArrayBuffer, a Blob (its bytes once read), text
   * with its `JSON.parse` result (`None` where that throws), or anything
   * else.
   */
  datatype Incoming = BufferIn(bytes: seq<byte>) | BlobIn(bytes: seq<byte>) | TextIn(text: string, parsed: Option<Json>) | OtherIn

  datatype Role = User | Assistant

  /** A callback invocation. `content` is `None` where the page receives `undefined`. */
  datatype Notice =
    | Said(role: Role, content: Option<Json>)   // onMessage
    | Streamed(text: string, streaming: bool)   // onStreamingMessage
    | Partial(text: string)                     // onAsrPartial
    | Final(text: string)                       // onAsrFinal

  datatype View = View(
    /** The reply being streamed, if one is. */
    reply: Option<string>,
    /** The last partial transcript, cleared when the voice detector is reset. */
    partial: string,
    player: VoicePlayback.Player,
    notices: seq<Notice>)

  /** The branch a text message takes, in the order the prefixes are checked. */
  datatype Kind = ReplyKind | AudioKind | PartialKind | FinalKind | ControlKind

  function KindOf(t: string): (k: Kind)
    ensures k == ReplyKind <==> StartsWith(t, REPLY_PREFIX)
    ensures k == AudioKind <==> StartsWith(t, AUDIO_PREFIX) && !StartsWith(t, REPLY_PREFIX)
    ensures k == PartialKind ==> StartsWith(t, PARTIAL_PREFIX)
    ensures k == FinalKind ==> StartsWith(t, FINAL_PREFIX)
    ensures k == ControlKind <==>
      !StartsWith(t, REPLY_PREFIX) && !StartsWith(t, AUDIO_PREFIX) && !StartsWith(t, PARTIAL_PREFIX) && !StartsWith(t, FINAL_PREFIX)
  {
    if StartsWith(t, REPLY_PREFIX) then ReplyKind
    else if StartsWith(t, AUDIO_PREFIX) then AudioKind
    else if StartsWith(t, PARTIAL_PREFIX) then PartialKind
    else if StartsWith(t, FINAL_PREFIX) then FinalKind
    else ControlKind
  }

  /** What the page is told about a message that is not prefixed. */
  function Control(t: string, parsed: Option<Json>): (r: (seq<Notice>, bool))
    ensures parsed.None? || parsed == Some(JNull) ==> r == ([Said(User, Some(JStr(t)))], false)
    ensures parsed.Some? && !parsed.value.JObj? && !parsed.value.JNull? ==> r == ([], false)
    ensures r.1 ==> parsed.Some? && parsed.value.JObj?
    ensures |r.0| <= 1 && (r.1 ==> |r.0| == 1 && r.0[0].Said? && r.0[0].role == Assistant)
    ensures parsed.Some? && parsed.value.JObj? && "type" in parsed.value.fields ==>
      && (parsed.value.fields["type"] == JStr("asr_result") ==> |r.0| == 1 && r.0[0].Said? && r.0[0].role == User && !r.1)
      && (parsed.value.fields["type"] == JStr("ai_response") ==> r.1)
  {
    match parsed
    case None => ([Said(User, Some(JStr(t)))], false)
    case Some(JNull) => ([Said(User, Some(JStr(t)))], false)
    case Some(JObj(f)) =>
      var text := if "text" in f then Some(f["text"]) else None;
      if "type" in f && f["type"] == JStr("asr_result") then ([Said(User, text)], false)
      else if "type" in f && f["type"] == JStr("ai_response") then ([Said(Assistant, text)], true)
      else ([], false)
    case Some(_) => ([], false)
  }

  /** The voice detector's reset after a reply: the transcript state is cleared. */
  function ResetVad(v: View): (r: View)
    ensures r.partial == "" && r.player == v.player && r.reply == v.reply && r.notices == v.notices
  {
    v.(partial := "")
  }

  /** handleWebSocketMessage. */
  function Handle(v: View, codecs: Codecs, m: Incoming): (r: View)
  {
    match m
    case BufferIn(bytes) => v.(player := VoicePlayback.Enqueue(v.player, bytes))
    case BlobIn(bytes) => v.(player := VoicePlayback.Enqueue(v.player, bytes))
    case OtherIn => v
    case TextIn(t, parsed) =>
      match KindOf(t) {
      case ReplyKind =>
        var fragment := t[|REPLY_PREFIX|..];
        var content := if v.reply.None? then fragment else v.reply.value + fragment;
        v.(reply := Some(content), notices := v.notices + [Streamed(content, true)])
      case AudioKind =>
        match codecs.atob(t[|AUDIO_PREFIX|..]) {
          case Some(bytes) => v.(player := VoicePlayback.Enqueue(v.player, bytes))
          case None => v
        }
      case PartialKind =>
        var text := t[|PARTIAL_PREFIX|..];
        v.(partial := text, notices := v.notices + [Partial(text)])
      case FinalKind =>
        var text := t[|FINAL_PREFIX|..];
        var said := if Trim(JsSpace, text) != "" then [Said(User, Some(JStr(text)))] else [];
        v.(notices := v.notices + [Final(text)] + said)
      case ControlKind =>
        var (ns, reset) := Control(t, parsed);
        var v1 := v.(notices := v.notices + ns);
        if reset then ResetVad(v1) else v1
      }
  }

  /**
   * No reply fragment for 500 ms: the streamed reply is delivered as one
   * assistant message, streaming is marked over, and the detector reset.
   */
  function ReplyQuiet(v: View): (r: View)
    ensures v.reply.None? ==> r == v
    ensures v.reply.Some? ==> r.reply.None? && r.notices == v.notices + [Said(Assistant, Some(JStr(v.reply.value))), Streamed(v.reply.value, false)]
  {
    match v.reply
    case None => v
    case Some(c) => ResetVad(v.(reply := None, notices := v.notices + [Said(Assistant, Some(JStr(c))), Streamed(c, false)]))
  }

  /** Reply fragments arriving in turn. */
  function Replies(v: View, codecs: Codecs, fragments: seq<string>): View
    decreases |fragments|
  {
    if |fragments| == 0 then v
    else Replies(Handle(v, codecs, TextIn(REPLY_PREFIX + fragments[0], None)), codecs, fragments[1..])
  }

  /** The fragment a REPLY: message carries is the text after the prefix. */
  lemma ReplyPayload(fragment: string)
    ensures KindOf(REPLY_PREFIX + fragment) == ReplyKind
    ensures (REPLY_PREFIX + fragment)[|REPLY_PREFIX|..] == fragment
  {
    assert (REPLY_PREFIX + fragment)[..|REPLY_PREFIX|] == REPLY_PREFIX;
  }

  /** The reply streamed so far, empty when none is. */
  function Pending(v: View): string {
    if v.reply.Some? then v.reply.value else ""
  }

  /** One REPLY: message extends the pending reply by its fragment. */
  lemma ReplyStep(v: View, codecs: Codecs, fragment: string)
    ensures Handle(v, codecs, TextIn(REPLY_PREFIX + fragment, None)).reply == Some(Pending(v) + fragment)
  {
    ReplyPayload(fragment);
    if v.reply.None? {
      assert Pending(v) + fragment == fragment;
    }
  }

  /**
   * The streamed reply is the fragments run together in arrival order,
   * after whatever was pending.
   */
  lemma {:induction false} RepliesConcatenate(v: View, codecs: Codecs, fragments: seq<string>)
    requires |fragments| > 0
    ensures Replies(v, codecs, fragments).reply == Some(Pending(v) + Flatten(fragments))
    decreases |fragments|
  {
    var f0 := fragments[0];
    var rest := fragments[1..];
    var v1 := Handle(v, codecs, TextIn(REPLY_PREFIX + f0, None));
    assert Replies(v, codecs, fragments) == Replies(v1, codecs, rest);
    ReplyStep(v, codecs, f0);
    assert Pending(v1) == Pending(v) + f0;
    assert [f0] + rest == fragments;
    FlattenCons(f0, rest);
    if |rest| > 0 {
      RepliesConcatenate(v1, codecs, rest);
      FlattenConsAfter(Pending(v), f0, rest);
    } else {
      assert Replies(v1, codecs, rest) == v1;
      assert Flatten(rest) == [];
      assert f0 + [] == f0;
    }
  }

  /** A reply streamed from nothing and then completed is delivered as the concatenated fragments. */
  lemma StreamedReplyIsDelivered(v: View, codecs: Codecs, fragments: seq<string>)
    requires v.reply.None? && |fragments| > 0
    ensures var r := ReplyQuiet(Replies(v, codecs, fragments));
      r.reply.None? && |r.notices| >= 2 && r.notices[|r.notices| - 2] == Said(Assistant, Some(JStr(Flatten(fragments))))
  {
    RepliesConcatenate(v, codecs, fragments);
    assert Pending(v) + Flatten(fragments) == Flatten(fragments);
  }

  /** A final transcript always reaches the final callback, and becomes a user message only when not blank. */
  lemma FinalTranscript(v: View, codecs: Codecs, text: string)
    ensures var r := Handle(v, codecs, TextIn(FINAL_PREFIX + text, None));
      && r.notices[..|v.notices| + 1] == v.notices + [Final(text)]
      && (|r.notices| == |v.notices| + 2 <==> !IsBlank(JsSpace, text))
      && (|r.notices| == |v.notices| + 2 ==> r.notices[|v.notices| + 1] == Said(User, Some(JStr(text))))
      && r.player == v.player
  {
    var t := FINAL_PREFIX + text;
    assert t[..|FINAL_PREFIX|] == FINAL_PREFIX;
    assert !StartsWith(t, REPLY_PREFIX) && !StartsWith(t, AUDIO_PREFIX) && !StartsWith(t, PARTIAL_PREFIX) by {
      assert t[0] == 'F';
    }
    assert t[|FINAL_PREFIX|..] == text;
    TrimEmptyIffBlank(JsSpace, text);
  }

  /** An AUDIO: payload that does not decode queues nothing; one that does joins the back of the queue. */
  lemma AudioMessage(v: View, codecs: Codecs, b64: string)
    ensures var r := Handle(v, codecs, TextIn(AUDIO_PREFIX + b64, None));
      && (codecs.atob(b64).None? ==> r == v)
      && (codecs.atob(b64).Some? ==> r.player == VoicePlayback.Enqueue(v.player, codecs.atob(b64).value) && r.notices == v.notices)
  {
    var t := AUDIO_PREFIX + b64;
    assert t[..|AUDIO_PREFIX|] == AUDIO_PREFIX;
    assert !StartsWith(t, REPLY_PREFIX) by { assert t[0] == 'A'; }
    assert t[|AUDIO_PREFIX|..] == b64;
  }

  /** A partial transcript replaces the last one and reaches the partial callback. */
  lemma PartialTranscript(v: View, codecs: Codecs, text: string)
    ensures var r := Handle(v, codecs, TextIn(PARTIAL_PREFIX + text, None));
      r.partial == text && r.notices == v.notices + [Partial(text)] && r.reply == v.reply
  {
    var t := PARTIAL_PREFIX + text;
    assert t[..|PARTIAL_PREFIX|] == PARTIAL_PREFIX;
    assert !StartsWith(t, REPLY_PREFIX) && !StartsWith(t, AUDIO_PREFIX) by { assert t[0] == 'P'; }
    assert t[|PARTIAL_PREFIX|..] == text;
  }

  /**
   * Text with no known prefix that is not JSON (or is JSON `null`) is shown
   * as something the user said; this includes the server's ERROR: lines.
   */
  lemma PlainTextIsUserSpeech(v: View, codecs: Codecs, t: string, parsed: Option<Json>)
    requires KindOf(t) == ControlKind
    requires parsed.None? || parsed == Some(JNull)
    ensures Handle(v, codecs, TextIn(t, parsed)).notices == v.notices + [Said(User, Some(JStr(t)))]
  {
  }

  /** Binary audio goes straight to the playback queue, whichever way it arrives. */
  lemma BinaryIsQueued(v: View, codecs: Codecs, bytes: seq<byte>)
    ensures Handle(v, codecs, BufferIn(bytes)).player.received == v.player.received + [bytes]
    ensures Handle(v, codecs, BlobIn(bytes)) == Handle(v, codecs, BufferIn(bytes))
  {
  }
}

=== FILE: voice_playback.dfy ===
/**
 * Playback of the audio the voice client receives: a FIFO queue drained by
 * one loop at a time, the format check on each buffer, and the WAV
 * wrapping of raw PCM.
 *
 * Decoding and playing a buffer is outside the model: the drain loop
 * starts a buffer and, later, learns whether playing it succeeded.
 */
module VoicePlayback {
  import opened Wrappers

  const WAV_HEADER_LENGTH: nat := 44
  const SAMPLE_RATE: nat := 16000
  const CHANNELS: nat := 1
  const BITS_PER_SAMPLE: nat := 16
  const TWO_32: nat := 0x1_0000_0000

  /** "RIFF", "WAVE", "fmt " and "data" as bytes. */
  const RIFF: seq<byte> := [0x52, 0x49, 0x46, 0x46]
  const WAVE: seq<byte> := [0x57, 0x41, 0x56, 0x45]
  const FMT: seq<byte> := [0x66, 0x6D, 0x74, 0x20]
  const DATA: seq<byte> := [0x64, 0x61, 0x74, 0x61]
  const OGGS: seq<byte> := [0x4F, 0x67, 0x67, 0x53]

  /** `x` as two little-endian bytes. */
  function Le16(x: nat): (b: seq<byte>)
    requires x < 0x1_0000
    ensures |b| == 2
  {
    [x % 256, x / 256]
  }

  /** `x` as four little-endian bytes. */
  function Le32(x: nat): (b: seq<byte>)
    requires x < TWO_32
    ensures |b| == 4
  {
    [x % 256, (x / 0x100) % 256, (x / 0x1_0000) % 256, x / 0x100_0000]
  }

  function ReadLe16(b: seq<byte>): nat
    requires |b| == 2
  {
    b[0] as int + b[1] as int * 0x100
  }

  function ReadLe32(b: seq<byte>): nat
    requires |b| == 4
  {
    b[0] as int + b[1] as int * 0x100 + b[2] as int * 0x1_0000 + b[3] as int * 0x100_0000
  }

  lemma Le16RoundTrip(x: nat)
    requires x < 0x1_0000
    ensures ReadLe16(Le16(x)) == x
  {
  }

  lemma Le32RoundTrip(x: nat)
    requires x < TWO_32
    ensures ReadLe32(Le32(x)) == x
  {
    var b := Le32(x);
    var q1 := x / 0x100;
    var q2 := x / 0x1_0000;
    assert q2 == q1 / 0x100;
    assert x / 0x100_0000 == q2 / 0x100;
    assert x == b[0] as int + q1 * 0x100;
    assert q1 == b[1] as int + q2 * 0x100;
    assert q2 == b[2] as int + b[3] as int * 0x100;
  }

  /** The RIFF chunk descriptor: "RIFF", the chunk size, "WAVE", then "fmt ". */
  function RiffPart(n: nat): (h: seq<byte>)
    ensures |h| == 16
  {
    RIFF + Le32((n + 36) % TWO_32) + WAVE + FMT
  }

  /** The format chunk's size, format tag, channel count and sample rate. */
  function FormatPart(): (h: seq<byte>)
    ensures |h| == 12
  {
    Le32(16) + Le16(1) + Le16(CHANNELS) + Le32(SAMPLE_RATE)
  }

  /** Byte rate, block alignment and sample width. */
  function RatePart(): (h: seq<byte>)
    ensures |h| == 8
  {
    Le32(SAMPLE_RATE * CHANNELS * BITS_PER_SAMPLE / 8) + Le16(CHANNELS * BITS_PER_SAMPLE / 8) + Le16(BITS_PER_SAMPLE)
  }

  /** The data chunk's tag and size. */
  function DataPart(n: nat): (h: seq<byte>)
    ensures |h| == 8
  {
    DATA + Le32(n % TWO_32)
  }

  /**
   * The 44-byte header of a mono 16 kHz 16-bit PCM WAV file holding `n`
   * data bytes; both sizes are written modulo 2^32, as a 32-bit store does.
   */
  function WavHeader(n: nat): (h: seq<byte>)
    ensures |h| == WAV_HEADER_LENGTH
  {
    RiffPart(n) + FormatPart() + RatePart() + DataPart(n)
  }

  /** convertPcmToWav: the header, then the PCM bytes unchanged. */
  function ToWav(pcm: seq<byte>): (w: seq<byte>)
    ensures |w| == WAV_HEADER_LENGTH + |pcm|
    ensures w[WAV_HEADER_LENGTH..] == pcm
  {
    WavHeader(|pcm|) + pcm
  }

  lemma RiffPartFields(n: nat)
    requires n + 36 < TWO_32
    ensures var h := RiffPart(n);
      h[0..4] == RIFF && ReadLe32(h[4..8]) == 36 + n && h[8..12] == WAVE && h[12..16] == FMT
  {
    var h := RiffPart(n);
    assert h[4..8] == Le32(n + 36);
    Le32RoundTrip(n + 36);
  }

  lemma FormatPartFields()
    ensures var h := FormatPart();
      ReadLe32(h[0..4]) == 16 && ReadLe16(h[4..6]) == 1 && ReadLe16(h[6..8]) == 1 && ReadLe32(h[8..12]) == 16000
  {
    var h := FormatPart();
    assert h[0..4] == Le32(16) && h[4..6] == Le16(1) && h[6..8] == Le16(1) && h[8..12] == Le32(16000);
    Le32RoundTrip(16);
    Le32RoundTrip(16000);
  }

  lemma RatePartFields()
    ensures var h := RatePart();
      ReadLe32(h[0..4]) == 32000 && ReadLe16(h[4..6]) == 2 && ReadLe16(h[6..8]) == 16
  {
    var h := RatePart();
    assert h[0..4] == Le32(32000) && h[4..6] == Le16(2) && h[6..8] == Le16(16);
    Le32RoundTrip(32000);
  }

  lemma DataPartFields(n: nat)
    requires n < TWO_32
    ensures var h := DataPart(n);
      h[0..4] == DATA && ReadLe32(h[4..8]) == n
  {
    var h := DataPart(n);
    assert h[4..8] == Le32(n);
    Le32RoundTrip(n);
  }

  /**
   * Every field of the header reads back as the format promises: chunk
   * size 36 + n, a 16-byte PCM format chunk of one channel at 16000 Hz,
   * 32000 bytes a second, 2-byte blocks of 16 bits, and n data bytes.
   */
  lemma WavLayout(pcm: seq<byte>)
    requires |pcm| + 36 < TWO_32
    ensures var w := ToWav(pcm);
      && w[0..4] == RIFF
      && ReadLe32(w[4..8]) == 36 + |pcm|
      && w[8..12] == WAVE && w[12..16] == FMT
      && ReadLe32(w[16..20]) == 16
      && ReadLe16(w[20..22]) == 1
      && ReadLe16(w[22..24]) == 1
      && ReadLe32(w[24..28]) == 16000
      && ReadLe32(w[28..32]) == 32000
      && ReadLe16(w[32..34]) == 2
      && ReadLe16(w[34..36]) == 16
      && w[36..40] == DATA
      && ReadLe32(w[40..44]) == |pcm|
  {
    var n := |pcm|;
    var w := ToWav(pcm);
    var a, b, c, d := RiffPart(n), FormatPart(), RatePart(), DataPart(n);
    assert w == a + b + c + d + pcm;
    RiffPartFields(n);
    FormatPartFields();
    RatePartFields();
    DataPartFields(n);
    assert w[0..16] == a;
    assert w[16..28] == b;
    assert w[28..36] == c;
    assert w[36..44] == d;
    assert w[0..4] == a[0..4] && w[4..8] == a[4..8] && w[8..12] == a[8..12] && w[12..16] == a[12..16];
    assert w[16..20] == b[0..4] && w[20..22] == b[4..6] && w[22..24] == b[6..8] && w[24..28] == b[8..12];
    assert w[28..32] == c[0..4] && w[32..34] == c[4..6] && w[34..36] == c[6..8];
    assert w[36..40] == d[0..4] && w[40..44] == d[4..8];
  }

  predicate IsRiff(b: seq<byte>) { |b| >= 4 && b[..4] == RIFF }

  /** An MPEG frame sync: 0xFF then a byte with its top three bits set. */
  predicate IsMpeg(b: seq<byte>) { |b| >= 2 && b[0] == 0xFF && b[1] >= 0xE0 }

  predicate IsOgg(b: seq<byte>) { |b| >= 4 && b[..4] == OGGS }

  /** What playAudio does with a buffer before decoding it. */
  datatype Prepared =
    | Skipped               // empty: nothing to play
    | Recognized(bytes: seq<byte>)  // already a WAV, MP3 or Ogg stream
    | Wrapped(bytes: seq<byte>)     // raw PCM, wrapped as WAV
    | Rejected              // odd-length PCM, which a 16-bit view refuses

  function Prepare(b: seq<byte>): (p: Prepared)
    ensures p.Skipped? <==> b == []
    ensures p.Recognized? <==> b != [] && (IsRiff(b) || IsMpeg(b) || IsOgg(b))
    ensures p.Recognized? ==> p.bytes == b
    ensures p.Wrapped? ==> p.bytes == ToWav(b) && |b| % 2 == 0
    ensures p.Rejected? <==> b != [] && !(IsRiff(b) || IsMpeg(b) || IsOgg(b)) && |b| % 2 == 1
  {
    if b == [] then Skipped
    else if IsRiff(b) || IsMpeg(b) || IsOgg(b) then Recognized(b)
    else if |b| % 2 == 1 then Rejected
    else Wrapped(ToWav(b))
  }

  /** A wrapped buffer is itself recognized as WAV, so wrapping never happens twice. */
  lemma WrappedIsRecognized(pcm: seq<byte>)
    ensures Prepare(ToWav(pcm)) == Recognized(ToWav(pcm))
  {
    assert ToWav(pcm)[..4] == RIFF;
  }

  /**
   * The playback queue. `received` is every buffer ever queued, in order;
   * `started` those the drain loop has taken, in order; `current` the one
   * playing, if any.
   */
  datatype Player = Player(
    queue: seq<seq<byte>>,
    playing: bool,
    current: Option<seq<byte>>,
    started: seq<seq<byte>>,
    received: seq<seq<byte>>)

  function Idle(): (p: Player)
    ensures Inv(p)
  {
    Player([], false, None, [], [])
  }

  /**
   * The loop takes buffers from the front, in arrival order, one at a time:
   * what it has taken followed by what waits is everything received, and a
   * buffer is playing exactly while the loop runs, the last one taken.
   */
  predicate Inv(p: Player) {
    && p.started + p.queue == p.received
    && (p.playing <==> p.current.Some?)
    && (p.playing ==> |p.started| > 0 && p.current.value == p.started[|p.started| - 1])
  }

  /** processPlaybackQueue: start the loop unless it runs already or nothing waits. */
  function Kick(p: Player): (r: Player)
    ensures p.playing || p.queue == [] ==> r == p
    ensures !p.playing && p.queue != [] ==> r.playing && r.current == Some(p.queue[0]) && r.queue == p.queue[1..]
    ensures r.received == p.received
  {
    if p.playing || p.queue == [] then p
    else Player(p.queue[1..], true, Some(p.queue[0]), p.started + [p.queue[0]], p.received)
  }

  /** A buffer arrives: it joins the back of the queue and the loop is started if idle. */
  function Enqueue(p: Player, b: seq<byte>): (r: Player)
    ensures r.received == p.received + [b]
    ensures r.playing
    ensures p.playing ==> r.queue == p.queue + [b] && r.current == p.current
    ensures !p.playing && p.queue == [] ==> r.current == Some(b) && r.queue == []
  {
    Kick(p.(queue := p.queue + [b], received := p.received + [b]))
  }

  /**
   * The current buffer finished playing (`ok`) or failed. On success the
   * loop takes the next buffer or stops when none waits; a failure ends the
   * loop, leaving the rest queued until the next arrival restarts it.
   */
  function Finished(p: Player, ok: bool): (r: Player)
    ensures !p.playing ==> r == p
    ensures r.received == p.received
    ensures p.playing && !ok ==> !r.playing && r.queue == p.queue
  {
    if !p.playing then p
    else if ok && p.queue != [] then
      Player(p.queue[1..], true, Some(p.queue[0]), p.started + [p.queue[0]], p.received)
    else Player(p.queue, false, None, p.started, p.received)
  }

  lemma KickKeepsInv(p: Player)
    requires p.started + p.queue == p.received
    requires p.playing <==> p.current.Some?
    requires p.playing ==> |p.started| > 0 && p.current.value == p.started[|p.started| - 1]
    ensures Inv(Kick(p))
  {
    if !p.playing && p.queue != [] {
      assert (p.started + [p.queue[0]]) + p.queue[1..] == p.started + p.queue;
    }
  }

  /** Arrivals keep buffers in FIFO order, and one arriving while a buffer plays does not start a second loop. */
  lemma EnqueueKeepsOrder(p: Player, b: seq<byte>)
    requires Inv(p)
    ensures Inv(Enqueue(p, b))
    ensures p.playing ==> Enqueue(p, b).current == p.current && Enqueue(p, b).started == p.started
  {
    var p1 := p.(queue := p.queue + [b], received := p.received + [b]);
    assert p1.started + p1.queue == p.received + [b];
    KickKeepsInv(p1);
  }

  lemma FinishedKeepsOrder(p: Player, ok: bool)
    requires Inv(p)
    ensures Inv(Finished(p, ok))
  {
    if p.playing && ok && p.queue != [] {
      assert (p.started + [p.queue[0]]) + p.queue[1..] == p.started + p.queue;
    }
  }

  /**
   * With every buffer playing successfully, the loop drains the queue: after
   * as many completions as buffers waiting, everything received has been
   * started, in arrival order.
   */
  lemma {:induction false} DrainsInOrder(p: Player, k: nat)
    requires Inv(p) && p.playing && k == |p.queue|
    ensures var r := FinishAll(p, k + 1);
      Inv(r) && !r.playing && r.queue == [] && r.started == p.received
    decreases k
  {
    FinishedKeepsOrder(p, true);
    var p1 := Finished(p, true);
    if k > 0 {
      DrainsInOrder(p1, k - 1);
    } else {
      assert FinishAll(p1, 0) == p1;
      assert p.started == p.received;
    }
  }

  /** `n` successful completions in a row. */
  function FinishAll(p: Player, n: nat): Player
    decreases n
  {
    if n == 0 then p else FinishAll(Finished(p, true), n - 1)
  }
}

=== FILE: wrappers.dfy ===
/** Optional values, success-or-error results and bytes, shared by every module. */
module Wrappers {

  /** A value that may be absent, where the source uses `null`. */
  datatype Option<+T> = None | Some(value: T) {
    function GetOr(default: T): T {
      match this
      case Some(v) => v
      case None => default
    }
  }

  /** The outcome of an operation that may fail, where the source throws or returns an error value. */
  datatype Result<+R, +E> = Success(value: R) | Failure(error: E)

  /** An octet, as carried by Java `byte[]` (sign ignored) and JavaScript `Uint8Array`. */
  type byte = b: int | 0 <= b < 256
}
